=== FILE: README.md ===
# LAMB LTI grading tool: a Dafny model of its core

The LAMB LTI tool lets a Moodle course launch a file-submission activity over
LTI 1.1. Students upload a file, either on their own or as a group: the first
member uploads and gets an 8-character join code, and the others join with
that code while the group has room. Teachers start an automatic evaluation.
It extracts each file's text, asks a LAMB assistant for a "FINAL SCORE", and
stores a grade. The grades are then sent back to Moodle through the Basic
Outcomes service, signed with OAuth 1.0a (HMAC-SHA1).

This project models that core in Dafny and proves what each operation
promises. It has one module per area of the source, plus four shared ones:

- `Wrappers`: Option and Result.
- `Text`: the string methods the code uses.
- `Json`: decoded JSON values.
- `Store`: the database tables as maps.

Each service module is written in the form of its source:

- Code that updates rows in place becomes methods on `Store.Database`, with
  the invariant `Valid()`. This covers:
  - activities, submissions and group joins;
  - evaluation status;
  - grades;
  - Moodle instances;
  - the grade sweep.
- Code that only computes becomes functions and lemmas. This covers:
  - OAuth signing and outcome XML;
  - parsing LAMB's reply;
  - file-name sanitising and path containment;
  - the frontend role and session checks.
- The uploads directory is a `Disk` class whose files and directories the
  storage methods change.

Everything the code does not decide itself is a parameter of the model:

- the clock;
- UUIDs and the random join codes;
- HTTP replies from LAMB and Moodle;
- file contents as each document reader sees them;
- the order in which SQL returns rows;
- HMAC-SHA1, SHA-1 and base64.

## Model

| member | source | states |
|---|---|---|
| Activities.ParseKind | backend/models.py:66-77 | the activity type is lower-cased first; it is accepted exactly when it is then "individual" or "group", and the result is Group exactly for "group"; any other value fails request validation before create_activity runs, and the Err stands for that refusal |
| Activities.ParseKindIgnoresCase | backend/models.py:71-77 | any casing of the type string parses to the same kind |
| Activities.StoredEvaluator | backend/activities_service.py:84 | an evaluator id is stored stripped when given and non-empty, and as None otherwise |
| Activities.NewActivity | backend/activities_service.py:37-85 | the result is an error exactly when the type is invalid or a group activity lacks a maximum size of at least 2; an individual activity gets no maximum size; title and description are stored stripped |
| Activities.CreateActivity | backend/activities_service.py:27-107 | validation errors and a duplicate (id, course_moodle_id) change neither the table nor the disk; otherwise exactly that row is inserted, the activity directory is created, and the database constraints still hold |
| Activities.Before | backend/activities_service.py:835 | ordering two datetimes raises exactly when one is naive and the other aware; otherwise it compares the instants |
| Activities.AsWrittenDeadlineAlwaysRaises | backend/activities_service.py:829-836 | the deadline comparison as written (naive deadline against aware now) raises TypeError for every deadline |
| Activities.DeadlineCheck | backend/activities_service.py:829-836 | the intended deadline test is "deadline earlier than now" |
| Activities.Updated | backend/activities_service.py:824-841 | with the intended deadline test, an update fails exactly when it carries a past deadline; otherwise each field given (description stripped, deadline, evaluator) is replaced, every other field is kept, and a well-formed activity stays well-formed |
| Activities.EmptyUpdateChangesNothing | backend/activities_service.py:824-841 | an update that gives no field leaves the activity unchanged |
| Activities.ActivityUpdateKeepsConsistent | backend/activities_service.py:824-843 | writing back an updated activity under its own key keeps every database constraint |
| Activities.ApplyUpdate | backend/activities_service.py:824-841 | the field-by-field assignments compute exactly the update function |
| Activities.UpdateActivity | backend/activities_service.py:796-861 | a missing activity gives "Actividad no encontrada"; a different course gives the no-permission error; otherwise the stored activity is replaced by the update on success and left alone on failure; a given deadline is checked with the intended Activities.DeadlineCheck, not the comparison as written, which raises on every deadline (see Findings) |
| Store.GradeOf | backend/grade_service.py:66-83 | the grade found for a file submission belongs to it; no grade means no row points at it |
| Store.GradeOfUnique | backend/grade_service.py:66-83 | with one grade per file submission, the lookup returns the grade stored under any key that points at it |
| Store.FindGrade | backend/grade_service.py:66-83 | the lookup returns the file submission's grade, or None |
| Store.AddStudentRow | backend/activities_service.py:298-335 | adding a fresh row to a group with room keeps the key, link, uniqueness and capacity constraints, and the group gains exactly one member |
| Store.AddKeepsStudentKeys | backend/db_models.py:118-119 | a new student row whose (student, activity) key is unused keeps the unique constraint and the link to its file submission |
| Store.AddKeepsCapacity | backend/activities_service.py:298-304 | a row joining a group that has room keeps every group within max_group_members |
| Store.MembersAfterAdd | backend/activities_service.py:299-301 | adding a row adds its id to its own group's members and leaves every other group's members alone |
| Store.MembersJoin | backend/activities_service.py:299-301 | the joined group's member set gains exactly the new row, so its count grows by one |
| Store.MembersUnchangedByUpdate | backend/activities_service.py:173-176 | rewriting a student row without moving it to another file submission changes no group's members |
| Store.EvaluationColumnsFree | backend/models.py:127-129 | rewriting only the evaluation columns (status, start time, error), as evaluation_service.py does, keeps every database constraint |
| Store.Database.constructor | backend/db_models.py:6-139 | an empty database satisfies every constraint |
| Submissions.FileModel | backend/activities_service.py:755-768 | the file-submission view copies every column except the evaluation ones, which it leaves empty |
| Submissions.GenerateGroupCode | backend/activities_service.py:632-640 | the code returned is eight characters of A-Z0-9, is used by no file submission, and is the first unused draw; every earlier draw was in use |
| Submissions.FirstUnused | backend/activities_service.py:632-640 | the code settled on is one of the draws and unused |
| Submissions.GeneratedIsFirstUnused | backend/activities_service.py:632-640 | the retry loop stops at exactly the first draw not in use |
| Submissions.FindRow | backend/activities_service.py:142-148 | the query finds a student's row exactly when one exists under that unique key, and returns it |
| Submissions.Replaced | backend/activities_service.py:156-171 | an owner's resubmission replaces file name, path, size and type and keeps the id, group code, capacity and uploader |
| Submissions.Resubmitted | backend/activities_service.py:173-176 | a resubmission keeps the row's key and file submission, refreshes joined_at, and overwrites the sourcedid only with a non-empty new one |
| Submissions.ResubmitKeepsConsistent | backend/activities_service.py:150-178 | a resubmission keeps every database constraint |
| Submissions.AddSubmissionKeepsConsistent | backend/activities_service.py:189-242 | a first submission (new file submission with an unused code, new student row under an unused key) keeps every constraint, and the new group has exactly one member |
| Submissions.StoreResubmission | backend/activities_service.py:167-178 | the two rows are written back and the database stays consistent |
| Submissions.Resubmit | backend/activities_service.py:150-187 | the same file submission is kept; its file columns change only when the student is the uploader, and only then is the file saved on disk, replacing the old one; otherwise the disk is unchanged; the view has is_group_leader false and group_code_uses None |
| Submissions.SaveUpload | backend/storage_service.py:41-69 | the stored path is the destination computed from the upload's ids, timestamp and sanitised name; the disk's files and directories become those of save_submission_file, with the previous file removed |
| Submissions.NoGradeForNewFile | backend/activities_service.py:252 | a file submission not yet in the table has no grade |
| Submissions.StoreFirstSubmission | backend/activities_service.py:240-242 | inserting the two new rows keeps the database consistent and gives the group exactly one member |
| Submissions.FirstSubmission | backend/activities_service.py:189-255 | exactly one file submission and one student submission are created and the upload is saved on disk: an individual one has no code and capacity 1; a group one has a fresh code, capacity max_group_size, is_group_leader true and group_code_uses 0 |
| Submissions.CreateSubmission | backend/activities_service.py:109-257 | an unknown activity gives "Activity not found" and changes neither the database nor the disk; a student who already submitted keeps the same file submission, and the result is Ok of the resubmission's view; otherwise a first submission is created and its view returned; the disk changes as the save does; the constraints hold afterwards |
| Submissions.GroupWithCodeUnique | backend/activities_service.py:290-293 | with unique codes, the code query returns the one group of the activity carrying that code |
| Submissions.JoinSucceedsIff | backend/activities_service.py:278-319 | a join goes through exactly when the activity exists, is a group activity, the code names a group of it with room, and the student has no submission yet; the target then has room |
| Submissions.JoinFullGroupRefused | backend/activities_service.py:298-304 | a code whose group is full is refused with the group-full error |
| Submissions.JoinedRow | backend/activities_service.py:322-332 | the joining row's unique key uses course_moodle_id as the student's Moodle id |
| Submissions.SubmitWithGroupCode | backend/activities_service.py:260-346 | a refusal changes nothing; a success adds exactly one student row linked to the found group, grows its member count by one, never beyond max_group_members, and leaves the file submission unchanged |
| Submissions.CheckJoin | backend/activities_service.py:278-319 | the lookups compute the join target, checking activity, type, code, capacity and existing membership in that order |
| Submissions.AddMember | backend/activities_service.py:321-344 | the joining row is stored, the group gains exactly one member, and the view has is_group_leader false and group_code_uses None |
| Submissions.GetStudentSubmission | backend/activities_service.py:349-404 | None exactly when the student has no row; otherwise the view shows the student's rows, the user's name and email or "", leader iff uploader with a code, leader's uses = members - 1, others' uses 0, and the grade |
| Evaluation.ReportedStatus | backend/evaluation_service.py:69-79 | a row is reported not started exactly when its status is NULL, and as timeout exactly when it is processing with a start older than five minutes; otherwise its stored status |
| Evaluation.TallyConserves | backend/evaluation_service.py:58-84 | the counts add up: pending + processing + completed + error + not_started = total = number of rows |
| Evaluation.TallyPositive | backend/evaluation_service.py:81-84 | each count is positive exactly when some row has that reported status, timeouts counting as errors |
| Evaluation.OverallSpec | backend/evaluation_service.py:95-103 | the overall status is in_progress iff some row is pending or processing, completed_with_errors iff none is and some failed, completed iff none is active or failed and some completed, idle iff nothing started |
| Evaluation.GetEvaluationStatus | backend/evaluation_service.py:35-111 | the report lists one entry per selected row in query order, with its reported status, and carries the tally of those entries and the overall status of the tally |
| Evaluation.PartitionCovers | backend/evaluation_service.py:151-171 | the queued and already-processing lists together are a permutation of the rows found |
| Evaluation.StartEvaluation | backend/evaluation_service.py:114-191 | no matching rows gives "No submissions found" and changes nothing; otherwise the rows are split into queued (not busy, including timed-out processing) and already processing, and exactly the queued ones become pending with started_at = now and error cleared |
| Evaluation.MarkQueued | backend/evaluation_service.py:173-180 | the queued rows become pending with the start time and no error; every other row is unchanged; the constraints hold |
| Evaluation.QueueOnlyEvaluation | backend/evaluation_service.py:175-178 | queueing writes only the evaluation columns |
| Evaluation.StartTwiceQueuesNothing | backend/evaluation_service.py:154-178 | starting again at the same instant queues nothing: every row queued the first time is now busy |
| Evaluation.NothingQueueable | backend/evaluation_service.py:154-171 | when every row found is busy, nothing is queued |
| Evaluation.ScoredOutcome | backend/evaluation_service.py:315-355 | a parsed result grades the item exactly when it has a score, with that score and comment |
| Evaluation.AsWrittenParsedFails | backend/evaluation_service.py:305-313 | every parser result, lacking a success key, ends in "Failed to parse response: Unknown error" |
| Evaluation.IntendedOutcome | backend/evaluation_service.py:253-355 | with the parser given LAMB's reply, an item is graded exactly when text was extracted, the call succeeded and the reply carries a score, which then lies in [0, 10] |
| Evaluation.AsWrittenNeverGrades | backend/evaluation_service.py:253-313 | as written, every item that is found ends in error, and with text extracted always with the parse-failure message |
| Evaluation.IntendedGradesScoredReply | backend/evaluation_service.py:290-355 | with the intended parse, a reply whose content states a final score grades the item with that score and the content as comment |
| Evaluation.AsWrittenResultsFail | backend/evaluation_service.py:252-313 | as written, every per-item outcome of a batch is a failure |
| Evaluation.Found | backend/evaluation_service.py:237-246 | an unknown id gives the not-found outcome; a known one keeps its computed outcome |
| Evaluation.BatchCounts | backend/evaluation_service.py:226-376 | each id processed adds exactly one to grades_created + grades_updated + number of errors |
| Evaluation.StepKeepsConsistent | backend/evaluation_service.py:234-376 | one item's processing keeps every database constraint, writes only evaluation columns of file submissions, and adds at most the one new grade key |
| Evaluation.Step | backend/evaluation_service.py:234-376 | a missing or failed item adds one error entry and a graded one counts one grade created or updated; only the item's row changes, ending Completed or Error; a failed item writes no grade |
| Evaluation.BatchKeepsConsistent | backend/evaluation_service.py:234-376 | the whole batch keeps every constraint and writes only evaluation columns and grades |
| Evaluation.FailedBatchNeverGrades | backend/evaluation_service.py:253-330 | a batch whose every item fails creates and updates no grade and leaves every found row in error |
| Evaluation.AsWrittenBatchNeverGrades | backend/evaluation_service.py:272-313 | as written, process_evaluation_batch creates and updates no grade and leaves every found submission in error |
| Evaluation.ProcessEvaluationBatch | backend/evaluation_service.py:204-389 | the batch handles the ids in list order, one step per id, keeps the constraints, and created + updated + errors equals the number of ids |
| Evaluation.RunBatch | backend/evaluation_service.py:234-378 | the loop performs exactly the sequence of item steps, and every id yields exactly one count or error |
| Evaluation.ApplyOutcome | backend/evaluation_service.py:241-355 | one item: unknown id adds an error and changes nothing; a failure marks the row error with its message; a score updates the existing grade or creates one, and marks the row completed with no error |
| Evaluation.ResetStuckEvaluations | backend/evaluation_service.py:392-426 | exactly the activity's rows processing for more than five minutes become error "Evaluation timed out", nothing else changes, and the count is their number |
| Evaluation.ResetStuck | backend/evaluation_service.py:404-417 | the same rows; each stuck row of the activity becomes error "Evaluation timed out", the others are unchanged, and afterwards none of the activity is stuck |
| Evaluation.ResetIdempotent | backend/evaluation_service.py:404-417 | resetting twice is the same as resetting once |
| Evaluation.ResetKeepsReportedFailures | backend/evaluation_service.py:69-84 | a reset turns a reported timeout into a reported error and changes no other row's report, so the error count of the status report is unchanged |
| Evaluation.ClearEvaluationStatus | backend/evaluation_service.py:429-455 | the given rows lose status, start time and error; the count is the number of existing rows among the ids |
| Evaluation.ClearedRestarts | backend/evaluation_service.py:440-446 | a cleared row is reported not started, is not busy, and is queued by the next start |
| Grades.UpsertTarget | backend/grade_service.py:98-135 | after the upsert the submission has a grade with the given score and comment; an existing grade keeps its id and creation time and no key is added; otherwise exactly one new grade is added |
| Grades.Upsert | backend/grade_service.py:98-135 | no grade row is removed and none but the new id is added; revising an existing grade adds no row; the grades of other file submissions are untouched |
| Grades.UpsertOthers | backend/grade_service.py:98-135 | the upsert leaves every other file submission's grade unchanged |
| Grades.WriteGrade | backend/grade_service.py:20-61 | a missing file submission gives the given error and changes nothing; otherwise the grade is upserted, the constraints hold, and the result is the stored grade |
| Grades.CreateGrade | backend/grade_service.py:16-63 | a missing file submission gives "File submission not found"; otherwise an existing grade is updated in place or a new one is created, so no second grade appears |
| Grades.CreateOrUpdateGrade | backend/grade_service.py:85-137 | a missing file submission gives "Entrega no encontrada"; otherwise the same upsert, keeping one grade per submission |
| Grades.Clamp | backend/grade_service.py:300 | the clamped score lies in [0, 10], equals the score inside the range and the nearest bound outside it |
| Grades.EvaluateWithLamb | backend/grade_service.py:253-305 | a returned score lies in [0, 10] |
| Grades.EvaluateWithLambRaises | backend/grade_service.py:293-300 | the evaluation raises exactly when text was extracted, LAMB answered, and the reply has no score |
| Grades.ClampKeepsParsedScore | backend/grade_service.py:294-300 | the clamp never changes a score the parser accepted |
| Grades.EvaluateWithLambScores | backend/grade_service.py:284-305 | a successful reply whose content states a final score yields that score and the content as comment |
| Grades.EvaluateWithLambDefaults | backend/grade_service.py:274-291 | blank extracted text or a failed LAMB call yields the default score 5.0, with the no-text comment in the first case |
| Grades.Outcomes | backend/grade_service.py:203-209 | one outcome per selected submission, every score in [0, 10] |
| Grades.CreatedGrades | backend/grade_service.py:203-239 | at most one grade per processed submission |
| Grades.GradesPlusErrors | backend/grade_service.py:203-239 | every processed submission contributes exactly one grade or one error |
| Grades.CreatedScoresInRange | backend/grade_service.py:211-231 | every created grade's score lies in [0, 10] |
| Grades.AddGradesKeepsConstraints | backend/grade_service.py:211-241 | adding grades with fresh ids for distinct ungraded submissions keeps one grade per submission and the links |
| Grades.CreateAutomaticEvaluation | backend/grade_service.py:140-250 | a missing activity, a missing evaluator id and a failed model check each give their error and write nothing; otherwise the ungraded selected submissions are evaluated in query order with the activity's own evaluator id, each yields a grade or an error, scores lie in [0, 10], and existing grades are never modified |
| Grades.GradeSelected | backend/grade_service.py:195-247 | the created grades and errors are those of the item outcomes; they add up to the selection; existing grades stay as they were |
| Grades.GradeItems | backend/grade_service.py:203-241 | the loop collects exactly the created grades and errors and stores exactly the created grades |
| Grades.NewGradesFit | backend/grade_service.py:178-193 | every created grade has a fresh id, belongs to a selected ungraded submission, and no two share a submission |
| Grades.CreatedGradesOrdered | backend/grade_service.py:203-231 | the created grades have distinct ids and distinct submissions |
| Lamb.Search | backend/lamb_api_service.py:135-136 | the pattern search returns the leftmost position where the case-insensitive pattern matches, with its number, and nothing only when it matches at no position |
| Lamb.ExtractScore | backend/lamb_api_service.py:135-148 | a score is found exactly when the first match's number is at most 10; it is then that number and lies in [0, 10], bounds included |
| Lamb.ExtractScoreIgnoresCase | backend/lamb_api_service.py:136 | the score search ignores case |
| Lamb.ExtractScoreAndFeedback | backend/lamb_api_service.py:125-154 | the result's comment and raw response are the whole content, and a score lies in [0, 10] |
| Lamb.ParseEvaluationResponse | backend/lamb_api_service.py:102-122 | any score the parser returns lies in [0, 10] |
| Lamb.ParsedHasNoSuccess | backend/lamb_api_service.py:116-118 | the parser's result has score, comment and raw_response and never a success key |
| Lamb.ParseOfContent | backend/lamb_api_service.py:115-116 | non-empty selected content is handed whole to the score extraction |
| Lamb.SelectFirstChoice | backend/lamb_api_service.py:107-109 | with a non-empty choices list the first choice decides the content |
| Lamb.ParseChoiceMessage | backend/lamb_api_service.py:107-116 | the first choice's message.content is used when it is non-empty |
| Lamb.ParseChoiceText | backend/lamb_api_service.py:107-116 | without a message the first choice's text is used |
| Lamb.ParseTopLevelContent | backend/lamb_api_service.py:107-116 | without choices, or with an empty list, the top-level content is used |
| Lamb.ParseTopLevelText | backend/lamb_api_service.py:107-116 | without choices and content, the top-level text is used |
| Lamb.ParseNoContent | backend/lamb_api_service.py:115-118 | with none of the three fields the result has no score and the response's string form as comment |
| Lamb.EvaluateText | backend/lamb_api_service.py:60-99 | the call succeeds exactly on a 200 reply with a JSON body, carrying that body and the model id "lamb_assistant." + evaluator id; anything else is a failure with an error |
| Lamb.ParseOfWrapper | backend/lamb_api_service.py:102-118 | given the evaluate_text result dictionary itself, the parser finds no content and returns no score |
| Lamb.AnyItemFound | backend/lamb_api_service.py:38 | the any() over the model list is true exactly when some entry has the model id and every entry before it is a dictionary |
| Lamb.AnyItemNotFound | backend/lamb_api_service.py:38 | the any() is false exactly when every entry is a dictionary and none has the model id |
| Lamb.VerifyModelExists | backend/lamb_api_service.py:21-57 | the check succeeds exactly when the models endpoint answers 200 with JSON whose data lists "lamb_assistant." + evaluator id; the success carries that id |
| Lamb.VerifyListedModel | backend/lamb_api_service.py:35-50 | for a list of model dictionaries, the check succeeds iff some listed id equals the expected model id |
| Listings.EnumerationLength | backend/activities_service.py:570-572 | a query result that lists a set without repetition has as many rows as the set |
| Listings.MemberView | backend/activities_service.py:575-594 | in a group listing a member is leader iff the uploader, the leader's uses are the member count minus one and everyone else's 0; the view carries the rows and the group's grade |
| Listings.GetGroupMembers | backend/activities_service.py:549-598 | no group with that code in the activity gives []; otherwise one view per member of the group, in query order, each as above |
| Listings.MemberViews | backend/activities_service.py:574-596 | the loop builds exactly one member view per queried row, in order |
| Listings.ListingView | backend/activities_service.py:432-463 | a row whose file submission is missing is skipped; otherwise leader iff uploader with a code, uses only for a leader with a non-empty code and then members of the activity in the group minus one |
| Listings.IndexOfCode | backend/activities_service.py:469 | the groups found so far are searched by code: a hit names the entry with that code, a miss means no entry has it |
| Listings.AddToGroups | backend/activities_service.py:467-499 | adding a member keeps one entry per code, with the leader among the members, and the set of codes gains the member's code |
| Listings.ListStep | backend/activities_service.py:432-499 | one loop step keeps the groups well formed and their codes equal to the codes of the views so far |
| Listings.Listed | backend/activities_service.py:429-499 | after the loop there is one group entry per distinct group code among the listed views, each with its leader among its members |
| Listings.CodesCount | backend/activities_service.py:503-520 | the number of groups equals the number of distinct codes |
| Listings.WithoutCode | backend/activities_service.py:525 | the individual list holds exactly the listed views without a group code |
| Listings.ListingTotals | backend/activities_service.py:502-544 | a group listing's total is the number of distinct group codes; an individual listing's total is the number of views without a code, and it holds exactly those |
| Listings.ListingItem | backend/activities_service.py:432-463 | one row's view is computed as the listing view |
| Listings.CollectListing | backend/activities_service.py:429-499 | the loop builds exactly the listed views and groups, in query order |
| Listings.GetSubmissionsByActivity | backend/activities_service.py:406-546 | an unknown activity gives "Activity not found"; otherwise the listing of the activity's rows in query order, by groups or by individual submissions |
| Lti.XmlEscape | backend/lti_service.py:79-94 | XML escaping of &, < and > is undone by unescaping, and the escaped text holds no < or >, so it cannot open or close an element |
| Lti.NormalizedScore | backend/lti_service.py:72 | the score sent is score/10 clamped into [0, 1]: 0 below 0, 1 above 10 |
| Lti.ScorePartOpensTag | backend/lti_service.py:87-98 | the XML after the sourcedId starts with a tag |
| Lti.TailOpensTag | backend/lti_service.py:94-100 | the XML after the comment starts with a tag |
| Lti.EscapedTextReadsBack | backend/lti_service.py:86 | text escaped between two tags is delimited by the next '<' and unescapes to the original |
| Lti.TwoFieldsReadBack | backend/lti_service.py:86-94 | two escaped texts, each followed by a tag, are both delimited by the next '<' and read back |
| Lti.OutcomeXml | backend/lti_service.py:74-100 | the replaceResult document carries the escaped sourcedId right after its fixed header and the escaped comment right after the score, each up to the next tag, and each reads back as given |
| Lti.Classify | backend/lti_service.py:153-172 | success iff status 200 and the lowercased body contains "imsx_codemajor>success"; an error message exactly on failure; status and body are reported for a reply and absent for a connection error |
| Lti.ClassifyFailures | backend/lti_service.py:155-165 | a failing 200 is a signature error iff the body mentions "signature not valid", otherwise a Moodle failure; any other status is "Error: HTTP <status>" |
| Lti.SignedHeaderCarries | backend/lti_service.py:134-138 | the Authorization header starts with "OAuth " and lists the body hash and the signature as escaped items |
| Lti.BuildGradeRequest | backend/lti_service.py:113-144 | the request built is the replaceResult XML, signed over the six oauth parameters with its SHA-1 body hash |
| Lti.SignRequest | backend/lti_service.py:116-144 | signing adds the body hash, nonce (uuid without dashes), timestamp and signature and lays out the sorted header |
| Lti.SendGradeToMoodle | backend/lti_service.py:103-177 | the request sent is the signed replaceResult request and the result is the classification of Moodle's reply |
| Lti.SweepGuard | backend/lti_service.py:189-228 | the sweep proceeds exactly when both credentials are given, the activity exists, its course exists and is linked to a Moodle instance, that instance has an outcome URL, and at least one row is graded; it then returns the stored activity, its stored course and that Moodle instance's outcome URL; missing credentials are the first refusal, and "nothing graded" comes only with no rows |
| Lti.CheckSweep | backend/lti_service.py:189-228 | the lookups compute the guard, in the source's order |
| Lti.QueryRows | backend/lti_service.py:219-225 | one row per selected student submission, carrying its sourcedid and its file submission's grade |
| Lti.LoadRows | backend/lti_service.py:219-225 | the query loads exactly those rows in order |
| Lti.QueryRowsDistinct | backend/lti_service.py:219-225 | the rows name distinct student submissions, in query order, as stored |
| Lti.Answers | backend/lti_service.py:232-239 | one classified result per reply |
| Lti.AnswersAt | backend/lti_service.py:232-239 | the i-th result is the classification of the i-th reply |
| Lti.SweepItemsAt | backend/lti_service.py:241-247 | the i-th result entry holds the i-th row's student, score, comment and its send outcome |
| Lti.SweepCallsAt | backend/lti_service.py:232-239 | the i-th call sends the i-th row's sourcedid and score, with the comment or the default comment, to the Moodle outcome URL |
| Lti.CountSentAll | backend/lti_service.py:249-256 | everything was sent iff every item succeeded |
| Lti.CountSentIds | backend/lti_service.py:249-254 | the number of rows marked sent equals sent_count |
| Lti.SweepSuccessIff | backend/lti_service.py:259 | success (sent > 0 and failed = 0) iff there were items and all succeeded |
| Lti.MarkAllKeepsConsistent | backend/lti_service.py:251-253 | marking rows sent keeps every database constraint |
| Lti.ReportFacts | backend/lti_service.py:230-266 | an abort carries its message and makes no call; a sweep makes one call per row in order, records each outcome, sent + failed = total, sent = rows marked, success iff all of at least one succeeded |
| Lti.SweepSpecFacts | backend/lti_service.py:180-272 | the whole sweep: aborts exactly when the guard fails, otherwise one call per selected submission in query order with its classified outcome |
| Lti.ReportOfSends | backend/lti_service.py:230-266 | the counters and lists the loop produces are the sweep's report |
| Lti.SendActivityGrades | backend/lti_service.py:180-272 | the result and calls are the sweep's; an abort changes nothing; a sweep marks sent_to_moodle exactly on the rows sent successfully |
| Lti.SendGuarded | backend/lti_service.py:230-266 | after the guard passes, the report is the sweep's and exactly the successful rows are marked |
| Lti.SendOne | backend/lti_service.py:232-247 | one row yields its result entry and its call |
| Lti.MarkRow | backend/lti_service.py:249-253 | a successful item marks its row sent at now; a failed one changes nothing |
| Lti.SweepStep | backend/lti_service.py:231-256 | each iteration appends one item and one call, and adds one to sent exactly when the item succeeded |
| Lti.SendRows | backend/lti_service.py:230-256 | the loop produces exactly the sweep's items and calls, sent and failed counters, and marks the successful rows |
| Oauth.Utf8 | backend/lti_service.py:23 | each character encodes to one to four UTF-8 bytes; ASCII to its own code, anything else to bytes of 128 or more |
| Oauth.HexValue | backend/lti_service.py:23 | a hex digit's value is below 16 |
| Oauth.EscapeBytesAppend | backend/lti_service.py:23 | escaping works byte by byte: the escape of a concatenation is the concatenation of the escapes |
| Oauth.UnescapeEscapeBytes | backend/lti_service.py:21-23 | percent-decoding an escaped byte string gives back the bytes |
| Oauth.Escape | backend/lti_service.py:21-23 | percent-decoding oauth_escape(s) gives back the UTF-8 encoding of s, so escaping loses nothing; the output uses only unreserved characters, '%' and upper-case hex digits |
| Oauth.EscapeBytesAlphabet | backend/lti_service.py:23 | an escaped byte string uses only unreserved characters, '%' and upper-case hex digits |
| Oauth.EscapeNoAmpersand | backend/lti_service.py:21-23 | oauth_escape output contains no '&', the separator of the base string |
| Oauth.EscapeUnreserved | backend/lti_service.py:23 | a string of A-Z, a-z, 0-9 and "-._~" is left unencoded |
| Oauth.EscapeReserved | backend/lti_service.py:23 | any other character is percent-encoded byte by byte, three characters per byte, starting with '%' |
| Oauth.EscapeBytesLength | backend/lti_service.py:23 | bytes that are all reserved escape to three characters each |
| Oauth.NormalizeIgnoresCase | backend/lti_service.py:26-36 | the normalised URL does not depend on the case of scheme and host |
| Oauth.NormalizeDropsDefaults | backend/lti_service.py:26-36 | query and fragment are dropped, port 80 for http and 443 for https is dropped, and an empty path becomes "/" |
| Oauth.NormalizeUrl | backend/lti_service.py:26-36 | the normalised URL starts with the lower-cased scheme and "://", ends with the path ("/" when empty), and has no upper-case letter before the path |
| Oauth.InsertPermutes | backend/lti_service.py:46 | inserting a pair adds exactly that pair |
| Oauth.InsertSorted | backend/lti_service.py:46 | insertion into a sorted list keeps it sorted by key, then value |
| Oauth.SortedPairsSpec | backend/lti_service.py:46 | the sorted parameter list is ordered by encoded key, then value, and is a permutation of the input |
| Oauth.SortedHeadLeast | backend/lti_service.py:46 | the head of a sorted list is at most every element |
| Oauth.SortedUnique | backend/lti_service.py:46 | two sorted permutations of the same pairs are equal |
| Oauth.SortedPairsOrderFree | backend/lti_service.py:42-46 | the sorted list does not depend on the order the parameters were given in |
| Oauth.SortPairs | backend/lti_service.py:41-46 | the in-place sort produces a sorted permutation of the encoded parameters |
| Oauth.MapSeqPermute | backend/lti_service.py:42-45 | encoding permuted parameters gives a permutation of the encoded ones |
| Oauth.ParamItems | backend/lti_service.py:47 | each parameter becomes "k=v" |
| Oauth.SplitUnique | backend/lti_service.py:55 | a separator absent from the first parts splits a joined string in one way only |
| Oauth.BaseStringParts | backend/lti_service.py:50-55 | equal base strings have equal method, escaped URL and escaped parameter string, so the base string determines its three elements |
| Oauth.BaseStringShape | backend/lti_service.py:50-55 | the base string is upper(method) & escape(normalised URL) & escape(sorted k=v list joined by "&"), with no '&' inside an element |
| Oauth.BaseString | backend/lti_service.py:50-55 | the base string starts with the upper-cased method and '&', and after it holds only escaped characters and '&' separators |
| Oauth.SigningKey | backend/lti_service.py:57 | the signing key ends with its only '&', and the part before it decodes to the UTF-8 encoding of the consumer secret |
| Oauth.SignatureOrderFree | backend/lti_service.py:39-65 | the signature is a function of method, URL, the set of parameters and the secret, not of parameter order |
| Oauth.GenerateSignature | backend/lti_service.py:39-65 | the loop computes the HMAC-SHA1 of the base string under key escape(secret) + "&", base64-encoded |
| Oauth.HeaderItems | backend/lti_service.py:136-137 | each header item is k="escape(v)" |
| Oauth.AuthorizationHeader | backend/lti_service.py:134-138 | the header starts with "OAuth " and lists every parameter as k="escape(v)" |
| Oauth.JoinContains | backend/lti_service.py:138 | a joined list contains every part |
| Oauth.HeaderListsEveryParam | backend/lti_service.py:134-138 | the Authorization header lists every parameter as k="escape(v)" |
| Oauth.HeaderOrderFree | backend/lti_service.py:136 | the header does not depend on the order the parameters were given in |
| Oauth.BuildAuthorizationHeader | backend/lti_service.py:134-138 | the loop builds "OAuth " followed by the items sorted by key and joined with ", " |
| Oauth.WithoutDashes | backend/lti_service.py:122 | the nonce has no '-' and only characters of the uuid |
| Storage.Split | backend/storage_service.py:76 | a path splits into at least one component, none containing '/' |
| Storage.SplitJoin | backend/storage_service.py:76 | splitting components joined by '/' gives them back |
| Storage.PathJoin | backend/storage_service.py:22 | os.path.join onto an absolute directory gives an absolute path |
| Storage.FoldAppend | backend/storage_service.py:76 | normalising a path component by component composes over concatenation |
| Storage.FoldClean | backend/storage_service.py:76 | plain components ('.', '..' and '' excluded) are appended unchanged |
| Storage.FoldUps | backend/storage_service.py:76 | k '..' components remove the last k components |
| Storage.FoldIsClean | backend/storage_service.py:76 | normalisation of a clean directory yields a clean path |
| Storage.AbsPartsOfPathString | backend/storage_service.py:76 | the components of a path built from clean components are those components |
| Storage.UploadsRootParts | backend/storage_service.py:11-12 | UPLOADS_ROOT is absolute and is BASE_DIR followed by "uploads" |
| Storage.ResolvePath | backend/storage_service.py:72-76 | resolve_path always returns an absolute path |
| Storage.ResolvePathSpec | backend/storage_service.py:72-76 | an absolute path is returned as given; a relative one is BASE_DIR joined with it and normalised |
| Storage.CommonPrefixLen | backend/storage_service.py:84 | the common path length is where the two component lists first differ |
| Storage.IsWithinUploads | backend/storage_service.py:79-87 | is_within_uploads holds exactly when the uploads root's components are a prefix of the path's |
| Storage.ParentStepResolves | backend/storage_service.py:72-87 | "x/../y" resolves beside BASE_DIR's children, and stays in uploads only when y is "uploads" |
| Storage.WithinOneBelowBase | backend/storage_service.py:79-87 | a path one level below BASE_DIR is within uploads exactly when that level is "uploads" |
| Storage.RelPath | backend/storage_service.py:107-113 | for normalised paths, resolve_path of the relative path _to_relative_path returns is the original absolute path |
| Storage.RelPathSame | backend/storage_service.py:107-113 | the relative path of the base itself is ".", which resolves back to it |
| Storage.RelPathBelow | backend/storage_service.py:107-113 | otherwise the ".." steps and the rest of the path resolve back to the path |
| Storage.FoldRelParts | backend/storage_service.py:109 | normalising BASE_DIR followed by the relative components gives the path back |
| Storage.Basename | backend/storage_service.py:121 | basename is the suffix of the path after its last '/' |
| Storage.ReplaceUnsafe | backend/storage_service.py:122 | every character outside A-Za-z0-9._- becomes '_', the others stay, in place |
| Storage.Sanitize | backend/storage_service.py:115-123 | the sanitised name is non-empty, uses only A-Za-z0-9._- and neither starts nor ends with '.' or '_' |
| Storage.SanitizedIsPlain | backend/storage_service.py:120-123 | the sanitised name is a single path component other than '.' and '..' |
| Storage.SanitizeIdempotent | backend/storage_service.py:115-123 | sanitising a sanitised name changes nothing |
| Storage.BasenameDropsDirectory | backend/storage_service.py:121 | basename ignores any directory prefix |
| Storage.SanitizeDropsDirectory | backend/storage_service.py:120-123 | a client-supplied directory prefix has no effect on the stored name |
| Storage.DestinationPath | backend/storage_service.py:56-64 | the destination path is absolute |
| Storage.DestinationNameIsPlain | backend/storage_service.py:61-63 | "<submission>_<timestamp>_<sanitised name>" is a single path component |
| Storage.DestinationPathIs | backend/storage_service.py:56-64 | the destination is uploads/<moodle>/<course>/<activity>/<name> under BASE_DIR |
| Storage.StoredFileLocation | backend/storage_service.py:41-69 | the stored file lies inside the uploads root, and resolving the returned relative path finds it again |
| Storage.StoredAt | backend/storage_service.py:56-69 | a clean name under the activity directory lies in uploads and round-trips through the relative path |
| Storage.PathUnderUploads | backend/storage_service.py:79-113 | any clean path under uploads is within uploads and round-trips through its relative path |
| Storage.Disk.constructor | backend/storage_service.py:8-12 | a disk starts with the given files and directories |
| Storage.DeleteStaysInUploads | backend/storage_service.py:90-105 | delete_path never removes or alters a file or directory outside the uploads root |
| Storage.DeleteGuard | backend/storage_service.py:91-96 | an empty path or one outside uploads deletes nothing; only the uploads root may be created |
| Storage.DeletePath | backend/storage_service.py:90-105 | the files and directories after delete_path are those of its specification: a directory tree, a file or nothing removed |
| Storage.EnsureActivityDirectory | backend/storage_service.py:14-38 | the uploads root, moodle, course and activity directories exist afterwards; files are unchanged |
| Storage.DeletePrevious | backend/storage_service.py:58-59 | a previous file path is deleted under the delete_path guards, an absent one changes nothing |
| Storage.WriteDestination | backend/storage_service.py:61-69 | the content is written at the destination and the returned path is its relative path |
| Storage.SaveSubmissionFile | backend/storage_service.py:41-69 | directories made, previous file deleted, new content written at the destination; the relative path is returned |
| Storage.SaveStaysInUploads | backend/storage_service.py:41-69 | for a clean base and plain ids, the saved file lands under the uploads root with the new content, no file outside uploads changes, and without a previous file only the destination changes |
| Extractor.LastIndexOf | backend/document_extractor.py:45 | the index of the last occurrence of a character, or -1 when there is none |
| Extractor.Extension | backend/document_extractor.py:45 | the extension is empty or a suffix of the path that starts with '.' and holds no other '.' and no '/' |
| Extractor.ReaderFor | backend/document_extractor.py:46-57 | ".pdf" selects the PDF reader and ".docx"/".doc" the DOCX reader, compared in lower case |
| Extractor.ReaderIgnoresCase | backend/document_extractor.py:46 | the reader chosen does not depend on the extension's case |
| Extractor.Kept | backend/document_extractor.py:73-76 | filtering never lengthens a list |
| Extractor.KeptAccepted | backend/document_extractor.py:75-76 | every kept part passes the test |
| Extractor.KeptAppend | backend/document_extractor.py:96-105 | filtering a concatenation filters each part |
| Extractor.KeptEmpty | backend/document_extractor.py:75-79 | nothing is kept exactly when no part passes the test |
| Extractor.JoinedFacts | backend/document_extractor.py:78-79 | joining non-empty parts gives None exactly when there are no parts |
| Extractor.PdfNoneIff | backend/document_extractor.py:63-83 | PDF extraction fails exactly when pypdf is missing, the file cannot be read, or every page has empty text |
| Extractor.ExtractText | backend/document_extractor.py:30-60 | a missing file, an unsupported extension and an empty text file give None; any text returned has no leading or trailing whitespace |
| Extractor.Joined | backend/document_extractor.py:78-79 | a joined text is returned stripped |
| Extractor.PlainText | backend/document_extractor.py:114-130 | a plain file's text is returned stripped, and an empty UTF-8 file gives None |
| Extractor.AppendKept | backend/document_extractor.py:73-76 | the loop appends exactly the parts that pass the test, in order |
| Extractor.ExtractFromPdf | backend/document_extractor.py:63-83 | the page loop computes the PDF text of its specification |
| Extractor.AppendTableCells | backend/document_extractor.py:101-105 | the table loop appends every non-blank cell, table by table and row by row |
| Extractor.AppendRowCells | backend/document_extractor.py:102-105 | the row loop appends every non-blank cell of each row in order |
| Extractor.ExtractFromDocx | backend/document_extractor.py:85-112 | paragraphs first, then table cells, non-blank ones joined and stripped |
| Extractor.ExtractFromText | backend/document_extractor.py:114-130 | UTF-8 first, Latin-1 on a decoding error, the text stripped, None for an empty file |
| Extractor.ExtractTextFromFile | backend/document_extractor.py:30-60 | the dispatch computes the extraction of its specification |
| Extractor.PrefixTo | backend/document_extractor.py:149 | a slice is never longer than the text |
| Extractor.Preview | backend/document_extractor.py:132-149 | empty text gives "", short text is returned whole, longer text is its first max_length characters plus "..." |
| Extractor.PreviewShortens | backend/document_extractor.py:132-149 | the preview has at most max_length + 3 characters and is a prefix of the text when nothing is cut |
| Extractor.PreviewIdempotent | backend/document_extractor.py:132-149 | a preview of a preview is the preview: the dots never trigger a second cut |
| Auth.IsStudentRole | frontend/svelte-app/src/lib/auth.js:8-12 | a student exactly when the roles value is present, non-empty, and "learner" or "student" occurs somewhere in its lower-cased text |
| Auth.IsTeacherOrAdminRole | frontend/svelte-app/src/lib/auth.js:19-26 | a teacher or administrator exactly when the roles value is present, non-empty, and "administrator", "instructor", "teacher" or "admin" occurs somewhere in its lower-cased text |
| Auth.TeacherRoles | frontend/svelte-app/src/lib/auth.js:72-74 | a truthy roles value that is not a string throws (None); otherwise the launch is a teacher's exactly when roles is a string that isTeacherOrAdminRole accepts |
| Auth.RolesIgnoreCase | frontend/svelte-app/src/lib/auth.js:8-26 | both role tests ignore the case of the roles string |
| Auth.AdministratorIsAdmin | frontend/svelte-app/src/lib/auth.js:19-26 | the teacher test holds exactly when the lower-cased roles contain "instructor", "teacher" or "admin" |
| Auth.FetchLtiData | frontend/svelte-app/src/lib/auth.js:32-63 | the data is returned exactly when the fetch answers 2xx with a non-null body whose success field is truthy, and it is that body's data field; every failure carries one of four messages |
| Auth.FetchFailures | frontend/svelte-app/src/lib/auth.js:38-63 | 401, other error statuses, a refusal in the body and a thrown fetch each map to their own message; a null body throws on reading success and so ends as "Connection error" |
| Auth.CheckPendingActivity | frontend/svelte-app/src/lib/auth.js:70-115 | an activity is reported pending only after a 404 from the activity lookup |
| Auth.PendingIff | frontend/svelte-app/src/lib/auth.js:70-115 | pending exactly when the session succeeds, the roles are a teacher's, a resource link id is present and the lookup answers 404; the result carries that link id |
| Moodles.Registered | backend/moodle_service.py:11-53 | a new instance gets the given name, URL and creation time; an existing one takes the new name and keeps its creation time and any URL it already has, taking a given URL only when it has none |
| Moodles.RegisterIdempotent | backend/moodle_service.py:11-53 | registering the same launch twice is registering once |
| Moodles.RegisterAll | backend/moodle_service.py:11-53 | after a run of launches every launched instance is registered and none is removed |
| Moodles.UrlWriteOnce | backend/moodle_service.py:21-23 | once an instance has a non-empty outcome URL, no later launch changes it |
| Moodles.LatestNameWins | backend/moodle_service.py:18-20 | an instance's name is the one given by its latest launch |
| Moodles.CreateOrUpdateMoodle | backend/moodle_service.py:11-53 | the table afterwards holds the registered row under the id, which is returned; nothing else changes |
| Moodles.GetMoodleById | backend/moodle_service.py:55-71 | the stored record for a known id, None exactly for an unknown one |
| Router.SessionId | backend/submissions_router.py:18-27 | the session id is the cookie, else the X-LTI-Session header, else the query parameter, the first non-empty one; none exactly when all three are missing or empty |
| Router.GetLtiSessionData | backend/submissions_router.py:16-37 | 401 exactly when no session id is given, 404 exactly when it is unknown, otherwise the stored LTI data |
| Router.CheckStudentRole | backend/submissions_router.py:39-45 | the backend's student test agrees with the frontend's isStudentRole on the same roles value |
| Router.Admitted | backend/submissions_router.py:80-87 | a request is admitted only with a student role and a non-empty instance guid; a refusal is 400, 401, 403 or 404 |
| Router.NonStudentForbidden | backend/submissions_router.py:82-83 | a known session without a student role is refused with 403 and the endpoint's message |
| Router.Admit | backend/submissions_router.py:80-87 | the checks run in order: session, role, instance guid |
| Router.CodeIgnoresCase | backend/submissions_router.py:91 | the normalised group code does not depend on the case the student typed |
| Router.NormalizeCode | backend/submissions_router.py:91 | the normalised code has no lower-case letter and no leading or trailing whitespace |
| Router.StudentName | backend/submissions_router.py:93 | the name passed on is lis_person_name_full when that is present and non-empty, otherwise ext_user_username, and empty only when both are missing or empty |
| Router.JoinGroup | backend/submissions_router.py:76-114 | a refusal of the session checks changes nothing; a refused join is a 400 with its message and changes nothing; an accepted join adds exactly one membership row and answers success with "Te has unido al grupo exitosamente" and the joined view, which carries the session's name (full name, else username) and e-mail, is_group_leader false, group_code_uses None and the group's grade |
| Router.RefusalMessagesDistinct | backend/submissions_router.py:108-109 | different join refusals carry different messages |
| Router.LeaderJoinedFirst | backend/submissions_router.py:144-153 | the listed leader is the member who joined earliest, and only the first member is marked leader |
| Router.MemberEntries | backend/submissions_router.py:146-155 | one entry per membership row, in join order, the first one the leader |
| Router.GetSubmissionMembers | backend/submissions_router.py:116-160 | a refused session gives its error; an unknown or individual submission gives 404; otherwise the members in join order |
| Text.Lower | backend/submissions_router.py:44 | str.lower on ASCII letters: same length, each upper-case letter mapped to lower case, everything else kept |
| Text.Upper | backend/submissions_router.py:91 | str.upper on ASCII letters: same length, each lower-case letter mapped to upper case, everything else kept |
| Text.UpperOfLower | backend/submissions_router.py:91 | upper-casing forgets any earlier lower-casing |
| Text.LowerOfUpper | backend/submissions_router.py:44 | lower-casing forgets any earlier upper-casing |
| Text.TrimStart | backend/storage_service.py:122 | lstrip removes exactly the leading run of stripped characters |
| Text.TrimEnd | backend/storage_service.py:122 | rstrip removes exactly the trailing run of stripped characters |
| Text.StripBySlice | backend/storage_service.py:122 | strip returns one contiguous slice of its input |
| Text.StripByEnds | backend/storage_service.py:122 | a stripped string is empty or starts and ends with a kept character |
| Text.StripByIdempotent | backend/submissions_router.py:91 | stripping twice is stripping once |
| Text.ContainsIff | backend/submissions_router.py:45 | the substring test holds exactly when the substring occurs at some index |

## Left out

- backend/main.py is not part of this model. That includes the launch handler, the in-memory session store (here the parameter `sessions`), the md5 session ids and the file download.
- Router.GetLtiSessionData: the session store is given as a map and is not imported from main.
- get_my_submission and download_my_submission_file (backend/submissions_router.py:47-74, 168-240) are not modelled. They only call modelled services or stream a file.
- get_all_moodles (backend/moodle_service.py:73) is not modelled. It is a plain listing with no logic of its own.
- These read-only lookups of backend/activities_service.py are not modelled:
  - get_student_activity_view_by_id
  - get_activities_by_course
  - get_activity_by_id
  - get_activity_by_title_and_course
  - get_activities_count
- The outer `except Exception` paths that turn an unexpected error into a rollback and HTTP 500 are not modelled. These are database failures and library exceptions outside the model.
- The evaluation columns are assumed to exist. The model gives file submissions the three evaluation columns evaluation_status, evaluation_started_at and evaluation_error, which backend/models.py:127-129 and backend/evaluation_service.py read and write. The table definition FileSubmissionDB (backend/db_models.py:72-99) declares none of them, so against that schema the filter at backend/evaluation_service.py:409 would raise AttributeError and the writes at lines 176-178 and 248-249 would not persist. The model assumes the columns exist on the table.
- Concurrency is not modelled. Operations run one after another, so check-then-act races between requests are out of scope.
- Store.CodesUnique, Store.OneGradePerFile and Store.WithinCapacity hold only when requests run one at a time. Only the student-submission key (student, Moodle id, activity, course) has a unique constraint in the schema (backend/db_models.py:119). group_code (backend/db_models.py:89), grades.file_submission_id (backend/db_models.py:133) and the capacity max_group_members (backend/db_models.py:90) have none, so two concurrent requests can break these invariants.
- SQLAlchemy sessions and commits are not modelled. An operation's effect is its final state.
- Randomness is not modelled. The uuid4 values and secrets.choice draws are parameters; `Submissions.GenerateGroupCode` takes its candidate codes as given.
- The clock is not modelled. datetime.now is a parameter `now`, in integer seconds. Lti.SendRows and Lti.MarkRow stamp every row they mark sent with the same `now`, while the source reads the clock once per row (backend/lti_service.py:251-253). Likewise Submissions.Replaced, Submissions.Resubmitted and Submissions.FirstSubmission stamp uploaded_at and joined_at with the one `now`, while create_submission reads the clock for each (backend/activities_service.py:171 and 176, 221 and 237). In the same way Evaluation.GetEvaluationStatus and Evaluation.StartEvaluation judge every processing row against one `now`, while the source reads the clock per row (backend/evaluation_service.py:74 and 159). Evaluation.ProcessEvaluationBatch, Evaluation.RunBatch and Evaluation.Step stamp evaluation_started_at and a grade's created_at with the one `now`, while the source reads the clock for each item (backend/evaluation_service.py:249, 339 and 347).
- Network I/O is not modelled. The HTTP exchanges with LAMB and Moodle are given as their outcomes, and transport errors as a failure value.
- Cryptography is not modelled. HMAC-SHA1, SHA-1 and base64 are function-typed fields of `Oauth.Primitives`, so signatures are proved equal only as far as their inputs are.
- The document libraries are not modelled. pypdf and python-docx appear only as what they would return (`Extractor.FileData`), and their exceptions appear as None.
- Extractor.Extension: paths are POSIX, so only "/" separates components; the Windows separator "\\" is not recognised.
- Floating point is not modelled. Scores and fractions are exact `real`, so rounding of float arithmetic and formatting of floats in strings are left out.
- Text.Lower: case mapping covers ASCII letters only, while Python's str.lower and str.upper also map other Unicode letters.
- Text.Upper: case mapping covers ASCII letters only, for the same reason.
- Lamb.Search: the score pattern's digits are ASCII 0-9 only. Python's `\d` in re also matches other Unicode decimal digits, so "FINAL SCORE: ８" (a full-width 8) is found by the source and not by the model.
- Lamb.ExtractScore: the number is read from ASCII digits only. Python's float() also reads other Unicode decimal digits, so the source gives 8.0 where the model finds no score.
- Evaluation.Step: the contract states how many error entries an item adds, not that the earlier entries are kept in order.
- Evaluation.ProcessEvaluationBatch does not model the debug_info collection. It only reports what was seen.
- Logging is not modelled. It has no effect on results.
- XML parsing of Moodle's reply is reduced to the substring tests the code performs.
- Activities.CreateActivity accepts a deadline in the past: create_activity computes the current time but never compares the deadline with it, and the model keeps this.
- Listings versus Router.GetSubmissionMembers: the services mark the uploader (uploaded_by) as group leader, while the members route marks the earliest joiner. The model keeps both rules, since a resubmission refreshes joined_at and the two can disagree.
- Submissions.SubmitWithGroupCode: submit_with_group_code records the course's Moodle id as the student's Moodle id (backend/activities_service.py:311), and the model does the same.

## Findings

| source | as written | input that shows it | evidently intended | confidence | as-written member | corrected member |
|---|---|---|---|---|---|---|
| backend/evaluation_service.py:272-313 | the batch passes the whole evaluate_text wrapper to parse_evaluation_response and then tests parsed.get('success'), a key the parser never sets | any found submission whose text extracts, whatever LAMB replies | parse LAMB's reply and complete the item when it carries a score | high (not executed) | Evaluation.AsWrittenBatchNeverGrades | Evaluation.IntendedOutcome |
| backend/activities_service.py:829-836 | update_activity compares a naive deadline with the aware datetime.now(timezone.utc) | any update that supplies a deadline: Python raises TypeError before the comparison | reject a deadline earlier than now and store any other one | high (not executed) | Activities.AsWrittenDeadlineAlwaysRaises | Activities.DeadlineCheck |

=== FILE: activities.dfy ===
/**
  Activities of backend/activities_service.py: creating one and updating its
  description, deadline and evaluator.  An activity is keyed by
  (id, course_moodle_id); the services keep the constraints of
  `Store.Consistent`.
*/
module Activities {
  import opened Wrappers
  import opened Store
  import Text
  import Storage

  // ------------------------------------------------------------------ create_activity

  const InvalidTypeMessage := "Invalid activity type. Must be 'individual' or 'group'"
  const GroupSizeMessage := "Group activities must have a maximum group size of at least 2"

  /** The body of an ActivityCreate request; `activityType` is the raw string before its validator runs. */
  datatype ActivityInput = ActivityInput(
    title: string,
    description: string,
    activityType: string,
    maxGroupSize: Option<int>,
    deadline: Option<Stamp>,
    evaluatorId: Option<string>)

  /**
    The activity_type field: its validator lower-cases the value and the
    Literal type then accepts only the two names. Any other value is refused
    by request validation before create_activity runs, so the service's own
    invalid-type check never fires; the Err here stands for that refusal.
  */
  function ParseKind(v: string): (r: Result<ActivityKind, string>)
    ensures r.Ok? <==> Text.Lower(v) == "individual" || Text.Lower(v) == "group"
    ensures r == Ok(Group) <==> Text.Lower(v) == "group"
    ensures r.Err? ==> r.error == InvalidTypeMessage
  {
    var l := Text.Lower(v);
    if l == "individual" then Ok(Individual)
    else if l == "group" then Ok(Group)
    else Err(InvalidTypeMessage)
  }

  /** The activity type is case-insensitive: any casing of a name parses to the same kind. */
  lemma ParseKindIgnoresCase(v: string)
    ensures ParseKind(Text.Upper(v)) == ParseKind(v)
    ensures ParseKind(Text.Lower(v)) == ParseKind(v)
  {
    Text.LowerIdempotent(v);
    Text.LowerOfUpper(v);
  }

  /** evaluator_id as create_activity and update_activity store it: stripped when non-empty, None otherwise. */
  function StoredEvaluator(e: Option<string>): (r: Option<string>)
    ensures r.Some? <==> e.Some? && e.value != ""
    ensures r.Some? ==> r.value == Text.Strip(e.value)
  {
    if e.Some? && e.value != "" then Some(Text.Strip(e.value)) else None
  }

  /**
    The validation of create_activity and the row it builds: a group activity
    needs a maximum group size of at least 2, an individual one has none.
  */
  function NewActivity(input: ActivityInput, userId: string, courseId: string, courseMoodleId: string,
                       id: string, now: int): (r: Result<Activity, string>)
    ensures r.Err? <==>
      ParseKind(input.activityType).Err?
      || (ParseKind(input.activityType) == Ok(Group) && !(input.maxGroupSize.Some? && input.maxGroupSize.value >= 2))
    ensures r.Err? ==> r.error == InvalidTypeMessage || r.error == GroupSizeMessage
    ensures r.Ok? ==>
      && WellFormedActivity(r.value)
      && r.value.kind == ParseKind(input.activityType).value
      && (r.value.kind == Group ==> r.value.maxGroupSize == input.maxGroupSize)
      && r.value.id == id && r.value.courseMoodleId == courseMoodleId && r.value.courseId == courseId
      && r.value.title == Text.Strip(input.title) && r.value.description == Text.Strip(input.description)
      && r.value.creatorId == userId && r.value.creatorMoodleId == courseMoodleId && r.value.createdAt == now
      && r.value.deadline == input.deadline && r.value.evaluatorId == StoredEvaluator(input.evaluatorId)
  {
    match ParseKind(input.activityType)
    case Err(e) => Err(e)
    case Ok(kind) =>
      if kind == Group && (input.maxGroupSize.None? || input.maxGroupSize.value < 2) then Err(GroupSizeMessage)
      else
        var size := if kind == Group then input.maxGroupSize else None;
        Ok(Activity(id, courseMoodleId, Text.Strip(input.title), Text.Strip(input.description), kind, size,
                    userId, courseMoodleId, now, courseId, input.deadline, StoredEvaluator(input.evaluatorId)))
  }

  function DuplicateMessage(id: string): string {
    "Ya existe una actividad con el ID '" + id + "' en esta instancia de Moodle"
  }

  /** The activity id create_activity uses: the given one, or a fresh uuid when it is absent or empty. */
  function ChosenId(activityId: Option<string>, newId: string): string {
    if activityId.Some? && activityId.value != "" then activityId.value else newId
  }

  /**
    create_activity: validate, refuse a duplicate (id, course_moodle_id), make the
    activity's upload directory and insert the row.  The deadline is not compared
    with the clock here.
  */
  method CreateActivity(db: Database, disk: Storage.Disk, base: seq<string>, input: ActivityInput,
                        userId: string, courseId: string, courseMoodleId: string,
                        activityId: Option<string>, newId: string, now: int)
    returns (r: Result<Activity, string>)
    requires db.Valid() && Storage.Clean(base)
    modifies db`activities, disk
    ensures db.Valid()
    ensures var id := ChosenId(activityId, newId);
      var built := NewActivity(input, userId, courseId, courseMoodleId, id, now);
      if built.Err? then
        r == built && db.activities == old(db.activities) && unchanged(disk)
      else if (id, courseMoodleId) in old(db.activities) then
        r == Err(DuplicateMessage(id)) && db.activities == old(db.activities) && unchanged(disk)
      else
        && r == built
        && db.activities == old(db.activities)[(id, courseMoodleId) := built.value]
        && disk.files == old(disk.files)
        && disk.dirs == old(disk.dirs) + Storage.MadeDirs(base, courseMoodleId, courseId, id)
  {
    var id := ChosenId(activityId, newId);
    var built := NewActivity(input, userId, courseId, courseMoodleId, id, now);
    if built.Err? {
      return built;
    }
    if (id, courseMoodleId) in db.activities {
      return Err(DuplicateMessage(id));
    }
    Storage.EnsureActivityDirectory(disk, base, courseMoodleId, courseId, id);
    db.activities := db.activities[(id, courseMoodleId) := built.value];
    r := built;
  }

  // ------------------------------------------------------------------ update_activity

  /** A description as update_activity stores it: stripped. */
  function StoredDescription(d: string): string {
    Text.Strip(d)
  }

  /** The body of an ActivityUpdate request: each field present is applied. */
  datatype ActivityUpdate = ActivityUpdate(description: Option<string>, deadline: Option<Stamp>,
                                           evaluatorId: Option<string>)

  const UpdateNotFoundMessage := "Actividad no encontrada"
  const NoPermissionMessage := "No tienes permisos para actualizar esta actividad desde este curso"
  const PastDeadlineMessage := "La fecha límite no puede ser anterior a la fecha y hora actual"
  const CompareTypeError := "can't compare offset-naive and offset-aware datetimes"

  /** Python's `<` on datetimes: ordering a naive datetime against an aware one raises TypeError. */
  function Before(a: Stamp, b: Stamp): (r: Result<bool, string>)
    ensures r.Err? <==> a.aware != b.aware
    ensures r.Err? ==> r.error == CompareTypeError
    ensures r.Ok? ==> (r.value <==> a.seconds < b.seconds)
  {
    if a.aware != b.aware then Err(CompareTypeError) else Ok(a.seconds < b.seconds)
  }

  /**
    The deadline test as update_activity writes it: the deadline is made naive,
    but "now" is datetime.now(timezone.utc), which is aware.
  */
  function DeadlineCheckAsWritten(deadline: Stamp, now: int): Result<bool, string> {
    Before(deadline.(aware := false), Stamp(now, true))
  }

  /** As written, every deadline update raises TypeError, whatever the deadline. */
  lemma AsWrittenDeadlineAlwaysRaises(deadline: Stamp, now: int)
    ensures DeadlineCheckAsWritten(deadline, now) == Err(CompareTypeError)
  {
  }

  /** The deadline test as intended: both sides naive UTC, so the comparison is made. */
  function DeadlineCheck(deadline: Stamp, now: int): (r: Result<bool, string>)
    ensures r == Ok(deadline.seconds < now)
  {
    Before(deadline.(aware := false), Stamp(now, false))
  }

  /**
    update_activity on an activity it has found and may change, with the
    intended deadline test: each field present is applied, a past deadline is
    refused.
  */
  function Updated(a: Activity, update: ActivityUpdate, now: int): (r: Result<Activity, string>)
    ensures r.Err? <==> update.deadline.Some? && update.deadline.value.seconds < now
    ensures r.Err? ==> r.error == PastDeadlineMessage
    ensures r.Ok? ==>
      && r.value == a.(description := r.value.description, deadline := r.value.deadline, evaluatorId := r.value.evaluatorId)
      && r.value.description == (if update.description.Some? then StoredDescription(update.description.value) else a.description)
      && r.value.deadline == (if update.deadline.Some? then update.deadline else a.deadline)
      && r.value.evaluatorId == (if update.evaluatorId.Some? then StoredEvaluator(update.evaluatorId) else a.evaluatorId)
      && (WellFormedActivity(a) ==> WellFormedActivity(r.value))
  {
    if update.deadline.Some? && DeadlineCheck(update.deadline.value, now).value then Err(PastDeadlineMessage)
    else
      Ok(a.(description := if update.description.Some? then StoredDescription(update.description.value) else a.description,
            deadline := if update.deadline.Some? then update.deadline else a.deadline,
            evaluatorId := if update.evaluatorId.Some? then StoredEvaluator(update.evaluatorId) else a.evaluatorId))
  }

  /** An update that carries no field leaves the activity as it is. */
  lemma EmptyUpdateChangesNothing(a: Activity, now: int)
    ensures Updated(a, ActivityUpdate(None, None, None), now) == Ok(a)
  {
  }

  /** Replacing an activity by a well-formed one under the same key keeps the database consistent. */
  lemma ActivityUpdateKeepsConsistent(moodles: map<string, Moodle>, activities: map<(string, string), Activity>,
                                      fs: map<string, FileSubmission>, ss: map<string, StudentSubmission>,
                                      gs: map<string, Grade>, key: (string, string), a: Activity)
    requires Consistent(moodles, activities, fs, ss, gs)
    requires key == (a.id, a.courseMoodleId) && WellFormedActivity(a)
    ensures Consistent(moodles, activities[key := a], fs, ss, gs)
  {
  }

  /** The field-by-field assignments of update_activity on the activity it loaded. */
  method ApplyUpdate(a: Activity, update: ActivityUpdate, now: int) returns (r: Result<Activity, string>)
    ensures r == Updated(a, update, now)
  {
    var next := a;
    if update.description.Some? {
      next := next.(description := StoredDescription(update.description.value));
    }
    if update.deadline.Some? {
      var past := DeadlineCheck(update.deadline.value, now);
      if past.value {
        return Err(PastDeadlineMessage);
      }
      next := next.(deadline := update.deadline);
    }
    if update.evaluatorId.Some? {
      next := next.(evaluatorId := StoredEvaluator(update.evaluatorId));
    }
    r := Ok(next);
  }

  /**
    update_activity: the activity must exist and, when the session names a
    course, belong to it; then the fields given are applied one by one.
    Nothing is stored when any check fails.
  */
  method UpdateActivity(db: Database, activityId: string, activityMoodleId: string, update: ActivityUpdate,
                        courseId: Option<string>, now: int)
    returns (r: Result<Activity, string>)
    requires db.Valid()
    modifies db`activities
    ensures db.Valid()
    ensures (activityId, activityMoodleId) !in old(db.activities) ==>
      r == Err(UpdateNotFoundMessage) && db.activities == old(db.activities)
    ensures (activityId, activityMoodleId) in old(db.activities) ==>
      var a := old(db.activities)[(activityId, activityMoodleId)];
      if courseId.Some? && courseId.value != "" && a.courseId != courseId.value then
        r == Err(NoPermissionMessage) && db.activities == old(db.activities)
      else
        && r == Updated(a, update, now)
        && (r.Ok? ==> db.activities == old(db.activities)[(activityId, activityMoodleId) := r.value])
        && (r.Err? ==> db.activities == old(db.activities))
  {
    if (activityId, activityMoodleId) !in db.activities {
      return Err(UpdateNotFoundMessage);
    }
    var a := db.activities[(activityId, activityMoodleId)];
    if courseId.Some? && courseId.value != "" && a.courseId != courseId.value {
      return Err(NoPermissionMessage);
    }
    r := ApplyUpdate(a, update, now);
    if r.Ok? {
      ActivityUpdateKeepsConsistent(db.moodles, db.activities, db.fileSubs, db.studentSubs, db.grades,
                                    (activityId, activityMoodleId), r.value);
      db.activities := db.activities[(activityId, activityMoodleId) := r.value];
    }
  }
}

=== FILE: auth.dfy ===
/**
  The frontend's authorisation helpers (frontend/svelte-app/src/lib/auth.js):
  the two role tests on the LTI roles string, the mapping of the session fetch
  to a result, and the decision whether a teacher still has to create the
  activity of the current launch.  The two fetches are given as their
  outcomes: a thrown error, or a status with the decoded body.
*/
module Auth {
  import opened Wrappers
  import opened Json
  import Text

  // ------------------------------------------------------------------ role tests

  /** A roles value JavaScript treats as true: present and non-empty. */
  predicate GivenRoles(roles: Option<string>) {
    roles.Some? && roles.value != ""
  }

  /** `sub` occurs in `s` at some position: String.prototype.includes. */
  ghost predicate Occurs(s: string, sub: string) {
    exists i :: Text.OccursAt(s, sub, i)
  }

  /** isStudentRole */
  function IsStudentRole(roles: Option<string>): (r: bool)
    ensures !GivenRoles(roles) ==> !r
    ensures r <==> GivenRoles(roles) && (Occurs(Text.Lower(roles.value), "learner")
                                        || Occurs(Text.Lower(roles.value), "student"))
  {
    if !GivenRoles(roles) then false
    else
      var lower := Text.Lower(roles.value);
      Text.ContainsIff(lower, "learner");
      Text.ContainsIff(lower, "student");
      Text.Contains(lower, "learner") || Text.Contains(lower, "student")
  }

  /** isTeacherOrAdminRole */
  function IsTeacherOrAdminRole(roles: Option<string>): (r: bool)
    ensures !GivenRoles(roles) ==> !r
    ensures r <==> GivenRoles(roles) && (Occurs(Text.Lower(roles.value), "administrator")
                                        || Occurs(Text.Lower(roles.value), "instructor")
                                        || Occurs(Text.Lower(roles.value), "teacher")
                                        || Occurs(Text.Lower(roles.value), "admin"))
  {
    if !GivenRoles(roles) then false
    else
      var lower := Text.Lower(roles.value);
      Text.ContainsIff(lower, "administrator");
      Text.ContainsIff(lower, "instructor");
      Text.ContainsIff(lower, "teacher");
      Text.ContainsIff(lower, "admin");
      Text.Contains(lower, "administrator") || Text.Contains(lower, "instructor")
      || Text.Contains(lower, "teacher") || Text.Contains(lower, "admin")
  }

  /** The role tests ignore case. */
  lemma RolesIgnoreCase(roles: string)
    ensures IsStudentRole(Some(Text.Upper(roles))) == IsStudentRole(Some(roles))
    ensures IsTeacherOrAdminRole(Some(Text.Upper(roles))) == IsTeacherOrAdminRole(Some(roles))
  {
    Text.LowerOfUpper(roles);
    assert |Text.Upper(roles)| == |roles|;
  }

  /** "administrator" contains "admin": the first test of isTeacherOrAdminRole adds nothing to the last. */
  lemma AdministratorIsAdmin(roles: Option<string>)
    ensures IsTeacherOrAdminRole(roles) <==>
      GivenRoles(roles) &&
      var lower := Text.Lower(roles.value);
      Text.Contains(lower, "instructor") || Text.Contains(lower, "teacher") || Text.Contains(lower, "admin")
  {
    if GivenRoles(roles) {
      var lower := Text.Lower(roles.value);
      if Text.Contains(lower, "administrator") {
        Text.ContainsAt("administrator", "admin", 0);
        Text.ContainsTransitive(lower, "administrator", "admin");
      }
    }
  }

  // ------------------------------------------------------------------ fetchLTIData

  /** How a fetch ends: it throws (network failure, or a body that is not JSON), or answers. */
  datatype Fetched = Thrown | Answered(status: int, body: Json)

  /** response.ok */
  predicate Ok(status: int) {
    200 <= status <= 299
  }

  /** JavaScript truthiness of a decoded JSON value (an absent field is undefined). */
  predicate JsTruthy(v: Option<Json>) {
    match v
    case None => false
    case Some(JNull) => false
    case Some(JBool(b)) => b
    case Some(JInt(i)) => i != 0
    case Some(JFloat(x)) => x != 0.0
    case Some(JStr(s)) => s != ""
    case Some(_) => true
  }

  /** `o.key` on a decoded value: a field of an object, undefined otherwise. */
  function Field(v: Option<Json>, key: string): Option<Json> {
    if v.Some? && v.value.JObj? then Lookup(v.value.fields, key) else None
  }

  /** The result fetchLTIData resolves to. */
  datatype LtiResult = LtiOk(data: Option<Json>) | LtiFailed(error: string)

  /**
    fetchLTIData.  Reading `result.success` off a body that decodes to null
    throws a TypeError, which the catch turns into "Connection error" like a
    failed fetch; any other body yields its field, or undefined.
  */
  function FetchLtiData(fetched: Fetched): (r: LtiResult)
    ensures r.LtiOk? <==> fetched.Answered? && Ok(fetched.status) && !fetched.body.JNull?
                          && JsTruthy(Field(Some(fetched.body), "success"))
    ensures r.LtiOk? ==> r.data == Field(Some(fetched.body), "data")
    ensures r.LtiFailed? ==> r.error in {"No active LTI session", "Failed to fetch LTI data",
                                         "Failed to retrieve LTI data", "Connection error"}
  {
    match fetched
    case Thrown => LtiFailed("Connection error")
    case Answered(status, body) =>
      if !Ok(status) then LtiFailed(if status == 401 then "No active LTI session" else "Failed to fetch LTI data")
      else if body.JNull? then LtiFailed("Connection error")
      else if JsTruthy(Field(Some(body), "success")) then LtiOk(Field(Some(body), "data"))
      else LtiFailed("Failed to retrieve LTI data")
  }

  /**
    Each failure has its own message: a 401, another error status, a refusal in
    the body, and a throw (of the fetch, or of reading a null body).
  */
  lemma FetchFailures(fetched: Fetched)
    ensures fetched.Thrown? ==> FetchLtiData(fetched) == LtiFailed("Connection error")
    ensures fetched.Answered? && fetched.status == 401 ==> FetchLtiData(fetched) == LtiFailed("No active LTI session")
    ensures fetched.Answered? && !Ok(fetched.status) && fetched.status != 401 ==>
      FetchLtiData(fetched) == LtiFailed("Failed to fetch LTI data")
    ensures fetched.Answered? && Ok(fetched.status) && fetched.body.JNull? ==>
      FetchLtiData(fetched) == LtiFailed("Connection error")
    ensures fetched.Answered? && Ok(fetched.status) && !fetched.body.JNull?
            && !JsTruthy(Field(Some(fetched.body), "success")) ==>
      FetchLtiData(fetched) == LtiFailed("Failed to retrieve LTI data")
  {
  }

  // ------------------------------------------------------------------ checkPendingActivity

  /** The result checkPendingActivity resolves to. */
  datatype Pending = NotPending | PendingActivity(resourceLinkId: Json)

  /**
    The roles test on `data?.roles`: an absent or falsy value is not a teacher;
    a value that is not a string makes toLowerCase throw, which the outer
    catch turns into "not pending".
  */
  function TeacherRoles(data: Option<Json>): (r: Option<bool>)
    ensures r.None? <==> JsTruthy(Field(data, "roles")) && !Field(data, "roles").value.JStr?
    ensures r == Some(true) <==>
              Field(data, "roles").Some? && Field(data, "roles").value.JStr?
              && IsTeacherOrAdminRole(Some(Field(data, "roles").value.s))
  {
    var roles := Field(data, "roles");
    if !JsTruthy(roles) then Some(false)
    else if roles.value.JStr? then Some(IsTeacherOrAdminRole(Some(roles.value.s)))
    else None
  }

  /** checkPendingActivity: `session` is the LTI data fetch, `activity` the GET of the launch's activity. */
  function CheckPendingActivity(session: Fetched, activity: Fetched): (r: Pending)
    ensures r.PendingActivity? ==> activity.Answered? && activity.status == 404
  {
    match FetchLtiData(session)
    case LtiFailed(_) => NotPending
    case LtiOk(data) =>
      if TeacherRoles(data) != Some(true) then NotPending
      else
        var link := Field(data, "resource_link_id");
        if !JsTruthy(link) then NotPending
        else if activity.Thrown? then NotPending
        else if Ok(activity.status) then NotPending
        else if activity.status == 404 then PendingActivity(link.value)
        else NotPending
  }

  /**
    A launch is pending exactly when the session fetch succeeds, its roles
    string names a teacher or administrator, it carries a resource link id,
    and the activity lookup answers 404; the pending result names that link.
  */
  lemma PendingIff(session: Fetched, activity: Fetched)
    ensures CheckPendingActivity(session, activity).PendingActivity? <==>
      && FetchLtiData(session).LtiOk?
      && var data := FetchLtiData(session).data;
         && Field(data, "roles").Some? && Field(data, "roles").value.JStr?
         && IsTeacherOrAdminRole(Some(Field(data, "roles").value.s))
         && JsTruthy(Field(data, "resource_link_id"))
         && activity.Answered? && activity.status == 404
    ensures CheckPendingActivity(session, activity).PendingActivity? ==>
      CheckPendingActivity(session, activity).resourceLinkId == Field(FetchLtiData(session).data, "resource_link_id").value
  {
    if FetchLtiData(session).LtiOk? {
      var data := FetchLtiData(session).data;
      var roles := Field(data, "roles");
      if roles.Some? && roles.value.JStr? && IsTeacherOrAdminRole(Some(roles.value.s)) {
        assert JsTruthy(roles);
      }
    }
  }
}

=== FILE: evaluation.dfy ===
/**
  backend/evaluation_service.py: the evaluation status of file submissions
  (none, pending, processing, completed, error; "timeout" is derived), starting
  an evaluation, the background batch that evaluates and grades, the sweep of
  stuck evaluations and clearing a status.  Times are seconds (UTC); `now` is
  the clock reading of the call.
*/
module Evaluation {
  import opened Wrappers
  import opened Json
  import opened Store
  import Text
  import Lamb
  import Grades

  /** EVALUATION_TIMEOUT_MINUTES = 5, in seconds. */
  const TimeoutSeconds := 300

  /** An evaluation started at `started` is stuck when it began before now − 5 minutes. */
  predicate TimedOut(started: int, now: int) {
    started < now - TimeoutSeconds
  }

  // ---------------------------------------------------------------- get_evaluation_status

  /** The status a submission is reported with: its stored status, "not_started", or "timeout". */
  datatype Reported = NotStarted | Stored(status: EvalStatus) | Timeout

  function ReportedStatus(f: FileSubmission, now: int): (r: Reported)
    ensures r == NotStarted <==> f.evalStatus.None?
    ensures r == Timeout <==>
      f.evalStatus == Some(Processing) && f.evalStartedAt.Some? && TimedOut(f.evalStartedAt.value, now)
    ensures r.Stored? ==> f.evalStatus == Some(r.status)
  {
    match f.evalStatus
    case None => NotStarted
    case Some(s) =>
      if s == Processing && f.evalStartedAt.Some? && TimedOut(f.evalStartedAt.value, now) then Timeout
      else Stored(s)
  }

  predicate IsActive(r: Reported) {
    r == Stored(Pending) || r == Stored(Processing)
  }

  /** A timed-out evaluation counts as an error. */
  predicate IsFailure(r: Reported) {
    r == Stored(Error) || r == Timeout
  }

  predicate IsDone(r: Reported) {
    r == Stored(Completed)
  }

  /** One element of 'submissions' in the status report. */
  datatype StatusEntry = StatusEntry(
    fileSubmissionId: string,
    groupCode: Option<string>,
    fileName: string,
    status: Reported,
    error: Option<string>,
    startedAt: Option<int>)

  function EntryOf(f: FileSubmission, now: int): StatusEntry {
    StatusEntry(f.id, f.groupCode, f.fileName, ReportedStatus(f, now), f.evalError, f.evalStartedAt)
  }

  /** The 'counts' dict. */
  datatype Counts = Counts(total: nat, pending: nat, processing: nat, completed: nat, error: nat, notStarted: nat)

  function Bump(c: Counts, r: Reported): Counts {
    match r
    case NotStarted => c.(notStarted := c.notStarted + 1)
    case Timeout => c.(error := c.error + 1)
    case Stored(s) =>
      match s
      case Pending => c.(pending := c.pending + 1)
      case Processing => c.(processing := c.processing + 1)
      case Completed => c.(completed := c.completed + 1)
      case Error => c.(error := c.error + 1)
  }

  /** The counts of a list of entries. */
  function Tally(s: seq<StatusEntry>): Counts {
    if s == [] then Counts(0, 0, 0, 0, 0, 0)
    else Bump(Tally(s[..|s| - 1]), s[|s| - 1].status).(total := |s|)
  }

  /** Every entry is counted exactly once. */
  lemma {:induction false} TallyConserves(s: seq<StatusEntry>)
    ensures var c := Tally(s);
      c.total == |s| && c.pending + c.processing + c.completed + c.error + c.notStarted == |s|
  {
    if s != [] {
      TallyConserves(s[..|s| - 1]);
    }
  }

  /** A count is positive exactly when some entry has that status. */
  lemma {:induction false} TallyPositive(s: seq<StatusEntry>)
    ensures var c := Tally(s);
      && (c.pending + c.processing > 0 <==> exists i :: 0 <= i < |s| && IsActive(s[i].status))
      && (c.error > 0 <==> exists i :: 0 <= i < |s| && IsFailure(s[i].status))
      && (c.completed > 0 <==> exists i :: 0 <= i < |s| && IsDone(s[i].status))
  {
    if s != [] {
      var init := s[..|s| - 1];
      TallyPositive(init);
      assert forall i :: 0 <= i < |init| ==> init[i] == s[i];
    }
  }

  /** 'overall_status' */
  datatype Overall = InProgress | CompletedWithErrors | AllCompleted | Idle

  function OverallOf(c: Counts): Overall {
    if c.processing > 0 || c.pending > 0 then InProgress
    else if c.error > 0 then CompletedWithErrors
    else if c.completed > 0 then AllCompleted
    else Idle
  }

  /**
    The overall status in terms of the entries: in progress while anything is
    pending or processing, then with errors if anything failed or timed out,
    then completed if anything completed, and idle when nothing was started.
  */
  lemma OverallSpec(s: seq<StatusEntry>)
    ensures var o := OverallOf(Tally(s));
      && (o == InProgress <==> exists i :: 0 <= i < |s| && IsActive(s[i].status))
      && (o == CompletedWithErrors <==>
            (forall i :: 0 <= i < |s| ==> !IsActive(s[i].status)) && exists i :: 0 <= i < |s| && IsFailure(s[i].status))
      && (o == AllCompleted <==>
            (forall i :: 0 <= i < |s| ==> !IsActive(s[i].status) && !IsFailure(s[i].status))
            && exists i :: 0 <= i < |s| && IsDone(s[i].status))
      && (o == Idle <==> forall i :: 0 <= i < |s| ==> s[i].status == NotStarted)
  {
    TallyPositive(s);
  }

  /** Counting one more entry bumps its status. */
  lemma TallySnoc(s: seq<StatusEntry>, e: StatusEntry)
    ensures Tally(s + [e]) == Bump(Tally(s), e.status).(total := |s| + 1)
  {
    assert (s + [e])[..|s|] == s;
  }

  /** Bumping a status count leaves the total alone. */
  lemma BumpIgnoresTotal(c: Counts, r: Reported, total: nat)
    ensures Bump(c.(total := total), r) == Bump(c, r).(total := total)
  {
  }

  datatype StatusReport = StatusReport(overall: Overall, counts: Counts, submissions: seq<StatusEntry>)

  /** The submissions the status query selects: the activity's, restricted to `ids` when that list is non-empty. */
  predicate InScope(f: FileSubmission, activityId: string, activityMoodleId: string, ids: seq<string>) {
    f.activityId == activityId && f.activityMoodleId == activityMoodleId && (ids != [] ==> f.id in ids)
  }

  /**
    get_evaluation_status; `order` is the order in which the query returns the
    selected submissions.
  */
  method GetEvaluationStatus(db: Database, activityId: string, activityMoodleId: string, ids: seq<string>,
                             now: int, order: seq<string>)
    returns (report: StatusReport)
    requires forall k :: k in order ==> k in db.fileSubs
    requires forall k :: k in db.fileSubs && InScope(db.fileSubs[k], activityId, activityMoodleId, ids) ==> k in order
    requires forall k :: k in order ==> InScope(db.fileSubs[k], activityId, activityMoodleId, ids)
    ensures |report.submissions| == |order|
    ensures forall i :: 0 <= i < |order| ==> report.submissions[i] == EntryOf(db.fileSubs[order[i]], now)
    ensures report.counts == Tally(report.submissions)
    ensures report.overall == OverallOf(report.counts)
  {
    var counts := Counts(|order|, 0, 0, 0, 0, 0);
    var entries: seq<StatusEntry> := [];
    var i := 0;
    while i < |order|
      invariant 0 <= i <= |order|
      invariant |entries| == i
      invariant forall j :: 0 <= j < i ==> entries[j] == EntryOf(db.fileSubs[order[j]], now)
      invariant counts == Tally(entries).(total := |order|)
    {
      var entry := EntryOf(db.fileSubs[order[i]], now);
      counts := Bump(counts, entry.status);
      TallySnoc(entries, entry);
      BumpIgnoresTotal(Tally(entries), entry.status, |order|);
      entries := entries + [entry];
      i := i + 1;
    }
    report := StatusReport(OverallOf(counts), counts, entries);
  }

  // ---------------------------------------------------------------- start_evaluation

  /** Already being evaluated: pending, or processing without a start time or started within the last 5 minutes. */
  predicate Busy(f: FileSubmission, now: int) {
    f.evalStatus == Some(Pending)
    || (f.evalStatus == Some(Processing) && (f.evalStartedAt.None? || !TimedOut(f.evalStartedAt.value, now)))
  }

  /** The ids of `order` that are not busy, in order. */
  function QueueableIn(fs: map<string, FileSubmission>, order: seq<string>, now: int): seq<string>
    requires forall k :: k in order ==> k in fs
  {
    if order == [] then []
    else
      var last := order[|order| - 1];
      QueueableIn(fs, order[..|order| - 1], now) + (if Busy(fs[last], now) then [] else [last])
  }

  /** The ids of `order` that are busy, in order. */
  function BusyIn(fs: map<string, FileSubmission>, order: seq<string>, now: int): seq<string>
    requires forall k :: k in order ==> k in fs
  {
    if order == [] then []
    else
      var last := order[|order| - 1];
      BusyIn(fs, order[..|order| - 1], now) + (if Busy(fs[last], now) then [last] else [])
  }

  /** The two lists together hold exactly the found submissions. */
  lemma {:induction false} PartitionCovers(fs: map<string, FileSubmission>, order: seq<string>, now: int)
    requires forall k :: k in order ==> k in fs
    ensures multiset(QueueableIn(fs, order, now)) + multiset(BusyIn(fs, order, now)) == multiset(order)
  {
    if order != [] {
      var init := order[..|order| - 1];
      var last := order[|order| - 1];
      PartitionCovers(fs, init, now);
      SplitStep(QueueableIn(fs, init, now), BusyIn(fs, init, now),
                QueueableIn(fs, order, now), BusyIn(fs, order, now), order);
    }
  }

  /** Adding the last id of `order` to one of two lists that split the rest splits `order`. */
  lemma SplitStep(q: seq<string>, b: seq<string>, q': seq<string>, b': seq<string>, order: seq<string>)
    requires order != []
    requires multiset(q) + multiset(b) == multiset(order[..|order| - 1])
    requires var last := order[|order| - 1];
      (q' == q && b' == b + [last]) || (q' == q + [last] && b' == b)
    ensures multiset(q') + multiset(b') == multiset(order)
  {
    var init, last := order[..|order| - 1], order[|order| - 1];
    InitLast(order);
    assert multiset(order) == multiset(init) + multiset{last};
    if q' == q {
      assert multiset(b') == multiset(b) + multiset{last};
    } else {
      assert multiset(q') == multiset(q) + multiset{last};
    }
  }

  /** A non-empty sequence is its front followed by its last element. */
  lemma InitLast<T>(s: seq<T>)
    requires s != []
    ensures s == s[..|s| - 1] + [s[|s| - 1]]
  {
  }

  /** An id is queued exactly when it was found and is not busy. */
  lemma {:induction false} QueueableMembers(fs: map<string, FileSubmission>, order: seq<string>, now: int)
    requires forall k :: k in order ==> k in fs
    ensures forall k :: k in QueueableIn(fs, order, now) <==> k in order && !Busy(fs[k], now)
  {
    if order != [] {
      var init := order[..|order| - 1];
      QueueableMembers(fs, init, now);
      InitLast(order);
    }
  }

  /** An id is reported as already processing exactly when it was found and is busy. */
  lemma {:induction false} BusyMembers(fs: map<string, FileSubmission>, order: seq<string>, now: int)
    requires forall k :: k in order ==> k in fs
    ensures forall k :: k in BusyIn(fs, order, now) <==> k in order && Busy(fs[k], now)
  {
    if order != [] {
      var init := order[..|order| - 1];
      BusyMembers(fs, init, now);
      InitLast(order);
    }
  }

  /** The row marked as queued: pending, started now, error cleared. */
  function MarkPending(f: FileSubmission, now: int): FileSubmission {
    f.(evalStatus := Some(Pending), evalStartedAt := Some(now), evalError := None)
  }

  /** The table with the rows of `queued` marked pending. */
  function Queue(fs: map<string, FileSubmission>, queued: seq<string>, now: int): map<string, FileSubmission> {
    map k | k in fs :: if k in queued then MarkPending(fs[k], now) else fs[k]
  }

  /** The result dict of start_evaluation. */
  datatype StartResult =
    | NoneFound
    | Started(queuedIds: seq<string>, alreadyProcessing: seq<string>, evaluatorId: string)
  {
    function Queued(): nat {
      if NoneFound? then 0 else |queuedIds|
    }

    function Message(): string {
      if NoneFound? then "No submissions found"
      else Text.NatToString(|queuedIds|) + " submissions queued for evaluation"
    }
  }

  /**
    start_evaluation; `order` is the order in which the query returns the
    requested submissions of the activity.
  */
  method StartEvaluation(db: Database, activityId: string, ids: seq<string>, evaluatorId: string, now: int,
                         order: seq<string>)
    returns (r: StartResult)
    requires db.Valid()
    requires Distinct(order)
    requires forall k :: k in order <==> k in db.fileSubs && k in ids && db.fileSubs[k].activityId == activityId
    modifies db`fileSubs
    ensures db.Valid()
    ensures order == [] ==> r == NoneFound && db.fileSubs == old(db.fileSubs)
    ensures order != [] ==>
      && r == Started(QueueableIn(old(db.fileSubs), order, now), BusyIn(old(db.fileSubs), order, now), evaluatorId)
      && db.fileSubs == Queue(old(db.fileSubs), r.queuedIds, now)
  {
    if order == [] {
      return NoneFound;
    }
    var busy: seq<string> := [];
    var queued: seq<string> := [];
    var i := 0;
    while i < |order|
      invariant 0 <= i <= |order|
      invariant queued == QueueableIn(db.fileSubs, order[..i], now)
      invariant busy == BusyIn(db.fileSubs, order[..i], now)
    {
      assert order[..i + 1][..i] == order[..i];
      var f := db.fileSubs[order[i]];
      if Busy(f, now) {
        busy := busy + [order[i]];
      } else {
        queued := queued + [order[i]];
      }
      i := i + 1;
    }
    assert order[..|order|] == order;
    QueueableMembers(db.fileSubs, order, now);
    MarkQueued(db, queued, now);
    r := Started(queued, busy, evaluatorId);
  }

  /** The second loop of start_evaluation: mark every queued row pending. */
  method MarkQueued(db: Database, queued: seq<string>, now: int)
    requires db.Valid()
    requires forall k :: k in queued ==> k in db.fileSubs
    modifies db`fileSubs
    ensures db.Valid()
    ensures db.fileSubs == Queue(old(db.fileSubs), queued, now)
  {
    var fs0 := db.fileSubs;
    var i := 0;
    while i < |queued|
      invariant 0 <= i <= |queued|
      invariant db.fileSubs == Queue(fs0, queued[..i], now)
    {
      assert queued[..i + 1] == queued[..i] + [queued[i]];
      db.fileSubs := db.fileSubs[queued[i] := MarkPending(db.fileSubs[queued[i]], now)];
      i := i + 1;
    }
    assert queued[..|queued|] == queued;
    QueueOnlyEvaluation(fs0, queued, now);
    EvaluationColumnsFree(db.moodles, db.activities, fs0, db.fileSubs, db.studentSubs, db.grades);
  }

  lemma QueueOnlyEvaluation(fs: map<string, FileSubmission>, queued: seq<string>, now: int)
    ensures SameExceptEvaluation(fs, Queue(fs, queued, now))
  {
  }

  /** Starting again at the same moment queues nothing: everything just queued is now busy. */
  lemma StartTwiceQueuesNothing(fs: map<string, FileSubmission>, order: seq<string>, now: int)
    requires forall k :: k in order ==> k in fs
    ensures var fs' := Queue(fs, QueueableIn(fs, order, now), now);
      QueueableIn(fs', order, now) == []
  {
    var queued := QueueableIn(fs, order, now);
    var fs' := Queue(fs, queued, now);
    QueueableMembers(fs, order, now);
    forall k | k in order ensures Busy(fs'[k], now) {
    }
    NothingQueueable(fs', order, now);
  }

  /** When every found id is busy, nothing is queued. */
  lemma {:induction false} NothingQueueable(fs: map<string, FileSubmission>, order: seq<string>, now: int)
    requires forall k :: k in order ==> k in fs && Busy(fs[k], now)
    ensures QueueableIn(fs, order, now) == []
  {
    if order != [] {
      NothingQueueable(fs, order[..|order| - 1], now);
    }
  }

  // ---------------------------------------------------------------- process_evaluation_batch

  /** How one item of the batch ends. */
  datatype ItemOutcome =
    | NotFound
    | Failed(evalError: string, entryError: Json)
    | Graded(score: real, comment: string)

  /** Which reading of the parse step the batch follows: the code as written, or the evidently intended one. */
  datatype ItemRule = AsWritten | Intended

  /** f"{x}" */
  function Str(x: Json, repr: Json -> string): string {
    if x.JStr? then x.s else repr(x)
  }

  /** s[:n] */
  function Take(s: string, n: nat): string {
    if |s| <= n then s else s[..n]
  }

  const NoScoreError := "LAMB response did not contain a valid score (expected 'NOTA FINAL: X.X' or 'FINAL SCORE: X.X')"

  /** The message of len(None), raised while logging the length of the text that could not be extracted. */
  const NoTextError := "LAMB API error: object of type 'NoneType' has no len()"

  /** The end of an item once its response is considered parsed: graded if it has a score, an error otherwise. */
  function ScoredOutcome(parsed: Lamb.Parsed): (r: ItemOutcome)
    ensures r.Graded? <==> parsed.score.Some?
    ensures r.Graded? ==> r.score == parsed.score.value && r.comment == parsed.comment
  {
    if parsed.score.None? then
      Failed(NoScoreError, JStr("No score in LAMB response. Comment received: "
                                + (if parsed.comment != "" then Take(parsed.comment, 200) else "None") + "..."))
    else Graded(parsed.score.value, parsed.comment)
  }

  /**
    The item as the code is written: the whole evaluate_text result is handed to
    the parser, and the parser's dict is asked for 'success'.
  */
  function AsWrittenOutcome(extracted: Option<string>, lamb: Lamb.LambResult, repr: Json -> string): ItemOutcome {
    if extracted.None? then Failed(NoTextError, JStr(NoTextError))
    else AsWrittenParsed(Lamb.ParseEvaluationResponse(lamb.ToJson(), repr), repr)
  }

  /** The as-written item once the parser has run: its dict is asked for 'success' and 'error'. */
  function AsWrittenParsed(parsed: Lamb.Parsed, repr: Json -> string): ItemOutcome {
    var fields := parsed.ToJson().fields;
    if !Truthy(GetOr(fields, "success", JNull)) then
      Failed("Failed to parse response: " + Str(GetOr(fields, "error", JStr("Unknown error")), repr),
             GetOr(fields, "error", JStr("Failed to parse LAMB response")))
    else ScoredOutcome(parsed)
  }

  /** Whatever the parser returns, its dict has neither 'success' nor 'error', so the item fails. */
  lemma AsWrittenParsedFails(parsed: Lamb.Parsed, repr: Json -> string)
    ensures AsWrittenParsed(parsed, repr)
         == Failed("Failed to parse response: " + "Unknown error", JStr("Failed to parse LAMB response"))
  {
    Lamb.ParsedHasNoSuccess(parsed);
    assert !HasKey(parsed.ToJson().fields, "error");
  }

  /**
    The item as evidently intended: a failed call is an error with its message,
    and the reply of a successful call is parsed and scored.
  */
  function IntendedOutcome(extracted: Option<string>, lamb: Lamb.LambResult, repr: Json -> string): (r: ItemOutcome)
    ensures r.Graded? ==> 0.0 <= r.score <= 10.0
    ensures r.Graded? <==>
      extracted.Some? && lamb.Evaluated? && Lamb.ParseEvaluationResponse(lamb.response, repr).score.Some?
  {
    if extracted.None? then Failed(NoTextError, JStr(NoTextError))
    else
      match lamb
      case LambFailed(error) => Failed("Failed to parse response: " + error, JStr(error))
      case Evaluated(response, _) => ScoredOutcome(Lamb.ParseEvaluationResponse(response, repr))
  }

  /** As written, no item is ever graded: the parser's dict has no 'success' key. */
  lemma AsWrittenNeverGrades(extracted: Option<string>, lamb: Lamb.LambResult, repr: Json -> string)
    ensures AsWrittenOutcome(extracted, lamb, repr).Failed?
    ensures extracted.Some? ==>
      AsWrittenOutcome(extracted, lamb, repr)
      == Failed("Failed to parse response: " + "Unknown error", JStr("Failed to parse LAMB response"))
  {
    if extracted.Some? {
      AsWrittenParsedFails(Lamb.ParseEvaluationResponse(lamb.ToJson(), repr), repr);
    }
  }

  /**
    As intended, a LAMB reply {"content": c} whose content carries a score in
    range grades the item with that score and the whole content as comment.
  */
  lemma IntendedGradesScoredReply(text: string, modelId: string, fields: seq<(string, Json)>, content: string,
                                  repr: Json -> string)
    requires !HasKey(fields, "choices") && Lookup(fields, "content") == Some(JStr(content)) && content != ""
    requires Lamb.ExtractScore(content).Some?
    ensures IntendedOutcome(Some(text), Lamb.Evaluated(JObj(fields), modelId), repr)
         == Graded(Lamb.ExtractScore(content).value, content)
  {
    Lamb.ParseTopLevelContent(fields, content, repr);
  }

  /** The LAMB settings of one batch. */
  datatype Setup = Setup(evaluatorId: string, lambTimeout: int, repr: Json -> string)

  /** How the item of a found submission ends, under `rule`: its text extracted, LAMB called, the reply parsed. */
  function ItemResult(rule: ItemRule, extracted: Option<string>, reply: Lamb.HttpOutcome, setup: Setup)
    : (r: ItemOutcome)
    ensures !r.NotFound?
  {
    var lamb := Lamb.EvaluateText(setup.evaluatorId, None, setup.lambTimeout, reply, setup.repr);
    match rule
    case AsWritten => AsWrittenOutcome(extracted, lamb, setup.repr)
    case Intended => IntendedOutcome(extracted, lamb, setup.repr)
  }

  /** The result of every item of the batch, in list order, for the case that its submission is found. */
  function Results(rule: ItemRule, extracted: seq<Option<string>>, replies: seq<Lamb.HttpOutcome>, setup: Setup)
    : (r: seq<ItemOutcome>)
    requires |extracted| == |replies|
    ensures |r| == |extracted|
  {
    if extracted == [] then []
    else
      var n := |extracted| - 1;
      Results(rule, extracted[..n], replies[..n], setup) + [ItemResult(rule, extracted[n], replies[n], setup)]
  }

  /** Every item result is a failure. */
  predicate AllFailed(results: seq<ItemOutcome>) {
    forall i :: 0 <= i < |results| ==> results[i].Failed?
  }

  /** As written, every item of a found submission fails. */
  lemma {:induction false} AsWrittenResultsFail(extracted: seq<Option<string>>, replies: seq<Lamb.HttpOutcome>,
                                                setup: Setup)
    requires |extracted| == |replies|
    ensures AllFailed(Results(AsWritten, extracted, replies, setup))
  {
    if extracted != [] {
      var n := |extracted| - 1;
      AsWrittenResultsFail(extracted[..n], replies[..n], setup);
      var lamb := Lamb.EvaluateText(setup.evaluatorId, None, setup.lambTimeout, replies[n], setup.repr);
      AsWrittenNeverGrades(extracted[n], lamb, setup.repr);
    }
  }

  /** The outcome of the item for `id`: not found, or its result. */
  function Found(fs: map<string, FileSubmission>, id: string, result: ItemOutcome): (r: ItemOutcome)
    ensures r.NotFound? || id in fs
    ensures !result.NotFound? ==> (r.NotFound? <==> id !in fs)
  {
    if id !in fs then NotFound else result
  }

  /** What the batch has done so far: the two tables, the counters and the error entries. */
  datatype Progress = Progress(
    fs: map<string, FileSubmission>,
    gs: map<string, Grade>,
    created: nat,
    updated: nat,
    errors: seq<(string, Json)>)

  /** The row after its evaluation ended with `status` and `error`. */
  function Finished(f: FileSubmission, status: EvalStatus, error: Option<string>, now: int): FileSubmission {
    f.(evalStatus := Some(status), evalStartedAt := Some(now), evalError := error)
  }

  /**
    One item of the batch: a missing or failed item adds one error entry, a
    graded one counts one grade created or updated; only the item's own row
    changes, and a graded or failed row leaves Processing.
  */
  ghost function Step(p: Progress, id: string, outcome: ItemOutcome, newId: string, now: int): (r: Progress)
    requires outcome.NotFound? || id in p.fs
    ensures |r.errors| == |p.errors| + (if outcome.Graded? then 0 else 1)
    ensures r.created + r.updated == p.created + p.updated + (if outcome.Graded? then 1 else 0)
    ensures outcome.NotFound? ==> r.fs == p.fs
    ensures !outcome.NotFound? ==>
              && id in r.fs && r.fs == p.fs[id := r.fs[id]]
              && r.fs[id].evalStatus == Some(if outcome.Graded? then Completed else Error)
    ensures !outcome.Graded? ==> r.gs == p.gs
  {
    match outcome
    case NotFound => p.(errors := p.errors + [(id, JStr("Submission not found"))])
    case Failed(evalError, entryError) =>
      p.(fs := p.fs[id := Finished(p.fs[id], Error, Some(evalError), now)], errors := p.errors + [(id, entryError)])
    case Graded(score, comment) =>
      var existed := GradeOf(p.gs, id).Some?;
      p.(fs := p.fs[id := Finished(p.fs[id], Completed, None, now)],
         gs := Grades.Upsert(p.gs, id, score, Some(comment), newId, now, true),
         created := if existed then p.created else p.created + 1,
         updated := if existed then p.updated + 1 else p.updated)
  }

  /** The progress after the first `n` ids. */
  ghost function Batch(p0: Progress, ids: seq<string>, results: seq<ItemOutcome>, newIds: seq<string>, now: int,
                       n: nat): Progress
    requires n <= |ids| == |results| == |newIds|
  {
    if n == 0 then p0
    else
      var p := Batch(p0, ids, results, newIds, now, n - 1);
      Step(p, ids[n - 1], Found(p.fs, ids[n - 1], results[n - 1]), newIds[n - 1], now)
  }

  /** Every id adds exactly one to created, updated or the error list. */
  lemma {:induction false} BatchCounts(p0: Progress, ids: seq<string>, results: seq<ItemOutcome>,
                                       newIds: seq<string>, now: int, n: nat)
    requires n <= |ids| == |results| == |newIds|
    ensures var p := Batch(p0, ids, results, newIds, now, n);
      p.created + p.updated + |p.errors| == p0.created + p0.updated + |p0.errors| + n
  {
    if n > 0 {
      BatchCounts(p0, ids, results, newIds, now, n - 1);
    }
  }

  /** One item keeps the database consistent, rewrites only evaluation columns and adds at most the grade id `newId`. */
  lemma StepKeepsConsistent(p: Progress, moodles: map<string, Moodle>, activities: map<(string, string), Activity>,
                            ss: map<string, StudentSubmission>, id: string, outcome: ItemOutcome, newId: string,
                            now: int)
    requires outcome.NotFound? || id in p.fs
    requires Consistent(moodles, activities, p.fs, ss, p.gs) && newId !in p.gs
    ensures var p' := Step(p, id, outcome, newId, now);
      && Consistent(moodles, activities, p'.fs, ss, p'.gs)
      && SameExceptEvaluation(p.fs, p'.fs)
      && p'.gs.Keys <= p.gs.Keys + {newId}
  {
    var p' := Step(p, id, outcome, newId, now);
    if !outcome.NotFound? {
      assert SameExceptEvaluation(p.fs, p'.fs);
      EvaluationColumnsFree(moodles, activities, p.fs, p'.fs, ss, p.gs);
      if outcome.Graded? {
        Grades.UpsertKeepsUnique(p.gs, id, outcome.score, Some(outcome.comment), newId, now, true);
        Grades.UpsertKeepsLinked(p.gs, p'.fs, id, outcome.score, Some(outcome.comment), newId, now, true);
        Grades.UpsertTarget(p.gs, id, outcome.score, Some(outcome.comment), newId, now, true);
      }
    }
  }

  /** Rewriting evaluation columns twice rewrites only evaluation columns. */
  lemma SameExceptEvaluationTrans(a: map<string, FileSubmission>, b: map<string, FileSubmission>,
                                  c: map<string, FileSubmission>)
    requires SameExceptEvaluation(a, b) && SameExceptEvaluation(b, c)
    ensures SameExceptEvaluation(a, c)
  {
    forall k | k in a
      ensures c[k] == a[k].(evalStatus := c[k].evalStatus, evalStartedAt := c[k].evalStartedAt, evalError := c[k].evalError)
    {
      assert b[k] == a[k].(evalStatus := b[k].evalStatus, evalStartedAt := b[k].evalStartedAt, evalError := b[k].evalError);
    }
  }

  /**
    The batch keeps the database consistent: it rewrites only evaluation
    columns, and its grade upserts keep one grade per submission.  The grade ids
    of later items stay unused.
  */
  lemma {:induction false} BatchKeepsConsistent(p0: Progress, moodles: map<string, Moodle>,
                                                activities: map<(string, string), Activity>,
                                                ss: map<string, StudentSubmission>, ids: seq<string>,
                                                results: seq<ItemOutcome>, newIds: seq<string>, now: int, n: nat)
    requires n <= |ids| == |results| == |newIds|
    requires Consistent(moodles, activities, p0.fs, ss, p0.gs)
    requires Distinct(newIds) && forall j :: 0 <= j < |newIds| ==> newIds[j] !in p0.gs
    ensures var p := Batch(p0, ids, results, newIds, now, n);
      && Consistent(moodles, activities, p.fs, ss, p.gs)
      && SameExceptEvaluation(p0.fs, p.fs)
      && (forall j :: n <= j < |newIds| ==> newIds[j] !in p.gs)
  {
    if n == 0 {
      assert SameExceptEvaluation(p0.fs, p0.fs);
    } else {
      BatchKeepsConsistent(p0, moodles, activities, ss, ids, results, newIds, now, n - 1);
      var p := Batch(p0, ids, results, newIds, now, n - 1);
      var outcome := Found(p.fs, ids[n - 1], results[n - 1]);
      StepKeepsConsistent(p, moodles, activities, ss, ids[n - 1], outcome, newIds[n - 1], now);
      var p' := Step(p, ids[n - 1], outcome, newIds[n - 1], now);
      assert p' == Batch(p0, ids, results, newIds, now, n);
      SameExceptEvaluationTrans(p0.fs, p.fs, p'.fs);
      forall j | n <= j < |newIds| ensures newIds[j] !in p'.gs {
        assert newIds[j] != newIds[n - 1];
      }
    }
  }

  /** A failing item never touches the grades or the counters, and a found id ends in 'error'. */
  lemma FailedStep(p: Progress, id: string, result: ItemOutcome, newId: string, now: int)
    requires result.Failed?
    ensures var p' := Step(p, id, Found(p.fs, id, result), newId, now);
      && p'.gs == p.gs && p'.created == p.created && p'.updated == p.updated && p'.fs.Keys == p.fs.Keys
      && (id in p.fs ==> p'.fs[id].evalStatus == Some(Error))
      && (forall k :: k in p.fs && k != id ==> p'.fs[k] == p.fs[k])
  {
  }

  /**
    When every item fails, the batch never touches a grade, and every id it
    finds ends in 'error'; unknown ids only add an error entry.
  */
  lemma {:induction false} FailedBatchNeverGrades(p0: Progress, ids: seq<string>, results: seq<ItemOutcome>,
                                                  newIds: seq<string>, now: int, n: nat)
    requires n <= |ids| == |results| == |newIds| && AllFailed(results)
    ensures var p := Batch(p0, ids, results, newIds, now, n);
      && p.gs == p0.gs && p.created == p0.created && p.updated == p0.updated
      && p.fs.Keys == p0.fs.Keys
      && forall j :: 0 <= j < n && ids[j] in p0.fs ==> p.fs[ids[j]].evalStatus == Some(Error)
  {
    if n > 0 {
      FailedBatchNeverGrades(p0, ids, results, newIds, now, n - 1);
      var p := Batch(p0, ids, results, newIds, now, n - 1);
      FailedStep(p, ids[n - 1], results[n - 1], newIds[n - 1], now);
    }
  }

  /** As written, the batch grades nothing, and every submission it finds ends in 'error'. */
  lemma AsWrittenBatchNeverGrades(p0: Progress, ids: seq<string>, setup: Setup, extracted: seq<Option<string>>,
                                  replies: seq<Lamb.HttpOutcome>, newIds: seq<string>, now: int)
    requires |ids| == |extracted| == |replies| == |newIds|
    ensures var p := Batch(p0, ids, Results(AsWritten, extracted, replies, setup), newIds, now, |ids|);
      && p.gs == p0.gs && p.created == p0.created && p.updated == p0.updated
      && p.fs.Keys == p0.fs.Keys
      && forall j :: 0 <= j < |ids| && ids[j] in p0.fs ==> p.fs[ids[j]].evalStatus == Some(Error)
  {
    AsWrittenResultsFail(extracted, replies, setup);
    FailedBatchNeverGrades(p0, ids, Results(AsWritten, extracted, replies, setup), newIds, now, |ids|);
  }

  /**
    process_evaluation_batch.  Per id, in list order: `extracted` is the text
    extracted from its file, `replies` the reply of LAMB and `newIds` the uuid a
    new grade would get.  Returns grades_created, grades_updated and errors.
  */
  method ProcessEvaluationBatch(db: Database, ids: seq<string>, rule: ItemRule, setup: Setup,
                                extracted: seq<Option<string>>, replies: seq<Lamb.HttpOutcome>,
                                newIds: seq<string>, now: int)
    returns (created: nat, updated: nat, errors: seq<(string, Json)>)
    requires db.Valid()
    requires |extracted| == |replies| == |newIds| == |ids|
    requires Distinct(newIds) && forall j :: 0 <= j < |newIds| ==> newIds[j] !in db.grades
    modifies db`fileSubs, db`grades
    ensures db.Valid()
    ensures Progress(db.fileSubs, db.grades, created, updated, errors)
         == Batch(Progress(old(db.fileSubs), old(db.grades), 0, 0, []), ids, Results(rule, extracted, replies, setup),
                  newIds, now, |ids|)
    ensures created + updated + |errors| == |ids|
  {
    var results := Results(rule, extracted, replies, setup);
    created, updated, errors := RunBatch(db, ids, results, newIds, now);
  }

  /** The loop of process_evaluation_batch over the items' results. */
  method RunBatch(db: Database, ids: seq<string>, results: seq<ItemOutcome>, newIds: seq<string>, now: int)
    returns (created: nat, updated: nat, errors: seq<(string, Json)>)
    requires db.Valid()
    requires |results| == |newIds| == |ids|
    requires Distinct(newIds) && forall j :: 0 <= j < |newIds| ==> newIds[j] !in db.grades
    modifies db`fileSubs, db`grades
    ensures db.Valid()
    ensures Progress(db.fileSubs, db.grades, created, updated, errors)
         == Batch(Progress(old(db.fileSubs), old(db.grades), 0, 0, []), ids, results, newIds, now, |ids|)
    ensures created + updated + |errors| == |ids|
  {
    ghost var p0 := Progress(db.fileSubs, db.grades, 0, 0, []);
    created, updated, errors := 0, 0, [];
    var i := 0;
    while i < |ids|
      invariant 0 <= i <= |ids|
      invariant Progress(db.fileSubs, db.grades, created, updated, errors) == Batch(p0, ids, results, newIds, now, i)
      invariant db.moodles == old(db.moodles) && db.activities == old(db.activities)
      invariant db.studentSubs == old(db.studentSubs)
    {
      BatchKeepsConsistent(p0, db.moodles, db.activities, db.studentSubs, ids, results, newIds, now, i);
      ghost var p := Batch(p0, ids, results, newIds, now, i);
      assert db.Valid();
      var outcome := if ids[i] !in db.fileSubs then NotFound else results[i];
      assert outcome == Found(p.fs, ids[i], results[i]);
      created, updated, errors := ApplyOutcome(db, ids[i], outcome, newIds[i], now, created, updated, errors);
      assert Batch(p0, ids, results, newIds, now, i + 1) == Step(p, ids[i], outcome, newIds[i], now);
      i := i + 1;
    }
    BatchKeepsConsistent(p0, db.moodles, db.activities, db.studentSubs, ids, results, newIds, now, |ids|);
    BatchCounts(p0, ids, results, newIds, now, |ids|);
  }

  /** The body of the batch loop: record how the item for `id` ended. */
  method ApplyOutcome(db: Database, id: string, outcome: ItemOutcome, newId: string, now: int,
                      created: nat, updated: nat, errors: seq<(string, Json)>)
    returns (created': nat, updated': nat, errors': seq<(string, Json)>)
    requires db.Valid() && newId !in db.grades
    requires outcome.NotFound? || id in db.fileSubs
    modifies db`fileSubs, db`grades
    ensures Progress(db.fileSubs, db.grades, created', updated', errors')
         == Step(Progress(old(db.fileSubs), old(db.grades), created, updated, errors), id, outcome, newId, now)
  {
    created', updated', errors' := created, updated, errors;
    match outcome {
      case NotFound =>
        errors' := errors + [(id, JStr("Submission not found"))];
      case Failed(evalError, entryError) =>
        db.fileSubs := db.fileSubs[id := Finished(db.fileSubs[id], Error, Some(evalError), now)];
        errors' := errors + [(id, entryError)];
      case Graded(score, comment) =>
        var existing := FindGrade(db, id);
        match existing {
          case Some(g) =>
            Grades.GradeOfStoredUnderId(db.grades, id);
            db.grades := db.grades[g.id := Grades.Revised(g, score, Some(comment), now, true)];
            updated' := updated + 1;
          case None =>
            db.grades := db.grades[newId := Grade(newId, id, score, Some(comment), now)];
            created' := created + 1;
        }
        db.fileSubs := db.fileSubs[id := Finished(db.fileSubs[id], Completed, None, now)];
    }
  }

  // ---------------------------------------------------------------- reset_stuck_evaluations

  /** Processing for the activity and started before now − 5 minutes (a missing start time never qualifies). */
  predicate Stuck(f: FileSubmission, activityId: string, activityMoodleId: string, now: int) {
    f.activityId == activityId && f.activityMoodleId == activityMoodleId
    && f.evalStatus == Some(Processing) && f.evalStartedAt.Some? && TimedOut(f.evalStartedAt.value, now)
  }

  function MarkTimedOut(f: FileSubmission): FileSubmission {
    f.(evalStatus := Some(Error), evalError := Some("Evaluation timed out"))
  }

  /**
    The table with every stuck row of the activity marked as timed out: the
    same rows, the others unchanged, and none of the activity stuck afterwards.
  */
  function ResetStuck(fs: map<string, FileSubmission>, activityId: string, activityMoodleId: string, now: int)
    : (r: map<string, FileSubmission>)
    ensures r.Keys == fs.Keys
    ensures forall k :: k in fs && !Stuck(fs[k], activityId, activityMoodleId, now) ==> r[k] == fs[k]
    ensures forall k :: k in fs && Stuck(fs[k], activityId, activityMoodleId, now) ==>
              r[k].evalStatus == Some(Error) && r[k].evalError == Some("Evaluation timed out")
    ensures StuckKeys(r, activityId, activityMoodleId, now) == {}
  {
    map k | k in fs :: if Stuck(fs[k], activityId, activityMoodleId, now) then MarkTimedOut(fs[k]) else fs[k]
  }

  /** The keys of the stuck rows. */
  function StuckKeys(fs: map<string, FileSubmission>, activityId: string, activityMoodleId: string, now: int)
    : set<string>
  {
    set k | k in fs && Stuck(fs[k], activityId, activityMoodleId, now)
  }

  /**
    reset_stuck_evaluations; `order` is the order in which the query returns the
    stuck rows.  Returns how many rows were reset.
  */
  method ResetStuckEvaluations(db: Database, activityId: string, activityMoodleId: string, now: int,
                               order: seq<string>)
    returns (count: nat)
    requires db.Valid()
    requires Distinct(order)
    requires forall k :: k in order <==> k in db.fileSubs && Stuck(db.fileSubs[k], activityId, activityMoodleId, now)
    modifies db`fileSubs
    ensures db.Valid()
    ensures db.fileSubs == ResetStuck(old(db.fileSubs), activityId, activityMoodleId, now)
    ensures count == |StuckKeys(old(db.fileSubs), activityId, activityMoodleId, now)|
  {
    var fs0 := db.fileSubs;
    count := 0;
    var i := 0;
    while i < |order|
      invariant 0 <= i <= |order|
      invariant count == i
      invariant db.fileSubs == map k | k in fs0 :: if k in order[..i] then MarkTimedOut(fs0[k]) else fs0[k]
    {
      assert order[..i + 1] == order[..i] + [order[i]];
      db.fileSubs := db.fileSubs[order[i] := MarkTimedOut(fs0[order[i]])];
      count := count + 1;
      i := i + 1;
    }
    assert order[..|order|] == order;
    assert StuckKeys(fs0, activityId, activityMoodleId, now) == set x | x in order;
    DistinctCard(order);
    assert SameExceptEvaluation(fs0, db.fileSubs);
    EvaluationColumnsFree(db.moodles, db.activities, fs0, db.fileSubs, db.studentSubs, db.grades);
  }

  /** Since nothing of the activity is stuck after the sweep, a second sweep changes nothing. */
  lemma ResetIdempotent(fs: map<string, FileSubmission>, activityId: string, activityMoodleId: string, now: int)
    ensures ResetStuck(ResetStuck(fs, activityId, activityMoodleId, now), activityId, activityMoodleId, now)
         == ResetStuck(fs, activityId, activityMoodleId, now)
  {
  }

  /**
    The sweep does not change what the status report counts as an error: a row
    reported as "timeout" before is reported as "error" after, and every other
    row of the activity keeps its reported status.
  */
  lemma ResetKeepsReportedFailures(f: FileSubmission, activityId: string, activityMoodleId: string, now: int)
    requires f.activityId == activityId && f.activityMoodleId == activityMoodleId
    ensures var f' := if Stuck(f, activityId, activityMoodleId, now) then MarkTimedOut(f) else f;
      && (IsFailure(ReportedStatus(f', now)) <==> IsFailure(ReportedStatus(f, now)))
      && (ReportedStatus(f, now) != Timeout ==> ReportedStatus(f', now) == ReportedStatus(f, now))
  {
  }

  // ---------------------------------------------------------------- clear_evaluation_status

  function Clear(f: FileSubmission): FileSubmission {
    f.(evalStatus := None, evalStartedAt := None, evalError := None)
  }

  /** The table with the evaluation columns of the rows in `ids` cleared. */
  function Cleared(fs: map<string, FileSubmission>, ids: seq<string>): map<string, FileSubmission> {
    map k | k in fs :: if k in ids then Clear(fs[k]) else fs[k]
  }

  /** clear_evaluation_status: one bulk update; returns how many rows it matched. */
  method ClearEvaluationStatus(db: Database, ids: seq<string>) returns (count: nat)
    requires db.Valid()
    modifies db`fileSubs
    ensures db.Valid()
    ensures db.fileSubs == Cleared(old(db.fileSubs), ids)
    ensures count == |set k | k in old(db.fileSubs) && k in ids|
  {
    var fs0 := db.fileSubs;
    count := |set k | k in db.fileSubs && k in ids|;
    db.fileSubs := Cleared(db.fileSubs, ids);
    assert SameExceptEvaluation(fs0, db.fileSubs);
    EvaluationColumnsFree(db.moodles, db.activities, fs0, db.fileSubs, db.studentSubs, db.grades);
  }

  /** A cleared row is reported as not started and is queued by the next start. */
  lemma ClearedRestarts(f: FileSubmission, now: int)
    ensures ReportedStatus(Clear(f), now) == NotStarted
    ensures !Busy(Clear(f), now)
    ensures Busy(MarkPending(Clear(f), now), now)
  {
  }
}

=== FILE: extractor.dfy ===
/**
  Text extraction from uploaded documents (backend/document_extractor.py).  The
  document libraries are not modelled: a file is given as what each reader
  would see in it (the text of each PDF page, the DOCX paragraphs and table
  cells, the file decoded as UTF-8 or Latin-1), with None where that reader
  raises.  Which libraries are installed is a parameter.
*/
module Extractor {
  import opened Wrappers
  import Text

  /** The body of a DOCX document: its paragraphs, then its tables as rows of cells. */
  datatype DocxBody = DocxBody(paragraphs: seq<string>, tables: seq<seq<seq<string>>>)

  /** Reading the file as text: its UTF-8 decoding, a UnicodeDecodeError, or any other failure. */
  datatype TextRead = Decoded(text: string) | NotUtf8 | Unreadable

  /** What each reader finds in a file. */
  datatype FileData = FileData(
    pdfPages: Option<seq<string>>,
    docx: Option<DocxBody>,
    utf8: TextRead,
    latin1: Option<string>)

  /** Whether pypdf and python-docx could be imported. */
  datatype Libraries = Libraries(pdf: bool, docx: bool)

  /** The reader extract_text_from_file picks for an extension. */
  datatype Reader = PdfReader | DocxReader | PlainReader | NoReader

  // ------------------------------------------------------------------ os.path.splitext

  /** The index of the last `c` in `s`, or -1. */
  function LastIndexOf(s: string, c: char): (r: int)
    ensures -1 <= r < |s|
    ensures r >= 0 ==> s[r] == c
    ensures forall i :: r < i < |s| ==> s[i] != c
  {
    if s == [] then -1
    else if s[|s| - 1] == c then |s| - 1
    else LastIndexOf(s[..|s| - 1], c)
  }

  /** Whether some character of s[from..to] differs from '.'. */
  predicate HasNonDot(s: string, from: int, to: int)
    requires 0 <= from && to <= |s|
  {
    exists i :: from <= i < to && s[i] != '.'
  }

  /**
    os.path.splitext(path)[1]: from the last '.' of the last path component to
    the end, unless that component has nothing but dots before it.
  */
  function Extension(path: string): (r: string)
    ensures r == [] || (r[0] == '.' && '/' !in r && '.' !in r[1..])
    ensures |r| <= |path| && r == path[|path| - |r|..]
  {
    var sep := LastIndexOf(path, '/');
    var dot := LastIndexOf(path, '.');
    if dot > sep && HasNonDot(path, sep + 1, dot) then
      assert forall i :: 0 <= i < |path[dot..]| ==> path[dot..][i] == path[dot + i];
      path[dot..]
    else []
  }

  // ------------------------------------------------------------------ dispatch

  /** The readers by lowercased extension. */
  function ReaderFor(ext: string): (r: Reader)
    ensures r == PdfReader <==> Text.Lower(ext) == ".pdf"
    ensures r == DocxReader <==> Text.Lower(ext) in [".docx", ".doc"]
  {
    var e := Text.Lower(ext);
    if e == ".pdf" then PdfReader
    else if e in [".docx", ".doc"] then DocxReader
    else if e in [".txt", ".md", ".py", ".java", ".cpp", ".c", ".js", ".html", ".css", ".json", ".xml"] then PlainReader
    else NoReader
  }

  /** The dispatch ignores the case of the extension. */
  lemma ReaderIgnoresCase(ext: string)
    ensures ReaderFor(Text.Upper(ext)) == ReaderFor(ext)
    ensures ReaderFor(Text.Lower(ext)) == ReaderFor(ext)
  {
    Text.LowerOfUpper(ext);
    Text.LowerIdempotent(ext);
  }

  // ------------------------------------------------------------------ readers

  /** The parts of `xs` that `keep` accepts, in order. */
  function Kept(xs: seq<string>, keep: string -> bool): (r: seq<string>)
    ensures |r| <= |xs|
  {
    if xs == [] then []
    else Kept(xs[..|xs| - 1], keep) + (if keep(xs[|xs| - 1]) then [xs[|xs| - 1]] else [])
  }

  /** Every kept part is accepted. */
  lemma {:induction false} KeptAccepted(xs: seq<string>, keep: string -> bool)
    ensures forall i :: 0 <= i < |Kept(xs, keep)| ==> keep(Kept(xs, keep)[i])
  {
    if xs != [] {
      KeptAccepted(xs[..|xs| - 1], keep);
    }
  }

  lemma {:induction false} KeptAppend(xs: seq<string>, ys: seq<string>, keep: string -> bool)
    ensures Kept(xs + ys, keep) == Kept(xs, keep) + Kept(ys, keep)
    decreases |ys|
  {
    if ys == [] {
      assert xs + ys == xs;
    } else {
      var n := |ys| - 1;
      assert (xs + ys)[..|xs + ys| - 1] == xs + ys[..n];
      KeptAppend(xs, ys[..n], keep);
    }
  }

  /** Nothing is kept exactly when no part is acceptable. */
  lemma {:induction false} KeptEmpty(xs: seq<string>, keep: string -> bool)
    ensures Kept(xs, keep) == [] <==> forall i :: 0 <= i < |xs| ==> !keep(xs[i])
  {
    if xs != [] {
      var n := |xs| - 1;
      KeptEmpty(xs[..n], keep);
      assert forall i :: 0 <= i < n ==> xs[..n][i] == xs[i];
    }
  }

  /** `if text:` on a page's text */
  predicate NonEmpty(s: string) {
    s != ""
  }

  /** `if paragraph.text.strip():` */
  predicate NotBlank(s: string) {
    Text.Strip(s) != ""
  }

  /** '\n'.join(parts), stripped, with an empty join giving None. */
  function Joined(parts: seq<string>): (r: Option<string>)
    ensures r.Some? ==> Text.Strip(r.value) == r.value
  {
    var full := Text.Join(parts, "\n");
    Text.StripByIdempotent(full, Text.IsSpace);
    if full == "" then None else Some(Text.Strip(full))
  }

  /** The text of a PDF: the non-empty page texts joined with newlines. */
  function PdfText(libs: Libraries, pages: Option<seq<string>>): Option<string> {
    if !libs.pdf || pages.None? then None else Joined(Kept(pages.value, NonEmpty))
  }

  /** The cells of the tables, row by row. */
  function Cells(tables: seq<seq<seq<string>>>): seq<string> {
    if tables == [] then [] else Cells(tables[..|tables| - 1]) + RowCells(tables[|tables| - 1])
  }

  function RowCells(rows: seq<seq<string>>): seq<string> {
    if rows == [] then [] else RowCells(rows[..|rows| - 1]) + rows[|rows| - 1]
  }

  /** The text of a DOCX document: its non-blank paragraphs, then its non-blank cells. */
  function DocxText(libs: Libraries, body: Option<DocxBody>): Option<string> {
    if !libs.docx || body.None? then None
    else Joined(Kept(body.value.paragraphs, NotBlank) + Kept(Cells(body.value.tables), NotBlank))
  }

  /** The text of a plain file: UTF-8, else Latin-1 after a decoding error; stripped, None when empty. */
  function PlainText(data: FileData): (r: Option<string>)
    ensures r.Some? ==> Text.Strip(r.value) == r.value
    ensures data.utf8 == Decoded("") ==> r.None?
  {
    match data.utf8
    case Decoded(t) =>
      Text.StripByIdempotent(t, Text.IsSpace);
      if t == "" then None else Some(Text.Strip(t))
    case Unreadable => None
    case NotUtf8 =>
      if data.latin1.None? || data.latin1.value == "" then None
      else Text.StripByIdempotent(data.latin1.value, Text.IsSpace); Some(Text.Strip(data.latin1.value))
  }

  /**
    extract_text_from_file for a file `present` says is there (or not) and whose
    readers see `data`. A missing file, an unsupported extension and an empty
    text file give None; any text returned is already stripped.
  */
  function ExtractText(libs: Libraries, path: string, present: bool, data: FileData): (r: Option<string>)
    ensures !present ==> r.None?
    ensures ReaderFor(Extension(path)) == NoReader ==> r.None?
    ensures ReaderFor(Extension(path)) == PlainReader && data.utf8 == Decoded("") ==> r.None?
    ensures r.Some? ==> Text.Strip(r.value) == r.value
  {
    if !present then None
    else
      match ReaderFor(Extension(path))
      case PdfReader => PdfText(libs, data.pdfPages)
      case DocxReader => DocxText(libs, data.docx)
      case PlainReader => PlainText(data)
      case NoReader => None
  }

  /** A join of non-empty parts is None exactly when there is nothing to join. */
  lemma JoinedFacts(parts: seq<string>)
    requires forall i :: 0 <= i < |parts| ==> parts[i] != ""
    ensures Joined(parts).None? <==> parts == []
  {
    if parts != [] {
      JoinNonEmpty(parts);
    }
  }

  lemma JoinNonEmpty(parts: seq<string>)
    requires parts != [] && parts[0] != ""
    ensures Text.Join(parts, "\n") != ""
  {
    if |parts| > 1 {
      assert Text.Join(parts, "\n")[0] == parts[0][0];
    }
  }

  /** A PDF gives None exactly when pypdf is missing, raises, or finds no text on any page. */
  lemma PdfNoneIff(libs: Libraries, pages: Option<seq<string>>)
    ensures PdfText(libs, pages).None? <==>
      !libs.pdf || pages.None? || forall i :: 0 <= i < |pages.value| ==> pages.value[i] == ""
  {
    if libs.pdf && pages.Some? {
      KeptEmpty(pages.value, NonEmpty);
      KeptAccepted(pages.value, NonEmpty);
      JoinedFacts(Kept(pages.value, NonEmpty));
    }
  }

  // ------------------------------------------------------------------ the loops

  /** Appends to `parts` the elements of `xs` that `keep` accepts, in order. */
  method AppendKept(parts: seq<string>, xs: seq<string>, keep: string -> bool) returns (r: seq<string>)
    ensures r == parts + Kept(xs, keep)
  {
    r := parts;
    var i := 0;
    while i < |xs|
      invariant 0 <= i <= |xs|
      invariant r == parts + Kept(xs[..i], keep)
    {
      assert xs[..i + 1][..i] == xs[..i];
      if keep(xs[i]) {
        r := r + [xs[i]];
      }
      i := i + 1;
    }
    assert xs[..|xs|] == xs;
  }

  /** _extract_from_pdf */
  method ExtractFromPdf(libs: Libraries, pages: Option<seq<string>>) returns (r: Option<string>)
    ensures r == PdfText(libs, pages)
  {
    if !libs.pdf || pages.None? {
      return None;
    }
    var parts := AppendKept([], pages.value, NonEmpty);
    assert parts == Kept(pages.value, NonEmpty);
    var full := Text.Join(parts, "\n");
    r := if full != "" then Some(Text.Strip(full)) else None;
  }

  /** The table loop of _extract_from_docx: every table in turn. */
  method AppendTableCells(parts: seq<string>, tables: seq<seq<seq<string>>>) returns (r: seq<string>)
    ensures r == parts + Kept(Cells(tables), NotBlank)
  {
    r := parts;
    var t := 0;
    while t < |tables|
      invariant 0 <= t <= |tables|
      invariant r == parts + Kept(Cells(tables[..t]), NotBlank)
    {
      TableStep(parts, tables, t);
      r := AppendRowCells(r, tables[t]);
      t := t + 1;
    }
    assert tables[..|tables|] == tables;
  }

  lemma RowStep(parts: seq<string>, rows: seq<seq<string>>, k: nat)
    requires k < |rows|
    ensures parts + Kept(RowCells(rows[..k]), NotBlank) + Kept(rows[k], NotBlank)
         == parts + Kept(RowCells(rows[..k + 1]), NotBlank)
  {
    RowCellsSnoc(rows, k);
    KeptAppend(RowCells(rows[..k]), rows[k], NotBlank);
    AppendAssoc(parts, Kept(RowCells(rows[..k]), NotBlank), Kept(rows[k], NotBlank));
  }

  lemma TableStep(parts: seq<string>, tables: seq<seq<seq<string>>>, t: nat)
    requires t < |tables|
    ensures parts + Kept(Cells(tables[..t]), NotBlank) + Kept(RowCells(tables[t]), NotBlank)
         == parts + Kept(Cells(tables[..t + 1]), NotBlank)
  {
    CellsSnoc(tables, t);
    KeptAppend(Cells(tables[..t]), RowCells(tables[t]), NotBlank);
    AppendAssoc(parts, Kept(Cells(tables[..t]), NotBlank), Kept(RowCells(tables[t]), NotBlank));
  }

  lemma RowCellsSnoc(rows: seq<seq<string>>, k: nat)
    requires k < |rows|
    ensures RowCells(rows[..k + 1]) == RowCells(rows[..k]) + rows[k]
  {
    assert rows[..k + 1][..k] == rows[..k];
  }

  lemma CellsSnoc(tables: seq<seq<seq<string>>>, t: nat)
    requires t < |tables|
    ensures Cells(tables[..t + 1]) == Cells(tables[..t]) + RowCells(tables[t])
  {
    assert tables[..t + 1][..t] == tables[..t];
  }

  lemma AppendAssoc(p: seq<string>, x: seq<string>, y: seq<string>)
    ensures p + x + y == p + (x + y)
  {
  }

  /** The row loop of _extract_from_docx: every cell of every row of one table. */
  method AppendRowCells(parts: seq<string>, rows: seq<seq<string>>) returns (r: seq<string>)
    ensures r == parts + Kept(RowCells(rows), NotBlank)
  {
    r := parts;
    var k := 0;
    while k < |rows|
      invariant 0 <= k <= |rows|
      invariant r == parts + Kept(RowCells(rows[..k]), NotBlank)
    {
      RowStep(parts, rows, k);
      r := AppendKept(r, rows[k], NotBlank);
      k := k + 1;
    }
    assert rows[..|rows|] == rows;
  }

  /** _extract_from_docx */
  method ExtractFromDocx(libs: Libraries, body: Option<DocxBody>) returns (r: Option<string>)
    ensures r == DocxText(libs, body)
  {
    if !libs.docx || body.None? {
      return None;
    }
    var parts := AppendKept([], body.value.paragraphs, NotBlank);
    assert parts == Kept(body.value.paragraphs, NotBlank);
    parts := AppendTableCells(parts, body.value.tables);
    var full := Text.Join(parts, "\n");
    r := if full != "" then Some(Text.Strip(full)) else None;
  }

  /** _extract_from_text: UTF-8 first, Latin-1 when that raises a decoding error. */
  method ExtractFromText(data: FileData) returns (r: Option<string>)
    ensures r == PlainText(data)
    ensures r.Some? ==> Text.Strip(r.value) == r.value
  {
    var text: string;
    match data.utf8 {
      case Decoded(t) =>
        text := t;
      case Unreadable =>
        return None;
      case NotUtf8 =>
        if data.latin1.None? {
          return None;
        }
        text := data.latin1.value;
    }
    r := if text != "" then Some(Text.Strip(text)) else None;
    Text.StripByIdempotent(text, Text.IsSpace);
  }

  /** extract_text_from_file */
  method ExtractTextFromFile(libs: Libraries, path: string, present: bool, data: FileData) returns (r: Option<string>)
    ensures r == ExtractText(libs, path, present, data)
  {
    if !present {
      return None;
    }
    var ext := Text.Lower(Extension(path));
    if ext == ".pdf" {
      r := ExtractFromPdf(libs, data.pdfPages);
    } else if ext in [".docx", ".doc"] {
      r := ExtractFromDocx(libs, data.docx);
    } else if ext in [".txt", ".md", ".py", ".java", ".cpp", ".c", ".js", ".html", ".css", ".json", ".xml"] {
      r := ExtractFromText(data);
    } else {
      r := None;
    }
  }

  // ------------------------------------------------------------------ get_text_preview

  /** text[:n] with Python's reading of a negative n (counted from the end). */
  function PrefixTo(s: string, n: int): (r: string)
    ensures |r| <= |s|
  {
    if n >= 0 then (if n <= |s| then s[..n] else s)
    else if |s| + n >= 0 then s[..|s| + n] else []
  }

  /** get_text_preview */
  function Preview(text: string, maxLength: int): (r: string)
    ensures text == "" ==> r == ""
    ensures |text| <= maxLength ==> r == text
    ensures text != "" && |text| > maxLength ==> r == PrefixTo(text, maxLength) + "..."
    ensures 0 <= maxLength < |text| ==> |r| == maxLength + 3 && r[..maxLength] == text[..maxLength]
  {
    if text == "" then ""
    else if |text| <= maxLength then text
    else PrefixTo(text, maxLength) + "..."
  }

  /** The default preview length. */
  const PreviewLength := 500

  /** A preview is at most three characters longer than the length, and is the text itself unless that is longer. */
  lemma PreviewShortens(text: string, maxLength: int)
    requires maxLength >= 0
    ensures |Preview(text, maxLength)| <= maxLength + 3
    ensures Text.StartsWith(text, Preview(text, maxLength)) || |text| > maxLength
  {
  }

  /** A preview of a preview is the preview: the dots never trigger a second cut. */
  lemma PreviewIdempotent(text: string, maxLength: int)
    requires maxLength >= 0
    ensures Preview(Preview(text, maxLength), maxLength) == Preview(text, maxLength)
  {
  }
}

=== FILE: grades.dfy ===
/**
  backend/grade_service.py: writing a grade for a file submission (an upsert that
  never makes a second grade for the same submission) and the automatic
  evaluation of an activity's ungraded submissions through LAMB.
*/
module Grades {
  import opened Wrappers
  import opened Json
  import opened Store
  import Text
  import Lamb

  // ---------------------------------------------------------------- the upsert

  /** The existing grade with its score and comment replaced; `restamp` also moves created_at to `now`. */
  function Revised(g: Grade, score: real, comment: Option<string>, now: int, restamp: bool): Grade {
    g.(score := score, comment := comment, createdAt := if restamp then now else g.createdAt)
  }

  /**
    The grades table after writing (score, comment) for file submission `fid`:
    its existing grade is revised in place, or a grade with id `newId` is added.
    No row is removed, no row other than `newId` is added, and (when keys match
    ids and `newId` is fresh) the grades of other submissions are untouched.
  */
  ghost function Upsert(gs: map<string, Grade>, fid: string, score: real, comment: Option<string>,
                        newId: string, now: int, restamp: bool): (r: map<string, Grade>)
    ensures gs.Keys <= r.Keys
    ensures GradeKeysMatch(gs) ==> r.Keys <= gs.Keys + {newId}
    ensures GradeKeysMatch(gs) && GradeOf(gs, fid).Some? ==> r.Keys == gs.Keys
    ensures GradeKeysMatch(gs) && newId !in gs ==>
              forall k :: k in gs && gs[k].fileSubmissionId != fid ==> r[k] == gs[k]
  {
    match GradeOf(gs, fid)
    case Some(g) =>
      assert GradeKeysMatch(gs) ==> g.id in gs && gs[g.id] == g by {
        if GradeKeysMatch(gs) {
          GradeOfStoredUnderId(gs, fid);
        }
      }
      gs[g.id := Revised(g, score, comment, now, restamp)]
    case None => gs[newId := Grade(newId, fid, score, comment, now)]
  }

  /** A grade found by GradeOf is stored under its own id. */
  lemma GradeOfStoredUnderId(gs: map<string, Grade>, fid: string)
    requires GradeKeysMatch(gs)
    requires GradeOf(gs, fid).Some?
    ensures GradeOf(gs, fid).value.id in gs && gs[GradeOf(gs, fid).value.id] == GradeOf(gs, fid).value
  {
    var g := GradeOf(gs, fid).value;
    var k :| k in gs && gs[k] == g;
  }

  /** The upsert keeps keys matching ids and one grade per submission. */
  lemma UpsertKeepsUnique(gs: map<string, Grade>, fid: string, score: real, comment: Option<string>,
                          newId: string, now: int, restamp: bool)
    requires GradeKeysMatch(gs) && OneGradePerFile(gs) && newId !in gs
    ensures var gs' := Upsert(gs, fid, score, comment, newId, now, restamp);
      GradeKeysMatch(gs') && OneGradePerFile(gs')
  {
    if GradeOf(gs, fid).Some? {
      GradeOfStoredUnderId(gs, fid);
    }
  }

  /** The upsert of an existing submission's grade keeps every grade pointing at an existing submission. */
  lemma UpsertKeepsLinked(gs: map<string, Grade>, fs: map<string, FileSubmission>, fid: string, score: real,
                          comment: Option<string>, newId: string, now: int, restamp: bool)
    requires GradeKeysMatch(gs) && GradesLinked(gs, fs) && fid in fs
    ensures GradesLinked(Upsert(gs, fid, score, comment, newId, now, restamp), fs)
  {
    if GradeOf(gs, fid).Some? {
      GradeOfStoredUnderId(gs, fid);
    }
  }

  /**
    What the upsert leaves behind for `fid`: a grade with the new score and
    comment, keeping the old grade's id (and, unless restamped, its created_at)
    and adding no row, or else a new row with id `newId`.
  */
  lemma UpsertTarget(gs: map<string, Grade>, fid: string, score: real, comment: Option<string>,
                     newId: string, now: int, restamp: bool)
    requires GradeKeysMatch(gs) && OneGradePerFile(gs) && newId !in gs
    ensures var gs' := Upsert(gs, fid, score, comment, newId, now, restamp);
      && GradeOf(gs', fid).Some?
      && GradeOf(gs', fid).value.score == score && GradeOf(gs', fid).value.comment == comment
      && (GradeOf(gs, fid).Some? ==>
            && GradeOf(gs', fid).value.id == GradeOf(gs, fid).value.id
            && GradeOf(gs', fid).value.createdAt == (if restamp then now else GradeOf(gs, fid).value.createdAt)
            && gs'.Keys == gs.Keys)
      && (GradeOf(gs, fid).None? ==>
            GradeOf(gs', fid) == Some(Grade(newId, fid, score, comment, now)) && gs'.Keys == gs.Keys + {newId})
  {
    var gs' := Upsert(gs, fid, score, comment, newId, now, restamp);
    match GradeOf(gs, fid)
    case Some(g) =>
      GradeOfStoredUnderId(gs, fid);
      UpsertKeepsUnique(gs, fid, score, comment, newId, now, restamp);
      GradeOfUnique(gs', fid, g.id);
    case None =>
      UpsertKeepsUnique(gs, fid, score, comment, newId, now, restamp);
      GradeOfUnique(gs', fid, newId);
  }

  /** The upsert leaves the grade of every other file submission as it was. */
  lemma UpsertOthers(gs: map<string, Grade>, fid: string, score: real, comment: Option<string>,
                     newId: string, now: int, restamp: bool, other: string)
    requires GradeKeysMatch(gs) && OneGradePerFile(gs) && newId !in gs && other != fid
    ensures GradeOf(Upsert(gs, fid, score, comment, newId, now, restamp), other) == GradeOf(gs, other)
  {
    var gs' := Upsert(gs, fid, score, comment, newId, now, restamp);
    if GradeOf(gs, fid).Some? {
      GradeOfStoredUnderId(gs, fid);
    }
    UpsertKeepsUnique(gs, fid, score, comment, newId, now, restamp);
    match GradeOf(gs, other)
    case Some(g) =>
      GradeOfStoredUnderId(gs, other);
      assert gs'[g.id] == g;
      GradeOfUnique(gs', other, g.id);
    case None =>
      assert forall k :: k in gs' ==> gs'[k].fileSubmissionId != other;
  }

  /**
    The upsert both create_grade and create_or_update_grade perform; `missing` is
    the message raised when the file submission does not exist.
  */
  method WriteGrade(db: Database, fid: string, score: real, comment: Option<string>, newId: string, now: int,
                    missing: string)
    returns (r: Result<Grade, string>)
    requires db.Valid() && newId !in db.grades
    modifies db`grades
    ensures db.Valid()
    ensures fid !in db.fileSubs ==> r == Err(missing) && db.grades == old(db.grades)
    ensures fid in db.fileSubs ==>
      r.Ok? && db.grades == Upsert(old(db.grades), fid, score, comment, newId, now, false)
      && GradeOf(db.grades, fid) == Some(r.value)
  {
    if fid !in db.fileSubs {
      return Err(missing);
    }
    var existing := FindGrade(db, fid);
    UpsertKeepsUnique(db.grades, fid, score, comment, newId, now, false);
    UpsertKeepsLinked(db.grades, db.fileSubs, fid, score, comment, newId, now, false);
    UpsertTarget(db.grades, fid, score, comment, newId, now, false);
    match existing
    case Some(g) =>
      GradeOfStoredUnderId(db.grades, fid);
      var revised := Revised(g, score, comment, now, false);
      db.grades := db.grades[g.id := revised];
      r := Ok(revised);
    case None =>
      var added := Grade(newId, fid, score, comment, now);
      db.grades := db.grades[newId := added];
      r := Ok(added);
  }

  /** create_grade: the upsert, raising ValueError("File submission not found") for an unknown submission. */
  method CreateGrade(db: Database, fid: string, score: real, comment: Option<string>, newId: string, now: int)
    returns (r: Result<Grade, string>)
    requires db.Valid() && newId !in db.grades
    modifies db`grades
    ensures db.Valid()
    ensures fid !in db.fileSubs ==> r == Err("File submission not found") && db.grades == old(db.grades)
    ensures fid in db.fileSubs ==>
      r.Ok? && db.grades == Upsert(old(db.grades), fid, score, comment, newId, now, false)
      && GradeOf(db.grades, fid) == Some(r.value)
  {
    r := WriteGrade(db, fid, score, comment, newId, now, "File submission not found");
  }

  /** create_or_update_grade: the upsert, raising FileNotFoundError("Entrega no encontrada") for an unknown submission. */
  method CreateOrUpdateGrade(db: Database, fid: string, score: real, comment: Option<string>, newId: string, now: int)
    returns (r: Result<Grade, string>)
    requires db.Valid() && newId !in db.grades
    modifies db`grades
    ensures db.Valid()
    ensures fid !in db.fileSubs ==> r == Err("Entrega no encontrada") && db.grades == old(db.grades)
    ensures fid in db.fileSubs ==>
      r.Ok? && db.grades == Upsert(old(db.grades), fid, score, comment, newId, now, false)
      && GradeOf(db.grades, fid) == Some(r.value)
  {
    r := WriteGrade(db, fid, score, comment, newId, now, "Entrega no encontrada");
  }

  // ---------------------------------------------------------------- _evaluate_with_lamb

  /** max(0.0, min(10.0, score)) */
  function Clamp(score: real): (r: real)
    ensures 0.0 <= r <= 10.0
    ensures 0.0 <= score <= 10.0 ==> r == score
    ensures score < 0.0 ==> r == 0.0
    ensures score > 10.0 ==> r == 10.0
  {
    if score < 0.0 then 0.0 else if score > 10.0 then 10.0 else score
  }

  /** `not text or not text.strip()` */
  predicate Blank(extracted: Option<string>) {
    extracted.None? || Text.Strip(extracted.value) == ""
  }

  const NoTextComment := "No se pudo extraer texto del documento para evaluar. Verifica el formato del archivo."

  /**
    _evaluate_with_lamb for a submission whose extracted text is `extracted` and
    whose call to LAMB ended in `reply`: (score, comment), or the message of the
    TypeError the clamp raises when the reply carries no score.
  */
  function EvaluateWithLamb(extracted: Option<string>, evaluatorId: string, lambTimeout: int,
                            reply: Lamb.HttpOutcome, repr: Json -> string): (r: Result<(real, string), string>)
    ensures r.Ok? ==> 0.0 <= r.value.0 <= 10.0
  {
    if Blank(extracted) then Ok((5.0, NoTextComment))
    else
      match Lamb.EvaluateText(evaluatorId, None, lambTimeout, reply, repr)
      case LambFailed(error) => Ok((5.0, "Error en la evaluación automática: " + error))
      case Evaluated(response, _) =>
        var parsed := Lamb.ParseEvaluationResponse(response, repr);
        if parsed.score.None? then Err("'<' not supported between instances of 'NoneType' and 'float'")
        else Ok((Clamp(parsed.score.value), parsed.comment))
  }

  /**
    The evaluation raises exactly when there is text, LAMB answers, and its
    answer carries no score.
  */
  lemma EvaluateWithLambRaises(extracted: Option<string>, evaluatorId: string, lambTimeout: int,
                               reply: Lamb.HttpOutcome, repr: Json -> string)
    ensures EvaluateWithLamb(extracted, evaluatorId, lambTimeout, reply, repr).Err? <==>
      && !Blank(extracted)
      && Lamb.EvaluateText(evaluatorId, None, lambTimeout, reply, repr).Evaluated?
      && Lamb.ParseEvaluationResponse(Lamb.EvaluateText(evaluatorId, None, lambTimeout, reply, repr).response, repr).score.None?
  {
  }

  /** The clamp never changes a parsed score: the parser only keeps scores in [0, 10]. */
  lemma ClampKeepsParsedScore(response: Json, repr: Json -> string)
    requires Lamb.ParseEvaluationResponse(response, repr).score.Some?
    ensures Clamp(Lamb.ParseEvaluationResponse(response, repr).score.value)
         == Lamb.ParseEvaluationResponse(response, repr).score.value
  {
  }

  /**
    A LAMB reply {"content": c} whose content carries a score in range is graded
    with exactly that score, and the whole content becomes the comment.
  */
  lemma EvaluateWithLambScores(text: string, evaluatorId: string, lambTimeout: int,
                               fields: seq<(string, Json)>, content: string, repr: Json -> string)
    requires Text.Strip(text) != ""
    requires !HasKey(fields, "choices") && Lookup(fields, "content") == Some(JStr(content)) && content != ""
    requires Lamb.ExtractScore(content).Some?
    ensures EvaluateWithLamb(Some(text), evaluatorId, lambTimeout, Lamb.Replied(200, Lamb.JsonBody(JObj(fields))), repr)
         == Ok((Lamb.ExtractScore(content).value, content))
  {
    Lamb.ParseTopLevelContent(fields, content, repr);
  }

  /** Without text to send, or when LAMB fails, the submission gets the default 5.0. */
  lemma EvaluateWithLambDefaults(extracted: Option<string>, evaluatorId: string, lambTimeout: int,
                                 reply: Lamb.HttpOutcome, repr: Json -> string)
    requires Blank(extracted) || Lamb.EvaluateText(evaluatorId, None, lambTimeout, reply, repr).LambFailed?
    ensures EvaluateWithLamb(extracted, evaluatorId, lambTimeout, reply, repr).Ok?
    ensures EvaluateWithLamb(extracted, evaluatorId, lambTimeout, reply, repr).value.0 == 5.0
    ensures Blank(extracted) ==> EvaluateWithLamb(extracted, evaluatorId, lambTimeout, reply, repr).value.1 == NoTextComment
  {
  }

  // ---------------------------------------------------------------- create_automatic_evaluation_for_activity

  /** No grade points at `fid`. */
  predicate Ungraded(gs: map<string, Grade>, fid: string) {
    forall k :: k in gs ==> gs[k].fileSubmissionId != fid
  }

  /**
    The submissions the automatic evaluation picks: those of the activity that have
    no grade, restricted to `ids` when that list is non-empty.
  */
  predicate ToEvaluate(fs: map<string, FileSubmission>, gs: map<string, Grade>, activityId: string,
                       activityMoodleId: string, ids: seq<string>, f: string)
  {
    f in fs && fs[f].activityId == activityId && fs[f].activityMoodleId == activityMoodleId
    && (ids != [] ==> f in ids) && Ungraded(gs, f)
  }

  /** The LAMB settings shared by every item of one run. */
  datatype Setup = Setup(evaluatorId: string, lambTimeout: int, repr: Json -> string)

  /** What _evaluate_with_lamb gives for one item: (score, comment), or the message of what it raised. */
  type Outcome = Result<(real, string), string>

  /** The evaluation of every selected item, in query order. */
  function Outcomes(extracted: seq<Option<string>>, replies: seq<Lamb.HttpOutcome>, setup: Setup): (r: seq<Outcome>)
    requires |extracted| == |replies|
    ensures |r| == |extracted| && ScoresInRange(r)
  {
    if extracted == [] then []
    else
      var n := |extracted| - 1;
      Outcomes(extracted[..n], replies[..n], setup)
        + [EvaluateWithLamb(extracted[n], setup.evaluatorId, setup.lambTimeout, replies[n], setup.repr)]
  }

  /** The grade the loop adds for item `i`, if its evaluation did not raise. */
  function ItemGrade(order: seq<string>, outcomes: seq<Outcome>, newIds: seq<string>, now: int, i: nat): Option<Grade>
    requires i < |order| == |outcomes| == |newIds|
  {
    match outcomes[i]
    case Ok((score, comment)) => Some(Grade(newIds[i], order[i], score, Some(comment), now))
    case Err(_) => None
  }

  /** The grades created for the first `n` items. */
  function CreatedGrades(order: seq<string>, outcomes: seq<Outcome>, newIds: seq<string>, now: int, n: nat)
    : (r: seq<Grade>)
    requires n <= |order| == |outcomes| == |newIds|
    ensures |r| <= n
  {
    if n == 0 then []
    else
      var before := CreatedGrades(order, outcomes, newIds, now, n - 1);
      match ItemGrade(order, outcomes, newIds, now, n - 1)
      case Some(g) => before + [g]
      case None => before
  }

  /** The message the loop logs for item `i`, if its evaluation raised. */
  function ItemError(order: seq<string>, outcomes: seq<Outcome>, i: nat): Option<string>
    requires i < |order| == |outcomes|
  {
    match outcomes[i]
    case Ok(_) => None
    case Err(e) => Some("Error evaluating submission " + order[i] + ": " + e)
  }

  /** The error messages logged for the first `n` items. */
  function ItemErrors(order: seq<string>, outcomes: seq<Outcome>, n: nat): seq<string>
    requires n <= |order| == |outcomes|
  {
    if n == 0 then []
    else
      var before := ItemErrors(order, outcomes, n - 1);
      match ItemError(order, outcomes, n - 1)
      case None => before
      case Some(e) => before + [e]
  }

  /** Every item ends as exactly one created grade or one logged error. */
  lemma {:induction false} GradesPlusErrors(order: seq<string>, outcomes: seq<Outcome>, newIds: seq<string>,
                                            now: int, n: nat)
    requires n <= |order| == |outcomes| == |newIds|
    ensures |CreatedGrades(order, outcomes, newIds, now, n)| + |ItemErrors(order, outcomes, n)| == n
  {
    if n > 0 {
      GradesPlusErrors(order, outcomes, newIds, now, n - 1);
      GradeOrError(order, outcomes, newIds, now, n - 1);
    }
  }

  /** Each item either yields a grade or logs an error, never both. */
  lemma GradeOrError(order: seq<string>, outcomes: seq<Outcome>, newIds: seq<string>, now: int, i: nat)
    requires i < |order| == |outcomes| == |newIds|
    ensures ItemGrade(order, outcomes, newIds, now, i).Some? <==> ItemError(order, outcomes, i).None?
  {
  }

  /** Every outcome that is a score lies in [0, 10]. */
  predicate ScoresInRange(outcomes: seq<Outcome>) {
    forall i :: 0 <= i < |outcomes| && outcomes[i].Ok? ==> 0.0 <= outcomes[i].value.0 <= 10.0
  }

  /** Every grade carries a score in [0, 10]. */
  predicate GradesInRange(r: seq<Grade>) {
    forall j :: 0 <= j < |r| ==> 0.0 <= r[j].score <= 10.0
  }

  /** Every created grade carries a score in [0, 10] when every evaluated score does. */
  lemma {:induction false} CreatedScoresInRange(order: seq<string>, outcomes: seq<Outcome>, newIds: seq<string>,
                                                now: int, n: nat)
    requires n <= |order| == |outcomes| == |newIds| && ScoresInRange(outcomes)
    ensures GradesInRange(CreatedGrades(order, outcomes, newIds, now, n))
  {
    if n > 0 {
      CreatedScoresInRange(order, outcomes, newIds, now, n - 1);
      var before := CreatedGrades(order, outcomes, newIds, now, n - 1);
      var item := ItemGrade(order, outcomes, newIds, now, n - 1);
      if item.Some? {
        assert item.value.score == outcomes[n - 1].value.0;
        assert CreatedGrades(order, outcomes, newIds, now, n) == before + [item.value];
      }
    }
  }

  /** Grade `g` carries the id and the file submission of one of the first `n` items. */
  predicate FromItem(g: Grade, order: seq<string>, newIds: seq<string>, n: nat) {
    exists i :: 0 <= i < n && i < |order| && i < |newIds| && g.id == newIds[i] && g.fileSubmissionId == order[i]
  }

  /** No two grades share an id or a file submission. */
  predicate DistinctGrades(r: seq<Grade>) {
    forall i, j :: 0 <= i < j < |r| ==> r[i].id != r[j].id && r[i].fileSubmissionId != r[j].fileSubmissionId
  }

  /** Every created grade belongs to one of the items processed so far. */
  lemma {:induction false} CreatedGradesFrom(order: seq<string>, outcomes: seq<Outcome>, newIds: seq<string>,
                                             now: int, n: nat)
    requires n <= |order| == |outcomes| == |newIds|
    ensures forall j :: 0 <= j < |CreatedGrades(order, outcomes, newIds, now, n)| ==>
      FromItem(CreatedGrades(order, outcomes, newIds, now, n)[j], order, newIds, n)
  {
    if n > 0 {
      CreatedGradesFrom(order, outcomes, newIds, now, n - 1);
      var before := CreatedGrades(order, outcomes, newIds, now, n - 1);
      var r := CreatedGrades(order, outcomes, newIds, now, n);
      var item := ItemGrade(order, outcomes, newIds, now, n - 1);
      assert r == if item.Some? then before + [item.value] else before;
      forall j | 0 <= j < |r|
        ensures FromItem(r[j], order, newIds, n)
      {
        if j < |before| {
          assert r[j] == before[j];
          assert FromItem(before[j], order, newIds, n - 1);
        } else {
          assert r[j] == item.value;
          assert r[j].id == newIds[n - 1] && r[j].fileSubmissionId == order[n - 1];
        }
      }
    }
  }

  /** The grades table with `created` added, one by one. */
  function AddGrades(gs: map<string, Grade>, created: seq<Grade>): map<string, Grade> {
    if created == [] then gs
    else AddGrades(gs, created[..|created| - 1])[created[|created| - 1].id := created[|created| - 1]]
  }

  /** Adding grades with fresh ids keeps every existing grade and adds only the given ones. */
  lemma {:induction false} AddGradesFrame(gs: map<string, Grade>, created: seq<Grade>)
    requires forall j :: 0 <= j < |created| ==> created[j].id !in gs
    ensures var gs' := AddGrades(gs, created);
      && (forall k :: k in gs ==> k in gs' && gs'[k] == gs[k])
      && (forall k :: k in gs' ==> k in gs || gs'[k] in created)
  {
    if created != [] {
      var init := created[..|created| - 1];
      AddGradesFrame(gs, init);
      assert forall g :: g in init ==> g in created;
    }
  }

  /**
    Adding grades with fresh, distinct ids for distinct, ungraded, existing file
    submissions keeps every grade constraint.
  */
  lemma {:induction false} AddGradesKeepsConstraints(gs: map<string, Grade>, fs: map<string, FileSubmission>,
                                                     created: seq<Grade>)
    requires GradeKeysMatch(gs) && OneGradePerFile(gs) && GradesLinked(gs, fs)
    requires forall j :: 0 <= j < |created| ==> created[j].id !in gs && created[j].fileSubmissionId in fs
    requires forall j :: 0 <= j < |created| ==> Ungraded(gs, created[j].fileSubmissionId)
    requires DistinctGrades(created)
    ensures var gs' := AddGrades(gs, created);
      GradeKeysMatch(gs') && OneGradePerFile(gs') && GradesLinked(gs', fs)
  {
    if created != [] {
      var init := created[..|created| - 1];
      var g := created[|created| - 1];
      AddGradesKeepsConstraints(gs, fs, init);
      AddGradesFrame(gs, init);
      var prev := AddGrades(gs, init);
      forall k | k in prev
        ensures k != g.id && prev[k].fileSubmissionId != g.fileSubmissionId
      {
        if k !in gs {
          var j :| 0 <= j < |init| && init[j] == prev[k];
          assert init[j] == created[j];
        }
      }
    }
  }

  const NoEvaluatorMessage := "Esta actividad no tiene configurado un ID de evaluador. Configure el ID del evaluador en la configuración de la actividad para poder usar la evaluación automática."

  /**
    create_automatic_evaluation_for_activity.  `modelReply` is the reply to the
    model check; `order` is the order in which the query returns the selected
    submissions, and `extracted`, `replies` and `newIds` are, per selected item,
    the text extracted from its file, the reply of LAMB and the uuid of its grade.
    The result is the created grades; `errors` is what the loop logs. `config`
    holds the LAMB settings; every item is evaluated with the activity's own
    evaluator id, whatever `config.evaluatorId` says.
  */
  method CreateAutomaticEvaluation(db: Database, activityId: string, activityMoodleId: string, ids: seq<string>,
                                   modelReply: Lamb.HttpOutcome, config: Setup, order: seq<string>,
                                   extracted: seq<Option<string>>, replies: seq<Lamb.HttpOutcome>,
                                   newIds: seq<string>, now: int)
    returns (r: Result<seq<Grade>, string>, errors: seq<string>)
    requires db.Valid()
    requires Distinct(order)
    requires forall f :: f in order <==> ToEvaluate(db.fileSubs, db.grades, activityId, activityMoodleId, ids, f)
    requires |extracted| == |replies| == |newIds| == |order|
    requires Distinct(newIds) && forall i :: 0 <= i < |newIds| ==> newIds[i] !in db.grades
    modifies db`grades
    ensures db.Valid()
    ensures (activityId, activityMoodleId) !in db.activities ==> r == Err("Actividad no encontrada")
    ensures (activityId, activityMoodleId) in db.activities ==>
      var evaluator := db.activities[(activityId, activityMoodleId)].evaluatorId;
      && (evaluator.None? || evaluator.value == "" ==> r == Err(NoEvaluatorMessage))
      && (evaluator.Some? && evaluator.value != "" ==>
            var setup := config.(evaluatorId := evaluator.value);
            var check := Lamb.VerifyModelExists(evaluator.value, modelReply);
            && (check.ModelCheckFailed? ==> r == Err(check.error))
            && (check.ModelFound? ==>
                  && r == Ok(CreatedGrades(order, Outcomes(extracted, replies, setup), newIds, now, |order|))
                  && errors == ItemErrors(order, Outcomes(extracted, replies, setup), |order|)))
    ensures r.Err? ==> db.grades == old(db.grades)
    ensures r.Ok? ==> |r.value| + |errors| == |order| && db.grades == AddGrades(old(db.grades), r.value)
    ensures r.Ok? ==> GradesInRange(r.value)
    ensures forall k :: k in old(db.grades) ==> k in db.grades && db.grades[k] == old(db.grades)[k]
  {
    errors := [];
    if (activityId, activityMoodleId) !in db.activities {
      return Err("Actividad no encontrada"), errors;
    }
    var evaluator := db.activities[(activityId, activityMoodleId)].evaluatorId;
    if evaluator.None? || evaluator.value == "" {
      return Err(NoEvaluatorMessage), errors;
    }
    var check := Lamb.VerifyModelExists(evaluator.value, modelReply);
    if check.ModelCheckFailed? {
      return Err(check.error), errors;
    }
    var created;
    var setup := config.(evaluatorId := evaluator.value);
    created, errors := GradeSelected(db, activityId, activityMoodleId, ids, setup, order, extracted, replies,
                                     newIds, now);
    r := Ok(created);
  }

  /**
    The part of create_automatic_evaluation_for_activity after its checks: the
    loop over the selected submissions, which keeps the grade constraints.
  */
  method GradeSelected(db: Database, activityId: string, activityMoodleId: string, ids: seq<string>,
                       setup: Setup, order: seq<string>, extracted: seq<Option<string>>,
                       replies: seq<Lamb.HttpOutcome>, newIds: seq<string>, now: int)
    returns (created: seq<Grade>, errors: seq<string>)
    requires db.Valid()
    requires Distinct(order)
    requires forall f :: f in order <==> ToEvaluate(db.fileSubs, db.grades, activityId, activityMoodleId, ids, f)
    requires |extracted| == |replies| == |newIds| == |order|
    requires Distinct(newIds) && forall i :: 0 <= i < |newIds| ==> newIds[i] !in db.grades
    modifies db`grades
    ensures db.Valid()
    ensures created == CreatedGrades(order, Outcomes(extracted, replies, setup), newIds, now, |order|)
    ensures errors == ItemErrors(order, Outcomes(extracted, replies, setup), |order|)
    ensures |created| + |errors| == |order| && db.grades == AddGrades(old(db.grades), created)
    ensures GradesInRange(created)
    ensures forall k :: k in old(db.grades) ==> k in db.grades && db.grades[k] == old(db.grades)[k]
  {
    var g0 := db.grades;
    var outcomes := Outcomes(extracted, replies, setup);
    NewGradesFit(db.fileSubs, g0, activityId, activityMoodleId, ids, order, outcomes, newIds, now);
    created, errors := GradeItems(db, order, outcomes, newIds, now);
    GradesPlusErrors(order, outcomes, newIds, now, |order|);
    AddGradesKeepsConstraints(g0, db.fileSubs, created);
    AddGradesFrame(g0, created);
    CreatedScoresInRange(order, outcomes, newIds, now, |order|);
  }

  /**
    The loop of create_automatic_evaluation_for_activity: add a grade for each
    item whose evaluation did not raise, log the error of each that did.
  */
  method GradeItems(db: Database, order: seq<string>, outcomes: seq<Outcome>, newIds: seq<string>, now: int)
    returns (created: seq<Grade>, errors: seq<string>)
    requires |outcomes| == |newIds| == |order|
    modifies db`grades
    ensures created == CreatedGrades(order, outcomes, newIds, now, |order|)
    ensures errors == ItemErrors(order, outcomes, |order|)
    ensures db.grades == AddGrades(old(db.grades), created)
  {
    created, errors := [], [];
    var i := 0;
    while i < |order|
      invariant 0 <= i <= |order|
      invariant created == CreatedGrades(order, outcomes, newIds, now, i)
      invariant errors == ItemErrors(order, outcomes, i)
      invariant db.grades == AddGrades(old(db.grades), created)
    {
      match outcomes[i] {
        case Ok((score, comment)) =>
          var g := Grade(newIds[i], order[i], score, Some(comment), now);
          db.grades := db.grades[g.id := g];
          created := created + [g];
        case Err(e) =>
          errors := errors + ["Error evaluating submission " + order[i] + ": " + e];
      }
      i := i + 1;
    }
  }

  /** The grades the loop creates meet AddGradesKeepsConstraints' demands. */
  lemma NewGradesFit(fs: map<string, FileSubmission>, gs: map<string, Grade>, activityId: string,
                     activityMoodleId: string, ids: seq<string>, order: seq<string>, outcomes: seq<Outcome>,
                     newIds: seq<string>, now: int)
    requires Distinct(order)
    requires forall f :: f in order <==> ToEvaluate(fs, gs, activityId, activityMoodleId, ids, f)
    requires |outcomes| == |newIds| == |order|
    requires Distinct(newIds) && forall i :: 0 <= i < |newIds| ==> newIds[i] !in gs
    ensures var created := CreatedGrades(order, outcomes, newIds, now, |order|);
      && (forall j :: 0 <= j < |created| ==> created[j].id !in gs && created[j].fileSubmissionId in fs)
      && (forall j :: 0 <= j < |created| ==> Ungraded(gs, created[j].fileSubmissionId))
      && DistinctGrades(created)
  {
    var created := CreatedGrades(order, outcomes, newIds, now, |order|);
    CreatedGradesFrom(order, outcomes, newIds, now, |order|);
    forall j | 0 <= j < |created|
      ensures created[j].id !in gs && created[j].fileSubmissionId in fs && Ungraded(gs, created[j].fileSubmissionId)
    {
      assert FromItem(created[j], order, newIds, |order|);
      var i :| 0 <= i < |order| && i < |newIds| && created[j].id == newIds[i] && created[j].fileSubmissionId == order[i];
      assert order[i] in order;
    }
    CreatedGradesOrdered(order, outcomes, newIds, now, |order|);
  }

  /** Created grades come from strictly increasing item positions, so distinct items give distinct grades. */
  lemma {:induction false} CreatedGradesOrdered(order: seq<string>, outcomes: seq<Outcome>, newIds: seq<string>,
                                                now: int, n: nat)
    requires n <= |order| == |outcomes| == |newIds|
    requires Distinct(order) && Distinct(newIds)
    ensures DistinctGrades(CreatedGrades(order, outcomes, newIds, now, n))
  {
    if n > 0 {
      CreatedGradesOrdered(order, outcomes, newIds, now, n - 1);
      CreatedGradesFrom(order, outcomes, newIds, now, n - 1);
      var before := CreatedGrades(order, outcomes, newIds, now, n - 1);
      var r := CreatedGrades(order, outcomes, newIds, now, n);
      var item := ItemGrade(order, outcomes, newIds, now, n - 1);
      assert r == if item.Some? then before + [item.value] else before;
      forall i, j | 0 <= i < j < |r|
        ensures r[i].id != r[j].id && r[i].fileSubmissionId != r[j].fileSubmissionId
      {
        assert r[i] == before[i];
        if j < |before| {
          assert r[j] == before[j];
          assert DistinctGrades(before);
        } else {
          assert r[j].id == newIds[n - 1] && r[j].fileSubmissionId == order[n - 1];
          assert FromItem(before[i], order, newIds, n - 1);
          var m :| 0 <= m < n - 1 && m < |order| && m < |newIds| && before[i].id == newIds[m] && before[i].fileSubmissionId == order[m];
        }
      }
    }
  }
}

=== FILE: json.dfy ===
/**
  JSON values as the backend's Python code sees them after response.json():
  None, bool, int, float, str, list and dict.  A dict keeps its (key, value)
  pairs in order; when a key repeats, the later pair is the one a lookup finds,
  as json.loads keeps the last.  Floats are exact reals.
*/
module Json {
  import opened Wrappers

  datatype Json =
    | JNull
    | JBool(b: bool)
    | JInt(i: int)
    | JFloat(r: real)
    | JStr(s: string)
    | JArr(items: seq<Json>)
    | JObj(fields: seq<(string, Json)>)

  /** type(x).__name__ */
  function TypeName(x: Json): string {
    match x
    case JNull => "NoneType"
    case JBool(_) => "bool"
    case JInt(_) => "int"
    case JFloat(_) => "float"
    case JStr(_) => "str"
    case JArr(_) => "list"
    case JObj(_) => "dict"
  }

  /** Python truthiness: None, False, 0, 0.0 and empty containers are false. */
  predicate Truthy(x: Json) {
    match x
    case JNull => false
    case JBool(b) => b
    case JInt(i) => i != 0
    case JFloat(r) => r != 0.0
    case JStr(s) => s != ""
    case JArr(items) => items != []
    case JObj(fields) => fields != []
  }

  /** The value stored under `key` (the last pair with that key), if any. */
  function Lookup(fields: seq<(string, Json)>, key: string): (r: Option<Json>)
    ensures r.Some? <==> exists i :: 0 <= i < |fields| && fields[i].0 == key
    ensures r.Some? ==> exists i :: 0 <= i < |fields| && fields[i] == (key, r.value)
  {
    if fields == [] then None
    else
      var last := fields[|fields| - 1];
      if last.0 == key then Some(last.1)
      else
        var r := Lookup(fields[..|fields| - 1], key);
        assert forall i :: 0 <= i < |fields| - 1 ==> fields[..|fields| - 1][i] == fields[i];
        r
  }

  /** A pair added at the end is what the lookup of its key finds. */
  lemma LookupLast(fields: seq<(string, Json)>, key: string, v: Json)
    ensures Lookup(fields + [(key, v)], key) == Some(v)
  {
  }

  /** Adding a pair under another key does not change a lookup. */
  lemma LookupOther(fields: seq<(string, Json)>, key: string, other: string, v: Json)
    requires key != other
    ensures Lookup(fields + [(other, v)], key) == Lookup(fields, key)
  {
    assert (fields + [(other, v)])[..|fields|] == fields;
  }

  /** `key in d` for a dict */
  predicate HasKey(fields: seq<(string, Json)>, key: string) {
    Lookup(fields, key).Some?
  }

  /** d.get(key, default) for a dict */
  function GetOr(fields: seq<(string, Json)>, key: string, default: Json): Json {
    Lookup(fields, key).GetOr(default)
  }
}

=== FILE: lamb.dfy ===
/**
  The LAMB client (backend/lamb_api_service.py): the mapping of HTTP
  outcomes to result dicts for evaluate_text and verify_model_exists, and the
  parsing of a LAMB reply into a score and a comment.

  The HTTP exchange is the parameter `reply`; Python's str() of a JSON value
  (the repr of a dict) is the parameter `repr`.  The score pattern
  (?:NOTA\s+FINAL|FINAL\s+SCORE)\s*:\s*(\d+\.?\d*) with re.IGNORECASE is
  written out as a scanner over the content: `\s` is str.isspace(), letters
  match case-insensitively (ASCII), `\d` is an ASCII digit.
*/
module Lamb {
  import opened Wrappers
  import opened Json
  import Text

  // ---------------------------------------------------------------- the score pattern

  predicate IsDigit(c: char) {
    '0' <= c <= '9'
  }

  /** The word `w` occurs at position i. */
  predicate WordAt(s: string, i: nat, w: string) {
    i + |w| <= |s| && s[i..i + |w|] == w
  }

  /** The length of the run of characters from position i that satisfy `p`. */
  function RunFrom(s: string, i: nat, p: char -> bool): (n: nat)
    ensures i + n <= |s| || (i > |s| && n == 0)
    ensures forall k :: i <= k < i + n ==> p(s[k])
    ensures i + n < |s| ==> !p(s[i + n])
    decreases |s| - i
  {
    if i < |s| && p(s[i]) then 1 + RunFrom(s, i + 1, p) else 0
  }

  function SpacesFrom(s: string, i: nat): nat {
    RunFrom(s, i, Text.IsSpace)
  }

  function DigitsFrom(s: string, i: nat): nat {
    RunFrom(s, i, IsDigit)
  }

  /** Where (?:NOTA\s+FINAL|FINAL\s+SCORE) ends when it matches at position i. */
  function HeaderEnd(s: string, i: nat): Option<nat> {
    if WordAt(s, i, "nota") then
      var n := SpacesFrom(s, i + 4);
      if n > 0 && WordAt(s, i + 4 + n, "final") then Some(i + 4 + n + 5) else None
    else if WordAt(s, i, "final") then
      var n := SpacesFrom(s, i + 5);
      if n > 0 && WordAt(s, i + 5 + n, "score") then Some(i + 5 + n + 5) else None
    else None
  }

  /** The captured number: its digits before the point, and those after it ("" when none). */
  datatype Numeral = Numeral(whole: string, frac: string)

  /**
    The group the pattern captures when a match starts at position i of the
    lower-cased text `s` (re.IGNORECASE: the pattern, lower-cased, against the
    lower-cased content; digits, spaces, ':' and '.' are unchanged by that).
  */
  function ScanAt(s: string, i: nat): Option<Numeral> {
    match HeaderEnd(s, i)
    case None => None
    case Some(h) =>
      var a := h + SpacesFrom(s, h);
      if a < |s| && s[a] == ':' then
        var b := a + 1 + SpacesFrom(s, a + 1);
        var d := DigitsFrom(s, b);
        if d == 0 then None
        else if b + d < |s| && s[b + d] == '.' then
          Some(Numeral(s[b..b + d], s[b + d + 1..b + d + 1 + DigitsFrom(s, b + d + 1)]))
        else Some(Numeral(s[b..b + d], ""))
      else None
  }

  /** The first i in [from, last] where f gives a value, and that value. */
  function FirstSome<T>(f: nat -> Option<T>, from: nat, last: nat): (r: Option<(nat, T)>)
    ensures r.Some? ==>
      && from <= r.value.0 <= last && f(r.value.0) == Some(r.value.1)
      && forall j :: from <= j < r.value.0 ==> f(j).None?
    ensures r.None? ==> forall j :: from <= j <= last ==> f(j).None?
    decreases last + 1 - from
  {
    if from > last then None
    else if f(from).Some? then Some((from, f(from).value))
    else FirstSome(f, from + 1, last)
  }

  /** The group captured when a match of the pattern starts at position i of the content. */
  function MatchAt(s: string, i: nat): Option<Numeral> {
    ScanAt(Text.Lower(s), i)
  }

  /**
    re.search: the leftmost position where the pattern matches, and its group;
    nothing only when no position matches.
  */
  function Search(s: string): (r: Option<(nat, Numeral)>)
    ensures r.Some? ==> r.value.0 <= |s| && MatchAt(s, r.value.0) == Some(r.value.1)
                        && forall j :: 0 <= j < r.value.0 ==> MatchAt(s, j).None?
    ensures r.None? ==> forall j :: 0 <= j <= |s| ==> MatchAt(s, j).None?
  {
    var f := (i: nat) => MatchAt(s, i);
    assert forall j: nat :: f(j) == MatchAt(s, j);
    FirstSome(f, 0, |s|)
  }

  /** int() of a string of ASCII digits. */
  function DigitsValue(d: string): nat {
    if d == [] then 0
    else DigitsValue(d[..|d| - 1]) * 10 + DigitOf(d[|d| - 1])
  }

  function DigitOf(c: char): nat {
    if IsDigit(c) then c as int - '0' as int else 0
  }

  /** The value of the digits after a decimal point: 0.d1d2... */
  function FracValue(d: string): (r: real)
    ensures 0.0 <= r < 1.0
  {
    if d == [] then 0.0 else (DigitOf(d[0]) as real + FracValue(d[1..])) / 10.0
  }

  /** float() of the captured text, as an exact real. */
  function Value(n: Numeral): (r: real)
    ensures r >= DigitsValue(n.whole) as real
  {
    DigitsValue(n.whole) as real + FracValue(n.frac)
  }

  /**
    The score _extract_score_and_feedback keeps: a kept score lies in [0, 10]
    and is the value of the leftmost match; there is no score exactly when
    nothing matches or the leftmost match is out of range.
  */
  function ExtractScore(content: string): (r: Option<real>)
    ensures r.Some? ==> 0.0 <= r.value <= 10.0 && Search(content).Some? && Value(Search(content).value.1) == r.value
    ensures r.None? <==> Search(content).None? || Value(Search(content).value.1) > 10.0
  {
    match Search(content)
    case None => None
    case Some((_, n)) => if 0.0 <= Value(n) <= 10.0 then Some(Value(n)) else None
  }

  // ---------------------------------------------------------------- case-insensitivity

  /** Functions that agree everywhere have the same first value. */
  lemma {:induction false} FirstSomeAgree<T>(f: nat -> Option<T>, g: nat -> Option<T>, from: nat, last: nat)
    requires forall i :: f(i) == g(i)
    ensures FirstSome(f, from, last) == FirstSome(g, from, last)
    decreases last + 1 - from
  {
    if from <= last && f(from).None? {
      FirstSomeAgree(f, g, from + 1, last);
    }
  }

  /** The pattern is matched ignoring case: lower-casing the content keeps the score. */
  lemma ExtractScoreIgnoresCase(s: string)
    ensures ExtractScore(Text.Lower(s)) == ExtractScore(s)
  {
    Text.LowerIdempotent(s);
    FirstSomeAgree((i: nat) => MatchAt(Text.Lower(s), i), (i: nat) => MatchAt(s, i), 0, |s|);
  }

  // ---------------------------------------------------------------- Python operations on JSON values

  /** `key in x` */
  function PyIn(key: string, x: Json): Result<bool, string> {
    match x
    case JObj(fields) => Ok(HasKey(fields, key))
    case JArr(items) => Ok(JStr(key) in items)
    case JStr(s) => Ok(Text.Contains(s, key))
    case _ => Err("argument of type '" + TypeName(x) + "' is not iterable")
  }

  /** x[key] with a str key */
  function PyIndex(x: Json, key: string): Result<Json, string> {
    match x
    case JObj(fields) => if HasKey(fields, key) then Ok(Lookup(fields, key).value) else Err("'" + key + "'")
    case JArr(_) => Err("list indices must be integers or slices, not str")
    case JStr(_) => Err("string indices must be integers, not 'str'")
    case _ => Err("'" + TypeName(x) + "' object is not subscriptable")
  }

  /** len(x) > 0 */
  function PyNonEmpty(x: Json): Result<bool, string> {
    match x
    case JObj(fields) => Ok(fields != [])
    case JArr(items) => Ok(items != [])
    case JStr(s) => Ok(s != "")
    case _ => Err("object of type '" + TypeName(x) + "' has no len()")
  }

  /** x[0], on a value whose len() is positive */
  function PyFirst(x: Json): Result<Json, string> {
    match x
    case JArr(items) => if items != [] then Ok(items[0]) else Err("list index out of range")
    case JStr(s) => if s != "" then Ok(JStr([s[0]])) else Err("string index out of range")
    case JObj(_) => Err("0")
    case _ => Err("'" + TypeName(x) + "' object is not subscriptable")
  }

  /** x.get(key, default) */
  function PyGet(x: Json, key: string, default: Json): Result<Json, string> {
    match x
    case JObj(fields) => Ok(GetOr(fields, key, default))
    case _ => Err("'" + TypeName(x) + "' object has no attribute 'get'")
  }

  // ---------------------------------------------------------------- parse_evaluation_response

  /** The dict the parser returns: {'score', 'comment', 'raw_response'}. */
  datatype Parsed = Parsed(score: Option<real>, comment: string, raw: Json) {
    function ToJson(): Json {
      JObj([("score", if score.Some? then JFloat(score.value) else JNull), ("comment", JStr(comment)), ("raw_response", raw)])
    }
  }

  /** _extract_score_and_feedback: the score of the content, the whole content as the comment. */
  function ExtractScoreAndFeedback(content: string): (r: Parsed)
    ensures r.comment == content && r.raw == JStr(content)
    ensures r.score.Some? ==> 0.0 <= r.score.value <= 10.0
  {
    Parsed(ExtractScore(content), content, JStr(content))
  }

  /** The top-level 'content', else the top-level 'text', else None. */
  function TopLevelContent(response: Json): Result<Json, string> {
    var hasContent :- PyIn("content", response);
    if hasContent then PyIndex(response, "content")
    else
      var hasText :- PyIn("text", response);
      if hasText then PyIndex(response, "text") else Ok(JNull)
  }

  /**
    The content the parser picks: the first choice's message.content, or else
    that choice's text, when 'choices' is present and non-empty; otherwise the
    top-level content or text.  An error is the message of the exception raised.
  */
  function SelectContent(response: Json): Result<Json, string> {
    var hasChoices :- PyIn("choices", response);
    if !hasChoices then TopLevelContent(response)
    else
      var choices :- PyIndex(response, "choices");
      var nonEmpty :- PyNonEmpty(choices);
      if !nonEmpty then TopLevelContent(response)
      else
        var choice :- PyFirst(choices);
        ChoiceContent(choice)
  }

  /** choice.get('message', {}).get('content') or choice.get('text') */
  function ChoiceContent(choice: Json): Result<Json, string> {
    var message :- PyGet(choice, "message", JObj([]));
    var content :- PyGet(message, "content", JNull);
    if Truthy(content) then Ok(content) else PyGet(choice, "text", JNull)
  }

  /** parse_evaluation_response; `repr` is str() of a JSON value. */
  function ParseEvaluationResponse(response: Json, repr: Json -> string): (r: Parsed)
    ensures r.score.Some? ==> 0.0 <= r.score.value <= 10.0
  {
    match SelectContent(response)
    case Err(e) => Parsed(None, "Error al procesar respuesta: " + e, response)
    case Ok(content) =>
      if !Truthy(content) then Parsed(None, repr(response), response)
      else if content.JStr? then ExtractScoreAndFeedback(content.s)
      else Parsed(None, "Error al procesar respuesta: expected string or bytes-like object, got '" + TypeName(content) + "'", response)
  }

  /** The parser's result never carries a 'success' key. */
  lemma ParsedHasNoSuccess(r: Parsed)
    ensures r.ToJson().JObj? && !HasKey(r.ToJson().fields, "success")
    ensures Lookup(r.ToJson().fields, "comment") == Some(JStr(r.comment))
  {
  }

  /** Whatever the content is taken from, a non-empty string content is what gets scored. */
  lemma ParseOfContent(response: Json, content: string, repr: Json -> string)
    requires SelectContent(response) == Ok(JStr(content)) && content != ""
    ensures ParseEvaluationResponse(response, repr) == ExtractScoreAndFeedback(content)
  {
  }

  /** With a non-empty 'choices' list, the content comes from its first element. */
  lemma SelectFirstChoice(fields: seq<(string, Json)>, first: Json, rest: seq<Json>)
    requires Lookup(fields, "choices") == Some(JArr([first] + rest))
    ensures SelectContent(JObj(fields)) == ChoiceContent(first)
  {
    assert PyIndex(JObj(fields), "choices") == Ok(JArr([first] + rest));
  }

  /** A choice whose message has a non-empty string content yields that content. */
  lemma ChoiceMessage(choice: seq<(string, Json)>, message: seq<(string, Json)>, content: string)
    requires Lookup(choice, "message") == Some(JObj(message))
    requires Lookup(message, "content") == Some(JStr(content)) && content != ""
    ensures ChoiceContent(JObj(choice)) == Ok(JStr(content))
  {
  }

  /** A choice without a message yields its text. */
  lemma ChoiceText(choice: seq<(string, Json)>, text: string)
    requires Lookup(choice, "message").None?
    requires Lookup(choice, "text") == Some(JStr(text)) && text != ""
    ensures ChoiceContent(JObj(choice)) == Ok(JStr(text))
  {
  }

  /** A chat-completions reply: the first choice's message content is read. */
  lemma ParseChoiceMessage(fields: seq<(string, Json)>, rest: seq<Json>, choice: seq<(string, Json)>,
                           message: seq<(string, Json)>, content: string, repr: Json -> string)
    requires Lookup(fields, "choices") == Some(JArr([JObj(choice)] + rest))
    requires Lookup(choice, "message") == Some(JObj(message))
    requires Lookup(message, "content") == Some(JStr(content)) && content != ""
    ensures ParseEvaluationResponse(JObj(fields), repr) == ExtractScoreAndFeedback(content)
  {
    SelectFirstChoice(fields, JObj(choice), rest);
    ChoiceMessage(choice, message, content);
    ParseOfContent(JObj(fields), content, repr);
  }

  /** A choice without a message falls back to the choice's text. */
  lemma ParseChoiceText(fields: seq<(string, Json)>, rest: seq<Json>, choice: seq<(string, Json)>,
                        text: string, repr: Json -> string)
    requires Lookup(fields, "choices") == Some(JArr([JObj(choice)] + rest))
    requires Lookup(choice, "message").None?
    requires Lookup(choice, "text") == Some(JStr(text)) && text != ""
    ensures ParseEvaluationResponse(JObj(fields), repr) == ExtractScoreAndFeedback(text)
  {
    SelectFirstChoice(fields, JObj(choice), rest);
    ChoiceText(choice, text);
    ParseOfContent(JObj(fields), text, repr);
  }

  /** Without (non-empty) choices, a top-level 'content' is read before 'text'. */
  lemma ParseTopLevelContent(fields: seq<(string, Json)>, content: string, repr: Json -> string)
    requires Lookup(fields, "choices").None? || Lookup(fields, "choices") == Some(JArr([]))
    requires Lookup(fields, "content") == Some(JStr(content)) && content != ""
    ensures ParseEvaluationResponse(JObj(fields), repr) == ExtractScoreAndFeedback(content)
  {
    assert TopLevelContent(JObj(fields)) == Ok(JStr(content));
    assert SelectContent(JObj(fields)) == Ok(JStr(content));
    ParseOfContent(JObj(fields), content, repr);
  }

  lemma ParseTopLevelText(fields: seq<(string, Json)>, text: string, repr: Json -> string)
    requires Lookup(fields, "choices").None? || Lookup(fields, "choices") == Some(JArr([]))
    requires Lookup(fields, "content").None?
    requires Lookup(fields, "text") == Some(JStr(text)) && text != ""
    ensures ParseEvaluationResponse(JObj(fields), repr) == ExtractScoreAndFeedback(text)
  {
    assert TopLevelContent(JObj(fields)) == Ok(JStr(text));
    assert SelectContent(JObj(fields)) == Ok(JStr(text));
    ParseOfContent(JObj(fields), text, repr);
  }

  /** A dict with none of the three keys has no score, and its str() is the comment. */
  lemma ParseNoContent(fields: seq<(string, Json)>, repr: Json -> string)
    requires Lookup(fields, "choices").None? && Lookup(fields, "content").None? && Lookup(fields, "text").None?
    ensures ParseEvaluationResponse(JObj(fields), repr) == Parsed(None, repr(JObj(fields)), JObj(fields))
  {
  }

  // ---------------------------------------------------------------- the HTTP calls

  /** The body of an HTTP reply: JSON, or text that response.json() fails to decode (with that error's message). */
  datatype Body = JsonBody(json: Json) | TextBody(text: string, decodeError: string)

  /** How a requests call ended: a timeout, a connection failure, another exception, or a reply. */
  datatype HttpOutcome =
    | TimedOut
    | ConnectionFailed
    | Raised(message: string)
    | Replied(status: int, body: Body)

  /** "lamb_assistant.<evaluator_id>" */
  function ModelId(evaluatorId: string): string {
    "lamb_assistant." + evaluatorId
  }

  /** The result dict of evaluate_text. */
  datatype LambResult = Evaluated(response: Json, modelId: string) | LambFailed(error: string) {
    function ToJson(): Json {
      match this
      case Evaluated(response, modelId) => JObj([("success", JBool(true)), ("response", response), ("model_id", JStr(modelId))])
      case LambFailed(error) => JObj([("success", JBool(false)), ("error", JStr(error))])
    }
  }

  /** `timeout or LAMB_TIMEOUT` */
  function EffectiveTimeout(timeout: Option<int>, lambTimeout: int): int {
    if timeout.Some? && timeout.value != 0 then timeout.value else lambTimeout
  }

  /**
    evaluate_text: the reply of the POST to /chat/completions for model
    lamb_assistant.<evaluator_id>, mapped to the result dict.
  */
  function EvaluateText(evaluatorId: string, timeout: Option<int>, lambTimeout: int, reply: HttpOutcome,
                        repr: Json -> string): (r: LambResult)
    ensures r.Evaluated? <==> reply.Replied? && reply.status == 200 && reply.body.JsonBody?
    ensures r.Evaluated? ==> r.response == reply.body.json && r.modelId == ModelId(evaluatorId)
  {
    match reply
    case TimedOut =>
      LambFailed("Timeout al conectar con LAMB API (> " + Text.IntToString(EffectiveTimeout(timeout, lambTimeout)) + "s)")
    case ConnectionFailed => LambFailed("No se pudo conectar con LAMB API")
    case Raised(message) => LambFailed("Error inesperado al llamar a LAMB API: " + message)
    case Replied(status, body) =>
      if status != 200 then
        var detail := if body.JsonBody? then repr(body.json) else body.text;
        LambFailed("LAMB API retornó status " + Text.IntToString(status) + ": " + detail)
      else if body.TextBody? then LambFailed("Error inesperado al llamar a LAMB API: " + body.decodeError)
      else Evaluated(body.json, ModelId(evaluatorId))
  }

  /**
    The wrapper evaluate_text returns is not a LAMB reply: it has none of the
    keys the parser reads, so parsing it never yields a score and the comment is
    str() of the wrapper.
  */
  lemma ParseOfWrapper(r: LambResult, repr: Json -> string)
    ensures ParseEvaluationResponse(r.ToJson(), repr) == Parsed(None, repr(r.ToJson()), r.ToJson())
  {
    ParseNoContent(r.ToJson().fields, repr);
  }

  /** The result dict of verify_model_exists. */
  datatype ModelCheck = ModelFound(modelId: string, message: string) | ModelCheckFailed(error: string)

  /** any(model.get("id") == model_id for model in items), raising on the first item that is not a dict. */
  function AnyItemHasId(items: seq<Json>, modelId: string): Result<bool, string> {
    if items == [] then Ok(false)
    else
      var id :- PyGet(items[0], "id", JNull);
      if id == JStr(modelId) then Ok(true) else AnyItemHasId(items[1..], modelId)
  }

  /** The same generator over whatever data.get("data", []) returned. */
  function AnyModelHasId(models: Json, modelId: string): Result<bool, string> {
    match models
    case JArr(items) => AnyItemHasId(items, modelId)
    case JObj(fields) => if fields == [] then Ok(false) else Err("'str' object has no attribute 'get'")
    case JStr(s) => if s == "" then Ok(false) else Err("'str' object has no attribute 'get'")
    case _ => Err("'" + TypeName(models) + "' object is not iterable")
  }

  /** data.get("data", []) searched for the model id. */
  function ModelListed(data: Json, modelId: string): Result<bool, string> {
    var models :- PyGet(data, "data", JArr([]));
    AnyModelHasId(models, modelId)
  }

  /** Item i is a dict whose "id" is the model id. */
  predicate HasId(items: seq<Json>, i: int, modelId: string) {
    0 <= i < |items| && items[i].JObj? && Lookup(items[i].fields, "id") == Some(JStr(modelId))
  }

  /** The items before position i are all dicts. */
  predicate DictsBefore(items: seq<Json>, i: int) {
    forall j :: 0 <= j < i && j < |items| ==> items[j].JObj?
  }

  /** One step of the search: a non-dict raises, a matching dict answers, anything else moves on. */
  lemma AnyItemStep(items: seq<Json>, modelId: string)
    requires items != []
    ensures !items[0].JObj? ==> AnyItemHasId(items, modelId).Err?
    ensures items[0].JObj? && HasId(items, 0, modelId) ==> AnyItemHasId(items, modelId) == Ok(true)
    ensures items[0].JObj? && !HasId(items, 0, modelId) ==> AnyItemHasId(items, modelId) == AnyItemHasId(items[1..], modelId)
  {
  }

  /**
    The search over the listed models finds the id exactly when some dict lists
    it and every item before that one is a dict (a non-dict raises first).
  */
  lemma {:induction false} AnyItemFound(items: seq<Json>, modelId: string)
    ensures AnyItemHasId(items, modelId) == Ok(true) <==> exists i :: HasId(items, i, modelId) && DictsBefore(items, i)
    decreases |items|
  {
    if items != [] {
      AnyItemStep(items, modelId);
      if !items[0].JObj? {
        NonDictHeadHides(items, modelId);
      } else if HasId(items, 0, modelId) {
        assert DictsBefore(items, 0);
      } else {
        AnyItemFound(items[1..], modelId);
        FoundShifts(items, modelId);
      }
    }
  }

  /** Behind a leading non-dict, no item is found. */
  lemma NonDictHeadHides(items: seq<Json>, modelId: string)
    requires items != [] && !items[0].JObj?
    ensures !exists i :: HasId(items, i, modelId) && DictsBefore(items, i)
  {
    forall i | HasId(items, i, modelId) ensures !DictsBefore(items, i) {
      assert i > 0;
    }
  }

  /** Past a leading dict without the id, finding the id in the list is finding it in the rest. */
  lemma FoundShifts(items: seq<Json>, modelId: string)
    requires items != [] && items[0].JObj? && !HasId(items, 0, modelId)
    ensures (exists i :: HasId(items, i, modelId) && DictsBefore(items, i))
      <==> (exists i :: HasId(items[1..], i, modelId) && DictsBefore(items[1..], i))
  {
    var tail := items[1..];
    if exists i :: HasId(items, i, modelId) && DictsBefore(items, i) {
      var i :| HasId(items, i, modelId) && DictsBefore(items, i);
      assert HasId(tail, i - 1, modelId) && DictsBefore(tail, i - 1);
    }
    if exists i :: HasId(tail, i, modelId) && DictsBefore(tail, i) {
      var i :| HasId(tail, i, modelId) && DictsBefore(tail, i);
      assert HasId(items, i + 1, modelId) && DictsBefore(items, i + 1);
    }
  }

  /** It answers "not found" exactly when every item is a dict and none lists the id. */
  lemma {:induction false} AnyItemNotFound(items: seq<Json>, modelId: string)
    ensures AnyItemHasId(items, modelId) == Ok(false) <==>
      DictsBefore(items, |items|) && forall i :: 0 <= i < |items| ==> !HasId(items, i, modelId)
    decreases |items|
  {
    if items != [] {
      AnyItemStep(items, modelId);
      var tail := items[1..];
      AnyItemNotFound(tail, modelId);
      if DictsBefore(items, |items|) {
        assert DictsBefore(tail, |tail|);
      }
      if items[0].JObj? && DictsBefore(tail, |tail|) {
        assert DictsBefore(items, |items|);
      }
      if forall i :: 0 <= i < |items| ==> !HasId(items, i, modelId) {
        assert forall i :: 0 <= i < |tail| ==> !HasId(tail, i, modelId) by {
          forall i | 0 <= i < |tail| ensures !HasId(tail, i, modelId) {
            assert !HasId(items, i + 1, modelId);
          }
        }
      }
      if !HasId(items, 0, modelId) && forall i :: 0 <= i < |tail| ==> !HasId(tail, i, modelId) {
        forall i | 0 <= i < |items| ensures !HasId(items, i, modelId) {
          if i > 0 {
            assert !HasId(tail, i - 1, modelId);
          }
        }
      }
    }
  }

  /** verify_model_exists of GET /v1/models mapped to the result dict. */
  function VerifyModelExists(evaluatorId: string, reply: HttpOutcome): (r: ModelCheck)
    ensures r.ModelFound? <==>
      reply.Replied? && reply.status == 200 && reply.body.JsonBody? && ModelListed(reply.body.json, ModelId(evaluatorId)) == Ok(true)
    ensures r.ModelFound? ==> r.modelId == ModelId(evaluatorId)
  {
    var modelId := ModelId(evaluatorId);
    match reply
    case TimedOut => ModelCheckFailed("Tiempo de espera agotado al conectar con el servidor LAMB")
    case ConnectionFailed => ModelCheckFailed("No se pudo conectar con el servidor LAMB")
    case Raised(message) => ModelCheckFailed("Error al verificar el modelo LAMB: " + message)
    case Replied(status, body) =>
      if status != 200 then
        ModelCheckFailed("Error al conectar con el servidor LAMB (código " + Text.IntToString(status) + ")")
      else if body.TextBody? then ModelCheckFailed("Error al verificar el modelo LAMB: " + body.decodeError)
      else
        match ModelListed(body.json, modelId)
        case Err(e) => ModelCheckFailed("Error al verificar el modelo LAMB: " + e)
        case Ok(found) =>
          if found then ModelFound(modelId, "Modelo " + modelId + " encontrado correctamente")
          else ModelCheckFailed("No se encontró el modelo '" + modelId + "' en el servidor LAMB")
  }

  /**
    A listing {"data": [...]} of dicts passes the check exactly when one of them
    has the id "lamb_assistant.<evaluator_id>".
  */
  lemma VerifyListedModel(evaluatorId: string, fields: seq<(string, Json)>, items: seq<Json>)
    requires Lookup(fields, "data") == Some(JArr(items))
    requires forall i :: 0 <= i < |items| ==> items[i].JObj?
    ensures VerifyModelExists(evaluatorId, Replied(200, JsonBody(JObj(fields)))).ModelFound?
      <==> exists i :: HasId(items, i, ModelId(evaluatorId))
  {
    AnyItemFound(items, ModelId(evaluatorId));
    assert ModelListed(JObj(fields), ModelId(evaluatorId)) == AnyItemHasId(items, ModelId(evaluatorId));
  }
}

=== FILE: listings.dfy ===
/**
  The listings of backend/activities_service.py: the members of one group and
  every submission of an activity, grouped by join code for a group activity.
*/
module Listings {
  import opened Wrappers
  import opened Store
  import opened Submissions

  // ------------------------------------------------------------------ get_group_members

  /** File submission `k` carries the code within the activity of this Moodle instance. */
  predicate GroupMatches(fs: map<string, FileSubmission>, k: string, activityId: string, activityMoodleId: string,
                         code: string)
  {
    CodeMatches(fs, k, activityId, code) && fs[k].activityMoodleId == activityMoodleId
  }

  /** `order` lists each key of `keys` once: the rows a query returns, in the order it returns them. */
  predicate Enumerates(order: seq<string>, keys: set<string>) {
    Distinct(order) && (forall i :: 0 <= i < |order| ==> order[i] in keys) && (forall k :: k in keys ==> k in order)
  }

  /** A list that enumerates a set is as long as the set. */
  lemma EnumerationLength(order: seq<string>, keys: set<string>)
    requires Enumerates(order, keys)
    ensures |order| == |keys|
  {
    DistinctCard(order);
    assert (set x | x in order) == keys;
  }

  /** The view get_group_members builds for member `s` of a group whose file is `f` and which has `total` members. */
  ghost function MemberView(users: map<(string, string), User>, gs: map<string, Grade>, f: FileSubmission,
                            s: StudentSubmission, total: int): (v: View)
    ensures v.isGroupLeader <==> f.uploadedBy == s.studentId
    ensures v.groupCodeUses == Some(if v.isGroupLeader then total - 1 else 0)
    ensures v.studentSubmission == s && v.fileSubmission == FileModel(f) && v.grade == GradeOf(gs, f.id)
  {
    var person := Person(users, s.studentId, s.studentMoodleId);
    var leader := f.uploadedBy == s.studentId;
    View(FileModel(f), s, person.0, person.1, leader, Some(if leader then total - 1 else 0), GradeOf(gs, f.id))
  }

  /**
    get_group_members: one view per member of the group holding the code, in
    query order; the uploader is flagged leader (without checking the code this
    time) and sees the others' count.  An unknown code gives [].
  */
  method GetGroupMembers(db: Database, activityId: string, activityMoodleId: string, code: string,
                         order: seq<string>)
    returns (views: seq<View>)
    requires db.Valid()
    requires forall k :: GroupMatches(db.fileSubs, k, activityId, activityMoodleId, code) ==>
      Enumerates(order, Members(db.studentSubs, k))
    ensures (forall k :: !GroupMatches(db.fileSubs, k, activityId, activityMoodleId, code)) ==> views == []
    ensures forall k :: GroupMatches(db.fileSubs, k, activityId, activityMoodleId, code) ==>
      && |views| == |order| == |Members(db.studentSubs, k)|
      && forall i :: 0 <= i < |views| ==>
           && order[i] in Members(db.studentSubs, k)
           && views[i] == MemberView(db.users, db.grades, db.fileSubs[k], db.studentSubs[order[i]],
                                     |Members(db.studentSubs, k)|)
  {
    var found := exists k :: k in db.fileSubs && GroupMatches(db.fileSubs, k, activityId, activityMoodleId, code);
    if !found {
      return [];
    }
    var k :| k in db.fileSubs && GroupMatches(db.fileSubs, k, activityId, activityMoodleId, code);
    forall k' | GroupMatches(db.fileSubs, k', activityId, activityMoodleId, code) ensures k' == k {
      assert db.fileSubs[k'].groupCode == db.fileSubs[k].groupCode;
    }
    EnumerationLength(order, Members(db.studentSubs, k));
    views := MemberViews(db, db.fileSubs[k], order);
  }

  /** The loop of get_group_members: one view per listed member row, in order. */
  method MemberViews(db: Database, f: FileSubmission, order: seq<string>) returns (views: seq<View>)
    requires OneGradePerFile(db.grades)
    requires forall i :: 0 <= i < |order| ==> order[i] in db.studentSubs
    ensures |views| == |order|
    ensures forall n :: 0 <= n < |order| ==>
      views[n] == MemberView(db.users, db.grades, f, db.studentSubs[order[n]], |order|)
  {
    views := [];
    var i := 0;
    while i < |order|
      invariant 0 <= i <= |order| && |views| == i
      invariant forall n :: 0 <= n < i ==>
        views[n] == MemberView(db.users, db.grades, f, db.studentSubs[order[n]], |order|)
    {
      var s := db.studentSubs[order[i]];
      var person := Person(db.users, s.studentId, s.studentMoodleId);
      var leader := f.uploadedBy == s.studentId;
      var grade := FindGrade(db, f.id);
      views := views + [View(FileModel(f), s, person.0, person.1, leader, Some(if leader then |order| - 1 else 0), grade)];
      i := i + 1;
    }
  }

  // ------------------------------------------------------------------ get_submissions_by_activity

  /** One entry of a group's member list. */
  datatype Member = Member(studentId: string, studentName: string, studentEmail: Option<string>, joinedAt: int,
                           isGroupLeader: bool)

  /** One group of the listing: its code, its file, its members in listing order, its leader and its grade. */
  datatype GroupEntry = GroupEntry(groupCode: string, fileSubmission: FileSubmission, members: seq<Member>,
                                   groupLeader: Option<Member>, grade: Option<Grade>)

  /** What get_submissions_by_activity returns: groups for a group activity, submissions otherwise. */
  datatype Listing =
    | GroupListing(activity: Activity, totalSubmissions: nat, groups: seq<GroupEntry>)
    | IndividualListing(activity: Activity, totalSubmissions: nat, submissions: seq<View>)

  /** The student submissions of an activity: the rows the listing query returns. */
  function ActivityRows(ss: map<string, StudentSubmission>, activityId: string, activityMoodleId: string): set<string> {
    set k | k in ss && ss[k].activityId == activityId && ss[k].activityMoodleId == activityMoodleId
  }

  /** The activity's student submissions that point at file `fid`. */
  function ListedMembers(ss: map<string, StudentSubmission>, activityId: string, activityMoodleId: string,
                         fid: string): set<string>
  {
    set k | k in ss && ss[k].activityId == activityId && ss[k].activityMoodleId == activityMoodleId
                    && ss[k].fileSubmissionId == fid
  }

  /**
    The view of one listed student submission (None when its file is missing):
    the student leads when they uploaded a file that has a code, and only a
    leader of a coded group sees a count, the number of other members.
  */
  ghost function ListingView(fs: map<string, FileSubmission>, ss: map<string, StudentSubmission>,
                             gs: map<string, Grade>, users: map<(string, string), User>,
                             activityId: string, activityMoodleId: string, s: StudentSubmission): (r: Option<View>)
    ensures r.None? <==> s.fileSubmissionId !in fs
    ensures r.Some? ==>
      var f := fs[s.fileSubmissionId];
      && r.value.studentSubmission == s && r.value.fileSubmission == FileModel(f)
      && (r.value.isGroupLeader <==> f.uploadedBy == s.studentId && f.groupCode.Some?)
      && (r.value.groupCodeUses.Some? <==> HasCode(f) && r.value.isGroupLeader)
      && (r.value.groupCodeUses.Some? ==>
            r.value.groupCodeUses.value == |ListedMembers(ss, activityId, activityMoodleId, f.id)| - 1)
  {
    if s.fileSubmissionId !in fs then None
    else
      var f := fs[s.fileSubmissionId];
      var person := Person(users, s.studentId, s.studentMoodleId);
      var leader := f.uploadedBy == s.studentId && f.groupCode.Some?;
      var uses := if HasCode(f) && leader then Some(|ListedMembers(ss, activityId, activityMoodleId, f.id)| - 1)
                  else None;
      Some(View(FileModel(f), s, person.0, person.1, leader, uses, GradeOf(gs, f.id)))
  }

  function MemberOf(v: View): Member {
    Member(v.studentSubmission.studentId, v.studentName, v.studentEmail, v.studentSubmission.joinedAt, v.isGroupLeader)
  }

  /** Where a code sits among the groups collected so far. */
  function IndexOfCode(groups: seq<GroupEntry>, code: string): (r: Option<nat>)
    ensures r.Some? ==> r.value < |groups| && groups[r.value].groupCode == code
    ensures r.None? ==> forall i :: 0 <= i < |groups| ==> groups[i].groupCode != code
  {
    if groups == [] then None
    else if groups[0].groupCode == code then Some(0)
    else match IndexOfCode(groups[1..], code)
      case None => None
      case Some(i) => Some(i + 1)
  }

  /** The leader recorded for a group is one of its members flagged leader, and there is one whenever a member is. */
  predicate LeaderInGroup(g: GroupEntry) {
    && (g.groupLeader.Some? ==> g.groupLeader.value in g.members && g.groupLeader.value.isGroupLeader)
    && (g.groupLeader.None? ==> forall m :: m in g.members ==> !m.isGroupLeader)
  }

  predicate GroupsWellFormed(groups: seq<GroupEntry>) {
    && (forall i, j :: 0 <= i < j < |groups| ==> groups[i].groupCode != groups[j].groupCode)
    && (forall i :: 0 <= i < |groups| ==> LeaderInGroup(groups[i]))
  }

  function Codes(groups: seq<GroupEntry>): set<string> {
    set i | 0 <= i < |groups| :: groups[i].groupCode
  }

  /**
    Filing a listed member under its group's code: appended to the entry with
    that code, or to a new entry at the end; a leader becomes the group's leader.
  */
  function AddToGroups(groups: seq<GroupEntry>, v: View): (r: seq<GroupEntry>)
    requires HasCode(v.fileSubmission)
    ensures GroupsWellFormed(groups) ==> GroupsWellFormed(r)
    ensures Codes(r) == Codes(groups) + {v.fileSubmission.groupCode.value}
  {
    var code := v.fileSubmission.groupCode.value;
    var m := MemberOf(v);
    match IndexOfCode(groups, code)
    case None =>
      var r := groups + [GroupEntry(code, v.fileSubmission, [m], if m.isGroupLeader then Some(m) else None, v.grade)];
      assert Codes(r) == Codes(groups) + {code} by {
        assert forall i :: 0 <= i < |groups| ==> r[i] == groups[i];
        assert r[|groups|].groupCode == code;
      }
      r
    case Some(i) =>
      var g := groups[i].(members := groups[i].members + [m],
                          groupLeader := if m.isGroupLeader then Some(m) else groups[i].groupLeader);
      var r := groups[i := g];
      assert Codes(r) == Codes(groups) by {
        assert forall j :: 0 <= j < |groups| ==> r[j].groupCode == groups[j].groupCode;
      }
      r
  }

  /** The codes of the listed views that have one. */
  function ViewCodes(views: seq<View>): set<string> {
    set i | 0 <= i < |views| && HasCode(views[i].fileSubmission) :: views[i].fileSubmission.groupCode.value
  }

  /**
    One step of the listing loop: a row whose file exists adds its view, and
    a view with a code is filed under it; well-formed groups stay well formed
    and keep exactly the codes of the views.
  */
  function ListStep(prev: (seq<View>, seq<GroupEntry>), item: Option<View>): (r: (seq<View>, seq<GroupEntry>))
    ensures GroupsWellFormed(prev.1) && Codes(prev.1) == ViewCodes(prev.0) ==>
      GroupsWellFormed(r.1) && Codes(r.1) == ViewCodes(r.0)
  {
    match item
    case None => prev
    case Some(v) =>
      var views := prev.0 + [v];
      assert ViewCodes(views) == ViewCodes(prev.0) + (if HasCode(v.fileSubmission) then {v.fileSubmission.groupCode.value} else {}) by {
        assert forall i :: 0 <= i < |prev.0| ==> views[i] == prev.0[i];
        assert views[|prev.0|] == v;
      }
      (views, if HasCode(v.fileSubmission) then AddToGroups(prev.1, v) else prev.1)
  }

  /**
    The loop of get_submissions_by_activity over the first `n` rows: the views
    collected and the groups filled.  The groups have distinct codes, exactly
    the codes of the listed views, and each records a leader consistent with
    its members.
  */
  ghost function Listed(fs: map<string, FileSubmission>, ss: map<string, StudentSubmission>,
                        gs: map<string, Grade>, users: map<(string, string), User>,
                        activityId: string, activityMoodleId: string, order: seq<string>, n: nat)
    : (r: (seq<View>, seq<GroupEntry>))
    requires n <= |order| && forall i :: 0 <= i < |order| ==> order[i] in ss
    ensures GroupsWellFormed(r.1)
    ensures Codes(r.1) == ViewCodes(r.0)
    decreases n
  {
    if n == 0 then ([], [])
    else ListStep(Listed(fs, ss, gs, users, activityId, activityMoodleId, order, n - 1),
                  ListingView(fs, ss, gs, users, activityId, activityMoodleId, ss[order[n - 1]]))
  }

  /** Groups with distinct codes are as many as their codes. */
  lemma {:induction false} CodesCount(groups: seq<GroupEntry>)
    requires GroupsWellFormed(groups)
    ensures |Codes(groups)| == |groups|
  {
    if groups != [] {
      var init := groups[..|groups| - 1];
      assert GroupsWellFormed(init);
      CodesCount(init);
      assert Codes(groups) == Codes(init) + {groups[|groups| - 1].groupCode};
      assert groups[|groups| - 1].groupCode !in Codes(init);
    }
  }

  /** The views without a group code, in order: the individual listing. */
  function WithoutCode(views: seq<View>): (r: seq<View>)
    ensures forall v :: v in r ==> v in views && !HasCode(v.fileSubmission)
    ensures forall v :: v in views && !HasCode(v.fileSubmission) ==> v in r
  {
    if views == [] then []
    else (if HasCode(views[0].fileSubmission) then [] else [views[0]]) + WithoutCode(views[1..])
  }

  /** The listing for an activity from the views and groups the loop collected. */
  function ListingOf(a: Activity, views: seq<View>, groups: seq<GroupEntry>): Listing {
    if a.kind == Group then GroupListing(a, |groups|, groups)
    else IndividualListing(a, |WithoutCode(views)|, WithoutCode(views))
  }

  /** The view of one listed row, with its grade looked up; None when its file is missing. */
  method ListingItem(db: Database, activityId: string, activityMoodleId: string, s: StudentSubmission)
    returns (item: Option<View>)
    requires OneGradePerFile(db.grades)
    ensures item == ListingView(db.fileSubs, db.studentSubs, db.grades, db.users, activityId, activityMoodleId, s)
  {
    if s.fileSubmissionId !in db.fileSubs {
      return None;
    }
    var f := db.fileSubs[s.fileSubmissionId];
    var person := Person(db.users, s.studentId, s.studentMoodleId);
    var leader := f.uploadedBy == s.studentId && f.groupCode.Some?;
    var uses: Option<int> := None;
    if HasCode(f) && leader {
      uses := Some(|ListedMembers(db.studentSubs, activityId, activityMoodleId, f.id)| - 1);
    }
    var grade := FindGrade(db, f.id);
    item := Some(View(FileModel(f), s, person.0, person.1, leader, uses, grade));
  }

  /**
    What the listing reports, from the views and groups the loop collected:
    for a group activity one entry per distinct code among the views, for an
    individual one exactly the views without a code.
  */
  lemma ListingTotals(a: Activity, views: seq<View>, groups: seq<GroupEntry>)
    requires GroupsWellFormed(groups) && Codes(groups) == ViewCodes(views)
    ensures ListingOf(a, views, groups).GroupListing? ==>
      ListingOf(a, views, groups).totalSubmissions == |ViewCodes(views)|
    ensures ListingOf(a, views, groups).IndividualListing? ==>
      && ListingOf(a, views, groups).totalSubmissions == |ListingOf(a, views, groups).submissions|
      && forall v :: v in views ==> (v in ListingOf(a, views, groups).submissions <==> !HasCode(v.fileSubmission))
  {
    CodesCount(groups);
  }

  /** The loop over the listed rows: views in query order, and the groups filled from them. */
  method CollectListing(db: Database, activityId: string, activityMoodleId: string, order: seq<string>)
    returns (views: seq<View>, groups: seq<GroupEntry>)
    requires OneGradePerFile(db.grades)
    requires forall i :: 0 <= i < |order| ==> order[i] in db.studentSubs
    ensures (views, groups) == Listed(db.fileSubs, db.studentSubs, db.grades, db.users, activityId,
                                      activityMoodleId, order, |order|)
  {
    views, groups := [], [];
    var i := 0;
    while i < |order|
      invariant 0 <= i <= |order|
      invariant (views, groups) == Listed(db.fileSubs, db.studentSubs, db.grades, db.users, activityId,
                                          activityMoodleId, order, i)
    {
      var item := ListingItem(db, activityId, activityMoodleId, db.studentSubs[order[i]]);
      var next := ListStep((views, groups), item);
      views, groups := next.0, next.1;
      i := i + 1;
    }
  }

  /**
    get_submissions_by_activity: every student submission of the activity in
    query order, gathered into one entry per group code for a group activity,
    or the submissions without a code for an individual one.
  */
  method GetSubmissionsByActivity(db: Database, activityId: string, activityMoodleId: string, order: seq<string>)
    returns (r: Result<Listing, string>)
    requires db.Valid()
    requires Enumerates(order, ActivityRows(db.studentSubs, activityId, activityMoodleId))
    ensures (activityId, activityMoodleId) !in db.activities ==> r == Err(ActivityNotFound())
    ensures (activityId, activityMoodleId) in db.activities ==>
      var listed := Listed(db.fileSubs, db.studentSubs, db.grades, db.users, activityId, activityMoodleId,
                           order, |order|);
      r == Ok(ListingOf(db.activities[(activityId, activityMoodleId)], listed.0, listed.1))
  {
    if (activityId, activityMoodleId) !in db.activities {
      return Err(ActivityNotFound());
    }
    var activity := db.activities[(activityId, activityMoodleId)];
    assert forall i :: 0 <= i < |order| ==> order[i] in db.studentSubs;
    var views, groups := CollectListing(db, activityId, activityMoodleId, order);
    r := Ok(ListingOf(activity, views, groups));
  }
}

=== FILE: lti.dfy ===
/**
  LTI 1.1 grade passback of backend/lti_service.py: the replaceResult request
  of the Basic Outcomes service (section 6 of the IMS LTI 1.1 Implementation
  Guide), the classification of Moodle's answer, and the sweep that sends every
  graded submission of an activity.

  The network is a parameter: `replies[i]` is Moodle's answer to the ith
  request the sweep posts.  The UUIDs and the clock are the `uuid` and `clock`
  fields of `Env`, indexed by the position of the item in the sweep.
*/
module Lti {
  import opened Wrappers
  import opened Store
  import opened Oauth
  import Text

  // ------------------------------------------------------------------ create_outcome_xml

  /** xml.sax.saxutils.escape on one character. */
  function XmlEscapeChar(c: char): string {
    if c == '&' then "&amp;" else if c == '<' then "&lt;" else if c == '>' then "&gt;" else [c]
  }

  /**
    xml.sax.saxutils.escape: '&', '<' and '>' become entities. The result reads
    back as the original text and holds no '<' or '>', so it cannot open or
    close an element.
  */
  function XmlEscape(s: string): (r: string)
    ensures XmlUnescape(r) == Some(s)
    ensures '<' !in r && '>' !in r
  {
    if s == [] then ""
    else
      var rest := XmlEscape(s[1..]);
      UnescapeChar(s[0], rest);
      assert s == [s[0]] + s[1..];
      XmlEscapeChar(s[0]) + rest
  }

  /** Reading the three entities back; None on a bare '<' or '>' or an unknown entity. */
  function XmlUnescape(t: string): (r: Option<string>)
    decreases |t|
  {
    if t == [] then Some("")
    else if t[0] == '<' || t[0] == '>' then None
    else if t[0] != '&' then Prepend(t[0], XmlUnescape(t[1..]))
    else if Text.StartsWith(t, "&amp;") then Prepend('&', XmlUnescape(t[5..]))
    else if Text.StartsWith(t, "&lt;") then Prepend('<', XmlUnescape(t[4..]))
    else if Text.StartsWith(t, "&gt;") then Prepend('>', XmlUnescape(t[4..]))
    else None
  }

  function Prepend(c: char, r: Option<string>): Option<string> {
    match r
    case None => None
    case Some(s) => Some([c] + s)
  }

  /** Unescaping reads one escaped character back, whatever follows it. */
  lemma UnescapeChar(c: char, rest: string)
    ensures XmlUnescape(XmlEscapeChar(c) + rest) == Prepend(c, XmlUnescape(rest))
  {
    var e := XmlEscapeChar(c);
    var t := e + rest;
    assert t[|e|..] == rest;
    assert t[..|e|] == e;
    if c == '<' {
      assert t[1] == 'l';
    } else if c == '>' {
      assert t[1] == 'g';
    }
  }

  /** The score sent to Moodle: score / 10 clamped into [0, 1]. */
  function NormalizedScore(score: real): (r: real)
    ensures 0.0 <= r <= 1.0
    ensures 0.0 <= score <= 10.0 ==> r == score / 10.0
    ensures score < 0.0 ==> r == 0.0
    ensures score > 10.0 ==> r == 1.0
  {
    var x := score / 10.0;
    var low := if 1.0 < x then 1.0 else x;
    if 0.0 < low then low else 0.0
  }

  /** `n` spaces. */
  function Spaces(n: nat): string {
    seq(n, _ => ' ')
  }

  /** A line break followed by the indentation of nesting level `depth` (four spaces a level). */
  function Nl(depth: nat): string {
    "\n" + Spaces(4 * depth)
  }

  function Open(tag: string): string {
    "<" + tag + ">"
  }

  function Close(tag: string): string {
    "</" + tag + ">"
  }

  /** An element whose text sits on the same line as its tags. */
  function Leaf(tag: string, text: string): string {
    Open(tag) + text + Close(tag)
  }

  function RootTag(): string {
    "imsx_POXEnvelopeRequest"
  }

  function Namespace(): string {
    "http://www.imsglobal.org/services/ltiv1p1/xsd/imsoms_v1p0"
  }

  /*
    The template of create_outcome_xml, indented four spaces per level, cut
    at the four places where it inserts a value.
  */
  function XmlHead(): string {
    "<?xml version=\"1.0\" encoding=\"UTF-8\"?>" + Nl(0) + "<" + RootTag() + " xmlns=\"" + Namespace() + "\">"
    + Nl(1) + Open("imsx_POXHeader") + Nl(2) + Open("imsx_POXRequestHeaderInfo")
    + Nl(3) + Leaf("imsx_version", "V1.0")
    + Nl(3) + Open("imsx_messageIdentifier")
  }

  function XmlBeforeSourcedId(): string {
    Close("imsx_messageIdentifier") + Nl(2) + Close("imsx_POXRequestHeaderInfo") + Nl(1) + Close("imsx_POXHeader")
    + Nl(1) + Open("imsx_POXBody") + Nl(2) + Open("replaceResultRequest") + Nl(3) + Open("resultRecord")
    + Nl(4) + Open("sourcedGUID") + Nl(5) + Open("sourcedId")
  }

  function XmlBeforeScore(): string {
    Close("sourcedId") + Nl(4) + Close("sourcedGUID") + Nl(4) + Open("result") + Nl(5) + Open("resultScore")
    + Nl(6) + Leaf("language", "en") + Nl(6) + Open("textString")
  }

  function XmlBeforeComment(): string {
    Close("textString") + Nl(5) + Close("resultScore") + Nl(5) + Open("resultData") + Nl(6) + Open("text")
  }

  function XmlTail(): string {
    Close("text") + Nl(5) + Close("resultData") + Nl(4) + Close("result") + Nl(3) + Close("resultRecord")
    + Nl(2) + Close("replaceResultRequest") + Nl(1) + Close("imsx_POXBody") + Nl(0) + Close(RootTag())
  }

  /** The envelope up to the opening sourcedId tag. */
  function HeaderPart(messageId: string): string {
    XmlHead() + XmlEscape(messageId) + XmlBeforeSourcedId()
  }

  /** The envelope between the sourcedId and the comment: the closing tags, the score and the opening text tag. */
  function ScorePart(prims: Primitives, score: real): string {
    XmlBeforeScore() + prims.floatRepr(NormalizedScore(score)) + XmlBeforeComment()
  }

  /** The envelope up to the opening text tag of the comment. */
  function CommentPrefix(prims: Primitives, messageId: string, sourcedId: string, score: real): string {
    HeaderPart(messageId) + XmlEscape(sourcedId) + ScorePart(prims, score)
  }

  /**
    create_outcome_xml: the replaceResultRequest envelope for one sourcedId.
    The sourcedId and the comment each sit escaped right after their opening
    tag, up to the next '<', and read back as given.
  */
  function OutcomeXml(prims: Primitives, messageId: string, sourcedId: string, score: real, comment: string)
    : (r: string)
    ensures EscapedAfter(r, HeaderPart(messageId), sourcedId)
    ensures EscapedAfter(r, CommentPrefix(prims, messageId, sourcedId, score), comment)
  {
    var head, middle, tail := HeaderPart(messageId), ScorePart(prims, score), XmlTail();
    ScorePartOpensTag(prims, score);
    TailOpensTag();
    TwoFieldsReadBack(head, sourcedId, middle, comment, tail);
    head + XmlEscape(sourcedId) + middle + XmlEscape(comment) + tail
  }

  /** The part after the sourcedId opens the closing sourcedId tag. */
  lemma ScorePartOpensTag(prims: Primitives, score: real)
    ensures |ScorePart(prims, score)| > 0 && ScorePart(prims, score)[0] == '<'
  {
    assert ScorePart(prims, score)[0] == XmlBeforeScore()[0];
  }

  /** The closing tags after the comment start with a tag. */
  lemma TailOpensTag()
    ensures |XmlTail()| > 0 && XmlTail()[0] == '<'
  {
    assert XmlTail()[0] == Close("text")[0];
  }

  /** Two escaped texts, each followed by markup, both read back. */
  lemma TwoFieldsReadBack(head: string, first: string, middle: string, second: string, tail: string)
    requires |middle| > 0 && middle[0] == '<' && |tail| > 0 && tail[0] == '<'
    ensures var x := head + XmlEscape(first) + middle + XmlEscape(second) + tail;
      EscapedAfter(x, head, first) && EscapedAfter(x, head + XmlEscape(first) + middle, second)
  {
    var after := middle + XmlEscape(second) + tail;
    Regroup(head, XmlEscape(first), middle, XmlEscape(second), tail);
    EscapedTextReadsBack(head, first, after);
    EscapedTextReadsBack(head + XmlEscape(first) + middle, second, tail);
  }

  lemma Regroup(h: string, s: string, m: string, e: string, t: string)
    ensures h + s + m + e + t == h + s + (m + e + t)
  {
  }

  /**
    x holds the escaped text right after the prefix before, and it can be read
    back: it is the slice up to the next '<', and unescaping that slice gives
    the text.
  */
  predicate EscapedAfter(x: string, before: string, text: string) {
    var start := |before|;
    var end := start + |XmlEscape(text)|;
    && end < |x|
    && x[..start] == before
    && x[start..end] == XmlEscape(text)
    && '<' !in x[start..end]
    && XmlUnescape(x[start..end]) == Some(text)
    && x[end] == '<'
  }

  /** Escaped text followed by markup that starts with '<' reads back. */
  lemma EscapedTextReadsBack(before: string, text: string, after: string)
    requires |after| > 0 && after[0] == '<'
    ensures EscapedAfter(before + XmlEscape(text) + after, before, text)
  {
    var e := XmlEscape(text);
    var x := before + e + after;
    assert x[..|before|] == before;
    assert x[|before|..|before| + |e|] == e;
  }

  // ------------------------------------------------------------------ send_grade_to_moodle

  /** What the outcome service answered, or how the POST failed. */
  datatype Reply =
    | Response(status: int, body: string)
    | ConnectionError(reason: string)
    | Unexpected(reason: string)

  /** The POST send_grade_to_moodle makes. */
  datatype Request = Request(url: string, body: seq<Byte>, authorization: string, contentType: string,
                             contentLength: nat)

  datatype SendResult = SendResult(success: bool, statusCode: Option<int>, responseText: Option<string>,
                                   errorMessage: Option<string>)

  function SuccessMarker(): string {
    "imsx_codemajor>success"
  }

  function SignatureMarker(): string {
    "signature not valid"
  }

  function SignatureInvalidMessage(): string {
    "Error: OAuth signature invalid."
  }

  function MoodleFailureMessage(): string {
    "Error: Moodle returned failure."
  }

  /** The reading of Moodle's answer in send_grade_to_moodle. */
  function Classify(reply: Reply): (r: SendResult)
    ensures r.success <==> reply.Response? && reply.status == 200 && Text.Contains(Text.Lower(reply.body), SuccessMarker())
    ensures r.success <==> r.errorMessage.None?
    ensures reply.Response? ==> r.statusCode == Some(reply.status) && r.responseText == Some(reply.body)
    ensures !reply.Response? ==> r.statusCode.None? && r.responseText.None?
  {
    match reply
    case Response(status, body) =>
      var lower := Text.Lower(body);
      var error :=
        if status == 200 then
          if Text.Contains(lower, SuccessMarker()) then None
          else if Text.Contains(lower, SignatureMarker()) then Some(SignatureInvalidMessage())
          else Some(MoodleFailureMessage())
        else Some("Error: HTTP " + Text.IntToString(status));
      SendResult(error.None?, Some(status), Some(body), error)
    case ConnectionError(reason) => SendResult(false, None, None, Some("Connection error: " + reason))
    case Unexpected(reason) => SendResult(false, None, None, Some("Unexpected error: " + reason))
  }

  /**
    The failures are told apart: a 200 without the success marker is a
    signature error when the body mentions an invalid signature and a Moodle
    failure otherwise; any other status is an HTTP error.
  */
  lemma ClassifyFailures(reply: Reply)
    requires reply.Response? && !Classify(reply).success
    ensures reply.status == 200 ==>
      (Classify(reply).errorMessage == Some(SignatureInvalidMessage()) <==>
        Text.Contains(Text.Lower(reply.body), SignatureMarker()))
    ensures reply.status == 200 ==>
      (Classify(reply).errorMessage == Some(MoodleFailureMessage()) <==>
        !Text.Contains(Text.Lower(reply.body), SignatureMarker()))
    ensures reply.status != 200 ==> Classify(reply).errorMessage == Some("Error: HTTP " + Text.IntToString(reply.status))
  {
  }

  /** The request send_grade_to_moodle posts, from its inputs, two UUIDs and the clock. */
  function RequestFor(prims: Primitives, sourcedId: string, url: string, consumerKey: string, secret: string,
                      score: real, comment: string, messageUuid: string, nonceUuid: string, timestamp: int): Request
  {
    SignedRequest(prims, url, OutcomeXml(prims, messageUuid, sourcedId, score, comment), consumerKey, secret,
                  nonceUuid, timestamp)
  }

  /** The envelope `xml` posted to `url`, its body hash and the request signed with the OAuth parameters. */
  function SignedRequest(prims: Primitives, url: string, xml: string, consumerKey: string, secret: string,
                         nonceUuid: string, timestamp: int): Request
  {
    var bodyHash := prims.base64(prims.sha1(Encode(xml)));
    var params := OAuthParams(consumerKey, nonceUuid, timestamp, bodyHash);
    var signature := SignatureOf(prims, "POST", prims.parseUrl(url), params, secret);
    Request(url, Encode(xml), SignedHeader(consumerKey, nonceUuid, timestamp, bodyHash, signature),
            "application/xml", |Encode(xml)|)
  }

  /** The Authorization header of a request: the OAuth parameters and the signature. */
  function SignedHeader(consumerKey: string, nonce: string, timestamp: int, bodyHash: string, signature: string)
    : string
  {
    AuthorizationHeader(OAuthParams(consumerKey, nonce, timestamp, bodyHash) + [("oauth_signature", signature)])
  }

  /**
    The Authorization header carries the body hash and the signature, each as
    key="escaped value".
  */
  lemma SignedHeaderCarries(consumerKey: string, nonce: string, timestamp: int, bodyHash: string, signature: string)
    ensures var h := SignedHeader(consumerKey, nonce, timestamp, bodyHash, signature);
      && Text.StartsWith(h, "OAuth ")
      && Text.Contains(h, HeaderItem(("oauth_body_hash", bodyHash)))
      && Text.Contains(h, HeaderItem(("oauth_signature", signature)))
  {
    var all := OAuthParams(consumerKey, nonce, timestamp, bodyHash) + [("oauth_signature", signature)];
    assert all[5] == ("oauth_body_hash", bodyHash) && all[6] == ("oauth_signature", signature);
    var h := AuthorizationHeader(all);
    assert Text.Contains(h, HeaderItem(all[5])) && Text.Contains(h, HeaderItem(all[6]));
  }

  /**
    The first half of send_grade_to_moodle: builds the envelope, hashes it,
    signs the OAuth parameters and builds the header.
  */
  method BuildGradeRequest(prims: Primitives, sourcedId: string, url: string, consumerKey: string, secret: string,
                           score: real, comment: string, messageUuid: string, nonceUuid: string, timestamp: int)
    returns (request: Request)
    ensures request == RequestFor(prims, sourcedId, url, consumerKey, secret, score, comment, messageUuid,
                                  nonceUuid, timestamp)
  {
    var xml := OutcomeXml(prims, messageUuid, sourcedId, score, comment);
    request := SignRequest(prims, url, xml, consumerKey, secret, nonceUuid, timestamp);
  }

  /** Hashes the envelope, signs the OAuth parameters and builds the header. */
  method SignRequest(prims: Primitives, url: string, xml: string, consumerKey: string, secret: string,
                     nonceUuid: string, timestamp: int)
    returns (request: Request)
    ensures request == SignedRequest(prims, url, xml, consumerKey, secret, nonceUuid, timestamp)
  {
    var body := Encode(xml);
    var bodyHash := prims.base64(prims.sha1(body));
    var params := OAuthParams(consumerKey, nonceUuid, timestamp, bodyHash);
    var signature := GenerateSignature(prims, "POST", url, params, secret);
    var header := BuildAuthorizationHeader(params + [("oauth_signature", signature)]);
    request := Request(url, body, header, "application/xml", |body|);
  }

  /**
    send_grade_to_moodle: builds the signed request to post; `reply` is
    Moodle's answer to it, and the result is its classification.
  */
  method SendGradeToMoodle(prims: Primitives, reply: Reply, sourcedId: string, url: string,
                           consumerKey: string, secret: string, score: real, comment: string,
                           messageUuid: string, nonceUuid: string, timestamp: int)
    returns (request: Request, result: SendResult)
    ensures request == RequestFor(prims, sourcedId, url, consumerKey, secret, score, comment, messageUuid,
                                  nonceUuid, timestamp)
    ensures result == Classify(reply)
  {
    request := BuildGradeRequest(prims, sourcedId, url, consumerKey, secret, score, comment, messageUuid, nonceUuid,
                                 timestamp);
    result := Classify(reply);
  }

  // ------------------------------------------------------------------ send_activity_grades_to_moodle

  /** The outside world of a sweep apart from the network: primitives, UUIDs and the clock. */
  datatype Env = Env(prims: Primitives, uuid: nat -> string, clock: nat -> int)

  function DefaultComment(): string {
    "Calificación enviada automáticamente"
  }

  /** `grade.comment or DefaultComment()`: an empty comment also takes the default. */
  function CommentOrDefault(c: Option<string>): string {
    if c.Some? && c.value != "" then c.value else DefaultComment()
  }

  /** Python truthiness of an optional string. */
  predicate Truthy(o: Option<string>) {
    o.Some? && o.value != ""
  }

  datatype ItemResult = ItemResult(studentId: string, score: real, comment: Option<string>, success: bool,
                                   errorMessage: Option<string>)

  datatype SweepResult =
    | Aborted(error: SweepAbort)
    | Swept(success: bool, sentCount: nat, failedCount: nat, totalSubmissions: nat, activityTitle: string,
            courseTitle: string, results: seq<ItemResult>)

  /**
    A row of the sweep's query: a student submission of an activity with that
    id (in any Moodle instance) with a sourcedid, whose file has a grade.
  */
  predicate Selected(ss: map<string, StudentSubmission>, fs: map<string, FileSubmission>, gs: map<string, Grade>,
                     activityId: string, k: string)
  {
    k in ss && ss[k].activityId == activityId && ss[k].lisResultSourcedid.Some? && ss[k].fileSubmissionId in fs
    && exists g :: g in gs && gs[g].fileSubmissionId == ss[k].fileSubmissionId
  }

  /** Every key of `order` is a row of the sweep's query. */
  predicate AllSelected(order: seq<string>, ss: map<string, StudentSubmission>, fs: map<string, FileSubmission>,
                        gs: map<string, Grade>, activityId: string)
  {
    forall i :: 0 <= i < |order| ==> Selected(ss, fs, gs, activityId, order[i])
  }

  /** `order` lists the rows of the sweep's query, each once. */
  ghost predicate ListsSelected(order: seq<string>, ss: map<string, StudentSubmission>, fs: map<string, FileSubmission>,
                                gs: map<string, Grade>, activityId: string)
  {
    && Distinct(order)
    && AllSelected(order, ss, fs, gs, activityId)
    && (forall k {:trigger Selected(ss, fs, gs, activityId, k)} :: Selected(ss, fs, gs, activityId, k) ==> k in order)
  }

  /** Why a sweep stops before sending anything. */
  datatype SweepAbort =
    | NoCredentials
    | ActivityMissing
    | CourseMissing
    | CourseUnlinked
    | OutcomeUrlMissing
    | NothingGraded

  /** The error text the sweep reports for each abort. */
  function AbortMessage(a: SweepAbort): string {
    match a
    case NoCredentials => "LTI credentials not configured"
    case ActivityMissing => "Activity not found"
    case CourseMissing => "Course not found"
    case CourseUnlinked => "Course is not associated with a Moodle instance"
    case OutcomeUrlMissing => "Moodle instance not found or LTI outcome URL missing"
    case NothingGraded => "No graded submissions found"
  }

  /**
    The guards of the sweep, checked in the source's order; when they pass, the
    activity, its course and the outcome service URL.
  */
  function SweepGuard(moodles: map<string, Moodle>, courses: map<(string, string), Course>,
                      activities: map<(string, string), Activity>, consumerKey: Option<string>,
                      secret: Option<string>, activityId: string, activityMoodleId: string, rowCount: nat)
    : (r: Result<(Activity, Course, string), SweepAbort>)
    ensures r.Ok? ==> Truthy(consumerKey) && Truthy(secret) && rowCount > 0 && r.value.2 != ""
    ensures r.Ok? ==> (activityId, activityMoodleId) in activities && r.value.0 == activities[(activityId, activityMoodleId)]
    ensures r == Err(NoCredentials) <==> !Truthy(consumerKey) || !Truthy(secret)
    ensures r == Err(NothingGraded) ==> rowCount == 0
    ensures r.Ok? ==>
      var a := r.value.0;
      && (a.courseId, a.courseMoodleId) in courses && r.value.1 == courses[(a.courseId, a.courseMoodleId)]
      && r.value.1.moodleId != "" && r.value.1.moodleId in moodles
      && moodles[r.value.1.moodleId].outcomeServiceUrl == Some(r.value.2)
    ensures r.Ok? <==>
      && Truthy(consumerKey) && Truthy(secret) && (activityId, activityMoodleId) in activities
      && var a := activities[(activityId, activityMoodleId)];
         && (a.courseId, a.courseMoodleId) in courses
         && var c := courses[(a.courseId, a.courseMoodleId)];
            && c.moodleId != "" && c.moodleId in moodles && Truthy(moodles[c.moodleId].outcomeServiceUrl)
            && rowCount > 0
  {
    if !Truthy(consumerKey) || !Truthy(secret) then Err(NoCredentials)
    else if (activityId, activityMoodleId) !in activities then Err(ActivityMissing)
    else
      var a := activities[(activityId, activityMoodleId)];
      if (a.courseId, a.courseMoodleId) !in courses then Err(CourseMissing)
      else
        var c := courses[(a.courseId, a.courseMoodleId)];
        if c.moodleId == "" then Err(CourseUnlinked)
        else if c.moodleId !in moodles || !Truthy(moodles[c.moodleId].outcomeServiceUrl) then Err(OutcomeUrlMissing)
        else if rowCount == 0 then Err(NothingGraded)
        else Ok((a, c, moodles[c.moodleId].outcomeServiceUrl.value))
  }

  /** The guards of the sweep, read from the database. */
  method CheckSweep(db: Database, consumerKey: Option<string>, secret: Option<string>, activityId: string,
                    activityMoodleId: string, order: seq<string>)
    returns (r: Result<(Activity, Course, string), SweepAbort>)
    ensures r == SweepGuard(db.moodles, db.courses, db.activities, consumerKey, secret, activityId, activityMoodleId,
                            |order|)
  {
    if consumerKey.None? || consumerKey.value == "" || secret.None? || secret.value == "" {
      return Err(NoCredentials);
    }
    if (activityId, activityMoodleId) !in db.activities {
      return Err(ActivityMissing);
    }
    var activity := db.activities[(activityId, activityMoodleId)];
    if (activity.courseId, activity.courseMoodleId) !in db.courses {
      return Err(CourseMissing);
    }
    var course := db.courses[(activity.courseId, activity.courseMoodleId)];
    if course.moodleId == "" {
      return Err(CourseUnlinked);
    }
    if course.moodleId !in db.moodles || !Truthy(db.moodles[course.moodleId].outcomeServiceUrl) {
      return Err(OutcomeUrlMissing);
    }
    if |order| == 0 {
      return Err(NothingGraded);
    }
    r := Ok((activity, course, db.moodles[course.moodleId].outcomeServiceUrl.value));
  }

  /** The row after a successful send. */
  function MarkSent(s: StudentSubmission, now: int): StudentSubmission {
    s.(sentToMoodle := true, sentToMoodleAt := Some(now))
  }

  /** The student submissions with the rows in `keys` marked as sent. */
  function MarkAll(ss: map<string, StudentSubmission>, keys: set<string>, now: int): map<string, StudentSubmission> {
    map k | k in ss :: if k in keys then MarkSent(ss[k], now) else ss[k]
  }

  /** One row of the sweep's query: the student submission, its sourcedid and its file's grade. */
  datatype SweepRow = SweepRow(submission: StudentSubmission, sourcedId: string, grade: Grade)

  /** The query row for key `k`. */
  ghost function RowFor(ss: map<string, StudentSubmission>, fs: map<string, FileSubmission>, gs: map<string, Grade>,
                        activityId: string, k: string): (r: SweepRow)
    requires Selected(ss, fs, gs, activityId, k)
    ensures r.submission == ss[k] && Some(r.sourcedId) == ss[k].lisResultSourcedid
    ensures Some(r.grade) == GradeOf(gs, ss[k].fileSubmissionId)
  {
    SweepRow(ss[k], ss[k].lisResultSourcedid.value, GradeOf(gs, ss[k].fileSubmissionId).value)
  }

  /** The rows of the query, in the order `order` lists their keys. */
  ghost function QueryRows(ss: map<string, StudentSubmission>, fs: map<string, FileSubmission>,
                           gs: map<string, Grade>, activityId: string, order: seq<string>): (rows: seq<SweepRow>)
    requires AllSelected(order, ss, fs, gs, activityId)
    ensures |rows| == |order|
  {
    seq(|order|, i requires 0 <= i < |order| => RowFor(ss, fs, gs, activityId, order[i]))
  }

  /** Reads the query's rows: each selected student submission with its grade. */
  method LoadRows(db: Database, activityId: string, order: seq<string>) returns (rows: seq<SweepRow>)
    requires OneGradePerFile(db.grades)
    requires AllSelected(order, db.studentSubs, db.fileSubs, db.grades, activityId)
    ensures rows == QueryRows(db.studentSubs, db.fileSubs, db.grades, activityId, order)
  {
    rows := [];
    var i := 0;
    while i < |order|
      invariant 0 <= i <= |order| && |rows| == i
      invariant forall j :: 0 <= j < i ==> rows[j] == RowFor(db.studentSubs, db.fileSubs, db.grades, activityId, order[j])
    {
      var s := db.studentSubs[order[i]];
      var grade := FindGrade(db, s.fileSubmissionId);
      rows := rows + [SweepRow(s, s.lisResultSourcedid.value, grade.value)];
      i := i + 1;
    }
  }

  /** No student submission appears in two rows. */
  predicate DistinctRows(rows: seq<SweepRow>) {
    forall i, j :: 0 <= i < j < |rows| ==> rows[i].submission.id != rows[j].submission.id
  }

  /** Distinct keys give distinct rows, since every row is stored under its own id. */
  lemma QueryRowsDistinct(ss: map<string, StudentSubmission>, fs: map<string, FileSubmission>,
                          gs: map<string, Grade>, activityId: string, order: seq<string>)
    requires StudentKeysMatch(ss) && Distinct(order)
    requires AllSelected(order, ss, fs, gs, activityId)
    ensures DistinctRows(QueryRows(ss, fs, gs, activityId, order))
    ensures forall i :: 0 <= i < |order| ==> QueryRows(ss, fs, gs, activityId, order)[i].submission.id == order[i]
    ensures forall i :: 0 <= i < |order| ==>
      var row := QueryRows(ss, fs, gs, activityId, order)[i];
      row.submission.id in ss && ss[row.submission.id] == row.submission
  {
  }

  /** The result the sweep records for `row` when send_grade_to_moodle returned `result`. */
  function ItemFor(row: SweepRow, result: SendResult): ItemResult {
    ItemResult(row.submission.studentId, row.grade.score, row.grade.comment, result.success, result.errorMessage)
  }

  /** What send_grade_to_moodle returns for each of Moodle's answers, in order. */
  function Answers(replies: seq<Reply>): (r: seq<SendResult>)
    ensures |r| == |replies|
  {
    if replies == [] then [] else Answers(replies[..|replies| - 1]) + [Classify(replies[|replies| - 1])]
  }

  /** The `i`th answer is the classification of the `i`th reply. */
  lemma {:induction false} AnswersAt(replies: seq<Reply>, i: nat)
    requires i < |replies|
    ensures Answers(replies)[i] == Classify(replies[i])
  {
    if i < |replies| - 1 {
      AnswersAt(replies[..|replies| - 1], i);
    }
  }

  /** Where and with which credentials a sweep sends. */
  datatype Target = Target(url: string, consumerKey: string, secret: string)

  /**
    The arguments of one call of send_grade_to_moodle, with the two UUIDs and
    the clock reading it takes; RequestFor gives the request it posts.
  */
  datatype GradeCall = GradeCall(sourcedId: string, url: string, consumerKey: string, secret: string, score: real,
                                 comment: string, messageUuid: string, nonceUuid: string, timestamp: int)

  /** The `i`th call of the sweep: `row`'s grade for `row`'s sourcedid, with UUIDs 2i and 2i+1 and clock reading i. */
  function CallAt(env: Env, t: Target, row: SweepRow, i: nat): GradeCall {
    GradeCall(row.sourcedId, t.url, t.consumerKey, t.secret, row.grade.score, CommentOrDefault(row.grade.comment),
              env.uuid(2 * i), env.uuid(2 * i + 1), env.clock(i))
  }

  /** The results of the first `n` sends over `rows`, the `i`th returning `answers[i]`. */
  function SweepItems(rows: seq<SweepRow>, answers: seq<SendResult>, n: nat): (r: seq<ItemResult>)
    requires n <= |rows| && n <= |answers|
    ensures |r| == n
  {
    if n == 0 then [] else SweepItems(rows, answers, n - 1) + [ItemFor(rows[n - 1], answers[n - 1])]
  }

  /** The calls of the first `n` sends over `rows`. */
  function SweepCalls(env: Env, t: Target, rows: seq<SweepRow>, n: nat): (r: seq<GradeCall>)
    requires n <= |rows|
    ensures |r| == n
  {
    if n == 0 then [] else SweepCalls(env, t, rows, n - 1) + [CallAt(env, t, rows[n - 1], n - 1)]
  }

  /** The `i`th result of a sweep records the `i`th row and the `i`th answer. */
  lemma {:induction false} SweepItemsAt(rows: seq<SweepRow>, answers: seq<SendResult>, n: nat, i: nat)
    requires i < n <= |rows| && n <= |answers|
    ensures SweepItems(rows, answers, n)[i] == ItemFor(rows[i], answers[i])
  {
    if i < n - 1 {
      SweepItemsAt(rows, answers, n - 1, i);
    }
  }

  /** The `i`th call of a sweep sends the grade of the `i`th row. */
  lemma {:induction false} SweepCallsAt(env: Env, t: Target, rows: seq<SweepRow>, n: nat, i: nat)
    requires i < n <= |rows|
    ensures SweepCalls(env, t, rows, n)[i] == CallAt(env, t, rows[i], i)
  {
    if i < n - 1 {
      SweepCallsAt(env, t, rows, n - 1, i);
    }
  }

  /** The rows whose send succeeded. */
  function SentIds(rows: seq<SweepRow>, results: seq<ItemResult>): set<string>
    requires |results| <= |rows|
  {
    set i | 0 <= i < |results| && results[i].success :: rows[i].submission.id
  }

  function CountSent(results: seq<ItemResult>): (n: nat)
    ensures n <= |results|
  {
    if results == [] then 0 else CountSent(results[..|results| - 1]) + (if results[|results| - 1].success then 1 else 0)
  }

  /** One more result marks one more row exactly when it succeeded. */
  lemma SentIdsStep(rows: seq<SweepRow>, results: seq<ItemResult>, item: ItemResult)
    requires |results| < |rows|
    ensures item.success ==>
      SentIds(rows, results + [item]) == SentIds(rows, results) + {rows[|results|].submission.id}
    ensures !item.success ==> SentIds(rows, results + [item]) == SentIds(rows, results)
  {
    var next := results + [item];
    assert forall i :: 0 <= i < |results| ==> next[i] == results[i];
  }

  /** With distinct rows, the row at position |results| is not yet marked. */
  lemma SentIdsBefore(rows: seq<SweepRow>, results: seq<ItemResult>)
    requires |results| < |rows| && DistinctRows(rows)
    ensures rows[|results|].submission.id !in SentIds(rows, results)
  {
    forall i | 0 <= i < |results| ensures rows[i].submission.id != rows[|results|].submission.id {
    }
  }

  /** Marking one more row is one more map update. */
  lemma MarkAllStep(ss: map<string, StudentSubmission>, keys: set<string>, k: string, now: int)
    requires k in ss
    ensures MarkAll(ss, keys + {k}, now) == MarkAll(ss, keys, now)[k := MarkSent(ss[k], now)]
  {
  }

  /** Every item was sent exactly when the count of sent items is the number of items. */
  lemma {:induction false} CountSentAll(results: seq<ItemResult>)
    ensures CountSent(results) == |results| <==> forall i :: 0 <= i < |results| ==> results[i].success
  {
    if results != [] {
      var init := results[..|results| - 1];
      CountSentAll(init);
      assert forall i :: 0 <= i < |init| ==> init[i] == results[i];
    }
  }

  /** With distinct rows, as many rows are marked as sends succeeded. */
  lemma {:induction false} CountSentIds(rows: seq<SweepRow>, results: seq<ItemResult>)
    requires |results| <= |rows| && DistinctRows(rows)
    ensures |SentIds(rows, results)| == CountSent(results)
  {
    if results != [] {
      var n := |results| - 1;
      var init := results[..n];
      CountSentIds(rows, init);
      assert results == init + [results[n]];
      SentIdsStep(rows, init, results[n]);
      SentIdsBefore(rows, init);
    }
  }

  /**
    A sweep succeeds exactly when it sent at least one grade and every send
    succeeded.
  */
  lemma SweepSuccessIff(results: seq<ItemResult>)
    ensures (CountSent(results) > 0 && |results| - CountSent(results) == 0)
            <==> (|results| > 0 && forall i :: 0 <= i < |results| ==> results[i].success)
  {
    CountSentAll(results);
  }

  /** Marking rows as sent keeps every constraint of the store. */
  lemma MarkAllKeepsConsistent(moodles: map<string, Moodle>, activities: map<(string, string), Activity>,
                               fs: map<string, FileSubmission>, ss: map<string, StudentSubmission>,
                               gs: map<string, Grade>, keys: set<string>, now: int)
    requires Consistent(moodles, activities, fs, ss, gs)
    ensures Consistent(moodles, activities, fs, MarkAll(ss, keys, now), gs)
  {
    var ss' := MarkAll(ss, keys, now);
    assert forall k :: k in ss' ==> KeyOf(ss'[k]) == KeyOf(ss[k]) && ss'[k].fileSubmissionId == ss[k].fileSubmissionId;
    forall f | f in fs ensures |Members(ss', f)| <= fs[f].maxGroupMembers {
      assert Members(ss', f) == Members(ss, f);
    }
  }

  /**
    What send_activity_grades_to_moodle reports, and its calls of
    send_grade_to_moodle: an abort and no call when a guard fails; otherwise one send per query row
    in query order, the successes and failures counted, and success when at
    least one grade was sent and none failed.
  */
  ghost function SweepSpec(env: Env, replies: seq<Reply>, moodles: map<string, Moodle>,
                           courses: map<(string, string), Course>, activities: map<(string, string), Activity>,
                           ss: map<string, StudentSubmission>, fs: map<string, FileSubmission>,
                           gs: map<string, Grade>, consumerKey: Option<string>, secret: Option<string>,
                           activityId: string, activityMoodleId: string, order: seq<string>)
    : (r: (SweepResult, seq<GradeCall>))
    requires AllSelected(order, ss, fs, gs, activityId) && |replies| == |order|
  {
    Report(env, SweepGuard(moodles, courses, activities, consumerKey, secret, activityId, activityMoodleId, |order|),
           consumerKey, secret, QueryRows(ss, fs, gs, activityId, order), Answers(replies))
  }

  /**
    The report of a sweep and its calls, from the outcome of the guards, the
    query rows and what each send returned.
  */
  function Report(env: Env, guard: Result<(Activity, Course, string), SweepAbort>, consumerKey: Option<string>,
                  secret: Option<string>, rows: seq<SweepRow>, answers: seq<SendResult>)
    : (r: (SweepResult, seq<GradeCall>))
    requires guard.Ok? ==> consumerKey.Some? && secret.Some?
    requires |answers| == |rows|
  {
    if guard.Err? then (Aborted(guard.error), [])
    else
      var results := SweepItems(rows, answers, |rows|);
      var sent := CountSent(results);
      (Swept(sent > 0 && |results| - sent == 0, sent, |results| - sent, |rows|, guard.value.0.title,
             guard.value.1.title, results),
       SweepCalls(env, Target(guard.value.2, consumerKey.value, secret.value), rows, |rows|))
  }

  /**
    A report aborts exactly when a guard failed, and then lists no call.
    Otherwise the ith call sends the grade of the ith row and the ith result
    records the ith answer, the sent count is the number of rows marked, the
    counts add up to the rows, and the sweep succeeds exactly when there was a
    row and every send succeeded.
  */
  lemma ReportFacts(env: Env, guard: Result<(Activity, Course, string), SweepAbort>, consumerKey: Option<string>,
                    secret: Option<string>, rows: seq<SweepRow>, answers: seq<SendResult>)
    requires guard.Ok? ==> consumerKey.Some? && secret.Some?
    requires |answers| == |rows| && DistinctRows(rows)
    ensures var (r, calls) := Report(env, guard, consumerKey, secret, rows, answers);
      && (r.Aborted? <==> guard.Err?)
      && (guard.Err? ==> r.error == guard.error && calls == [])
      && (guard.Ok? ==>
            var t := Target(guard.value.2, consumerKey.value, secret.value);
            && (forall i :: 0 <= i < |rows| ==> calls[i] == CallAt(env, t, rows[i], i))
            && (forall i :: 0 <= i < |rows| ==> r.results[i] == ItemFor(rows[i], answers[i]))
            && r.sentCount == |SentIds(rows, r.results)|
            && r.sentCount + r.failedCount == r.totalSubmissions == |rows|
            && (r.success <==> |rows| > 0 && forall i :: 0 <= i < |rows| ==> r.results[i].success))
  {
    if guard.Ok? {
      var t := Target(guard.value.2, consumerKey.value, secret.value);
      var results := SweepItems(rows, answers, |rows|);
      forall i | 0 <= i < |rows| ensures results[i] == ItemFor(rows[i], answers[i]) {
        SweepItemsAt(rows, answers, |rows|, i);
      }
      forall i | 0 <= i < |rows| ensures SweepCalls(env, t, rows, |rows|)[i] == CallAt(env, t, rows[i], i) {
        SweepCallsAt(env, t, rows, |rows|, i);
      }
      CountSentIds(rows, results);
      CountSentAll(results);
    }
  }

  /**
    The sweep aborts exactly when a guard fails, and then sends nothing.
    Otherwise there is a query row, the ith call sends the grade of the ith
    query row and the ith result is the classification of Moodle's answer to
    it, and the sent count is the number of rows marked.
  */
  lemma SweepSpecFacts(env: Env, replies: seq<Reply>, moodles: map<string, Moodle>,
                       courses: map<(string, string), Course>, activities: map<(string, string), Activity>,
                       ss: map<string, StudentSubmission>, fs: map<string, FileSubmission>,
                       gs: map<string, Grade>, consumerKey: Option<string>, secret: Option<string>,
                       activityId: string, activityMoodleId: string, order: seq<string>)
    requires StudentKeysMatch(ss)
    requires ListsSelected(order, ss, fs, gs, activityId) && |replies| == |order|
    ensures var guard := SweepGuard(moodles, courses, activities, consumerKey, secret, activityId, activityMoodleId,
                                    |order|);
      var (r, calls) := SweepSpec(env, replies, moodles, courses, activities, ss, fs, gs, consumerKey, secret,
                                   activityId, activityMoodleId, order);
      && (r.Aborted? <==> guard.Err?)
      && (guard.Err? ==> r.error == guard.error && calls == [])
      && (guard.Ok? ==>
            var t := Target(guard.value.2, consumerKey.value, secret.value);
            var rows := QueryRows(ss, fs, gs, activityId, order);
            && |order| > 0
            && (forall i :: 0 <= i < |order| ==> calls[i] == CallAt(env, t, rows[i], i))
            && (forall i :: 0 <= i < |order| ==> r.results[i] == ItemFor(rows[i], Classify(replies[i])))
            && r.sentCount == |SentIds(rows, r.results)|)
  {
    var guard := SweepGuard(moodles, courses, activities, consumerKey, secret, activityId, activityMoodleId,
                            |order|);
    var rows := QueryRows(ss, fs, gs, activityId, order);
    QueryRowsDistinct(ss, fs, gs, activityId, order);
    ReportFacts(env, guard, consumerKey, secret, rows, Answers(replies));
    forall i | 0 <= i < |order| ensures Answers(replies)[i] == Classify(replies[i]) {
      AnswersAt(replies, i);
    }
  }

  /** The report of a sweep whose guards passed, from its sends. */
  lemma ReportOfSends(env: Env, guard: Result<(Activity, Course, string), SweepAbort>, consumerKey: Option<string>,
                      secret: Option<string>, rows: seq<SweepRow>, answers: seq<SendResult>, r: SweepResult,
                      calls: seq<GradeCall>)
    requires guard.Ok? && consumerKey.Some? && secret.Some? && |answers| == |rows|
    requires r.Swept? && r.results == SweepItems(rows, answers, |rows|)
    requires calls == SweepCalls(env, Target(guard.value.2, consumerKey.value, secret.value), rows, |rows|)
    requires r.sentCount == CountSent(r.results) && r.failedCount == |r.results| - r.sentCount
    requires r.success == (r.sentCount > 0 && r.failedCount == 0) && r.totalSubmissions == |rows|
    requires r.activityTitle == guard.value.0.title && r.courseTitle == guard.value.1.title
    ensures (r, calls) == Report(env, guard, consumerKey, secret, rows, answers)
  {
  }

  /**
    send_activity_grades_to_moodle: the guards, then the query and one send
    per row; a row is marked sent exactly when its send succeeded.  The new
    store is MarkAll of the old one, which keeps every constraint of the store
    (MarkAllKeepsConsistent).
  */
  method SendActivityGrades(db: Database, env: Env, replies: seq<Reply>, consumerKey: Option<string>,
                            secret: Option<string>, activityId: string, activityMoodleId: string, order: seq<string>,
                            now: int)
    returns (r: SweepResult, calls: seq<GradeCall>)
    requires StudentKeysMatch(db.studentSubs) && OneGradePerFile(db.grades)
    requires ListsSelected(order, db.studentSubs, db.fileSubs, db.grades, activityId) && |replies| == |order|
    modifies db`studentSubs
    ensures (r, calls) == SweepSpec(env, replies, db.moodles, db.courses, db.activities, old(db.studentSubs),
                                    db.fileSubs, db.grades, consumerKey, secret, activityId, activityMoodleId, order)
    ensures r.Aborted? ==> db.studentSubs == old(db.studentSubs)
    ensures r.Swept? ==>
      db.studentSubs == MarkAll(old(db.studentSubs),
                                SentIds(QueryRows(old(db.studentSubs), db.fileSubs, db.grades, activityId, order),
                                        r.results), now)
  {
    var guard := CheckSweep(db, consumerKey, secret, activityId, activityMoodleId, order);
    if guard.Err? {
      return Aborted(guard.error), [];
    }
    var rows := LoadRows(db, activityId, order);
    QueryRowsDistinct(db.studentSubs, db.fileSubs, db.grades, activityId, order);
    r, calls := SendGuarded(db, env, guard, consumerKey, secret, rows, Answers(replies), now);
  }

  /** The sends of a sweep whose guards passed, over the query rows, and its report. */
  method SendGuarded(db: Database, env: Env, guard: Result<(Activity, Course, string), SweepAbort>,
                     consumerKey: Option<string>, secret: Option<string>, rows: seq<SweepRow>,
                     answers: seq<SendResult>, now: int)
    returns (r: SweepResult, calls: seq<GradeCall>)
    requires guard.Ok? && consumerKey.Some? && secret.Some?
    requires DistinctRows(rows) && |answers| == |rows|
    requires forall i :: 0 <= i < |rows| ==>
      rows[i].submission.id in db.studentSubs && db.studentSubs[rows[i].submission.id] == rows[i].submission
    modifies db`studentSubs
    ensures (r, calls) == Report(env, guard, consumerKey, secret, rows, answers)
    ensures r.Swept? && db.studentSubs == MarkAll(old(db.studentSubs), SentIds(rows, r.results), now)
  {
    var (activity, course, url) := guard.value;
    var results, sent, failed;
    results, calls, sent, failed := SendRows(db, env, Target(url, consumerKey.value, secret.value), rows, answers, now);
    r := Swept(sent > 0 && failed == 0, sent, failed, |rows|, activity.title, course.title, results);
    ReportOfSends(env, guard, consumerKey, secret, rows, answers, r, calls);
  }

  /**
    One send of the sweep: the call of send_grade_to_moodle for `row`, which
    returned `answer`.
  */
  method SendOne(env: Env, t: Target, row: SweepRow, answer: SendResult, i: nat)
    returns (item: ItemResult, call: GradeCall)
    ensures item == ItemFor(row, answer)
    ensures call == CallAt(env, t, row, i)
  {
    call := GradeCall(row.sourcedId, t.url, t.consumerKey, t.secret, row.grade.score,
                      CommentOrDefault(row.grade.comment), env.uuid(2 * i), env.uuid(2 * i + 1), env.clock(i));
    item := ItemResult(row.submission.studentId, row.grade.score, row.grade.comment, answer.success,
                       answer.errorMessage);
  }

  /** After the send of row |results|: the row is marked sent when the send succeeded. */
  method MarkRow(db: Database, ghost before: map<string, StudentSubmission>, rows: seq<SweepRow>,
                 results: seq<ItemResult>, item: ItemResult, now: int)
    requires |results| < |rows| && DistinctRows(rows)
    requires forall i :: 0 <= i < |rows| ==>
      rows[i].submission.id in before && before[rows[i].submission.id] == rows[i].submission
    requires db.studentSubs == MarkAll(before, SentIds(rows, results), now)
    modifies db`studentSubs
    ensures db.studentSubs == MarkAll(before, SentIds(rows, results + [item]), now)
  {
    var row := rows[|results|];
    SentIdsBefore(rows, results);
    SentIdsStep(rows, results, item);
    if item.success {
      MarkAllStep(before, SentIds(rows, results), row.submission.id, now);
      db.studentSubs := db.studentSubs[row.submission.id := MarkSent(row.submission, now)];
    }
  }

  /** One more send extends the results, the calls and the count of sent items by that send. */
  lemma SweepStep(env: Env, t: Target, rows: seq<SweepRow>, answers: seq<SendResult>, i: nat)
    requires i < |rows| && |answers| == |rows|
    ensures SweepItems(rows, answers, i + 1) == SweepItems(rows, answers, i) + [ItemFor(rows[i], answers[i])]
    ensures SweepCalls(env, t, rows, i + 1) == SweepCalls(env, t, rows, i) + [CallAt(env, t, rows[i], i)]
    ensures CountSent(SweepItems(rows, answers, i + 1))
      == CountSent(SweepItems(rows, answers, i)) + (if ItemFor(rows[i], answers[i]).success then 1 else 0)
  {
    var next := SweepItems(rows, answers, i + 1);
    assert next[..i] == SweepItems(rows, answers, i);
  }

  /**
    The loop of the sweep over the query rows; a successful send marks its
    row in the database.
  */
  method SendRows(db: Database, env: Env, t: Target, rows: seq<SweepRow>, answers: seq<SendResult>, now: int)
    returns (results: seq<ItemResult>, calls: seq<GradeCall>, sent: nat, failed: nat)
    requires DistinctRows(rows) && |answers| == |rows|
    requires forall i :: 0 <= i < |rows| ==>
      rows[i].submission.id in db.studentSubs && db.studentSubs[rows[i].submission.id] == rows[i].submission
    modifies db`studentSubs
    ensures results == SweepItems(rows, answers, |rows|)
    ensures calls == SweepCalls(env, t, rows, |rows|)
    ensures sent == CountSent(results) && failed == |results| - sent
    ensures db.studentSubs == MarkAll(old(db.studentSubs), SentIds(rows, results), now)
  {
    ghost var before := db.studentSubs;
    results, calls, sent, failed := [], [], 0, 0;
    assert SentIds(rows, results) == {};
    var i := 0;
    while i < |rows|
      invariant 0 <= i <= |rows|
      invariant results == SweepItems(rows, answers, i)
      invariant calls == SweepCalls(env, t, rows, i)
      invariant sent == CountSent(results) && failed == i - sent
      invariant db.studentSubs == MarkAll(before, SentIds(rows, results), now)
    {
      var item, call := SendOne(env, t, rows[i], answers[i], i);
      MarkRow(db, before, rows, results, item, now);
      SweepStep(env, t, rows, answers, i);
      if item.success {
        sent := sent + 1;
      } else {
        failed := failed + 1;
      }
      results := results + [item];
      calls := calls + [call];
      i := i + 1;
    }
  }
}

=== FILE: moodle.dfy ===
/**
  The Moodle instances (backend/moodle_service.py): an LTI launch registers the
  tool consumer under its instance id, refreshing its name every time and
  recording its outcome-service URL only once.
*/
module Moodles {
  import opened Wrappers
  import opened Store

  /** Python truthiness of an optional string: None and "" are false. */
  predicate Given(url: Option<string>) {
    url.Some? && url.value != ""
  }

  /**
    The stored outcome-service URL after an update that supplies `url`: it is
    replaced only when a non-empty one is supplied and none is stored yet.
  */
  function NextUrl(stored: Option<string>, url: Option<string>): Option<string> {
    if Given(url) && !Given(stored) then url else stored
  }

  /**
    The row create_or_update_moodle leaves under `id`: a new id gets exactly the
    given name and URL (possibly None); an existing one keeps its creation
    time, takes the new name, and keeps a URL it already has.
  */
  function Registered(ms: map<string, Moodle>, id: string, name: string, url: Option<string>, now: int): (r: Moodle)
    ensures r.name == name
    ensures MoodleKeysMatch(ms) ==> r.id == id
    ensures id !in ms ==> r.outcomeServiceUrl == url && r.createdAt == now
    ensures id in ms ==> r.createdAt == ms[id].createdAt
    ensures id in ms && Given(ms[id].outcomeServiceUrl) ==> r.outcomeServiceUrl == ms[id].outcomeServiceUrl
    ensures id in ms && !Given(ms[id].outcomeServiceUrl) ==>
              r.outcomeServiceUrl == if Given(url) then url else ms[id].outcomeServiceUrl
  {
    if id in ms then ms[id].(name := name, outcomeServiceUrl := NextUrl(ms[id].outcomeServiceUrl, url))
    else Moodle(id, name, url, now)
  }

  /** Registering twice with the same data is registering once. */
  lemma RegisterIdempotent(ms: map<string, Moodle>, id: string, name: string, url: Option<string>, now: int, later: int)
    requires MoodleKeysMatch(ms)
    ensures var ms' := ms[id := Registered(ms, id, name, url, now)];
      Registered(ms', id, name, url, later) == ms'[id]
  {
  }

  /** One launch's registration data: instance id, name, outcome URL and clock. */
  datatype Launch = Launch(id: string, name: string, url: Option<string>, now: int)

  /** The table after a sequence of launches, in order. */
  function RegisterAll(ms: map<string, Moodle>, launches: seq<Launch>): (r: map<string, Moodle>)
    ensures ms.Keys <= r.Keys
    ensures forall j :: 0 <= j < |launches| ==> launches[j].id in r
  {
    if launches == [] then ms
    else
      var l := launches[|launches| - 1];
      var before := RegisterAll(ms, launches[..|launches| - 1]);
      before[l.id := Registered(before, l.id, l.name, l.url, l.now)]
  }

  /** Once an instance has a non-empty outcome URL, no later launch changes it. */
  lemma {:induction false} UrlWriteOnce(ms: map<string, Moodle>, launches: seq<Launch>, id: string)
    requires id in ms && Given(ms[id].outcomeServiceUrl)
    ensures RegisterAll(ms, launches)[id].outcomeServiceUrl == ms[id].outcomeServiceUrl
  {
    if launches != [] {
      UrlWriteOnce(ms, launches[..|launches| - 1], id);
    }
  }

  /** Every launch leaves the row's name at the latest name given for it. */
  lemma {:induction false} LatestNameWins(ms: map<string, Moodle>, launches: seq<Launch>, i: nat)
    requires i < |launches|
    requires forall j :: i < j < |launches| ==> launches[j].id != launches[i].id
    ensures RegisterAll(ms, launches)[launches[i].id].name == launches[i].name
  {
    var n := |launches| - 1;
    if i < n {
      LatestNameWins(ms, launches[..n], i);
      assert launches[..n][i] == launches[i];
    }
  }

  /**
    create_or_update_moodle: updates the row in place (name, and the URL when
    not yet set) or creates it, and returns the stored record.
  */
  method CreateOrUpdateMoodle(db: Database, id: string, name: string, url: Option<string>, now: int)
    returns (m: Moodle)
    requires db.Valid()
    modifies db`moodles
    ensures db.Valid()
    ensures db.moodles == old(db.moodles)[id := Registered(old(db.moodles), id, name, url, now)]
    ensures m == db.moodles[id]
  {
    if id in db.moodles {
      var existing := db.moodles[id];
      existing := existing.(name := name);
      if Given(url) && !Given(existing.outcomeServiceUrl) {
        existing := existing.(outcomeServiceUrl := url);
      }
      db.moodles := db.moodles[id := existing];
      m := existing;
    } else {
      m := Moodle(id, name, url, now);
      db.moodles := db.moodles[id := m];
    }
  }

  /** get_moodle_by_id: the stored record, or None for an unknown id. */
  method GetMoodleById(db: Database, id: string) returns (m: Option<Moodle>)
    requires db.Valid()
    ensures m.Some? <==> id in db.moodles
    ensures m.Some? ==> m.value == db.moodles[id] && m.value.id == id
  {
    if id in db.moodles {
      m := Some(db.moodles[id]);
    } else {
      m := None;
    }
  }
}

=== FILE: oauth.dfy ===
/**
  The OAuth 1.0a signing of backend/lti_service.py (RFC 5849): percent-encoding
  (section 3.6, with the unreserved characters of section 2.3 of RFC 3986), URL
  normalisation and the signature base string (section 3.4.1), the signing key,
  and the Authorization header of the LTI 1.1 outcome request.

  HMAC-SHA1, SHA-1, base64 and URL parsing are not interpreted: they are the
  fields of `Primitives`, passed in by the caller.
*/
module Oauth {
  import opened Wrappers
  import Text

  type Pair = (string, string)

  /** A byte as a number. */
  type Byte = b: int | 0 <= b < 256

  // ------------------------------------------------------------------ UTF-8

  /** The UTF-8 encoding of one character, as str.encode("utf-8") produces it. */
  function Utf8(c: char): (r: seq<Byte>)
    ensures 1 <= |r| <= 4
    ensures c as int < 128 ==> r == [c as int]
    ensures c as int >= 128 ==> forall i :: 0 <= i < |r| ==> r[i] >= 128
  {
    var n := c as int;
    if n < 0x80 then [n]
    else if n < 0x800 then [0xC0 + n / 64, 0x80 + n % 64]
    else if n < 0x10000 then [0xE0 + n / 4096, 0x80 + (n / 64) % 64, 0x80 + n % 64]
    else [0xF0 + n / 262144, 0x80 + (n / 4096) % 64, 0x80 + (n / 64) % 64, 0x80 + n % 64]
  }

  /** s.encode("utf-8") */
  function Encode(s: string): seq<Byte> {
    if s == [] then [] else Utf8(s[0]) + Encode(s[1..])
  }

  // ------------------------------------------------------------------ oauth_escape

  /** The unreserved characters of section 2.3 of RFC 3986, which oauth_escape leaves alone. */
  predicate Unreserved(c: char) {
    ('A' <= c <= 'Z') || ('a' <= c <= 'z') || ('0' <= c <= '9') || c == '-' || c == '.' || c == '_' || c == '~'
  }

  /** An upper-case hex digit. */
  function HexDigit(n: nat): char
    requires n < 16
  {
    if n < 10 then ('0' as int + n) as char else ('A' as int + n - 10) as char
  }

  predicate IsHex(c: char) {
    ('0' <= c <= '9') || ('A' <= c <= 'F') || ('a' <= c <= 'f')
  }

  function HexValue(c: char): (r: nat)
    requires IsHex(c)
    ensures r < 16
  {
    if '0' <= c <= '9' then c as int - '0' as int
    else if 'A' <= c <= 'F' then c as int - 'A' as int + 10
    else c as int - 'a' as int + 10
  }

  /** One byte as urllib.parse.quote writes it: itself when unreserved, "%XX" in upper-case hex otherwise. */
  function EscapeByte(b: Byte): string {
    if b < 128 && Unreserved(b as char) then [b as char]
    else ['%', HexDigit(b / 16), HexDigit(b % 16)]
  }

  function EscapeBytes(bs: seq<Byte>): string {
    if bs == [] then "" else EscapeByte(bs[0]) + EscapeBytes(bs[1..])
  }

  /** The characters an escaped string is made of. */
  predicate EscapedChar(c: char) {
    Unreserved(c) || c == '%' || ('0' <= c <= '9') || ('A' <= c <= 'F')
  }

  /**
    oauth_escape: quote(s, safe="~-._") over the UTF-8 bytes of s. Nothing is
    lost, since percent-decoding gives the UTF-8 encoding of s back, and the
    result holds only unreserved characters, '%' and upper-case hex digits, so
    none of the separators '&', '=', '"' and ','.
  */
  function Escape(s: string): (r: string)
    ensures Unescape(r) == Some(Encode(s))
    ensures forall i :: 0 <= i < |r| ==> EscapedChar(r[i])
  {
    UnescapeEscapeBytes(Encode(s));
    EscapeBytesAlphabet(Encode(s));
    EscapeBytes(Encode(s))
  }

  lemma EscapeNoAmpersand(s: string)
    ensures '&' !in Escape(s)
  {
  }

  /** Percent-decoding, the inverse of oauth_escape; None on a character that escaping never produces. */
  function Unescape(t: string): (r: Option<seq<Byte>>)
    decreases |t|
  {
    if t == [] then Some([])
    else if t[0] == '%' && |t| >= 3 && IsHex(t[1]) && IsHex(t[2]) then
      match Unescape(t[3..])
      case None => None
      case Some(rest) => Some([HexValue(t[1]) * 16 + HexValue(t[2])] + rest)
    else if Unreserved(t[0]) then
      match Unescape(t[1..])
      case None => None
      case Some(rest) => Some([t[0] as int] + rest)
    else None
  }

  lemma {:induction false} EscapeBytesAppend(a: seq<Byte>, b: seq<Byte>)
    ensures EscapeBytes(a + b) == EscapeBytes(a) + EscapeBytes(b)
  {
    if a == [] {
      assert a + b == b;
    } else {
      assert (a + b)[0] == a[0];
      assert (a + b)[1..] == a[1..] + b;
      EscapeBytesAppend(a[1..], b);
    }
  }

  /** Decoding an escaped byte string gives the bytes back. */
  lemma {:induction false} UnescapeEscapeBytes(bs: seq<Byte>)
    ensures Unescape(EscapeBytes(bs)) == Some(bs)
  {
    if bs != [] {
      var b := bs[0];
      var t := EscapeBytes(bs);
      UnescapeEscapeBytes(bs[1..]);
      if b < 128 && Unreserved(b as char) {
        assert t == [b as char] + EscapeBytes(bs[1..]);
        assert t[0] != '%' && Unreserved(t[0]);
        assert t[1..] == EscapeBytes(bs[1..]);
        assert Unescape(t) == Some([b] + bs[1..]);
      } else {
        assert t == ['%', HexDigit(b / 16), HexDigit(b % 16)] + EscapeBytes(bs[1..]);
        assert t[3..] == EscapeBytes(bs[1..]);
        assert IsHex(t[1]) && HexValue(t[1]) == b / 16;
        assert IsHex(t[2]) && HexValue(t[2]) == b % 16;
        assert Unescape(t) == Some([b] + bs[1..]);
      }
      assert bs == [b] + bs[1..];
    }
  }

  lemma {:induction false} EscapeBytesAlphabet(bs: seq<Byte>)
    ensures forall i :: 0 <= i < |EscapeBytes(bs)| ==> EscapedChar(EscapeBytes(bs)[i])
  {
    if bs != [] {
      EscapeBytesAlphabet(bs[1..]);
      var head := EscapeByte(bs[0]);
      assert forall i :: 0 <= i < |head| ==> EscapedChar(head[i]);
      assert EscapeBytes(bs) == head + EscapeBytes(bs[1..]);
    }
  }

  /** A string of unreserved characters is its own escape. */
  lemma {:induction false} EscapeUnreserved(s: string)
    requires forall i :: 0 <= i < |s| ==> Unreserved(s[i])
    ensures Escape(s) == s
  {
    if s != [] {
      EscapeUnreserved(s[1..]);
      EscapeBytesAppend(Utf8(s[0]), Encode(s[1..]));
      assert s == [s[0]] + s[1..];
    }
  }

  /** Every other character becomes "%XX" per UTF-8 byte. */
  lemma EscapeReserved(c: char)
    requires !Unreserved(c)
    ensures Escape([c]) == EscapeBytes(Utf8(c))
    ensures |Escape([c])| == 3 * |Utf8(c)|
    ensures Escape([c])[0] == '%'
  {
    assert Encode([c]) == Utf8(c) + Encode([]);
    assert Utf8(c) + [] == Utf8(c);
    EscapeBytesLength(Utf8(c));
  }

  lemma {:induction false} EscapeBytesLength(bs: seq<Byte>)
    requires forall i :: 0 <= i < |bs| ==> !(bs[i] < 128 && Unreserved(bs[i] as char))
    ensures |EscapeBytes(bs)| == 3 * |bs|
  {
    if bs != [] {
      EscapeBytesLength(bs[1..]);
    }
  }

  // ------------------------------------------------------------------ normalize_url_for_oauth

  /** The parts of a URL as urllib.parse.urlparse splits it; parsing itself is not modelled. */
  datatype ParsedUrl = ParsedUrl(scheme: string, hostname: Option<string>, port: Option<int>, path: string,
                                 query: string, fragment: string)

  /** Whether the port is kept: a non-zero port other than the scheme's default, for http and https only. */
  predicate KeepsPort(scheme: string, port: Option<int>) {
    port.Some? && port.value != 0
    && ((scheme == "http" && port.value != 80) || (scheme == "https" && port.value != 443))
  }

  /**
    normalize_url_for_oauth (section 3.4.1.2 of RFC 5849): scheme and host
    lower-cased, the port kept only when it is not the default, "/" for an
    empty path, query and fragment dropped.
  */
  function NormalizeUrl(u: ParsedUrl): (r: string)
    ensures Text.StartsWith(r, Text.Lower(u.scheme) + "://")
    ensures |UrlPath(u)| <= |r| && r[|r| - |UrlPath(u)|..] == UrlPath(u)
    ensures NoUpper(r[..|r| - |UrlPath(u)|])
  {
    var scheme := Text.Lower(u.scheme);
    var host := if u.hostname.Some? then Text.Lower(u.hostname.value) else "";
    var netloc := if KeepsPort(scheme, u.port) then host + ":" + Text.IntToString(u.port.value) else host;
    var head := scheme + "://" + netloc;
    assert NoUpper(head) by {
      LowerNoUpper(u.scheme);
      if u.hostname.Some? {
        LowerNoUpper(u.hostname.value);
      }
      if KeepsPort(scheme, u.port) {
        NoUpperAppend(host, ":");
        NoUpperInt(u.port.value);
        NoUpperAppend(host + ":", Text.IntToString(u.port.value));
      }
      NoUpperAppend(scheme, "://");
      NoUpperAppend(scheme + "://", netloc);
    }
    var r := head + UrlPath(u);
    assert r[..|r| - |UrlPath(u)|] == head;
    r
  }

  /** No upper-case ASCII letter in s. */
  predicate NoUpper(s: string) {
    forall i :: 0 <= i < |s| ==> !('A' <= s[i] <= 'Z')
  }

  lemma NoUpperAppend(a: string, b: string)
    requires NoUpper(a) && NoUpper(b)
    ensures NoUpper(a + b)
  {
    assert forall i :: |a| <= i < |a + b| ==> (a + b)[i] == b[i - |a|];
  }

  lemma LowerNoUpper(s: string)
    ensures NoUpper(Text.Lower(s))
  {
  }

  /** The path of the normalised URL: "/" when the URL has none. */
  function UrlPath(u: ParsedUrl): string {
    if u.path == "" then "/" else u.path
  }

  lemma NoUpperInt(n: int)
    ensures NoUpper(Text.IntToString(n))
  {
    if n < 0 {
      NoUpperAppend("-", Text.NatToString(-n));
    }
  }

  /** The normalised URL does not depend on the letter case of scheme and host. */
  lemma NormalizeIgnoresCase(u: ParsedUrl)
    ensures NormalizeUrl(u.(scheme := Text.Upper(u.scheme),
                            hostname := if u.hostname.Some? then Some(Text.Upper(u.hostname.value)) else None))
            == NormalizeUrl(u)
  {
    Text.LowerOfUpper(u.scheme);
    if u.hostname.Some? {
      Text.LowerOfUpper(u.hostname.value);
    }
  }

  /** Query and fragment are dropped, and a default port is the same as no port. */
  lemma NormalizeDropsDefaults(u: ParsedUrl, query: string, fragment: string)
    ensures NormalizeUrl(u.(query := query, fragment := fragment)) == NormalizeUrl(u)
    ensures Text.Lower(u.scheme) == "http" ==> NormalizeUrl(u.(port := Some(80))) == NormalizeUrl(u.(port := None))
    ensures Text.Lower(u.scheme) == "https" ==> NormalizeUrl(u.(port := Some(443))) == NormalizeUrl(u.(port := None))
    ensures u.path == "" ==> NormalizeUrl(u) == NormalizeUrl(u.(path := "/"))
  {
  }

  // ------------------------------------------------------------------ sorting the parameters

  /** Python's ordering of str: lexicographic by code point. */
  predicate StrLe(a: string, b: string)
    decreases |a|
  {
    a == [] || (b != [] && (a[0] < b[0] || (a[0] == b[0] && StrLe(a[1..], b[1..]))))
  }

  lemma {:induction false} StrLeReflexive(a: string)
    ensures StrLe(a, a)
    decreases |a|
  {
    if a != [] {
      StrLeReflexive(a[1..]);
    }
  }

  lemma {:induction false} StrLeTotal(a: string, b: string)
    ensures StrLe(a, b) || StrLe(b, a)
    decreases |a|
  {
    if a != [] && b != [] && a[0] == b[0] {
      StrLeTotal(a[1..], b[1..]);
    }
  }

  lemma {:induction false} StrLeAntisymmetric(a: string, b: string)
    requires StrLe(a, b) && StrLe(b, a)
    ensures a == b
    decreases |a|
  {
    if a != [] {
      StrLeAntisymmetric(a[1..], b[1..]);
      assert a == [a[0]] + a[1..] && b == [b[0]] + b[1..];
    }
  }

  lemma {:induction false} StrLeTransitive(a: string, b: string, c: string)
    requires StrLe(a, b) && StrLe(b, c)
    ensures StrLe(a, c)
    decreases |a|
  {
    if a != [] && a[0] == b[0] && b[0] == c[0] {
      StrLeTransitive(a[1..], b[1..], c[1..]);
    }
  }

  /** Python's ordering of (key, value) tuples. */
  predicate PairLe(p: Pair, q: Pair) {
    (p.0 != q.0 && StrLe(p.0, q.0)) || (p.0 == q.0 && StrLe(p.1, q.1))
  }

  lemma PairLeTotal(p: Pair, q: Pair)
    ensures PairLe(p, q) || PairLe(q, p)
  {
    StrLeTotal(p.0, q.0);
    StrLeTotal(p.1, q.1);
  }

  lemma PairLeAntisymmetric(p: Pair, q: Pair)
    requires PairLe(p, q) && PairLe(q, p)
    ensures p == q
  {
    if p.0 != q.0 {
      StrLeAntisymmetric(p.0, q.0);
    } else {
      StrLeAntisymmetric(p.1, q.1);
    }
  }

  lemma PairLeTransitive(p: Pair, q: Pair, r: Pair)
    requires PairLe(p, q) && PairLe(q, r)
    ensures PairLe(p, r)
  {
    if p.0 == q.0 && q.0 == r.0 {
      StrLeTransitive(p.1, q.1, r.1);
    } else if p.0 != q.0 && q.0 != r.0 {
      StrLeTransitive(p.0, q.0, r.0);
      if p.0 == r.0 {
        StrLeAntisymmetric(p.0, q.0);
      }
    }
  }

  predicate Sorted(s: seq<Pair>) {
    forall i, j :: 0 <= i < j < |s| ==> PairLe(s[i], s[j])
  }

  /** One step of list.sort(): `x` placed before the first element it does not exceed. */
  function Insert(x: Pair, s: seq<Pair>): seq<Pair> {
    if s == [] then [x]
    else if PairLe(x, s[0]) then [x] + s
    else [s[0]] + Insert(x, s[1..])
  }

  lemma {:induction false} InsertPermutes(x: Pair, s: seq<Pair>)
    ensures multiset(Insert(x, s)) == multiset(s) + multiset{x}
  {
    if s != [] && !PairLe(x, s[0]) {
      InsertPermutes(x, s[1..]);
      assert s == [s[0]] + s[1..];
    }
  }

  lemma {:induction false} InsertSorted(x: Pair, s: seq<Pair>)
    requires Sorted(s)
    ensures Sorted(Insert(x, s))
  {
    if s == [] {
    } else if PairLe(x, s[0]) {
      forall j | 0 <= j < |s| ensures PairLe(x, s[j]) {
        if j > 0 {
          PairLeTransitive(x, s[0], s[j]);
        }
      }
    } else {
      PairLeTotal(x, s[0]);
      InsertSorted(x, s[1..]);
      InsertPermutes(x, s[1..]);
      var tail := Insert(x, s[1..]);
      forall j | 0 <= j < |tail| ensures PairLe(s[0], tail[j]) {
        assert tail[j] in multiset(tail);
        if tail[j] != x {
          assert tail[j] in multiset(s[1..]);
          var k :| 0 <= k < |s[1..]| && s[1..][k] == tail[j];
          assert s[k + 1] == tail[j];
        }
      }
    }
  }

  /** The parameters as list.sort() leaves them, built by insertion. */
  function SortedPairs(ps: seq<Pair>): seq<Pair> {
    if ps == [] then [] else Insert(ps[|ps| - 1], SortedPairs(ps[..|ps| - 1]))
  }

  /** SortedPairs sorts: its result is ordered and a permutation of its input. */
  lemma {:induction false} SortedPairsSpec(ps: seq<Pair>)
    ensures Sorted(SortedPairs(ps))
    ensures multiset(SortedPairs(ps)) == multiset(ps)
  {
    if ps != [] {
      var init := ps[..|ps| - 1];
      SortedPairsSpec(init);
      InsertSorted(ps[|ps| - 1], SortedPairs(init));
      InsertPermutes(ps[|ps| - 1], SortedPairs(init));
      assert ps == init + [ps[|ps| - 1]];
    }
  }

  /** The first element of a sorted list is at most every element of it. */
  lemma SortedHeadLeast(a: seq<Pair>, x: Pair)
    requires Sorted(a) && x in multiset(a)
    ensures PairLe(a[0], x)
  {
    var i :| 0 <= i < |a| && a[i] == x;
    if i == 0 {
      StrLeReflexive(x.1);
    }
  }

  /** Two sorted permutations of the same pairs are equal. */
  lemma {:induction false} SortedUnique(a: seq<Pair>, b: seq<Pair>)
    requires Sorted(a) && Sorted(b) && multiset(a) == multiset(b)
    ensures a == b
    decreases |a|
  {
    assert |a| == |multiset(a)| == |multiset(b)| == |b|;
    if a != [] {
      SortedHeadLeast(b, a[0]);
      SortedHeadLeast(a, b[0]);
      PairLeAntisymmetric(a[0], b[0]);
      TailMultiset(a);
      TailMultiset(b);
      SortedUnique(a[1..], b[1..]);
      assert a == [a[0]] + a[1..] && b == [b[0]] + b[1..];
    }
  }

  lemma TailMultiset<T>(a: seq<T>)
    requires a != []
    ensures multiset(a[1..]) == multiset(a) - multiset{a[0]}
  {
    assert a == [a[0]] + a[1..];
  }

  lemma SplitAround<T>(a: seq<T>, j: int)
    requires 0 <= j < |a|
    ensures a == a[..j] + ([a[j]] + a[j + 1..])
  {
  }

  lemma RemoveMultiset<T>(a: seq<T>, j: int)
    requires 0 <= j < |a|
    ensures multiset(a[..j] + a[j + 1..]) == multiset(a) - multiset{a[j]}
  {
    assert a == a[..j] + [a[j]] + a[j + 1..];
  }

  /** Sorting forgets the order the parameters were given in (the dict's insertion order). */
  lemma SortedPairsOrderFree(ps: seq<Pair>, qs: seq<Pair>)
    requires multiset(ps) == multiset(qs)
    ensures SortedPairs(ps) == SortedPairs(qs)
  {
    SortedPairsSpec(ps);
    SortedPairsSpec(qs);
    SortedUnique(SortedPairs(ps), SortedPairs(qs));
  }

  /** list.sort() on the collected pairs. */
  method SortPairs(ps: seq<Pair>) returns (r: seq<Pair>)
    ensures r == SortedPairs(ps)
    ensures Sorted(r) && multiset(r) == multiset(ps)
  {
    r := [];
    var i := 0;
    while i < |ps|
      invariant 0 <= i <= |ps|
      invariant r == SortedPairs(ps[..i])
    {
      assert ps[..i + 1][..i] == ps[..i];
      r := Insert(ps[i], r);
      i := i + 1;
    }
    assert ps[..|ps|] == ps;
    SortedPairsSpec(ps);
  }

  // ------------------------------------------------------------------ generate_oauth_signature

  /** The uninterpreted primitives: HMAC-SHA1, SHA-1, base64, urlparse and str(float). */
  datatype Primitives = Primitives(hmacSha1: (seq<Byte>, seq<Byte>) -> seq<Byte>, sha1: seq<Byte> -> seq<Byte>,
                                   base64: seq<Byte> -> string, parseUrl: string -> ParsedUrl,
                                   floatRepr: real -> string)

  function EscapePair(p: Pair): Pair {
    (Escape(p.0), Escape(p.1))
  }

  /** [f(x) for x in s] */
  function MapSeq<A, B>(f: A -> B, s: seq<A>): seq<B> {
    if s == [] then [] else [f(s[0])] + MapSeq(f, s[1..])
  }

  lemma {:induction false} MapSeqAppend<A, B>(f: A -> B, a: seq<A>, b: seq<A>)
    ensures MapSeq(f, a + b) == MapSeq(f, a) + MapSeq(f, b)
  {
    if a == [] {
      assert a + b == b;
    } else {
      assert (a + b)[0] == a[0];
      assert (a + b)[1..] == a[1..] + b;
      MapSeqAppend(f, a[1..], b);
    }
  }

  /** Mapping the list with one element removed. */
  lemma MapSeqRemove<A, B>(f: A -> B, qs: seq<A>, j: int)
    requires 0 <= j < |qs|
    ensures multiset(MapSeq(f, qs)) == multiset(MapSeq(f, qs[..j] + qs[j + 1..])) + multiset{f(qs[j])}
  {
    var x, y := qs[..j], qs[j + 1..];
    SplitAround(qs, j);
    MapSeqAppend(f, x, [qs[j]] + y);
    MapSeqAppend(f, [qs[j]], y);
    MapSeqAppend(f, x, y);
    assert MapSeq(f, [qs[j]]) == [f(qs[j])];
  }

  /** Mapping keeps two lists permutations of each other. */
  lemma {:induction false} MapSeqPermute<A, B>(f: A -> B, ps: seq<A>, qs: seq<A>)
    requires multiset(ps) == multiset(qs)
    ensures multiset(MapSeq(f, ps)) == multiset(MapSeq(f, qs))
    decreases |ps|
  {
    if ps != [] {
      assert ps[0] in multiset(qs);
      var j :| 0 <= j < |qs| && qs[j] == ps[0];
      var rest := qs[..j] + qs[j + 1..];
      RemoveMultiset(qs, j);
      TailMultiset(ps);
      MapSeqPermute(f, ps[1..], rest);
      MapSeqRemove(f, qs, j);
    }
  }

  /** The escaped (key, value) pairs, in the order given. */
  function EscapedPairs(ps: seq<Pair>): seq<Pair> {
    MapSeq(EscapePair, ps)
  }

  function ParamItems(ps: seq<Pair>): (r: seq<string>)
    ensures |r| == |ps|
    ensures forall i :: 0 <= i < |ps| ==> r[i] == ps[i].0 + "=" + ps[i].1
  {
    if ps == [] then [] else [ps[0].0 + "=" + ps[0].1] + ParamItems(ps[1..])
  }

  /** The normalised parameter string of section 3.4.1.3.2: escaped pairs, sorted, "k=v" joined with "&". */
  function NormalizedParams(params: seq<Pair>): string {
    Text.Join(ParamItems(SortedPairs(EscapedPairs(params))), "&")
  }

  /** The signature base string of section 3.4.1.1: method, URL and parameters, each escaped, joined with "&". */
  function BaseString(httpMethod: string, url: ParsedUrl, params: seq<Pair>): (r: string)
    ensures Text.StartsWith(r, Text.Upper(httpMethod) + "&")
    ensures EscapesAndAmpersands(r[|httpMethod| + 1..])
  {
    var head := Text.Upper(httpMethod) + "&";
    var url', params' := Escape(NormalizeUrl(url)), Escape(NormalizedParams(params));
    var tail := url' + "&" + params';
    EscapesJoined(url', params');
    assert |head| == |httpMethod| + 1;
    assert (head + tail)[..|head|] == head && (head + tail)[|head|..] == tail;
    head + tail
  }

  lemma BaseStringConcat(httpMethod: string, url: ParsedUrl, params: seq<Pair>)
    ensures BaseString(httpMethod, url, params)
            == Text.Upper(httpMethod) + "&" + Escape(NormalizeUrl(url)) + "&" + Escape(NormalizedParams(params))
  {
  }

  /** Escaped characters and '&' separators only. */
  predicate EscapesAndAmpersands(t: string) {
    forall i :: 0 <= i < |t| ==> EscapedChar(t[i]) || t[i] == '&'
  }

  lemma EscapesJoined(a: string, b: string)
    requires forall i :: 0 <= i < |a| ==> EscapedChar(a[i])
    requires forall i :: 0 <= i < |b| ==> EscapedChar(b[i])
    ensures EscapesAndAmpersands(a + "&" + b)
  {
    var t := a + "&" + b;
    assert forall i :: |a| < i < |t| ==> t[i] == b[i - |a| - 1];
  }

  /** The HMAC-SHA1 key of section 3.4.2: the escaped secret and "&" (no token secret). */
  function SigningKey(secret: string): (r: string)
    ensures |r| >= 1 && r[|r| - 1] == '&' && '&' !in r[..|r| - 1]
    ensures Unescape(r[..|r| - 1]) == Some(Encode(secret))
  {
    var r := Escape(secret) + "&";
    assert r[..|r| - 1] == Escape(secret);
    r
  }

  function SignatureOf(prims: Primitives, httpMethod: string, url: ParsedUrl, params: seq<Pair>,
                       secret: string): string
  {
    prims.base64(prims.hmacSha1(Encode(SigningKey(secret)), Encode(BaseString(httpMethod, url, params))))
  }

  /** Two strings joined by a separator they do not contain split back into the same two parts. */
  lemma SplitUnique(x1: string, y1: string, x2: string, y2: string, sep: char)
    requires sep !in x1 && sep !in x2
    requires x1 + [sep] + y1 == x2 + [sep] + y2
    ensures x1 == x2 && y1 == y2
  {
    var l := x1 + [sep] + y1;
    assert |x1| == |x2| by {
      assert forall i :: 0 <= i < |x1| ==> l[i] == x1[i] != sep;
      assert forall i :: 0 <= i < |x2| ==> l[i] == x2[i] != sep;
      assert l[|x1|] == sep && l[|x2|] == sep;
    }
    assert x1 == l[..|x1|] == x2;
    assert y1 == l[|x1| + 1..] == y2;
  }

  /**
    The base string determines its three parts: for methods without '&', equal
    base strings have equal methods, equal escaped URLs and equal escaped
    parameter strings, since escaping leaves no '&'.
  */
  lemma BaseStringParts(m1: string, u1: ParsedUrl, p1: seq<Pair>, m2: string, u2: ParsedUrl, p2: seq<Pair>)
    requires '&' !in m1 && '&' !in m2
    requires BaseString(m1, u1, p1) == BaseString(m2, u2, p2)
    ensures Text.Upper(m1) == Text.Upper(m2)
    ensures Escape(NormalizeUrl(u1)) == Escape(NormalizeUrl(u2))
    ensures Escape(NormalizedParams(p1)) == Escape(NormalizedParams(p2))
  {
    var a1, b1, c1 := BaseStringShape(m1, u1, p1);
    var a2, b2, c2 := BaseStringShape(m2, u2, p2);
    SplitUnique(a1, b1 + "&" + c1, a2, b2 + "&" + c2, '&');
    SplitUnique(b1, c1, b2, c2, '&');
  }

  /** The three parts of a base string, none holding '&' when the method does not. */
  lemma BaseStringShape(m: string, u: ParsedUrl, p: seq<Pair>) returns (a: string, b: string, c: string)
    requires '&' !in m
    ensures a == Text.Upper(m) && b == Escape(NormalizeUrl(u)) && c == Escape(NormalizedParams(p))
    ensures '&' !in a && '&' !in b && '&' !in c
    ensures BaseString(m, u, p) == a + "&" + (b + "&" + c)
  {
    a, b, c := Text.Upper(m), Escape(NormalizeUrl(u)), Escape(NormalizedParams(p));
    EscapeNoAmpersand(NormalizeUrl(u));
    EscapeNoAmpersand(NormalizedParams(p));
    assert forall i :: 0 <= i < |m| ==> a[i] == Text.UpperChar(m[i]);
  }

  /** The signature depends on the parameters, not on the order they were given in. */
  lemma SignatureOrderFree(prims: Primitives, httpMethod: string, url: ParsedUrl, ps: seq<Pair>, qs: seq<Pair>,
                           secret: string)
    requires multiset(ps) == multiset(qs)
    ensures SignatureOf(prims, httpMethod, url, ps, secret) == SignatureOf(prims, httpMethod, url, qs, secret)
  {
    MapSeqPermute(EscapePair, ps, qs);
    SortedPairsOrderFree(EscapedPairs(ps), EscapedPairs(qs));
  }

  /**
    generate_oauth_signature: escape each pair, sort the escaped pairs, and
    sign the base string with the key made from the secret.
  */
  method GenerateSignature(prims: Primitives, httpMethod: string, url: string, params: seq<Pair>, secret: string)
    returns (signature: string)
    ensures signature == SignatureOf(prims, httpMethod, prims.parseUrl(url), params, secret)
  {
    var encoded: seq<Pair> := [];
    var i := 0;
    while i < |params|
      invariant 0 <= i <= |params|
      invariant encoded == EscapedPairs(params[..i])
    {
      MapSeqAppend(EscapePair, params[..i], [params[i]]);
      assert params[..i + 1] == params[..i] + [params[i]];
      encoded := encoded + [EscapePair(params[i])];
      i := i + 1;
    }
    assert params[..|params|] == params;
    encoded := SortPairs(encoded);
    var normalizedParams := Text.Join(ParamItems(encoded), "&");
    var normalizedUrl := NormalizeUrl(prims.parseUrl(url));
    var baseString := Text.Upper(httpMethod) + "&" + Escape(normalizedUrl) + "&" + Escape(normalizedParams);
    BaseStringConcat(httpMethod, prims.parseUrl(url), params);
    var key := SigningKey(secret);
    signature := prims.base64(prims.hmacSha1(Encode(key), Encode(baseString)));
  }

  // ------------------------------------------------------------------ the Authorization header

  /** One item of the header: the key, then the escaped value in double quotes. */
  function HeaderItem(p: Pair): string {
    p.0 + "=\"" + Escape(p.1) + "\""
  }

  function HeaderItems(ps: seq<Pair>): (r: seq<string>)
    ensures |r| == |ps|
    ensures forall i :: 0 <= i < |ps| ==> r[i] == HeaderItem(ps[i])
  {
    if ps == [] then [] else [HeaderItem(ps[0])] + HeaderItems(ps[1..])
  }

  /** "OAuth " and the items of the sorted parameters joined with ", ". */
  function AuthorizationHeader(params: seq<Pair>): (r: string)
    ensures Text.StartsWith(r, "OAuth ")
    ensures forall p :: p in params ==> Text.Contains(r, HeaderItem(p))
  {
    HeaderListsEveryParam(params);
    "OAuth " + Text.Join(HeaderItems(SortedPairs(params)), ", ")
  }

  lemma {:induction false} JoinContains(parts: seq<string>, sep: string, i: int)
    requires 0 <= i < |parts|
    ensures Text.Contains(Text.Join(parts, sep), parts[i])
  {
    var j := Text.Join(parts, sep);
    if i == 0 {
      if |parts| == 1 {
        assert Text.OccursAt(j, parts[0], 0);
      } else {
        assert j == parts[0] + (sep + Text.Join(parts[1..], sep));
        assert j[..|parts[0]|] == parts[0];
        assert Text.OccursAt(j, parts[0], 0);
      }
      Text.ContainsAt(j, parts[0], 0);
    } else {
      JoinContains(parts[1..], sep, i - 1);
      var rest := Text.Join(parts[1..], sep);
      Text.ContainsIff(rest, parts[i]);
      var k :| Text.OccursAt(rest, parts[i], k);
      var off := |parts[0]| + |sep|;
      assert j == parts[0] + sep + rest;
      assert j[off + k..off + k + |parts[i]|] == rest[k..k + |parts[i]|];
      Text.ContainsAt(j, parts[i], off + k);
    }
  }

  lemma ContainsAfterPrefix(prefix: string, s: string, sub: string)
    requires Text.Contains(s, sub)
    ensures Text.Contains(prefix + s, sub)
  {
    Text.ContainsIff(s, sub);
    var k :| Text.OccursAt(s, sub, k);
    assert (prefix + s)[|prefix| + k..|prefix| + k + |sub|] == s[k..k + |sub|];
    Text.ContainsAt(prefix + s, sub, |prefix| + k);
  }

  /** Every parameter appears in the header as key="escaped value". */
  lemma HeaderListsEveryParam(params: seq<Pair>)
    ensures forall p :: p in params ==> Text.Contains("OAuth " + Text.Join(HeaderItems(SortedPairs(params)), ", "), HeaderItem(p))
  {
    var sorted := SortedPairs(params);
    SortedPairsSpec(params);
    var items := HeaderItems(sorted);
    forall p | p in params
      ensures Text.Contains("OAuth " + Text.Join(items, ", "), HeaderItem(p))
    {
      assert p in multiset(sorted);
      var i :| 0 <= i < |sorted| && sorted[i] == p;
      JoinContains(items, ", ", i);
      ContainsAfterPrefix("OAuth ", Text.Join(items, ", "), HeaderItem(p));
    }
  }

  /** The header depends on the parameters, not on their order. */
  lemma HeaderOrderFree(ps: seq<Pair>, qs: seq<Pair>)
    requires multiset(ps) == multiset(qs)
    ensures AuthorizationHeader(ps) == AuthorizationHeader(qs)
  {
    SortedPairsOrderFree(ps, qs);
  }

  /** The header loop of send_grade_to_moodle over sorted(oauth_params.items()). */
  method BuildAuthorizationHeader(params: seq<Pair>) returns (header: string)
    ensures header == AuthorizationHeader(params)
  {
    var sorted := SortPairs(params);
    var parts: seq<string> := [];
    var i := 0;
    while i < |sorted|
      invariant 0 <= i <= |sorted|
      invariant |parts| == i && forall j :: 0 <= j < i ==> parts[j] == HeaderItem(sorted[j])
    {
      parts := parts + [HeaderItem(sorted[i])];
      i := i + 1;
    }
    assert parts == HeaderItems(sorted);
    header := "OAuth " + Text.Join(parts, ", ");
  }

  /** str(uuid.uuid4()).replace("-", "") */
  function WithoutDashes(s: string): (r: string)
    ensures '-' !in r
    ensures forall c :: c in r ==> c in s
  {
    if s == [] then [] else (if s[0] == '-' then [] else [s[0]]) + WithoutDashes(s[1..])
  }

  /** The oauth_params of send_grade_to_moodle before the signature is added, in insertion order. */
  function OAuthParams(consumerKey: string, uuid: string, timestamp: int, bodyHash: string): seq<Pair> {
    [("oauth_consumer_key", consumerKey), ("oauth_nonce", WithoutDashes(uuid)),
     ("oauth_signature_method", "HMAC-SHA1"), ("oauth_timestamp", Text.IntToString(timestamp)),
     ("oauth_version", "1.0"), ("oauth_body_hash", bodyHash)]
  }
}

=== FILE: router.dfy ===
/**
  The student routes of backend/submissions_router.py that carry logic of their
  own: finding the LTI session of a request, the student role check, the join
  by group code (with its code normalisation and its mapping of the service's
  refusals to HTTP 400) and the listing of a group's members.  The session
  store is a parameter: the LTI launch data of each session id, as a map from
  parameter names to values.
*/
module Router {
  import opened Wrappers
  import opened Store
  import opened Submissions
  import Text
  import Auth

  type LtiData = map<string, string>

  /** An HTTPException: its status code and detail. */
  datatype HttpError = HttpError(status: int, detail: string)

  /** Where a request may carry its session id: the cookie, the X-LTI-Session header, the query. */
  datatype SessionRequest = SessionRequest(cookie: Option<string>, header: Option<string>, query: Option<string>)

  /** Python truthiness of an optional string. */
  predicate Given(v: Option<string>) {
    v.Some? && v.value != ""
  }

  /** The session id a request names: the first of cookie, header and query that is given. */
  function SessionId(req: SessionRequest): (r: Option<string>)
    ensures r.Some? <==> Given(req.cookie) || Given(req.header) || Given(req.query)
    ensures r.Some? ==> r.value != ""
    ensures Given(req.cookie) ==> r == req.cookie
    ensures !Given(req.cookie) && Given(req.header) ==> r == req.header
  {
    if Given(req.cookie) then req.cookie
    else if Given(req.header) then req.header
    else if Given(req.query) then req.query
    else None
  }

  function NoSession(): HttpError { HttpError(401, "No se encontró sesión LTI activa") }

  function UnknownSession(): HttpError { HttpError(404, "Sesión expirada o no encontrada") }

  /** get_lti_session_data */
  method GetLtiSessionData(req: SessionRequest, sessions: map<string, LtiData>) returns (r: Result<LtiData, HttpError>)
    ensures r == Err(NoSession()) <==> SessionId(req).None?
    ensures r == Err(UnknownSession()) <==> SessionId(req).Some? && SessionId(req).value !in sessions
    ensures r.Ok? <==> SessionId(req).Some? && SessionId(req).value in sessions
    ensures r.Ok? ==> r.value == sessions[SessionId(req).value]
  {
    var sessionId := req.cookie;
    if !Given(sessionId) {
      sessionId := req.header;
    }
    if !Given(sessionId) {
      sessionId := req.query;
    }
    if !Given(sessionId) {
      return Err(NoSession());
    }
    if sessionId.value !in sessions {
      return Err(UnknownSession());
    }
    r := Ok(sessions[sessionId.value]);
  }

  /** lti_data.get(key, default) */
  function Get(d: LtiData, key: string, default: string): string {
    if key in d then d[key] else default
  }

  /** lti_data.get(key) */
  function GetOpt(d: LtiData, key: string): Option<string> {
    if key in d then Some(d[key]) else None
  }

  /**
    The student name join_group passes on: lis_person_name_full, or
    ext_user_username when the full name is missing or empty (Python's `or`).
  */
  function StudentName(d: LtiData): (r: string)
    ensures "lis_person_name_full" in d && d["lis_person_name_full"] != "" ==> r == d["lis_person_name_full"]
    ensures Get(d, "lis_person_name_full", "") == "" ==> r == Get(d, "ext_user_username", "")
    ensures r == "" ==> !("lis_person_name_full" in d && d["lis_person_name_full"] != "")
                        && !("ext_user_username" in d && d["ext_user_username"] != "")
  {
    var full := Get(d, "lis_person_name_full", "");
    if full != "" then full else Get(d, "ext_user_username", "")
  }

  /** check_student_role: the frontend's isStudentRole on the session's roles. */
  function CheckStudentRole(d: LtiData): (r: bool)
    ensures r == Auth.IsStudentRole(GetOpt(d, "roles"))
  {
    if "roles" !in d || d["roles"] == "" then false
    else
      var roles := Text.Lower(d["roles"]);
      Text.Contains(roles, "learner") || Text.Contains(roles, "student")
  }

  /**
    What every student route does first: the session, then the role (403 with
    the route's own `forbidden` detail), then the Moodle instance id (400).  It
    yields the session's data and its Moodle instance id.
  */
  function Admitted(req: SessionRequest, sessions: map<string, LtiData>, forbidden: string)
    : (r: Result<(LtiData, string), HttpError>)
    ensures r.Ok? ==> CheckStudentRole(r.value.0) && r.value.1 != ""
    ensures r.Err? ==> r.error.status in {400, 401, 403, 404}
  {
    var sid := SessionId(req);
    if sid.None? then Err(NoSession())
    else if sid.value !in sessions then Err(UnknownSession())
    else
      var d := sessions[sid.value];
      if !CheckStudentRole(d) then Err(HttpError(403, forbidden))
      else
        var moodleId := Get(d, "tool_consumer_instance_guid", "");
        if moodleId == "" then Err(HttpError(400, "No se encontró tool_consumer_instance_guid en los datos LTI"))
        else Ok((d, moodleId))
  }

  /** A session without a student role is refused with 403, whatever else it holds. */
  lemma NonStudentForbidden(req: SessionRequest, sessions: map<string, LtiData>, forbidden: string)
    requires SessionId(req).Some? && SessionId(req).value in sessions
    requires !CheckStudentRole(sessions[SessionId(req).value])
    ensures Admitted(req, sessions, forbidden) == Err(HttpError(403, forbidden))
  {
  }

  /** The checks of Admitted, in the router's statement order. */
  method Admit(req: SessionRequest, sessions: map<string, LtiData>, forbidden: string)
    returns (r: Result<(LtiData, string), HttpError>)
    ensures r == Admitted(req, sessions, forbidden)
  {
    var session := GetLtiSessionData(req, sessions);
    if session.Err? {
      return Err(session.error);
    }
    var d := session.value;
    if !CheckStudentRole(d) {
      return Err(HttpError(403, forbidden));
    }
    var moodleId := Get(d, "tool_consumer_instance_guid", "");
    if moodleId == "" {
      return Err(HttpError(400, "No se encontró tool_consumer_instance_guid en los datos LTI"));
    }
    r := Ok((d, moodleId));
  }

  // ------------------------------------------------------------------ join_group

  /** code_data.group_code.upper().strip(): no lower-case letter and no surrounding white space. */
  function NormalizeCode(code: string): (r: string)
    ensures forall i :: 0 <= i < |r| ==> NotLowerLetter(r[i])
    ensures r == [] || (!Text.IsSpace(r[0]) && !Text.IsSpace(r[|r| - 1]))
  {
    var u := Text.Upper(code);
    assert forall k :: 0 <= k < |u| ==> NotLowerLetter(u[k]);
    Text.StripByKeeps(u, Text.IsSpace, NotLowerLetter);
    Text.StripByEnds(u, Text.IsSpace);
    Text.Strip(u)
  }

  /** A code typed in lower case joins the same group as the upper-case code. */
  lemma CodeIgnoresCase(code: string)
    ensures NormalizeCode(Text.Lower(code)) == NormalizeCode(code)
    ensures NormalizeCode(Text.Upper(code)) == NormalizeCode(code)
  {
    Text.UpperOfLower(code);
    Text.UpperIdempotent(code);
  }

  predicate NotLowerLetter(c: char) {
    !('a' <= c <= 'z')
  }

  /** The join request body. */
  datatype GroupCodeData = GroupCodeData(activityId: string, groupCode: string)

  /** The response of a successful join. */
  datatype GroupCodeResponse = GroupCodeResponse(success: bool, message: string, submission: View)

  function Forbidden(): string { "Solo estudiantes pueden unirse a grupos" }

  /**
    join_group: after the session checks, the service is called with the
    normalised code and the session's identity; each refusal of the service
    becomes a 400 carrying its message.
  */
  method JoinGroup(db: Database, req: SessionRequest, sessions: map<string, LtiData>, body: GroupCodeData,
                   newId: string, now: int)
    returns (r: Result<GroupCodeResponse, HttpError>)
    requires db.Valid() && newId !in db.studentSubs
    modifies db`studentSubs
    ensures db.Valid()
    ensures var a := Admitted(req, sessions, Forbidden());
      && (a.Err? ==> r == Err(a.error) && db.studentSubs == old(db.studentSubs))
      && (a.Ok? ==>
            var t := JoinTarget(old(db.activities), old(db.fileSubs), old(db.studentSubs), body.activityId,
                                NormalizeCode(body.groupCode), Get(a.value.0, "user_id", ""), a.value.1);
            && (t.Err? ==> r == Err(HttpError(400, t.error.Message())) && db.studentSubs == old(db.studentSubs))
            && (t.Ok? ==>
                  var row := JoinedRow(newId, t.value, Get(a.value.0, "user_id", ""), body.activityId, a.value.1,
                                       GetOpt(a.value.0, "lis_result_sourcedid"), now);
                  && db.studentSubs == old(db.studentSubs)[newId := row]
                  && r == Ok(GroupCodeResponse(true, "Te has unido al grupo exitosamente",
                                               View(FileModel(db.fileSubs[t.value]), row, StudentName(a.value.0),
                                                    GetOpt(a.value.0, "lis_person_contact_email_primary"),
                                                    false, None, GradeOf(db.grades, t.value))))))
  {
    var admitted := Admit(req, sessions, Forbidden());
    if admitted.Err? {
      return Err(admitted.error);
    }
    var (d, moodleId) := admitted.value;
    var joined := SubmitWithGroupCode(db, body.activityId, NormalizeCode(body.groupCode), Get(d, "user_id", ""),
                                      StudentName(d), GetOpt(d, "lis_person_contact_email_primary"), moodleId,
                                      GetOpt(d, "lis_result_sourcedid"), newId, now);
    if joined.Err? {
      return Err(HttpError(400, joined.error.Message()));
    }
    r := Ok(GroupCodeResponse(true, "Te has unido al grupo exitosamente", joined.value));
  }

  /** Every refusal of the join service reaches the client as a 400 with a message of its own. */
  lemma RefusalMessagesDistinct(a: JoinRefusal, b: JoinRefusal)
    requires a != b
    ensures a.Message() != b.Message()
  {
  }

  // ------------------------------------------------------------------ get_submission_members

  /** One entry of the members listing. */
  datatype MemberEntry = MemberEntry(studentId: string, studentName: string, email: Option<string>,
                                     isGroupLeader: bool, submittedAt: int)

  /**
    `order` is what the members query returns: each student row of file
    submission `fid` whose user exists, once, by ascending join time (rows
    joined at the same time in any order).
  */
  predicate MembersQuery(ss: map<string, StudentSubmission>, users: map<(string, string), User>, fid: string,
                         order: seq<string>)
  {
    && Distinct(order)
    && (forall i :: 0 <= i < |order| ==>
          order[i] in ss && ss[order[i]].fileSubmissionId == fid
          && (ss[order[i]].studentId, ss[order[i]].studentMoodleId) in users)
    && (forall k :: k in ss && ss[k].fileSubmissionId == fid && (ss[k].studentId, ss[k].studentMoodleId) in users
          ==> k in order)
    && (forall i, j :: 0 <= i < j < |order| ==> ss[order[i]].joinedAt <= ss[order[j]].joinedAt)
  }

  /** The entry of the member at position `idx` of the listing. */
  function EntryOf(users: map<(string, string), User>, s: StudentSubmission, idx: nat): MemberEntry
    requires (s.studentId, s.studentMoodleId) in users
  {
    var u := users[(s.studentId, s.studentMoodleId)];
    MemberEntry(s.studentId, u.fullName, u.email, idx == 0, s.joinedAt)
  }

  /**
    In the members listing exactly the first entry is flagged leader, and it is
    a member who joined no later than any other.
  */
  lemma LeaderJoinedFirst(ss: map<string, StudentSubmission>, users: map<(string, string), User>, fid: string,
                          order: seq<string>, k: string)
    requires MembersQuery(ss, users, fid, order)
    requires k in ss && ss[k].fileSubmissionId == fid && (ss[k].studentId, ss[k].studentMoodleId) in users
    ensures order != []
    ensures ss[order[0]].joinedAt <= ss[k].joinedAt
    ensures forall i :: 0 <= i < |order| ==> (EntryOf(users, ss[order[i]], i).isGroupLeader <==> i == 0)
  {
    var j :| 0 <= j < |order| && order[j] == k;
    if j > 0 {
      assert ss[order[0]].joinedAt <= ss[order[j]].joinedAt;
    }
  }

  /** The loop of get_submission_members: one entry per listed row, the first flagged leader. */
  method MemberEntries(users: map<(string, string), User>, ss: map<string, StudentSubmission>, fid: string,
                       order: seq<string>)
    returns (members: seq<MemberEntry>)
    requires MembersQuery(ss, users, fid, order)
    ensures |members| == |order|
    ensures forall i :: 0 <= i < |order| ==> members[i] == EntryOf(users, ss[order[i]], i)
  {
    members := [];
    var idx := 0;
    while idx < |order|
      invariant 0 <= idx <= |order| && |members| == idx
      invariant forall i :: 0 <= i < idx ==> members[i] == EntryOf(users, ss[order[i]], i)
    {
      var s := ss[order[idx]];
      var user := users[(s.studentId, s.studentMoodleId)];
      members := members + [MemberEntry(s.studentId, user.fullName, user.email, idx == 0, s.joinedAt)];
      idx := idx + 1;
    }
  }

  function NoGroup(): HttpError { HttpError(404, "Entrega grupal no encontrada") }

  /**
    get_submission_members: after the session checks, 404 unless the file
    submission exists and has a group code; otherwise one entry per member row
    in query order, the first flagged leader.
  */
  method GetSubmissionMembers(db: Database, req: SessionRequest, sessions: map<string, LtiData>,
                              submissionId: string, order: seq<string>)
    returns (r: Result<seq<MemberEntry>, HttpError>)
    requires MembersQuery(db.studentSubs, db.users, submissionId, order)
    ensures var a := Admitted(req, sessions, "Solo estudiantes pueden ver miembros de grupos");
      && (a.Err? ==> r == Err(a.error))
      && (a.Ok? && (submissionId !in db.fileSubs || !HasCode(db.fileSubs[submissionId])) ==> r == Err(NoGroup()))
      && (a.Ok? && submissionId in db.fileSubs && HasCode(db.fileSubs[submissionId]) ==>
            && r.Ok? && |r.value| == |order|
            && forall i :: 0 <= i < |order| ==> r.value[i] == EntryOf(db.users, db.studentSubs[order[i]], i))
  {
    var admitted := Admit(req, sessions, "Solo estudiantes pueden ver miembros de grupos");
    if admitted.Err? {
      return Err(admitted.error);
    }
    if submissionId !in db.fileSubs || !HasCode(db.fileSubs[submissionId]) {
      return Err(NoGroup());
    }
    var members := MemberEntries(db.users, db.studentSubs, submissionId, order);
    r := Ok(members);
  }
}

=== FILE: storage.dfy ===
/**
  The uploads directory (backend/storage_service.py): where a submission's file
  is stored, how stored paths are resolved, the containment test that guards
  every deletion, and file-name sanitising.

  Paths are POSIX strings.  `Split` is Python's str.split('/'), `PathJoin` is
  os.path.join, and `AbsParts` is the list of components os.path.abspath leaves
  in an absolute path.  BASE_DIR (the directory the service is installed in) is
  the parameter `base`, given as its components.  The file system is the `Disk`
  class: files and directories keyed by their absolute component lists.
*/
module Storage {
  import opened Wrappers
  import Text

  type Bytes = seq<bv8>

  // ---------------------------------------------------------------- path strings

  /** str.split('/'): the pieces between slashes, empty ones included. */
  function Split(s: string): (r: seq<string>)
    ensures |r| >= 1
    ensures forall i :: 0 <= i < |r| ==> '/' !in r[i]
  {
    if s == [] then [""]
    else
      var t := Split(s[1..]);
      if s[0] == '/' then [""] + t else [[s[0]] + t[0]] + t[1..]
  }

  lemma {:induction false} SplitAppend(a: string, b: string)
    ensures Split(a + "/" + b) == Split(a) + Split(b)
    decreases |a|
  {
    var s := a + "/" + b;
    if a == [] {
      assert s[1..] == b;
    } else {
      assert s[1..] == a[1..] + "/" + b;
      SplitAppend(a[1..], b);
    }
  }

  lemma {:induction false} SplitSingle(s: string)
    requires '/' !in s
    ensures Split(s) == [s]
    decreases |s|
  {
    if s != [] {
      SplitSingle(s[1..]);
      assert [s[0]] + s[1..] == s;
    }
  }

  /** Splitting a '/'-joined list of slash-free pieces gives the pieces back. */
  lemma {:induction false} SplitJoin(ps: seq<string>)
    requires |ps| >= 1
    requires forall i :: 0 <= i < |ps| ==> '/' !in ps[i]
    ensures Split(Text.Join(ps, "/")) == ps
    decreases |ps|
  {
    if |ps| == 1 {
      SplitSingle(ps[0]);
    } else {
      SplitJoin(ps[1..]);
      SplitAppend(ps[0], Text.Join(ps[1..], "/"));
      SplitSingle(ps[0]);
      assert [ps[0]] + ps[1..] == ps;
    }
  }

  predicate IsAbs(s: string) {
    |s| > 0 && s[0] == '/'
  }

  /** os.path.join(a, b) */
  function PathJoin(a: string, b: string): (r: string)
    ensures IsAbs(a) ==> IsAbs(r)
  {
    if IsAbs(b) then b
    else if a == "" || a[|a| - 1] == '/' then a + b
    else a + "/" + b
  }

  // ---------------------------------------------------------------- normalisation

  /** A component os.path.normpath keeps as it is. */
  predicate Plain(c: string) {
    c != "" && c != "." && c != ".." && '/' !in c
  }

  predicate Clean(ps: seq<string>) {
    forall i :: 0 <= i < |ps| ==> Plain(ps[i])
  }

  /**
    The component loop of os.path.normpath on an absolute path: "" and "." are
    skipped, ".." drops the last kept component (nothing above the root).
  */
  function Fold(stack: seq<string>, parts: seq<string>): seq<string>
    decreases |parts|
  {
    if parts == [] then stack
    else if parts[0] == "" || parts[0] == "." then Fold(stack, parts[1..])
    else if parts[0] == ".." then Fold(if stack == [] then [] else stack[..|stack| - 1], parts[1..])
    else Fold(stack + [parts[0]], parts[1..])
  }

  /** The components of os.path.abspath(s) for an absolute path s. */
  function AbsParts(s: string): seq<string>
    requires IsAbs(s)
  {
    Fold([], Split(s))
  }

  /** The absolute path string with the given components. */
  function PathString(ps: seq<string>): (r: string)
    ensures IsAbs(r)
  {
    "/" + Text.Join(ps, "/")
  }

  lemma {:induction false} FoldAppend(s: seq<string>, a: seq<string>, b: seq<string>)
    ensures Fold(s, a + b) == Fold(Fold(s, a), b)
    decreases |a|
  {
    if a != [] {
      assert (a + b)[0] == a[0];
      assert (a + b)[1..] == a[1..] + b;
      var s' := if a[0] == "" || a[0] == "." then s
                else if a[0] == ".." then (if s == [] then [] else s[..|s| - 1])
                else s + [a[0]];
      FoldAppend(s', a[1..], b);
    } else {
      assert a + b == b;
    }
  }

  lemma {:induction false} FoldClean(s: seq<string>, c: seq<string>)
    requires Clean(c)
    ensures Fold(s, c) == s + c
    decreases |c|
  {
    if c != [] {
      FoldClean(s + [c[0]], c[1..]);
      assert s + [c[0]] + c[1..] == s + c;
    }
  }

  function Ups(k: nat): (r: seq<string>)
    ensures |r| == k
    ensures forall i :: 0 <= i < k ==> r[i] == ".."
  {
    if k == 0 then [] else [".."] + Ups(k - 1)
  }

  lemma {:induction false} FoldUps(s: seq<string>, k: nat)
    requires k <= |s|
    ensures Fold(s, Ups(k)) == s[..|s| - k]
    decreases k
  {
    if k > 0 {
      FoldUps(s[..|s| - 1], k - 1);
      assert s[..|s| - 1][..|s| - 1 - (k - 1)] == s[..|s| - k];
    }
  }

  /** Normalisation never produces a "", "." or ".." component. */
  lemma {:induction false} FoldIsClean(s: seq<string>, parts: seq<string>)
    requires Clean(s)
    requires forall i :: 0 <= i < |parts| ==> '/' !in parts[i]
    ensures Clean(Fold(s, parts))
    decreases |parts|
  {
    if parts != [] {
      var s' := if parts[0] == "" || parts[0] == "." then s
                else if parts[0] == ".." then (if s == [] then [] else s[..|s| - 1])
                else s + [parts[0]];
      assert Clean(s');
      FoldIsClean(s', parts[1..]);
    }
  }

  /** abspath of a path built from clean components gives them back. */
  lemma AbsPartsOfPathString(ps: seq<string>)
    requires Clean(ps)
    ensures AbsParts(PathString(ps)) == ps
  {
    if ps == [] {
      assert Text.Join(ps, "/") == "";
      SplitAppend("", "");
      assert PathString(ps) == "" + "/" + "";
      assert Split("") == [""];
      assert Fold([], ["", ""]) == Fold([], [""]) == Fold([], []);
    } else {
      SplitJoin(ps);
      SplitAppend("", Text.Join(ps, "/"));
      assert "" + "/" + Text.Join(ps, "/") == PathString(ps);
      FoldAppend([], [""], ps);
      FoldClean([], ps);
    }
  }

  // ---------------------------------------------------------------- the uploads root

  /** BASE_DIR as a string. */
  function BaseDir(base: seq<string>): string {
    PathString(base)
  }

  /** UPLOADS_ROOT = os.path.join(BASE_DIR, "uploads"). */
  function UploadsRoot(base: seq<string>): string {
    PathJoin(BaseDir(base), "uploads")
  }

  function UploadsParts(base: seq<string>): seq<string> {
    base + ["uploads"]
  }

  /** Joining a relative path onto BASE_DIR and normalising continues from BASE_DIR's components. */
  lemma AbsPartsOfJoin(base: seq<string>, rel: string)
    requires Clean(base) && !IsAbs(rel)
    ensures IsAbs(PathJoin(BaseDir(base), rel))
    ensures AbsParts(PathJoin(BaseDir(base), rel)) == Fold(base, Split(rel))
  {
    var b := BaseDir(base);
    if base == [] {
      assert b == "/";
      assert PathJoin(b, rel) == "" + "/" + rel;
      SplitAppend("", rel);
      FoldAppend([], [""], Split(rel));
    } else {
      BaseDirShape(base);
      assert PathJoin(b, rel) == b + "/" + rel;
      SplitAppend(b, rel);
      FoldAppend([], [""] + base, Split(rel));
      FoldRootBase(base);
    }
  }

  /** BASE_DIR does not end in '/', and splits into "" and its components. */
  lemma BaseDirShape(base: seq<string>)
    requires Clean(base) && base != []
    ensures var b := BaseDir(base);
      |b| > 0 && b[|b| - 1] != '/' && Split(b) == [""] + base
  {
    var b := BaseDir(base);
    var j := Text.Join(base, "/");
    assert b == "" + "/" + j;
    LastOfJoin(base);
    assert b[|b| - 1] == j[|j| - 1];
    assert Split(b) == [""] + base by {
      SplitJoin(base);
      SplitAppend("", j);
      assert Split("") == [""];
    }
  }

  /** Normalising "" followed by clean components keeps the components. */
  lemma FoldRootBase(base: seq<string>)
    requires Clean(base)
    ensures Fold([], [""] + base) == base
  {
    FoldAppend([], [""], base);
    assert Fold([], [""]) == Fold([], []) == [];
    FoldClean([], base);
    assert [] + base == base;
  }

  lemma {:induction false} LastOfJoin(ps: seq<string>)
    requires |ps| >= 1 && Clean(ps)
    ensures |Text.Join(ps, "/")| > 0 && Text.Join(ps, "/")[|Text.Join(ps, "/")| - 1] != '/'
    decreases |ps|
  {
    if |ps| > 1 {
      LastOfJoin(ps[1..]);
    } else {
      assert Plain(ps[0]);
      assert ps[0][|ps[0]| - 1] in ps[0];
    }
  }

  lemma UploadsRootParts(base: seq<string>)
    requires Clean(base)
    ensures IsAbs(UploadsRoot(base)) && AbsParts(UploadsRoot(base)) == UploadsParts(base)
  {
    AbsPartsOfJoin(base, "uploads");
    SplitSingle("uploads");
    FoldClean(base, ["uploads"]);
  }

  /** resolve_path: absolute paths unchanged, relative ones joined onto BASE_DIR and normalised. */
  function ResolvePath(path: string, base: seq<string>): (r: string)
    requires Clean(base)
    ensures IsAbs(r)
  {
    if IsAbs(path) then path
    else
      AbsPartsOfJoin(base, path);
      PathString(AbsParts(PathJoin(BaseDir(base), path)))
  }

  /** What resolve_path means: a relative path is read from BASE_DIR, an absolute one as it is. */
  lemma ResolvePathSpec(path: string, base: seq<string>)
    requires Clean(base)
    ensures IsAbs(path) ==> ResolvePath(path, base) == path
    ensures !IsAbs(path) ==> AbsParts(ResolvePath(path, base)) == Fold(base, Split(path))
  {
    if !IsAbs(path) {
      AbsPartsOfJoin(base, path);
      var ps := Fold(base, Split(path));
      FoldIsClean(base, Split(path));
      AbsPartsOfPathString(ps);
    }
  }

  function CommonPrefixLen(a: seq<string>, b: seq<string>): (n: nat)
    ensures n <= |a| && n <= |b| && a[..n] == b[..n]
    ensures n < |a| && n < |b| ==> a[n] != b[n]
  {
    if a == [] || b == [] || a[0] != b[0] then 0
    else
      var m := CommonPrefixLen(a[1..], b[1..]);
      assert a[..m + 1] == [a[0]] + a[1..][..m];
      assert b[..m + 1] == [b[0]] + b[1..][..m];
      m + 1
  }

  /**
    is_within_uploads: os.path.commonpath([abspath(path), UPLOADS_ROOT]) == UPLOADS_ROOT,
    which holds exactly when the normalised path lies under the uploads root.
  */
  function IsWithinUploads(path: string, base: seq<string>): (r: bool)
    requires IsAbs(path)
    ensures r <==> IsPrefix(UploadsParts(base), AbsParts(path))
  {
    var p := AbsParts(path);
    var root := UploadsParts(base);
    assert CommonPrefixLen(p, root) <= |root|;
    p[..CommonPrefixLen(p, root)] == root
  }

  predicate IsPrefix(pre: seq<string>, s: seq<string>) {
    |pre| <= |s| && s[..|pre|] == pre
  }

  /**
    A ".." step climbs back out of the directory before it: "x/../y" resolves to
    BASE_DIR/y, which the containment test accepts only when y is "uploads" itself
    (so "uploads/../secret.txt" is refused).
  */
  lemma ParentStepResolves(base: seq<string>, x: string, y: string)
    requires Clean(base) && Plain(x) && Plain(y)
    ensures AbsParts(ResolvePath(x + "/../" + y, base)) == base + [y]
    ensures IsWithinUploads(ResolvePath(x + "/../" + y, base), base) <==> y == "uploads"
  {
    var path := x + "/../" + y;
    assert path == x + "/" + (".." + "/" + y);
    assert path[0] == x[0];
    SplitAppend(x, ".." + "/" + y);
    SplitAppend("..", y);
    SplitSingle(x);
    SplitSingle("..");
    SplitSingle(y);
    assert Split(path) == [x, "..", y];
    ResolvePathSpec(path, base);
    assert Fold(base, [x, "..", y]) == Fold(base + [x], ["..", y]) == Fold(base, [y]);
    FoldClean(base, [y]);
    WithinOneBelowBase(ResolvePath(path, base), base, y);
  }

  /** A path one level below BASE_DIR is within the uploads root exactly when it is the root. */
  lemma WithinOneBelowBase(path: string, base: seq<string>, y: string)
    requires IsAbs(path) && AbsParts(path) == base + [y]
    ensures IsWithinUploads(path, base) <==> y == "uploads"
  {
    var p := base + [y];
    var root := UploadsParts(base);
    if IsPrefix(root, p) {
      assert p[|base|] == root[|base|];
    }
    if y == "uploads" {
      assert p == root;
    }
  }

  // ---------------------------------------------------------------- relative paths

  function RelParts(p: seq<string>, start: seq<string>): seq<string> {
    var i := CommonPrefixLen(start, p);
    Ups(|start| - i) + p[i..]
  }

  /**
    os.path.relpath(p, start) for absolute, normalised p and start. Resolving
    the relative path that _to_relative_path stores leads back to the file.
  */
  function RelPath(p: seq<string>, start: seq<string>): (r: string)
    ensures Clean(p) && Clean(start) ==> AbsParts(ResolvePath(r, start)) == p
  {
    var rel := RelParts(p, start);
    if rel == [] then
      if Clean(p) && Clean(start) then RelPathSame(p, start); "." else "."
    else
      if Clean(p) && Clean(start) then RelPathBelow(p, start); Text.Join(rel, "/") else Text.Join(rel, "/")
  }

  /** relpath of the base itself is ".", which resolves to the base. */
  lemma RelPathSame(p: seq<string>, base: seq<string>)
    requires Clean(p) && Clean(base) && RelParts(p, base) == []
    ensures AbsParts(ResolvePath(".", base)) == p
  {
    var i := CommonPrefixLen(base, p);
    assert |base| - i == 0 && |p| == i;
    assert p == base by {
      assert p == p[..i];
      assert base == base[..i];
    }
    assert AbsParts(ResolvePath(".", base)) == Fold(base, ["."]) by {
      SplitSingle(".");
      ResolvePathSpec(".", base);
    }
  }

  /** Otherwise the ".." steps climb to the common prefix and the rest of p descends from it. */
  lemma RelPathBelow(p: seq<string>, base: seq<string>)
    requires Clean(p) && Clean(base) && RelParts(p, base) != []
    ensures AbsParts(ResolvePath(Text.Join(RelParts(p, base), "/"), base)) == p
  {
    var rel := RelParts(p, base);
    var s := Text.Join(rel, "/");
    RelPartsNoSlash(p, base);
    RelPartsStart(p, base);
    JoinStartsWithFirst(rel);
    ResolvePathSpec(s, base);
    SplitJoin(rel);
    FoldRelParts(p, base);
  }

  lemma RelPartsNoSlash(p: seq<string>, base: seq<string>)
    requires Clean(p)
    ensures forall j :: 0 <= j < |RelParts(p, base)| ==> '/' !in RelParts(p, base)[j]
  {
    var i := CommonPrefixLen(base, p);
    var rel := RelParts(p, base);
    forall j | 0 <= j < |rel| ensures '/' !in rel[j] {
      if j < |base| - i {
        assert rel[j] == "..";
      } else {
        assert rel[j] == p[i + j - (|base| - i)];
      }
    }
  }

  /** Normalising base followed by the relative parts gives p. */
  lemma FoldRelParts(p: seq<string>, base: seq<string>)
    requires Clean(p)
    ensures Fold(base, RelParts(p, base)) == p
  {
    var i := CommonPrefixLen(base, p);
    FoldAppend(base, Ups(|base| - i), p[i..]);
    FoldUps(base, |base| - i);
    assert Clean(p[i..]);
    FoldClean(base[..i], p[i..]);
    assert base[..i] + p[i..] == p[..i] + p[i..] == p;
  }

  /** The first piece of a non-empty relative path is ".." or a plain component. */
  lemma RelPartsStart(p: seq<string>, base: seq<string>)
    requires Clean(p) && RelParts(p, base) != []
    ensures var rel := RelParts(p, base);
      rel[0] != "" && rel[0][0] != '/'
  {
    var i := CommonPrefixLen(base, p);
    var rel := RelParts(p, base);
    if |base| - i > 0 {
      assert rel[0] == "..";
    } else {
      assert rel[0] == p[i];
      assert Plain(p[i]);
    }
  }

  /** A '/'-join begins with its first piece. */
  lemma JoinStartsWithFirst(ps: seq<string>)
    requires |ps| >= 1 && ps[0] != ""
    ensures |Text.Join(ps, "/")| > 0 && Text.Join(ps, "/")[0] == ps[0][0]
  {
  }

  // ---------------------------------------------------------------- file names

  /** The characters the sanitiser keeps: [A-Za-z0-9._-]. */
  predicate SafeChar(c: char) {
    ('A' <= c <= 'Z') || ('a' <= c <= 'z') || ('0' <= c <= '9') || c == '.' || c == '_' || c == '-'
  }

  predicate DotOrUnderscore(c: char) {
    c == '.' || c == '_'
  }

  /** os.path.basename: what follows the last '/'. */
  function Basename(p: string): (r: string)
    ensures '/' !in r
    ensures |r| <= |p| && r == p[|p| - |r|..]
  {
    if p == [] || p[|p| - 1] == '/' then []
    else Basename(p[..|p| - 1]) + [p[|p| - 1]]
  }

  /** re.sub(r"[^A-Za-z0-9._-]", "_", s) */
  function ReplaceUnsafe(s: string): (r: string)
    ensures |r| == |s|
    ensures forall i :: 0 <= i < |s| ==> r[i] == if SafeChar(s[i]) then s[i] else '_'
  {
    seq(|s|, i requires 0 <= i < |s| => if SafeChar(s[i]) then s[i] else '_')
  }

  /**
    _sanitize_filename. The name is never empty, uses only [A-Za-z0-9._-], and
    neither starts nor ends with '.' or '_' (so it is never "." or "..", and
    holds no '/').
  */
  function Sanitize(fileName: string): (r: string)
    ensures r != [] && forall i :: 0 <= i < |r| ==> SafeChar(r[i])
    ensures !DotOrUnderscore(r[0]) && !DotOrUnderscore(r[|r| - 1])
  {
    var s := ReplaceUnsafe(Basename(fileName));
    var cleaned := Text.StripBy(s, DotOrUnderscore);
    FallbackNameSafe();
    CleanedChars(s);
    if cleaned == "" then FallbackName() else cleaned
  }

  /** The name used when nothing survives cleaning. */
  function FallbackName(): string {
    "submission"
  }

  lemma FallbackNameSafe()
    ensures var r := FallbackName();
      r != [] && (forall i :: 0 <= i < |r| ==> SafeChar(r[i]))
      && !DotOrUnderscore(r[0]) && !DotOrUnderscore(r[|r| - 1])
  {
  }

  lemma CleanedChars(s: string)
    requires forall k :: 0 <= k < |s| ==> SafeChar(s[k])
    ensures var c := Text.StripBy(s, DotOrUnderscore);
      (forall k :: 0 <= k < |c| ==> SafeChar(c[k]))
      && (c == [] || (!DotOrUnderscore(c[0]) && !DotOrUnderscore(c[|c| - 1])))
  {
    Text.StripByKeeps(s, DotOrUnderscore, SafeChar);
    Text.StripByEnds(s, DotOrUnderscore);
  }

  /** A sanitised name is a plain path component. */
  lemma SanitizedIsPlain(fileName: string)
    ensures Plain(Sanitize(fileName))
  {
    SafeIsPlain(Sanitize(fileName));
  }

  lemma SafeIsPlain(r: string)
    requires r != [] && (forall i :: 0 <= i < |r| ==> SafeChar(r[i])) && !DotOrUnderscore(r[0])
    ensures Plain(r)
  {
    assert r[0] != '.';
    assert forall k :: 0 <= k < |r| ==> r[k] != '/';
  }

  /** Sanitising a sanitised name changes nothing. */
  lemma SanitizeIdempotent(fileName: string)
    ensures Sanitize(Sanitize(fileName)) == Sanitize(fileName)
  {
    var r := Sanitize(fileName);
    assert Basename(r) == r by {
      SanitizedIsPlain(fileName);
      BasenameOfPlain(r);
    }
    assert ReplaceUnsafe(r) == r by {
      ReplaceUnsafeOfSafe(r);
    }
    assert Text.StripBy(r, DotOrUnderscore) == r by {
      Text.StripsNothing(r, DotOrUnderscore);
    }
  }

  lemma ReplaceUnsafeOfSafe(r: string)
    requires forall i :: 0 <= i < |r| ==> SafeChar(r[i])
    ensures ReplaceUnsafe(r) == r
  {
  }

  lemma {:induction false} BasenameOfPlain(s: string)
    requires '/' !in s
    ensures Basename(s) == s
    decreases |s|
  {
    if s != [] {
      BasenameOfPlain(s[..|s| - 1]);
    }
  }

  /** Any directory part of the uploaded name is dropped before cleaning. */
  lemma {:induction false} BasenameDropsDirectory(dir: string, name: string)
    ensures Basename(dir + "/" + name) == Basename(name)
    decreases |name|
  {
    var p := dir + "/" + name;
    if name == [] {
      assert p[|p| - 1] == '/';
    } else {
      var init := name[..|name| - 1];
      assert p[|p| - 1] == name[|name| - 1];
      if name[|name| - 1] != '/' {
        assert p[..|p| - 1] == dir + "/" + init;
        BasenameDropsDirectory(dir, init);
      }
    }
  }

  lemma SanitizeDropsDirectory(dir: string, name: string)
    ensures Sanitize(dir + "/" + name) == Sanitize(name)
  {
    BasenameDropsDirectory(dir, name);
  }

  /** The stored file name: "<submission_id>_<timestamp>_<sanitised name>". */
  function DestinationName(submissionId: string, stamp: string, fileName: string): string {
    submissionId + "_" + stamp + "_" + Sanitize(fileName)
  }

  /** uploads/<moodle_id>/<course_id>/<activity_id>, as ensure_activity_directory builds it. */
  function ActivityDir(base: seq<string>, moodleId: string, courseId: string, activityId: string): string {
    PathJoin(PathJoin(PathJoin(UploadsRoot(base), moodleId), courseId), activityId)
  }

  function DestinationPath(base: seq<string>, moodleId: string, courseId: string, activityId: string,
                           submissionId: string, stamp: string, fileName: string): (r: string)
    requires Clean(base)
    ensures IsAbs(r)
  {
    UploadsRootParts(base);
    PathJoin(ActivityDir(base, moodleId, courseId, activityId), DestinationName(submissionId, stamp, fileName))
  }

  lemma {:induction false} JoinPlain(ps: seq<string>, c: string)
    requires Clean(ps) && Plain(c)
    ensures IsAbs(PathString(ps)) && !IsAbs(c)
    ensures PathJoin(PathString(ps), c) == PathString(ps + [c])
  {
    if ps == [] {
      assert Text.Join([c], "/") == c;
    } else {
      LastOfJoin(ps);
      JoinSnoc(ps, c);
    }
  }

  lemma {:induction false} JoinSnoc(ps: seq<string>, c: string)
    requires |ps| >= 1
    ensures Text.Join(ps + [c], "/") == Text.Join(ps, "/") + "/" + c
    decreases |ps|
  {
    if |ps| == 1 {
      assert (ps + [c])[1..] == [c];
    } else {
      assert (ps + [c])[1..] == ps[1..] + [c];
      JoinSnoc(ps[1..], c);
    }
  }

  /** The stored name is a plain component when the submission id and the stamp hold no '/'. */
  lemma DestinationNameIsPlain(submissionId: string, stamp: string, fileName: string)
    requires '/' !in submissionId && '/' !in stamp
    ensures Plain(DestinationName(submissionId, stamp, fileName))
  {
    SanitizedIsPlain(fileName);
    StampedIsPlain(submissionId, stamp, Sanitize(fileName));
  }

  lemma StampedIsPlain(id: string, stamp: string, san: string)
    requires '/' !in id && '/' !in stamp && Plain(san)
    ensures Plain(id + "_" + stamp + "_" + san)
  {
    var name := id + "_" + stamp + "_" + san;
    var pre := id + "_" + stamp + "_";
    assert name == pre + san;
    assert forall k :: 0 <= k < |id| ==> pre[k] == id[k];
    assert forall k :: 0 <= k < |stamp| ==> pre[|id| + 1 + k] == stamp[k];
    assert forall k :: 0 <= k < |pre| ==> pre[k] != '/';
    assert forall k :: 0 <= k < |san| ==> name[|pre| + k] == san[k];
    assert name[|id|] == '_';
  }

  /** The destination's components: uploads/<moodle>/<course>/<activity>/<name> under BASE_DIR. */
  lemma DestinationParts(base: seq<string>, moodleId: string, courseId: string, activityId: string, name: string)
    requires Clean(base) && Plain(moodleId) && Plain(courseId) && Plain(activityId) && Plain(name)
    ensures PathJoin(ActivityDir(base, moodleId, courseId, activityId), name)
      == PathString(base + ["uploads"] + [moodleId, courseId, activityId, name])
  {
    var p0 := base + ["uploads"];
    var p1 := p0 + [moodleId];
    var p2 := p1 + [courseId];
    var p3 := p2 + [activityId];
    assert Clean(p0) && Clean(p1) && Clean(p2) && Clean(p3);
    assert UploadsRoot(base) == PathString(p0) by { JoinPlain(base, "uploads"); }
    assert PathJoin(PathString(p0), moodleId) == PathString(p1) by { JoinPlain(p0, moodleId); }
    assert PathJoin(PathString(p1), courseId) == PathString(p2) by { JoinPlain(p1, courseId); }
    assert PathJoin(PathString(p2), activityId) == PathString(p3) by { JoinPlain(p2, activityId); }
    assert PathJoin(PathString(p3), name) == PathString(p3 + [name]) by { JoinPlain(p3, name); }
    AppendFour(p0, moodleId, courseId, activityId, name);
  }

  lemma AppendFour(p: seq<string>, a: string, b: string, c: string, d: string)
    ensures p + [a] + [b] + [c] + [d] == p + [a, b, c, d]
  {
  }

  /**
    When the Moodle, course and activity ids are plain path components, the file
    lands at uploads/<moodle>/<course>/<activity>/<name>, inside the uploads root,
    and the relative path handed back to the database resolves to it again.
  */
  lemma StoredFileLocation(base: seq<string>, moodleId: string, courseId: string, activityId: string,
                           submissionId: string, stamp: string, fileName: string)
    requires Clean(base) && Plain(moodleId) && Plain(courseId) && Plain(activityId)
    requires '/' !in submissionId && '/' !in stamp
    ensures var dest := DestinationPath(base, moodleId, courseId, activityId, submissionId, stamp, fileName);
      var name := DestinationName(submissionId, stamp, fileName);
      AbsParts(dest) == base + ["uploads"] + [moodleId, courseId, activityId, name]
      && IsWithinUploads(dest, base)
      && AbsParts(ResolvePath(RelPath(AbsParts(dest), base), base)) == AbsParts(dest)
  {
    var name := DestinationName(submissionId, stamp, fileName);
    DestinationNameIsPlain(submissionId, stamp, fileName);
    StoredAt(base, moodleId, courseId, activityId, name);
  }

  /** A plain file name joined onto the activity directory lands below the uploads root. */
  lemma StoredAt(base: seq<string>, moodleId: string, courseId: string, activityId: string, name: string)
    requires Clean(base) && Plain(moodleId) && Plain(courseId) && Plain(activityId) && Plain(name)
    ensures var dest := PathJoin(ActivityDir(base, moodleId, courseId, activityId), name);
      && IsAbs(dest)
      && AbsParts(dest) == base + ["uploads"] + [moodleId, courseId, activityId, name]
      && IsWithinUploads(dest, base)
      && AbsParts(ResolvePath(RelPath(AbsParts(dest), base), base)) == AbsParts(dest)
  {
    var rest := [moodleId, courseId, activityId, name];
    assert Clean(rest);
    DestinationParts(base, moodleId, courseId, activityId, name);
    PathUnderUploads(base, rest);
  }

  lemma DestinationPathIs(base: seq<string>, moodleId: string, courseId: string, activityId: string,
                          submissionId: string, stamp: string, fileName: string)
    requires Clean(base) && Plain(moodleId) && Plain(courseId) && Plain(activityId)
    requires '/' !in submissionId && '/' !in stamp
    ensures DestinationPath(base, moodleId, courseId, activityId, submissionId, stamp, fileName)
      == PathString(base + ["uploads"] + [moodleId, courseId, activityId, DestinationName(submissionId, stamp, fileName)])
  {
    var name := DestinationName(submissionId, stamp, fileName);
    DestinationNameIsPlain(submissionId, stamp, fileName);
    assert DestinationPath(base, moodleId, courseId, activityId, submissionId, stamp, fileName)
      == PathJoin(ActivityDir(base, moodleId, courseId, activityId), name);
    DestinationParts(base, moodleId, courseId, activityId, name);
  }

  /** Any clean path below the uploads root is within it and survives the relative-path round trip. */
  lemma PathUnderUploads(base: seq<string>, rest: seq<string>)
    requires Clean(base) && Clean(rest)
    ensures var parts := base + ["uploads"] + rest;
      AbsParts(PathString(parts)) == parts
      && IsWithinUploads(PathString(parts), base)
      && AbsParts(ResolvePath(RelPath(parts, base), base)) == parts
  {
    var parts := base + ["uploads"] + rest;
    assert Clean(parts);
    AbsPartsOfPathString(parts);
    assert parts[..|base| + 1] == base + ["uploads"];
  }

  // ---------------------------------------------------------------- the file system

  /** The directories os.makedirs(p) leaves in place: p and all its ancestors. */
  function Ancestors(p: seq<string>): set<seq<string>> {
    set i | 0 <= i <= |p| :: p[..i]
  }

  class Disk {
    var files: map<seq<string>, Bytes>
    var dirs: set<seq<string>>

    constructor (files0: map<seq<string>, Bytes>, dirs0: set<seq<string>>)
      ensures files == files0 && dirs == dirs0
    {
      files := files0;
      dirs := dirs0;
    }
  }

  /** The absolute location delete_path acts on, when its guards let it act at all. */
  function DeleteTarget(path: string, base: seq<string>): Option<seq<string>>
    requires Clean(base)
  {
    if path == "" then None
    else
      var abs := ResolvePath(path, base);
      if !IsWithinUploads(abs, base) then None else Some(AbsParts(abs))
  }

  /**
    The directories before the removal: is_within_uploads calls
    ensure_uploads_root, which creates the uploads root, for any non-empty path.
  */
  function DirsBeforeRemoval(dirs: set<seq<string>>, path: string, base: seq<string>): set<seq<string>> {
    if path == "" then dirs else dirs + Ancestors(UploadsParts(base))
  }

  /** The files left after delete_path(path): rmtree for a directory, os.remove for a file. */
  function FilesAfterDelete(files: map<seq<string>, Bytes>, dirs: set<seq<string>>, path: string, base: seq<string>)
    : map<seq<string>, Bytes>
    requires Clean(base)
  {
    match DeleteTarget(path, base)
    case None => files
    case Some(p) =>
      if p in DirsBeforeRemoval(dirs, path, base) then map q | q in files && !IsPrefix(p, q) :: files[q]
      else if p in files then files - {p}
      else files
  }

  function DirsAfterDelete(dirs: set<seq<string>>, path: string, base: seq<string>): set<seq<string>>
    requires Clean(base)
  {
    var d := DirsBeforeRemoval(dirs, path, base);
    match DeleteTarget(path, base)
    case None => d
    case Some(p) => if p in d then set q | q in d && !IsPrefix(p, q) else d
  }

  /** delete_path only ever removes things inside the uploads root: nothing elsewhere is removed or altered. */
  lemma DeleteStaysInUploads(files: map<seq<string>, Bytes>, dirs: set<seq<string>>, path: string, base: seq<string>)
    requires Clean(base)
    ensures forall q :: q in files && !IsPrefix(UploadsParts(base), q) ==>
      q in FilesAfterDelete(files, dirs, path, base) && FilesAfterDelete(files, dirs, path, base)[q] == files[q]
    ensures forall q :: q in dirs && !IsPrefix(UploadsParts(base), q) ==> q in DirsAfterDelete(dirs, path, base)
  {
    match DeleteTarget(path, base)
    case None =>
    case Some(p) =>
      var abs := ResolvePath(path, base);
      var root := UploadsParts(base);
      assert IsPrefix(root, p);
      forall q | IsPrefix(p, q) ensures IsPrefix(root, q) {
        assert q[..|root|] == q[..|p|][..|root|];
      }
  }

  /**
    Deleting an empty path, or one outside the uploads root, removes nothing; the
    only change is the uploads root that the containment test creates.
  */
  lemma DeleteGuard(files: map<seq<string>, Bytes>, dirs: set<seq<string>>, path: string, base: seq<string>)
    requires Clean(base)
    requires path == "" || !IsWithinUploads(ResolvePath(path, base), base)
    ensures FilesAfterDelete(files, dirs, path, base) == files
    ensures DirsAfterDelete(dirs, path, base) == DirsBeforeRemoval(dirs, path, base)
    ensures path == "" ==> DirsAfterDelete(dirs, path, base) == dirs
  {
  }

  /** delete_path */
  method DeletePath(disk: Disk, path: string, base: seq<string>)
    requires Clean(base)
    modifies disk
    ensures disk.files == FilesAfterDelete(old(disk.files), old(disk.dirs), path, base)
    ensures disk.dirs == DirsAfterDelete(old(disk.dirs), path, base)
  {
    if path == "" {
      return;
    }
    var abs := ResolvePath(path, base);
    disk.dirs := disk.dirs + Ancestors(UploadsParts(base));
    if !IsWithinUploads(abs, base) {
      return;
    }
    var p := AbsParts(abs);
    if p in disk.dirs {
      disk.files := map q | q in disk.files && !IsPrefix(p, q) :: disk.files[q];
      disk.dirs := set q | q in disk.dirs && !IsPrefix(p, q);
    } else if p in disk.files {
      disk.files := disk.files - {p};
    }
  }

  /** ensure_activity_directory: os.makedirs(..., exist_ok=True) on each level. */
  method EnsureActivityDirectory(disk: Disk, base: seq<string>, moodleId: string, courseId: string, activityId: string)
    requires Clean(base)
    modifies disk
    ensures disk.files == old(disk.files)
    ensures disk.dirs == old(disk.dirs) + MadeDirs(base, moodleId, courseId, activityId)
  {
    disk.dirs := disk.dirs + MadeDirs(base, moodleId, courseId, activityId);
  }

  /** `if previous_file_path: delete_path(previous_file_path)` */
  method DeletePrevious(disk: Disk, previous: Option<string>, base: seq<string>)
    requires Clean(base)
    modifies disk
    ensures disk.files == FilesAfterDelete(old(disk.files), old(disk.dirs), PreviousPath(previous), base)
    ensures disk.dirs == DirsAfterDelete(old(disk.dirs), PreviousPath(previous), base)
  {
    if previous.Some? && previous.value != "" {
      DeletePath(disk, previous.value, base);
    } else {
      DeleteGuard(disk.files, disk.dirs, "", base);
    }
  }

  /** The components of the absolute path the file is written to. */
  function StoredFile(base: seq<string>, moodleId: string, courseId: string, activityId: string,
                      submissionId: string, stamp: string, fileName: string): seq<string>
    requires Clean(base)
  {
    AbsParts(DestinationPath(base, moodleId, courseId, activityId, submissionId, stamp, fileName))
  }

  /** Write the bytes under the destination name and hand back its path relative to BASE_DIR. */
  method WriteDestination(disk: Disk, base: seq<string>, moodleId: string, courseId: string, activityId: string,
                          submissionId: string, fileName: string, content: Bytes, stamp: string)
    returns (relative: string)
    requires Clean(base)
    modifies disk`files
    ensures var dest := StoredFile(base, moodleId, courseId, activityId, submissionId, stamp, fileName);
      disk.files == old(disk.files)[dest := content] && relative == RelPath(dest, base)
  {
    var dest := StoredFile(base, moodleId, courseId, activityId, submissionId, stamp, fileName);
    disk.files := disk.files[dest := content];
    relative := RelPath(dest, base);
  }

  /**
    save_submission_file: make the activity directory, delete the previous file
    if there is one, write the bytes under the destination name, and return the
    path relative to BASE_DIR.
  */
  method SaveSubmissionFile(disk: Disk, base: seq<string>, moodleId: string, courseId: string, activityId: string,
                            submissionId: string, fileName: string, content: Bytes, previous: Option<string>,
                            stamp: string)
    returns (relative: string)
    requires Clean(base)
    modifies disk
    ensures var dest := StoredFile(base, moodleId, courseId, activityId, submissionId, stamp, fileName);
      var dirs := old(disk.dirs) + MadeDirs(base, moodleId, courseId, activityId);
      && relative == RelPath(dest, base)
      && disk.files == FilesAfterDelete(old(disk.files), dirs, PreviousPath(previous), base)[dest := content]
      && disk.dirs == DirsAfterDelete(dirs, PreviousPath(previous), base)
  {
    EnsureActivityDirectory(disk, base, moodleId, courseId, activityId);
    DeletePrevious(disk, previous, base);
    relative := WriteDestination(disk, base, moodleId, courseId, activityId, submissionId, fileName, content, stamp);
  }

  /**
    The files save_submission_file leaves: the previous file deleted under the
    guards of delete_path (with the directories made first), then the bytes
    written at the destination.
  */
  function FilesAfterSave(files: map<seq<string>, Bytes>, dirs: set<seq<string>>, base: seq<string>,
                          moodleId: string, courseId: string, activityId: string, submissionId: string,
                          stamp: string, fileName: string, content: Bytes, previous: Option<string>)
    : map<seq<string>, Bytes>
    requires Clean(base)
  {
    var made := dirs + MadeDirs(base, moodleId, courseId, activityId);
    var dest := StoredFile(base, moodleId, courseId, activityId, submissionId, stamp, fileName);
    FilesAfterDelete(files, made, PreviousPath(previous), base)[dest := content]
  }

  /** The directories save_submission_file leaves: the activity directory made, then the deletion. */
  function DirsAfterSave(dirs: set<seq<string>>, base: seq<string>, moodleId: string, courseId: string,
                         activityId: string, previous: Option<string>): set<seq<string>>
    requires Clean(base)
  {
    DirsAfterDelete(dirs + MadeDirs(base, moodleId, courseId, activityId), PreviousPath(previous), base)
  }

  /**
    Saving a submission file stores the bytes at the destination and leaves
    every file outside the uploads root as it was; without a previous file it
    only adds the destination.
  */
  lemma SaveStaysInUploads(files: map<seq<string>, Bytes>, dirs: set<seq<string>>, base: seq<string>,
                           moodleId: string, courseId: string, activityId: string, submissionId: string,
                           stamp: string, fileName: string, content: Bytes, previous: Option<string>)
    requires Clean(base) && Plain(moodleId) && Plain(courseId) && Plain(activityId)
    requires '/' !in submissionId && '/' !in stamp
    ensures var after := FilesAfterSave(files, dirs, base, moodleId, courseId, activityId, submissionId,
                                        stamp, fileName, content, previous);
      var dest := StoredFile(base, moodleId, courseId, activityId, submissionId, stamp, fileName);
      && dest in after && after[dest] == content
      && IsPrefix(UploadsParts(base), dest)
      && (forall q :: q in files && !IsPrefix(UploadsParts(base), q) ==> q in after && after[q] == files[q])
      && (previous.None? ==> after == files[dest := content])
  {
    var made := dirs + MadeDirs(base, moodleId, courseId, activityId);
    var dest := StoredFile(base, moodleId, courseId, activityId, submissionId, stamp, fileName);
    StoredFileLocation(base, moodleId, courseId, activityId, submissionId, stamp, fileName);
    var p := DestinationPath(base, moodleId, courseId, activityId, submissionId, stamp, fileName);
    DeleteStaysInUploads(files, made, PreviousPath(previous), base);
    if previous.None? {
      DeleteGuard(files, made, "", base);
    }
  }

  /** The `previous_file_path` argument as delete_path sees it ("" when absent). */
  function PreviousPath(previous: Option<string>): string {
    if previous.Some? then previous.value else ""
  }

  /** ensure_activity_directory: uploads root, Moodle, course and activity directories. */
  function MadeDirs(base: seq<string>, moodleId: string, courseId: string, activityId: string): set<seq<string>>
    requires Clean(base)
  {
    UploadsRootParts(base);
    var root := UploadsRoot(base);
    var m := PathJoin(root, moodleId);
    var c := PathJoin(m, courseId);
    var a := PathJoin(c, activityId);
    Ancestors(AbsParts(root)) + Ancestors(AbsParts(m)) + Ancestors(AbsParts(c)) + Ancestors(AbsParts(a))
  }
}

=== FILE: store.dfy ===
/**
  The persisted entities (the SQL tables of backend/db_models.py) and the
  database that holds them.  Each table is a map keyed by the row's primary key;
  `Database.Valid()` gathers the constraints the services rely on and keep:
  one student submission per student and activity, group capacity, unique group
  codes and at most one grade per file submission.
*/
module Store {
  import opened Wrappers

  datatype ActivityKind = Individual | Group

  /** A datetime as seconds since the epoch (UTC), and whether it carries a time zone. */
  datatype Stamp = Stamp(seconds: int, aware: bool)

  /** The values of file_submissions.evaluation_status other than NULL. */
  datatype EvalStatus = Pending | Processing | Completed | Error

  datatype Moodle = Moodle(id: string, name: string, outcomeServiceUrl: Option<string>, createdAt: int)

  datatype Course = Course(id: string, moodleId: string, title: string)

  datatype User = User(id: string, moodleId: string, fullName: string, email: Option<string>)

  datatype Activity = Activity(
    id: string,
    courseMoodleId: string,
    title: string,
    description: string,
    kind: ActivityKind,
    maxGroupSize: Option<int>,
    creatorId: string,
    creatorMoodleId: string,
    createdAt: int,
    courseId: string,
    deadline: Option<Stamp>,
    evaluatorId: Option<string>)

  /** One uploaded file: an individual submission or a whole group's. */
  datatype FileSubmission = FileSubmission(
    id: string,
    activityId: string,
    activityMoodleId: string,
    fileName: string,
    filePath: string,
    fileSize: nat,
    fileType: string,
    uploadedAt: int,
    uploadedBy: string,
    uploadedByMoodleId: string,
    groupCode: Option<string>,
    maxGroupMembers: int,
    // The evaluation columns: the response model (backend/models.py:127-129) and the
    // evaluation service use them, though the table definition does not declare them.
    evalStatus: Option<EvalStatus>,
    evalStartedAt: Option<int>,
    evalError: Option<string>)

  /** One student's link to a file submission. */
  datatype StudentSubmission = StudentSubmission(
    id: string,
    fileSubmissionId: string,
    studentId: string,
    studentMoodleId: string,
    activityId: string,
    activityMoodleId: string,
    lisResultSourcedid: Option<string>,
    joinedAt: int,
    sentToMoodle: bool,
    sentToMoodleAt: Option<int>)

  datatype Grade = Grade(id: string, fileSubmissionId: string, score: real, comment: Option<string>, createdAt: int)

  /** The columns of the unique constraint uq_student_activity_submission. */
  datatype StudentKey = StudentKey(studentId: string, studentMoodleId: string, activityId: string, activityMoodleId: string)

  function KeyOf(s: StudentSubmission): StudentKey {
    StudentKey(s.studentId, s.studentMoodleId, s.activityId, s.activityMoodleId)
  }

  // ---- table constraints, stated on the maps themselves ----

  predicate ActivityKeysMatch(acts: map<(string, string), Activity>) {
    forall k :: k in acts ==> k == (acts[k].id, acts[k].courseMoodleId)
  }

  predicate FileKeysMatch(fs: map<string, FileSubmission>) {
    forall k :: k in fs ==> fs[k].id == k
  }

  predicate StudentKeysMatch(ss: map<string, StudentSubmission>) {
    forall k :: k in ss ==> ss[k].id == k
  }

  predicate GradeKeysMatch(gs: map<string, Grade>) {
    forall k :: k in gs ==> gs[k].id == k
  }

  predicate MoodleKeysMatch(ms: map<string, Moodle>) {
    forall k :: k in ms ==> ms[k].id == k
  }

  /** A group activity has a maximum group size of at least 2; an individual one has none. */
  predicate WellFormedActivity(a: Activity) {
    match a.kind
    case Group => a.maxGroupSize.Some? && a.maxGroupSize.value >= 2
    case Individual => a.maxGroupSize.None?
  }

  predicate ActivitiesWellFormed(acts: map<(string, string), Activity>) {
    forall k :: k in acts ==> WellFormedActivity(acts[k])
  }

  /** Every student submission points at an existing file submission. */
  predicate StudentRowsLinked(ss: map<string, StudentSubmission>, fs: map<string, FileSubmission>) {
    forall k :: k in ss ==> ss[k].fileSubmissionId in fs
  }

  /** The unique constraint on (student_id, student_moodle_id, activity_id, activity_moodle_id). */
  predicate OneSubmissionPerStudent(ss: map<string, StudentSubmission>) {
    forall a, b :: a in ss && b in ss && KeyOf(ss[a]) == KeyOf(ss[b]) ==> a == b
  }

  /** No two file submissions share a group code. */
  predicate CodesUnique(fs: map<string, FileSubmission>) {
    forall a, b :: a in fs && b in fs && fs[a].groupCode.Some? && fs[a].groupCode == fs[b].groupCode ==> a == b
  }

  /** The student submissions that belong to file submission `fid`. */
  function Members(ss: map<string, StudentSubmission>, fid: string): set<string> {
    set k | k in ss && ss[k].fileSubmissionId == fid
  }

  /** No group holds more members than its file submission allows. */
  predicate WithinCapacity(fs: map<string, FileSubmission>, ss: map<string, StudentSubmission>) {
    forall f :: f in fs ==> |Members(ss, f)| <= fs[f].maxGroupMembers
  }

  predicate GradesLinked(gs: map<string, Grade>, fs: map<string, FileSubmission>) {
    forall k :: k in gs ==> gs[k].fileSubmissionId in fs
  }

  /** Every path that writes a grade first looks for the submission's existing one. */
  predicate OneGradePerFile(gs: map<string, Grade>) {
    forall a, b :: a in gs && b in gs && gs[a].fileSubmissionId == gs[b].fileSubmissionId ==> a == b
  }

  /** The grade of file submission `fid` (get_grade_by_file_submission). */
  ghost function GradeOf(gs: map<string, Grade>, fid: string): (r: Option<Grade>)
    ensures r.Some? ==> r.value in gs.Values && r.value.fileSubmissionId == fid
    ensures r.None? ==> forall k :: k in gs ==> gs[k].fileSubmissionId != fid
  {
    if exists k :: k in gs && gs[k].fileSubmissionId == fid then
      var k :| k in gs && gs[k].fileSubmissionId == fid; Some(gs[k])
    else None
  }

  /** With one grade per file, the grade of a file is the grade stored under any key that points at it. */
  lemma GradeOfUnique(gs: map<string, Grade>, fid: string, k: string)
    requires OneGradePerFile(gs)
    requires k in gs && gs[k].fileSubmissionId == fid
    ensures GradeOf(gs, fid) == Some(gs[k])
  {
  }

  /**
    Adding a student submission keeps the student-side constraints when its key is
    fresh, its composite key is unused, its file exists and the group has room.
  */
  lemma {:induction false} AddStudentRow(fs: map<string, FileSubmission>, ss: map<string, StudentSubmission>,
                                         k: string, row: StudentSubmission)
    requires StudentKeysMatch(ss) && StudentRowsLinked(ss, fs) && OneSubmissionPerStudent(ss) && WithinCapacity(fs, ss)
    requires k !in ss && row.id == k && row.fileSubmissionId in fs
    requires forall j :: j in ss ==> KeyOf(ss[j]) != KeyOf(row)
    requires |Members(ss, row.fileSubmissionId)| < fs[row.fileSubmissionId].maxGroupMembers
    ensures var ss' := ss[k := row];
      StudentKeysMatch(ss') && StudentRowsLinked(ss', fs) && OneSubmissionPerStudent(ss') && WithinCapacity(fs, ss')
    ensures |Members(ss[k := row], row.fileSubmissionId)| == |Members(ss, row.fileSubmissionId)| + 1
  {
    AddKeepsStudentKeys(fs, ss, k, row);
    AddKeepsCapacity(fs, ss, k, row);
    MembersAfterAdd(ss, k, row, row.fileSubmissionId);
  }

  /** The key, link and uniqueness constraints survive a fresh, unused, linked row. */
  lemma AddKeepsStudentKeys(fs: map<string, FileSubmission>, ss: map<string, StudentSubmission>,
                            k: string, row: StudentSubmission)
    requires StudentKeysMatch(ss) && StudentRowsLinked(ss, fs) && OneSubmissionPerStudent(ss)
    requires k !in ss && row.id == k && row.fileSubmissionId in fs
    requires forall j :: j in ss ==> KeyOf(ss[j]) != KeyOf(row)
    ensures var ss' := ss[k := row];
      StudentKeysMatch(ss') && StudentRowsLinked(ss', fs) && OneSubmissionPerStudent(ss')
  {
  }

  /** A row joining a group with room keeps every group within its capacity. */
  lemma AddKeepsCapacity(fs: map<string, FileSubmission>, ss: map<string, StudentSubmission>,
                         k: string, row: StudentSubmission)
    requires WithinCapacity(fs, ss) && k !in ss && row.fileSubmissionId in fs
    requires |Members(ss, row.fileSubmissionId)| < fs[row.fileSubmissionId].maxGroupMembers
    ensures WithinCapacity(fs, ss[k := row])
  {
    forall f | f in fs ensures |Members(ss[k := row], f)| <= fs[f].maxGroupMembers {
      MembersAfterAdd(ss, k, row, f);
    }
  }

  /** How adding one student submission changes each group's member set. */
  lemma MembersAfterAdd(ss: map<string, StudentSubmission>, k: string, row: StudentSubmission, f: string)
    requires k !in ss
    ensures Members(ss[k := row], f) == if row.fileSubmissionId == f then Members(ss, f) + {k} else Members(ss, f)
    ensures row.fileSubmissionId == f ==> |Members(ss[k := row], f)| == |Members(ss, f)| + 1
  {
    if row.fileSubmissionId == f {
      MembersJoin(ss, k, row);
    } else {
      assert Members(ss[k := row], f) == Members(ss, f);
    }
  }

  /** The joining row's own group gains exactly its key. */
  lemma MembersJoin(ss: map<string, StudentSubmission>, k: string, row: StudentSubmission)
    requires k !in ss
    ensures Members(ss[k := row], row.fileSubmissionId) == Members(ss, row.fileSubmissionId) + {k}
    ensures |Members(ss[k := row], row.fileSubmissionId)| == |Members(ss, row.fileSubmissionId)| + 1
  {
    assert Members(ss[k := row], row.fileSubmissionId) == Members(ss, row.fileSubmissionId) + {k};
    assert k !in Members(ss, row.fileSubmissionId);
  }

  /** Changing student rows without moving any of them between groups leaves every member set alone. */
  lemma MembersUnchangedByUpdate(ss: map<string, StudentSubmission>, k: string, row: StudentSubmission, f: string)
    requires k in ss && row.fileSubmissionId == ss[k].fileSubmissionId
    ensures Members(ss[k := row], f) == Members(ss, f)
  {
    assert Members(ss[k := row], f) == Members(ss, f);
  }

  /** A file key that no student row points at has no members. */
  lemma NoMembersOfUnlinked(ss: map<string, StudentSubmission>, f: string)
    requires forall j :: j in ss ==> ss[j].fileSubmissionId != f
    ensures Members(ss, f) == {}
  {
  }

  /** A list without repetitions: the ids a query returns, or uuids drawn for new rows. */
  predicate Distinct<T(==)>(s: seq<T>) {
    forall i, j :: 0 <= i < j < |s| ==> s[i] != s[j]
  }

  /** A list without repetitions has as many elements as its set. */
  lemma {:induction false} DistinctCard<T>(s: seq<T>)
    requires Distinct(s)
    ensures |set x | x in s| == |s|
  {
    if s != [] {
      var init := s[..|s| - 1];
      DistinctCard(init);
      assert (set x | x in s) == (set x | x in init) + {s[|s| - 1]};
      assert s[|s| - 1] !in init;
    }
  }

  /** The constraints of the whole database, stated on its tables. */
  predicate Consistent(moodles: map<string, Moodle>, activities: map<(string, string), Activity>,
                       fileSubs: map<string, FileSubmission>, studentSubs: map<string, StudentSubmission>,
                       grades: map<string, Grade>)
  {
    MoodleKeysMatch(moodles) && ActivityKeysMatch(activities) && ActivitiesWellFormed(activities)
    && FileKeysMatch(fileSubs) && StudentKeysMatch(studentSubs) && GradeKeysMatch(grades)
    && StudentRowsLinked(studentSubs, fileSubs) && OneSubmissionPerStudent(studentSubs)
    && CodesUnique(fileSubs) && WithinCapacity(fileSubs, studentSubs)
    && GradesLinked(grades, fileSubs) && OneGradePerFile(grades)
  }

  /** `after` differs from `before` at most in the evaluation columns of its rows. */
  predicate SameExceptEvaluation(before: map<string, FileSubmission>, after: map<string, FileSubmission>) {
    before.Keys == after.Keys
    && forall k :: k in before ==>
         after[k] == before[k].(evalStatus := after[k].evalStatus, evalStartedAt := after[k].evalStartedAt,
                                evalError := after[k].evalError)
  }

  /** The evaluation columns take part in no constraint: rewriting them keeps the database consistent. */
  lemma EvaluationColumnsFree(moodles: map<string, Moodle>, activities: map<(string, string), Activity>,
                              fs: map<string, FileSubmission>, fs': map<string, FileSubmission>,
                              ss: map<string, StudentSubmission>, gs: map<string, Grade>)
    requires Consistent(moodles, activities, fs, ss, gs)
    requires SameExceptEvaluation(fs, fs')
    ensures Consistent(moodles, activities, fs', ss, gs)
  {
    forall f | f in fs' ensures |Members(ss, f)| <= fs'[f].maxGroupMembers {
      assert fs'[f].maxGroupMembers == fs[f].maxGroupMembers;
    }
    forall a, b | a in fs' && b in fs' && fs'[a].groupCode.Some? && fs'[a].groupCode == fs'[b].groupCode
      ensures a == b
    {
      assert fs'[a].groupCode == fs[a].groupCode && fs'[b].groupCode == fs[b].groupCode;
    }
  }

  /**
    The database: every table the core reads or writes.  Services receive it as
    the SQLAlchemy session they work through.
  */
  class Database {
    var moodles: map<string, Moodle>
    var courses: map<(string, string), Course>
    var users: map<(string, string), User>
    var activities: map<(string, string), Activity>
    var fileSubs: map<string, FileSubmission>
    var studentSubs: map<string, StudentSubmission>
    var grades: map<string, Grade>

    predicate Valid()
      reads this
    {
      Consistent(moodles, activities, fileSubs, studentSubs, grades)
    }

    /** An empty database. */
    constructor ()
      ensures Valid()
      ensures moodles == map[] && courses == map[] && users == map[] && activities == map[]
      ensures fileSubs == map[] && studentSubs == map[] && grades == map[]
    {
      moodles, courses, users, activities := map[], map[], map[], map[];
      fileSubs, studentSubs, grades := map[], map[], map[];
    }
  }

  /** get_grade_by_file_submission: the grade of a file submission, if any. */
  method FindGrade(db: Database, fid: string) returns (g: Option<Grade>)
    requires OneGradePerFile(db.grades)
    ensures g == GradeOf(db.grades, fid)
  {
    if k :| k in db.grades && db.grades[k].fileSubmissionId == fid {
      g := Some(db.grades[k]);
      GradeOfUnique(db.grades, fid, k);
    } else {
      g := None;
    }
  }
}

=== FILE: submissions.dfy ===
/**
  The submission and grouping engine of backend/activities_service.py.

  A student's work is one FileSubmission (the uploaded file: one per
  individual, one per whole group) and one StudentSubmission per student
  linking the student to it.  The first member of a group uploads the file and
  receives an 8-character join code; the others join with the code while the
  group has room.  The services keep the constraints of `Store.Consistent`:
  one student submission per student and activity, group capacity and unique
  codes.
*/
module Submissions {
  import opened Wrappers
  import opened Store
  import Text
  import Storage

  // ------------------------------------------------------------------ submission views

  /**
    The FileSubmission response model: every column of the row except the
    evaluation ones, which the view leaves at their defaults.
  */
  function FileModel(f: FileSubmission): (r: FileSubmission)
    ensures r.evalStatus.None? && r.evalStartedAt.None? && r.evalError.None?
    ensures r.(evalStatus := f.evalStatus, evalStartedAt := f.evalStartedAt, evalError := f.evalError) == f
  {
    f.(evalStatus := None, evalStartedAt := None, evalError := None)
  }

  /** OptimizedSubmissionView, as _create_submission_view assembles it. */
  datatype View = View(
    fileSubmission: FileSubmission,
    studentSubmission: StudentSubmission,
    studentName: string,
    studentEmail: Option<string>,
    isGroupLeader: bool,
    groupCodeUses: Option<int>,
    grade: Option<Grade>)

  /** Python truthiness of a group code: present and non-empty. */
  predicate HasCode(f: FileSubmission) {
    f.groupCode.Some? && f.groupCode.value != ""
  }

  /** The name and email shown for a student: the user's, or "" when the user is unknown. */
  function Person(users: map<(string, string), User>, studentId: string, moodleId: string): (string, Option<string>) {
    if (studentId, moodleId) in users then (users[(studentId, moodleId)].fullName, users[(studentId, moodleId)].email)
    else ("", Some(""))
  }

  // ------------------------------------------------------------------ group codes

  function CodeAlphabet(): string { "ABCDEFGHIJKLMNOPQRSTUVWXYZ0123456789" }
  /** What secrets.choice over A-Z0-9, eight times, can produce. */
  predicate CodeShaped(c: string) {
    |c| == 8 && forall i :: 0 <= i < |c| ==> c[i] in CodeAlphabet()
  }

  predicate CodeInUse(fs: map<string, FileSubmission>, c: string) {
    exists k :: k in fs && fs[k].groupCode == Some(c)
  }

  /**
    _generate_group_code: draw codes until one is not used by any file
    submission.  `draws` are the random draws in the order they are made; the
    source retries forever, so some draw is assumed to be unused.
  */
  method GenerateGroupCode(db: Database, draws: seq<string>) returns (code: string, tries: nat)
    requires forall i :: 0 <= i < |draws| ==> CodeShaped(draws[i])
    requires exists i :: 0 <= i < |draws| && !CodeInUse(db.fileSubs, draws[i])
    ensures CodeShaped(code) && !CodeInUse(db.fileSubs, code)
    ensures tries < |draws| && code == draws[tries]
    ensures forall i :: 0 <= i < tries ==> CodeInUse(db.fileSubs, draws[i])
  {
    tries := 0;
    while true
      invariant tries < |draws|
      invariant exists j :: tries <= j < |draws| && !CodeInUse(db.fileSubs, draws[j])
      invariant forall i :: 0 <= i < tries ==> CodeInUse(db.fileSubs, draws[i])
      decreases |draws| - tries
    {
      var candidate := draws[tries];
      var existing := exists k :: k in db.fileSubs && db.fileSubs[k].groupCode == Some(candidate);
      if !existing {
        return candidate, tries;
      }
      tries := tries + 1;
    }
  }

  /** The code _generate_group_code settles on: the first unused draw. */
  function FirstUnused(fs: map<string, FileSubmission>, draws: seq<string>): (r: string)
    requires exists i :: 0 <= i < |draws| && !CodeInUse(fs, draws[i])
    ensures !CodeInUse(fs, r) && r in draws
  {
    if !CodeInUse(fs, draws[0]) then draws[0]
    else
      assert forall i :: 0 <= i < |draws| && !CodeInUse(fs, draws[i]) ==> i > 0;
      var i :| 0 <= i < |draws| && !CodeInUse(fs, draws[i]);
      assert draws[1..][i - 1] == draws[i];
      FirstUnused(fs, draws[1..])
  }

  /** The generated code is exactly the first unused draw. */
  lemma {:induction false} GeneratedIsFirstUnused(fs: map<string, FileSubmission>, draws: seq<string>, tries: nat)
    requires tries < |draws| && !CodeInUse(fs, draws[tries])
    requires forall i :: 0 <= i < tries ==> CodeInUse(fs, draws[i])
    ensures FirstUnused(fs, draws) == draws[tries]
  {
    if tries > 0 {
      assert draws[1..][tries - 1] == draws[tries];
      GeneratedIsFirstUnused(fs, draws[1..], tries - 1);
    }
  }

  // ------------------------------------------------------------------ create_submission

  /** The uploaded file: its name, its bytes and its MIME type. */
  datatype Upload = Upload(fileName: string, content: Storage.Bytes, fileType: string)

  /** The key create_submission looks a student's existing submission up by. */
  function SubmitterKey(studentId: string, studentMoodleId: string, activityId: string, courseMoodleId: string): StudentKey {
    StudentKey(studentId, studentMoodleId, activityId, courseMoodleId)
  }

  predicate HasRow(ss: map<string, StudentSubmission>, key: StudentKey) {
    exists j :: j in ss && KeyOf(ss[j]) == key
  }

  /** The student submission stored under `key`; the unique constraint makes it the only one. */
  ghost function RowOf(ss: map<string, StudentSubmission>, key: StudentKey): (j: string)
    requires HasRow(ss, key)
    ensures j in ss && KeyOf(ss[j]) == key
  {
    var j :| j in ss && KeyOf(ss[j]) == key; j
  }

  /** The query for the student submission under `key`: its id, when there is one. */
  method FindRow(db: Database, key: StudentKey) returns (j: Option<string>)
    requires OneSubmissionPerStudent(db.studentSubs)
    ensures j.Some? <==> HasRow(db.studentSubs, key)
    ensures j.Some? ==> j.value == RowOf(db.studentSubs, key)
  {
    if k :| k in db.studentSubs && KeyOf(db.studentSubs[k]) == key {
      assert k == RowOf(db.studentSubs, key);
      j := Some(k);
    } else {
      j := None;
    }
  }

  /** The path save_submission_file returns for this upload. */
  function SavedPath(base: seq<string>, courseMoodleId: string, courseId: string, activityId: string,
                     submissionId: string, stamp: string, upload: Upload): string
    requires Storage.Clean(base)
  {
    Storage.RelPath(Storage.StoredFile(base, courseMoodleId, courseId, activityId, submissionId, stamp, upload.fileName), base)
  }

  /** A resubmission by the uploader replaces the file columns and nothing else. */
  function Replaced(f: FileSubmission, upload: Upload, path: string, now: int): (r: FileSubmission)
    ensures r.id == f.id && r.groupCode == f.groupCode && r.maxGroupMembers == f.maxGroupMembers
    ensures r.uploadedBy == f.uploadedBy && r.activityId == f.activityId && r.evalStatus == f.evalStatus
    ensures r.fileName == upload.fileName && r.filePath == path && r.fileSize == |upload.content|
    ensures r.fileType == upload.fileType && r.uploadedAt == now
  {
    f.(fileName := upload.fileName, filePath := path, fileSize := |upload.content|, fileType := upload.fileType,
       uploadedAt := now)
  }

  /** A resubmission refreshes the student's join time and, when a non-empty one is given, the LIS sourcedid. */
  function Resubmitted(s: StudentSubmission, lis: Option<string>, now: int): (r: StudentSubmission)
    ensures KeyOf(r) == KeyOf(s) && r.id == s.id && r.fileSubmissionId == s.fileSubmissionId
    ensures r.joinedAt == now
    ensures r.lisResultSourcedid == (if lis.Some? && lis.value != "" then lis else s.lisResultSourcedid)
  {
    var s1 := if lis.Some? && lis.value != "" then s.(lisResultSourcedid := lis) else s;
    s1.(joinedAt := now)
  }

  /** Rewriting a file row without touching its id, code or capacity, and a student row without moving it, keeps the database consistent. */
  lemma ResubmitKeepsConsistent(moodles: map<string, Moodle>, activities: map<(string, string), Activity>,
                                fs: map<string, FileSubmission>, ss: map<string, StudentSubmission>,
                                gs: map<string, Grade>, f: FileSubmission, s: StudentSubmission)
    requires Consistent(moodles, activities, fs, ss, gs)
    requires f.id in fs && fs[f.id].groupCode == f.groupCode && fs[f.id].maxGroupMembers == f.maxGroupMembers
    requires s.id in ss && KeyOf(ss[s.id]) == KeyOf(s) && ss[s.id].fileSubmissionId == s.fileSubmissionId
    ensures Consistent(moodles, activities, fs[f.id := f], ss[s.id := s], gs)
  {
    var fs', ss' := fs[f.id := f], ss[s.id := s];
    forall g | g in fs' ensures |Members(ss', g)| <= fs'[g].maxGroupMembers {
      MembersUnchangedByUpdate(ss, s.id, s, g);
    }
    forall a, b | a in ss' && b in ss' && KeyOf(ss'[a]) == KeyOf(ss'[b]) ensures a == b {
      assert KeyOf(ss'[a]) == KeyOf(ss[a]) && KeyOf(ss'[b]) == KeyOf(ss[b]);
    }
    forall a, b | a in fs' && b in fs' && fs'[a].groupCode.Some? && fs'[a].groupCode == fs'[b].groupCode
      ensures a == b
    {
      assert fs'[a].groupCode == fs[a].groupCode && fs'[b].groupCode == fs[b].groupCode;
    }
  }

  /** The file submission of a first upload. */
  function FirstFile(id: string, activityId: string, courseMoodleId: string, upload: Upload, path: string,
                     studentId: string, code: Option<string>, maxMembers: int, now: int): FileSubmission
  {
    FileSubmission(id, activityId, courseMoodleId, upload.fileName, path, |upload.content|, upload.fileType, now,
                   studentId, courseMoodleId, code, maxMembers, None, None, None)
  }

  /**
    Adding a new file submission with an unused code and room for its uploader,
    together with the uploader's student submission under an unused key, keeps
    the database consistent; the new group has exactly one member.
  */
  lemma {:induction false} AddSubmissionKeepsConsistent(
    moodles: map<string, Moodle>, activities: map<(string, string), Activity>,
    fs: map<string, FileSubmission>, ss: map<string, StudentSubmission>, gs: map<string, Grade>,
    f: FileSubmission, s: StudentSubmission)
    requires Consistent(moodles, activities, fs, ss, gs)
    requires f.id !in fs && s.id !in ss && s.fileSubmissionId == f.id && f.maxGroupMembers >= 1
    requires f.groupCode.Some? ==> !CodeInUse(fs, f.groupCode.value)
    requires !HasRow(ss, KeyOf(s))
    ensures Consistent(moodles, activities, fs[f.id := f], ss[s.id := s], gs)
    ensures Members(ss[s.id := s], f.id) == {s.id}
  {
    var fs' := fs[f.id := f];
    NoMembersOfUnlinked(ss, f.id);
    assert WithinCapacity(fs', ss) by {
      forall g | g in fs' ensures |Members(ss, g)| <= fs'[g].maxGroupMembers {
        if g != f.id { assert fs'[g] == fs[g]; }
      }
    }
    if f.groupCode.Some? {
      assert forall b :: b in fs ==> fs[b].groupCode != f.groupCode;
    }
    assert forall j :: j in ss ==> KeyOf(ss[j]) != KeyOf(s);
    AddStudentRow(fs', ss, s.id, s);
    MembersAfterAdd(ss, s.id, s, f.id);
  }

  function ActivityNotFound(): string { "Activity not found" }

  /**
    The database half of a resubmission: the rewritten file row and the
    refreshed student row replace their old versions.
  */
  method StoreResubmission(db: Database, f: FileSubmission, s: StudentSubmission)
    requires db.Valid()
    requires f.id in db.fileSubs && db.fileSubs[f.id].groupCode == f.groupCode
    requires db.fileSubs[f.id].maxGroupMembers == f.maxGroupMembers
    requires s.id in db.studentSubs && KeyOf(db.studentSubs[s.id]) == KeyOf(s)
    requires db.studentSubs[s.id].fileSubmissionId == s.fileSubmissionId
    modifies db`fileSubs, db`studentSubs
    ensures db.Valid()
    ensures db.fileSubs == old(db.fileSubs)[f.id := f] && db.studentSubs == old(db.studentSubs)[s.id := s]
  {
    ResubmitKeepsConsistent(db.moodles, db.activities, db.fileSubs, db.studentSubs, db.grades, f, s);
    db.fileSubs := db.fileSubs[f.id := f];
    db.studentSubs := db.studentSubs[s.id := s];
  }

  /**
    The resubmission branch of create_submission: the uploader's file is replaced
    in place (same FileSubmission id); another group member only refreshes their
    own row.
  */
  method Resubmit(db: Database, disk: Storage.Disk, base: seq<string>, j: string,
                  activityId: string, studentId: string, studentName: string, studentEmail: Option<string>,
                  upload: Upload, courseId: string, courseMoodleId: string, lis: Option<string>,
                  now: int, stamp: string)
    returns (v: View)
    requires db.Valid() && Storage.Clean(base) && j in db.studentSubs
    modifies db`fileSubs, db`studentSubs, disk
    ensures db.Valid()
    ensures var s := old(db.studentSubs)[j];
      var f := old(db.fileSubs)[s.fileSubmissionId];
      var f' := if f.uploadedBy == studentId
                then Replaced(f, upload, SavedPath(base, courseMoodleId, courseId, activityId, f.id, stamp, upload), now)
                else f;
      && db.fileSubs == old(db.fileSubs)[f.id := f']
      && db.studentSubs == old(db.studentSubs)[s.id := Resubmitted(s, lis, now)]
      && v == View(FileModel(f'), Resubmitted(s, lis, now), studentName, studentEmail, false, None,
                   GradeOf(db.grades, f.id))
      && (f.uploadedBy == studentId ==>
            && disk.files == Storage.FilesAfterSave(old(disk.files), old(disk.dirs), base, courseMoodleId, courseId,
                                                    activityId, f.id, stamp, upload.fileName, upload.content,
                                                    Some(f.filePath))
            && disk.dirs == Storage.DirsAfterSave(old(disk.dirs), base, courseMoodleId, courseId, activityId,
                                                  Some(f.filePath)))
      && (f.uploadedBy != studentId ==> unchanged(disk))
  {
    var s := db.studentSubs[j];
    var f := db.fileSubs[s.fileSubmissionId];
    if f.uploadedBy == studentId {
      var path := SaveUpload(disk, base, courseMoodleId, courseId, activityId, f.id, upload, Some(f.filePath), stamp);
      f := Replaced(f, upload, path, now);
    }
    var s' := Resubmitted(s, lis, now);
    StoreResubmission(db, f, s');
    var grade := FindGrade(db, f.id);
    v := View(FileModel(f), s', studentName, studentEmail, false, None, grade);
  }

  /**
    save_submission_file for an upload: the path it returns, and the disk
    afterwards (the previous file deleted, the bytes written).
  */
  method SaveUpload(disk: Storage.Disk, base: seq<string>, courseMoodleId: string, courseId: string,
                    activityId: string, submissionId: string, upload: Upload, previous: Option<string>, stamp: string)
    returns (path: string)
    requires Storage.Clean(base)
    modifies disk
    ensures path == SavedPath(base, courseMoodleId, courseId, activityId, submissionId, stamp, upload)
    ensures disk.files == Storage.FilesAfterSave(old(disk.files), old(disk.dirs), base, courseMoodleId, courseId,
                                                 activityId, submissionId, stamp, upload.fileName, upload.content,
                                                 previous)
    ensures disk.dirs == Storage.DirsAfterSave(old(disk.dirs), base, courseMoodleId, courseId, activityId, previous)
  {
    path := Storage.SaveSubmissionFile(disk, base, courseMoodleId, courseId, activityId, submissionId,
                                       upload.fileName, upload.content, previous, stamp);
  }

  /** A file submission that is not in the table has no grade. */
  lemma NoGradeForNewFile(fs: map<string, FileSubmission>, gs: map<string, Grade>, fid: string)
    requires GradesLinked(gs, fs) && fid !in fs
    ensures GradeOf(gs, fid) == None
  {
  }

  /**
    The database half of a first submission: the new file row and its
    uploader's student row are added.
  */
  method StoreFirstSubmission(db: Database, f: FileSubmission, s: StudentSubmission)
    requires db.Valid()
    requires f.id !in db.fileSubs && s.id !in db.studentSubs && s.fileSubmissionId == f.id && f.maxGroupMembers >= 1
    requires f.groupCode.Some? ==> !CodeInUse(db.fileSubs, f.groupCode.value)
    requires !HasRow(db.studentSubs, KeyOf(s))
    modifies db`fileSubs, db`studentSubs
    ensures db.Valid()
    ensures db.fileSubs == old(db.fileSubs)[f.id := f] && db.studentSubs == old(db.studentSubs)[s.id := s]
    ensures Members(db.studentSubs, f.id) == {s.id}
  {
    AddSubmissionKeepsConsistent(db.moodles, db.activities, db.fileSubs, db.studentSubs, db.grades, f, s);
    db.fileSubs := db.fileSubs[f.id := f];
    db.studentSubs := db.studentSubs[s.id := s];
  }

  /**
    The first-submission branch of create_submission: a new FileSubmission (a
    group one with a fresh code and the activity's maximum group size, an
    individual one with capacity 1) and the student's StudentSubmission.
  */
  method FirstSubmission(db: Database, disk: Storage.Disk, base: seq<string>, activity: Activity,
                         studentId: string, studentName: string, studentEmail: Option<string>,
                         upload: Upload, courseId: string, courseMoodleId: string, studentMoodleId: string,
                         lis: Option<string>, draws: seq<string>, newFileId: string, newStudentId: string,
                         now: int, stamp: string)
    returns (v: View)
    requires db.Valid() && Storage.Clean(base) && WellFormedActivity(activity)
    requires newFileId !in db.fileSubs && newStudentId !in db.studentSubs
    requires !HasRow(db.studentSubs, SubmitterKey(studentId, studentMoodleId, activity.id, courseMoodleId))
    requires forall i :: 0 <= i < |draws| ==> CodeShaped(draws[i])
    requires exists i :: 0 <= i < |draws| && !CodeInUse(db.fileSubs, draws[i])
    modifies db`fileSubs, db`studentSubs, disk
    ensures db.Valid()
    ensures var code := if activity.kind == Group then Some(FirstUnused(old(db.fileSubs), draws)) else None;
      var size := if activity.kind == Group then activity.maxGroupSize.value else 1;
      var f := FirstFile(newFileId, activity.id, courseMoodleId, upload,
                         SavedPath(base, courseMoodleId, courseId, activity.id, newFileId, stamp, upload),
                         studentId, code, size, now);
      var s := StudentSubmission(newStudentId, newFileId, studentId, studentMoodleId, activity.id, courseMoodleId,
                                 lis, now, false, None);
      && db.fileSubs == old(db.fileSubs)[newFileId := f]
      && db.studentSubs == old(db.studentSubs)[newStudentId := s]
      && Members(db.studentSubs, newFileId) == {newStudentId}
      && v == View(FileModel(f), s, studentName, studentEmail, activity.kind == Group,
                   if activity.kind == Group then Some(0) else None, None)
    ensures disk.files == Storage.FilesAfterSave(old(disk.files), old(disk.dirs), base, courseMoodleId, courseId,
                                                 activity.id, newFileId, stamp, upload.fileName, upload.content, None)
    ensures disk.dirs == Storage.DirsAfterSave(old(disk.dirs), base, courseMoodleId, courseId, activity.id, None)
  {
    var code: Option<string> := None;
    var size := 1;
    var leader := false;
    if activity.kind == Group {
      var c, tries := GenerateGroupCode(db, draws);
      GeneratedIsFirstUnused(db.fileSubs, draws, tries);
      code := Some(c);
      size := activity.maxGroupSize.value;
      leader := true;
    }
    assert code == if activity.kind == Group then Some(FirstUnused(db.fileSubs, draws)) else None;
    var path := SaveUpload(disk, base, courseMoodleId, courseId, activity.id, newFileId, upload, None, stamp);
    var f := FirstFile(newFileId, activity.id, courseMoodleId, upload, path, studentId, code, size, now);
    var s := StudentSubmission(newStudentId, newFileId, studentId, studentMoodleId, activity.id, courseMoodleId,
                               lis, now, false, None);
    NoGradeForNewFile(db.fileSubs, db.grades, newFileId);
    var grade := FindGrade(db, newFileId);
    StoreFirstSubmission(db, f, s);
    var uses := if leader && code.Some? && code.value != "" then Some(0) else None;
    v := View(FileModel(f), s, studentName, studentEmail, leader, uses, grade);
  }

  /**
    create_submission: a student who already has a submission for the activity
    resubmits, anyone else makes a first submission.
  */
  method CreateSubmission(db: Database, disk: Storage.Disk, base: seq<string>,
                          activityId: string, studentId: string, studentName: string, studentEmail: Option<string>,
                          upload: Upload, courseId: string, courseMoodleId: string, studentMoodleId: string,
                          lis: Option<string>, draws: seq<string>, newFileId: string, newStudentId: string,
                          now: int, stamp: string)
    returns (r: Result<View, string>)
    requires db.Valid() && Storage.Clean(base)
    requires newFileId !in db.fileSubs && newStudentId !in db.studentSubs
    requires forall i :: 0 <= i < |draws| ==> CodeShaped(draws[i])
    requires exists i :: 0 <= i < |draws| && !CodeInUse(db.fileSubs, draws[i])
    modifies db`fileSubs, db`studentSubs, disk
    ensures db.Valid()
    ensures (activityId, courseMoodleId) !in old(db.activities) ==>
      r == Err(ActivityNotFound()) && unchanged(db) && unchanged(disk)
    ensures (activityId, courseMoodleId) in old(db.activities) ==> r.Ok?
    ensures var key := SubmitterKey(studentId, studentMoodleId, activityId, courseMoodleId);
      (activityId, courseMoodleId) in old(db.activities) && HasRow(old(db.studentSubs), key) ==>
        var s := old(db.studentSubs)[RowOf(old(db.studentSubs), key)];
        var f := old(db.fileSubs)[s.fileSubmissionId];
        var f' := if f.uploadedBy == studentId
                  then Replaced(f, upload, SavedPath(base, courseMoodleId, courseId, activityId, f.id, stamp, upload), now)
                  else f;
        && db.fileSubs == old(db.fileSubs)[f.id := f']
        && db.studentSubs == old(db.studentSubs)[s.id := Resubmitted(s, lis, now)]
        && r == Ok(View(FileModel(f'), Resubmitted(s, lis, now), studentName, studentEmail, false, None,
                        GradeOf(db.grades, f.id)))
        && (f.uploadedBy == studentId ==>
              && disk.files == Storage.FilesAfterSave(old(disk.files), old(disk.dirs), base, courseMoodleId, courseId,
                                                      activityId, f.id, stamp, upload.fileName, upload.content,
                                                      Some(f.filePath))
              && disk.dirs == Storage.DirsAfterSave(old(disk.dirs), base, courseMoodleId, courseId, activityId,
                                                    Some(f.filePath)))
        && (f.uploadedBy != studentId ==> unchanged(disk))
    ensures var key := SubmitterKey(studentId, studentMoodleId, activityId, courseMoodleId);
      (activityId, courseMoodleId) in old(db.activities) && !HasRow(old(db.studentSubs), key) ==>
        var a := old(db.activities)[(activityId, courseMoodleId)];
        var code := if a.kind == Group then Some(FirstUnused(old(db.fileSubs), draws)) else None;
        var size := if a.kind == Group then a.maxGroupSize.value else 1;
        var f := FirstFile(newFileId, activityId, courseMoodleId, upload,
                           SavedPath(base, courseMoodleId, courseId, activityId, newFileId, stamp, upload),
                           studentId, code, size, now);
        var s := StudentSubmission(newStudentId, newFileId, studentId, studentMoodleId, activityId, courseMoodleId,
                                   lis, now, false, None);
        && db.fileSubs == old(db.fileSubs)[newFileId := f]
        && db.studentSubs == old(db.studentSubs)[newStudentId := s]
        && Members(db.studentSubs, newFileId) == {newStudentId}
        && r == Ok(View(FileModel(f), s, studentName, studentEmail, a.kind == Group,
                        if a.kind == Group then Some(0) else None, None))
        && disk.files == Storage.FilesAfterSave(old(disk.files), old(disk.dirs), base, courseMoodleId, courseId,
                                                activityId, newFileId, stamp, upload.fileName, upload.content, None)
        && disk.dirs == Storage.DirsAfterSave(old(disk.dirs), base, courseMoodleId, courseId, activityId, None)
  {
    if (activityId, courseMoodleId) !in db.activities {
      return Err(ActivityNotFound());
    }
    var activity := db.activities[(activityId, courseMoodleId)];
    var key := SubmitterKey(studentId, studentMoodleId, activityId, courseMoodleId);
    var j := FindRow(db, key);
    if j.Some? {
      var v := Resubmit(db, disk, base, j.value, activityId, studentId, studentName, studentEmail, upload, courseId,
                        courseMoodleId, lis, now, stamp);
      return Ok(v);
    }
    var v := FirstSubmission(db, disk, base, activity, studentId, studentName, studentEmail, upload, courseId,
                             courseMoodleId, studentMoodleId, lis, draws, newFileId, newStudentId, now, stamp);
    r := Ok(v);
  }

  // ------------------------------------------------------------------ submit_with_group_code

  /** The ValueErrors submit_with_group_code raises, in the order it checks for them. */
  datatype JoinRefusal = NoActivity | NotGroup | InvalidCode | GroupFull | AlreadyMember | AlreadySubmitted
  {
    function Message(): string {
      match this
      case NoActivity => ActivityNotFound()
      case NotGroup => "Group codes can only be used for group activities"
      case InvalidCode => "Invalid group code"
      case GroupFull => "Group code has reached maximum number of uses"
      case AlreadyMember => "Ya eres miembro de este grupo"
      case AlreadySubmitted => "You have already submitted to this activity"
    }
  }

  /** File submission `k` carries the join code within the activity (any Moodle instance). */
  predicate CodeMatches(fs: map<string, FileSubmission>, k: string, activityId: string, code: string) {
    k in fs && fs[k].groupCode == Some(code) && fs[k].activityId == activityId
  }

  predicate HasGroup(fs: map<string, FileSubmission>, activityId: string, code: string) {
    exists k :: k in fs && CodeMatches(fs, k, activityId, code)
  }

  /** The group the code query returns: a file submission of the activity carrying the code. */
  ghost function GroupWithCode(fs: map<string, FileSubmission>, activityId: string, code: string): (k: string)
    requires HasGroup(fs, activityId, code)
    ensures CodeMatches(fs, k, activityId, code)
  {
    var k :| k in fs && CodeMatches(fs, k, activityId, code); k
  }

  /** With unique codes, the group the query returns is every group that matches. */
  lemma GroupWithCodeUnique(fs: map<string, FileSubmission>, activityId: string, code: string, k: string)
    requires CodesUnique(fs) && CodeMatches(fs, k, activityId, code)
    ensures GroupWithCode(fs, activityId, code) == k
  {
    var k' := GroupWithCode(fs, activityId, code);
    assert fs[k'].groupCode == fs[k].groupCode;
  }

  /**
    The key the join path looks the student up by, and stores the new row
    under: the student's Moodle instance is taken to be the course's.
  */
  function JoinKey(studentId: string, activityId: string, courseMoodleId: string): StudentKey {
    StudentKey(studentId, courseMoodleId, activityId, courseMoodleId)
  }

  /**
    The checks submit_with_group_code makes, in its order: the file submission
    the student joins, or the error it raises.
  */
  ghost function JoinTarget(activities: map<(string, string), Activity>, fs: map<string, FileSubmission>,
                            ss: map<string, StudentSubmission>, activityId: string, code: string,
                            studentId: string, courseMoodleId: string): (r: Result<string, JoinRefusal>)
    ensures r.Ok? ==> r.value in fs
  {
    if (activityId, courseMoodleId) !in activities then Err(NoActivity)
    else if activities[(activityId, courseMoodleId)].kind != Group then Err(NotGroup)
    else if !HasGroup(fs, activityId, code) then Err(InvalidCode)
    else
      var k := GroupWithCode(fs, activityId, code);
      var key := JoinKey(studentId, activityId, courseMoodleId);
      if |Members(ss, k)| >= fs[k].maxGroupMembers then Err(GroupFull)
      else if HasRow(ss, key) then
        if ss[RowOf(ss, key)].fileSubmissionId == k then Err(AlreadyMember) else Err(AlreadySubmitted)
      else Ok(k)
  }

  /**
    A join succeeds exactly when the activity is a group activity, the code
    names one of its groups, that group has room and the student has no
    submission for the activity yet; it then names that group.
  */
  lemma JoinSucceedsIff(activities: map<(string, string), Activity>, fs: map<string, FileSubmission>,
                        ss: map<string, StudentSubmission>, activityId: string, code: string,
                        studentId: string, courseMoodleId: string)
    requires CodesUnique(fs)
    ensures var t := JoinTarget(activities, fs, ss, activityId, code, studentId, courseMoodleId);
      t.Ok? <==>
        && (activityId, courseMoodleId) in activities
        && activities[(activityId, courseMoodleId)].kind == Group
        && (exists k :: CodeMatches(fs, k, activityId, code) && |Members(ss, k)| < fs[k].maxGroupMembers)
        && !HasRow(ss, JoinKey(studentId, activityId, courseMoodleId))
    ensures var t := JoinTarget(activities, fs, ss, activityId, code, studentId, courseMoodleId);
      t.Ok? ==> CodeMatches(fs, t.value, activityId, code) && |Members(ss, t.value)| < fs[t.value].maxGroupMembers
  {
    if (activityId, courseMoodleId) in activities && activities[(activityId, courseMoodleId)].kind == Group
       && HasGroup(fs, activityId, code)
    {
      var k := GroupWithCode(fs, activityId, code);
      forall k' | CodeMatches(fs, k', activityId, code) ensures k' == k {
        GroupWithCodeUnique(fs, activityId, code, k');
      }
    }
  }

  /**
    The capacity check comes before the membership check: a member of a full
    group who uses its code again is told the group is full.
  */
  lemma JoinFullGroupRefused(activities: map<(string, string), Activity>, fs: map<string, FileSubmission>,
                             ss: map<string, StudentSubmission>, activityId: string, code: string,
                             studentId: string, courseMoodleId: string, k: string)
    requires CodesUnique(fs)
    requires (activityId, courseMoodleId) in activities && activities[(activityId, courseMoodleId)].kind == Group
    requires CodeMatches(fs, k, activityId, code) && |Members(ss, k)| >= fs[k].maxGroupMembers
    ensures JoinTarget(activities, fs, ss, activityId, code, studentId, courseMoodleId) == Err(GroupFull)
  {
    GroupWithCodeUnique(fs, activityId, code, k);
  }

  /** The student submission a join adds. */
  function JoinedRow(id: string, fileSubmissionId: string, studentId: string, activityId: string,
                     courseMoodleId: string, lis: Option<string>, now: int): (s: StudentSubmission)
    ensures KeyOf(s) == JoinKey(studentId, activityId, courseMoodleId)
  {
    StudentSubmission(id, fileSubmissionId, studentId, courseMoodleId, activityId, courseMoodleId, lis, now, false, None)
  }

  /**
    submit_with_group_code.  A successful join adds exactly one student
    submission, linked to the group found, and changes nothing else; the group
    then has one more member and is still within its capacity.
  */
  method SubmitWithGroupCode(db: Database, activityId: string, code: string, studentId: string,
                             studentName: string, studentEmail: Option<string>, courseMoodleId: string,
                             lis: Option<string>, newId: string, now: int)
    returns (r: Result<View, JoinRefusal>)
    requires db.Valid() && newId !in db.studentSubs
    modifies db`studentSubs
    ensures db.Valid()
    ensures var t := JoinTarget(old(db.activities), old(db.fileSubs), old(db.studentSubs), activityId, code,
                                studentId, courseMoodleId);
      && (t.Err? ==> r == Err(t.error) && db.studentSubs == old(db.studentSubs))
      && (t.Ok? ==>
            var row := JoinedRow(newId, t.value, studentId, activityId, courseMoodleId, lis, now);
            && db.studentSubs == old(db.studentSubs)[newId := row]
            && |Members(db.studentSubs, t.value)| == |Members(old(db.studentSubs), t.value)| + 1
            && |Members(db.studentSubs, t.value)| <= db.fileSubs[t.value].maxGroupMembers
            && r == Ok(View(FileModel(db.fileSubs[t.value]), row, studentName, studentEmail, false, None,
                            GradeOf(db.grades, t.value))))
  {
    var t := CheckJoin(db, activityId, code, studentId, courseMoodleId);
    if t.Err? {
      return Err(t.error);
    }
    JoinSucceedsIff(db.activities, db.fileSubs, db.studentSubs, activityId, code, studentId, courseMoodleId);
    var row := JoinedRow(newId, t.value, studentId, activityId, courseMoodleId, lis, now);
    var v := AddMember(db, row, studentName, studentEmail);
    r := Ok(v);
  }

  /** The lookups submit_with_group_code makes before it writes anything, in its order. */
  method CheckJoin(db: Database, activityId: string, code: string, studentId: string, courseMoodleId: string)
    returns (t: Result<string, JoinRefusal>)
    requires CodesUnique(db.fileSubs) && OneSubmissionPerStudent(db.studentSubs)
    ensures t == JoinTarget(db.activities, db.fileSubs, db.studentSubs, activityId, code, studentId, courseMoodleId)
  {
    if (activityId, courseMoodleId) !in db.activities {
      return Err(NoActivity);
    }
    if db.activities[(activityId, courseMoodleId)].kind != Group {
      return Err(NotGroup);
    }
    var found := exists k :: k in db.fileSubs && CodeMatches(db.fileSubs, k, activityId, code);
    if !found {
      return Err(InvalidCode);
    }
    var k :| k in db.fileSubs && CodeMatches(db.fileSubs, k, activityId, code);
    GroupWithCodeUnique(db.fileSubs, activityId, code, k);
    if |Members(db.studentSubs, k)| >= db.fileSubs[k].maxGroupMembers {
      return Err(GroupFull);
    }
    var j := FindRow(db, JoinKey(studentId, activityId, courseMoodleId));
    if j.Some? {
      if db.studentSubs[j.value].fileSubmissionId == k {
        return Err(AlreadyMember);
      } else {
        return Err(AlreadySubmitted);
      }
    }
    t := Ok(k);
  }

  /** Stores a joining student's row in a group that has room; the group gains exactly that member. */
  method AddMember(db: Database, row: StudentSubmission, studentName: string, studentEmail: Option<string>)
    returns (v: View)
    requires db.Valid() && row.id !in db.studentSubs && row.fileSubmissionId in db.fileSubs
    requires !HasRow(db.studentSubs, KeyOf(row))
    requires |Members(db.studentSubs, row.fileSubmissionId)| < db.fileSubs[row.fileSubmissionId].maxGroupMembers
    modifies db`studentSubs
    ensures db.Valid()
    ensures db.studentSubs == old(db.studentSubs)[row.id := row]
    ensures |Members(db.studentSubs, row.fileSubmissionId)| == |Members(old(db.studentSubs), row.fileSubmissionId)| + 1
    ensures v == View(FileModel(db.fileSubs[row.fileSubmissionId]), row, studentName, studentEmail, false, None,
                      GradeOf(db.grades, row.fileSubmissionId))
  {
    var grade := FindGrade(db, row.fileSubmissionId);
    AddStudentRow(db.fileSubs, db.studentSubs, row.id, row);
    db.studentSubs := db.studentSubs[row.id := row];
    v := View(FileModel(db.fileSubs[row.fileSubmissionId]), row, studentName, studentEmail, false, None, grade);
  }

  // ------------------------------------------------------------------ get_student_submission

  /**
    get_student_submission: the student's view of their own submission.  The
    student leads the group when they uploaded its file; a leader sees how many
    others have joined (fewer than the group's capacity), anyone else 0.
  */
  method GetStudentSubmission(db: Database, activityId: string, activityMoodleId: string,
                              studentId: string, studentMoodleId: string)
    returns (v: Option<View>)
    requires db.Valid()
    ensures var key := StudentKey(studentId, studentMoodleId, activityId, activityMoodleId);
      v.None? <==> !HasRow(db.studentSubs, key)
    ensures var key := StudentKey(studentId, studentMoodleId, activityId, activityMoodleId);
      v.Some? ==>
        var s := db.studentSubs[RowOf(db.studentSubs, key)];
        var f := db.fileSubs[s.fileSubmissionId];
        && v.value.studentSubmission == s
        && v.value.fileSubmission == FileModel(f)
        && (v.value.studentName, v.value.studentEmail) == Person(db.users, studentId, studentMoodleId)
        && (v.value.isGroupLeader <==> f.uploadedBy == studentId && f.groupCode.Some?)
        && (v.value.groupCodeUses.Some? <==> HasCode(f))
        && (HasCode(f) && v.value.isGroupLeader ==>
              v.value.groupCodeUses.value == |Members(db.studentSubs, f.id)| - 1
              && 0 <= v.value.groupCodeUses.value < f.maxGroupMembers)
        && (HasCode(f) && !v.value.isGroupLeader ==> v.value.groupCodeUses == Some(0))
        && v.value.grade == GradeOf(db.grades, f.id)
  {
    var key := StudentKey(studentId, studentMoodleId, activityId, activityMoodleId);
    var found := FindRow(db, key);
    if found.Some? {
      var j := found.value;
      var s := db.studentSubs[j];
      var f := db.fileSubs[s.fileSubmissionId];
      var person := Person(db.users, studentId, studentMoodleId);
      var leader := f.uploadedBy == studentId && f.groupCode.Some?;
      var uses: Option<int> := None;
      if HasCode(f) {
        var count := |Members(db.studentSubs, f.id)|;
        assert j in Members(db.studentSubs, f.id);
        uses := Some(if leader then count - 1 else 0);
      }
      var grade := FindGrade(db, f.id);
      v := Some(View(FileModel(f), s, person.0, person.1, leader, uses, grade));
    } else {
      v := None;
    }
  }
}

=== FILE: text.dfy ===
/**
  String helpers shared by the modules: the Python/JavaScript string methods the
  core relies on (lower, upper, strip, `in`, join), restated over seq<char>.
  Case mapping covers ASCII letters only.
*/
module Text {

  function LowerChar(c: char): char {
    if 'A' <= c <= 'Z' then (c as int + 32) as char else c
  }

  function UpperChar(c: char): char {
    if 'a' <= c <= 'z' then (c as int - 32) as char else c
  }

  /** str.lower() / String.prototype.toLowerCase() on ASCII letters. */
  function Lower(s: string): (r: string)
    ensures |r| == |s|
    ensures forall i :: 0 <= i < |s| ==> r[i] == LowerChar(s[i])
  {
    if s == [] then [] else [LowerChar(s[0])] + Lower(s[1..])
  }

  /** str.upper() on ASCII letters. */
  function Upper(s: string): (r: string)
    ensures |r| == |s|
    ensures forall i :: 0 <= i < |s| ==> r[i] == UpperChar(s[i])
  {
    if s == [] then [] else [UpperChar(s[0])] + Upper(s[1..])
  }

  lemma LowerIdempotent(s: string)
    ensures Lower(Lower(s)) == Lower(s)
  {
  }

  lemma UpperIdempotent(s: string)
    ensures Upper(Upper(s)) == Upper(s)
  {
    assert forall i :: 0 <= i < |s| ==> Upper(Upper(s))[i] == Upper(s)[i];
  }

  /** Upper-casing forgets whether the input was lower-cased first. */
  lemma UpperOfLower(s: string)
    ensures Upper(Lower(s)) == Upper(s)
  {
    assert forall i :: 0 <= i < |s| ==> Upper(Lower(s))[i] == Upper(s)[i];
  }

  /** Lower-casing forgets whether the input was upper-cased first. */
  lemma LowerOfUpper(s: string)
    ensures Lower(Upper(s)) == Lower(s)
  {
    assert forall i :: 0 <= i < |s| ==> Lower(Upper(s))[i] == Lower(s)[i];
  }

  /** The characters Python's str.isspace() accepts (and so str.strip() removes). */
  predicate IsSpace(c: char) {
    c == ' ' || c == '\t' || c == '\n' || c == '\r' || c == '\U{B}' || c == '\U{C}'
    || ('\U{1C}' <= c <= '\U{1F}') || c == '\U{85}' || c == '\U{A0}' || c == '\U{1680}'
    || ('\U{2000}' <= c <= '\U{200A}') || c == '\U{2028}' || c == '\U{2029}' || c == '\U{202F}'
    || c == '\U{205F}' || c == '\U{3000}'
  }

  /** How many leading characters satisfy `drop`. */
  function LeadCount(s: string, drop: char -> bool): (n: nat)
    ensures n <= |s|
    ensures forall i :: 0 <= i < n ==> drop(s[i])
    ensures n < |s| ==> !drop(s[n])
  {
    if s != [] && drop(s[0]) then
      var m := LeadCount(s[1..], drop);
      assert forall i :: 1 <= i < m + 1 ==> s[i] == s[1..][i - 1];
      m + 1
    else 0
  }

  /** Where the trailing run of `drop`-characters begins. */
  function KeepCount(s: string, drop: char -> bool): (n: nat)
    ensures n <= |s|
    ensures forall i :: n <= i < |s| ==> drop(s[i])
    ensures n > 0 ==> !drop(s[n - 1])
  {
    if s != [] && drop(s[|s| - 1]) then KeepCount(s[..|s| - 1], drop) else |s|
  }

  /** Drop the leading characters that satisfy `drop`. */
  function TrimStart(s: string, drop: char -> bool): (r: string)
    ensures |r| <= |s| && r == s[|s| - |r|..]
    ensures r == [] || !drop(r[0])
    ensures forall i :: 0 <= i < |s| - |r| ==> drop(s[i])
  {
    s[LeadCount(s, drop)..]
  }

  /** Drop the trailing characters that satisfy `drop`. */
  function TrimEnd(s: string, drop: char -> bool): (r: string)
    ensures |r| <= |s| && r == s[..|r|]
    ensures r == [] || !drop(r[|r| - 1])
    ensures forall i :: |r| <= i < |s| ==> drop(s[i])
  {
    s[..KeepCount(s, drop)]
  }

  /** str.strip(chars): drop `drop`-characters at both ends. */
  function StripBy(s: string, drop: char -> bool): string {
    TrimEnd(TrimStart(s, drop), drop)
  }

  /** str.strip() with no argument. */
  function Strip(s: string): string {
    StripBy(s, IsSpace)
  }

  /** The stripped string is the slice of s that begins where TrimStart stopped. */
  lemma StripBySlice(s: string, drop: char -> bool)
    ensures var i := |s| - |TrimStart(s, drop)|;
      var r := StripBy(s, drop);
      i + |r| <= |s| && r == s[i..i + |r|]
  {
    var t := TrimStart(s, drop);
    var r := TrimEnd(t, drop);
    var i := |s| - |t|;
    assert t == s[i..];
    assert r == t[..|r|];
  }

  /** Everything after the stripped slice is droppable. */
  lemma StripByDroppedAfter(s: string, drop: char -> bool)
    ensures var i := |s| - |TrimStart(s, drop)|;
      forall k :: i + |StripBy(s, drop)| <= k < |s| ==> drop(s[k])
  {
    var t := TrimStart(s, drop);
    var r := TrimEnd(t, drop);
    var i := |s| - |t|;
    assert t == s[i..];
    forall k | i + |r| <= k < |s| ensures drop(s[k]) {
      var m := k - i;
      assert |r| <= m < |t| && s[k] == t[m];
    }
  }

  /** Every character stripping keeps comes from the input, so a property of all of them survives. */
  lemma StripByKeeps(s: string, drop: char -> bool, keep: char -> bool)
    requires forall k :: 0 <= k < |s| ==> keep(s[k])
    ensures var r := StripBy(s, drop);
      forall k :: 0 <= k < |r| ==> keep(r[k])
  {
    var t := TrimStart(s, drop);
    var r := TrimEnd(t, drop);
    forall k | 0 <= k < |t| ensures keep(t[k]) {
      assert t[k] == s[|s| - |t| + k];
    }
    forall k | 0 <= k < |r| ensures keep(r[k]) {
      assert r[k] == t[k];
    }
  }

  /** A stripped string neither starts nor ends with a droppable character. */
  lemma StripByEnds(s: string, drop: char -> bool)
    ensures var r := StripBy(s, drop);
      r == [] || (!drop(r[0]) && !drop(r[|r| - 1]))
  {
    var t := TrimStart(s, drop);
    var r := TrimEnd(t, drop);
    if r != [] {
      assert r[0] == t[0];
    }
  }

  /** Stripping twice is stripping once. */
  lemma StripByIdempotent(s: string, drop: char -> bool)
    ensures StripBy(StripBy(s, drop), drop) == StripBy(s, drop)
  {
    StripByEnds(s, drop);
    StripsNothing(StripBy(s, drop), drop);
  }

  /** A string whose ends are not droppable is left as it is. */
  lemma StripsNothing(r: string, drop: char -> bool)
    requires r == [] || (!drop(r[0]) && !drop(r[|r| - 1]))
    ensures StripBy(r, drop) == r
  {
    assert LeadCount(r, drop) == 0;
    assert TrimStart(r, drop) == r;
    assert KeepCount(r, drop) == |r|;
  }

  predicate StartsWith(s: string, prefix: string) {
    |prefix| <= |s| && s[..|prefix|] == prefix
  }

  /** Python's `sub in s` / JavaScript's s.includes(sub). */
  predicate Contains(s: string, sub: string)
    decreases |s|
  {
    StartsWith(s, sub) || (s != [] && Contains(s[1..], sub))
  }

  /** `sub` occurs in `s` starting at position `i`. */
  predicate OccursAt(s: string, sub: string, i: int) {
    0 <= i && i + |sub| <= |s| && s[i..i + |sub|] == sub
  }

  /** Containment means an occurrence at some position. */
  lemma {:induction false} ContainsIff(s: string, sub: string)
    ensures Contains(s, sub) <==> exists i :: OccursAt(s, sub, i)
    decreases |s|
  {
    if StartsWith(s, sub) {
      assert OccursAt(s, sub, 0);
    } else if s == [] {
    } else {
      ContainsIff(s[1..], sub);
      if exists i :: OccursAt(s, sub, i) {
        var i :| OccursAt(s, sub, i);
        assert i != 0;
        assert s[1..][i - 1..i - 1 + |sub|] == s[i..i + |sub|];
        assert OccursAt(s[1..], sub, i - 1);
      }
      if Contains(s[1..], sub) {
        var i :| OccursAt(s[1..], sub, i);
        assert s[i + 1..i + 1 + |sub|] == s[1..][i..i + |sub|];
        assert OccursAt(s, sub, i + 1);
      }
    }
  }

  /** A witness position proves containment. */
  lemma ContainsAt(s: string, sub: string, i: int)
    requires OccursAt(s, sub, i)
    ensures Contains(s, sub)
  {
    ContainsIff(s, sub);
  }

  /** Containment is transitive: a string containing `mid` contains everything `mid` contains. */
  lemma ContainsTransitive(s: string, mid: string, sub: string)
    requires Contains(s, mid) && Contains(mid, sub)
    ensures Contains(s, sub)
  {
    ContainsIff(s, mid);
    ContainsIff(mid, sub);
    var i :| OccursAt(s, mid, i);
    var j :| OccursAt(mid, sub, j);
    assert forall k :: 0 <= k < |sub| ==> s[i + j + k] == mid[j + k] == sub[k];
    assert s[i + j..i + j + |sub|] == sub;
    ContainsAt(s, sub, i + j);
  }

  /** "sep".join(parts) */
  function Join(parts: seq<string>, sep: string): string {
    if parts == [] then ""
    else if |parts| == 1 then parts[0]
    else parts[0] + sep + Join(parts[1..], sep)
  }

  function DigitChar(d: nat): char
    requires d < 10
  {
    "0123456789"[d]
  }

  /** str(n) for a non-negative integer. */
  function NatToString(n: nat): (r: string)
    ensures |r| >= 1
    ensures forall i :: 0 <= i < |r| ==> '0' <= r[i] <= '9'
  {
    if n < 10 then [DigitChar(n)] else NatToString(n / 10) + [DigitChar(n % 10)]
  }

  /** str(n) for any integer. */
  function IntToString(n: int): string {
    if n < 0 then "-" + NatToString(-n) else NatToString(n)
  }
}

=== FILE: wrappers.dfy ===
/** Option and Result, used for Python's None and for raised errors. */
module Wrappers {

  datatype Option<+T> = None | Some(value: T) {
    function GetOr(default: T): T {
      match this
      case Some(v) => v
      case None => default
    }
  }

  /** A value, or the message of the exception raised instead. */
  datatype Result<+R, +E> = Ok(value: R) | Err(error: E) {
    predicate IsFailure() {
      Err?
    }

    function PropagateFailure<U>(): Result<U, E>
      requires Err?
    {
      Err(error)
    }

    function Extract(): R
      requires Ok?
    {
      value
    }
  }
}
